=== FILE: README.md ===
# data_structure_for_love, modelled in Dafny

This project models the core of *data_structure_for_love*, a header-only C++
library of classic data structures, and proves properties of the model.  Each
header becomes one Dafny module:

- array-like containers: `optimized_vector` (a vector with a small local
  buffer) and `rootish_stack` (a stack of blocks of sizes 1, 2, 3, ...);
- lists: the singly linked list, the XOR-linked list, and the skip list;
- `object_pool`, a chunked allocator;
- integer sets over fixed-width keys: the binary trie, the x-fast and y-fast
  tries (with the hash helper and the treap the y-fast trie keeps in each
  leaf), and the van Emde Boas tree;
- binary search trees: the weighted tree base, AVL, red-black, treap, splay
  and scapegoat trees;
- heaps: binomial, pairing and Fibonacci heaps;
- the comparison helpers in `utils/compare.hpp`.

Every module states its operations against an abstract meaning: a sequence
for the containers and lists, a set for the tries, the van Emde Boas tree and
the search trees, and a multiset for the heaps.  Contracts say that each
operation keeps the structure's invariant and changes the abstract value
exactly as intended; where a contract promises less, "## Left out" names
it.  Partner lemmas connect operations with each other:
pops drain a heap in sorted order, iteration yields the elements in order,
and index arithmetic round-trips.

Conventions used throughout:

- Element and key types are `int` (or `nat` for the integer structures) under
  the default `<`.
- Pointers are indices or paths.  A list node is an address in a heap map,
  and a tree or heap node handle is the path of child indices from the root.
- A read through a null or freed pointer is an explicit result.
  `Wrappers.Outcome` is either `Returned(v)` or `NullDeref`, and some modules
  add their own result type for reads of freed nodes.
- Where the source has a defect, the operation takes a `repaired: bool`
  parameter or has an `AsWritten` twin.  `repaired == false` follows the code
  as written, `repaired == true` the evidently intended behaviour.  The rest
  of the model uses the repaired one.  Each defect is listed under
  "## Findings".
- Random choices are parameters: treap priorities, skip-list tower heights,
  and the y-fast trie's coin.

## Model

| member | source | states |
|---|---|---|
| Compare.DefaultCompare | utils/compare.hpp:8-18 | the relation is Eq exactly when a == b, Less exactly when a < b and Greater exactly when b < a, so exactly one of the three holds |
| OptimizedVector.Vector.Capacity | src/array_like/optimized_vector.hpp:245-253 | capacity is 0 for an uninitialized vector and equals the storage span otherwise; size never exceeds capacity |
| OptimizedVector.Empty | src/array_like/optimized_vector.hpp:114-119 | a default-constructed vector is valid, holds no element and has capacity 0 |
| OptimizedVector.Doubled | src/array_like/optimized_vector.hpp:350-351 | the doubling loop ends at a capacity at least the target that is the start doubled some number of times, and below twice the target unless no doubling happened |
| OptimizedVector.AssureCapacity | src/array_like/optimized_vector.hpp:343-388 | afterwards capacity covers the target and the elements are unchanged; an uninitialized vector becomes local; when local or heap capacity falls short the vector moves to the heap with the old capacity doubled until it reaches the target |
| OptimizedVector.MarkSize | src/array_like/optimized_vector.hpp:390-398 | a target within capacity becomes the size with storage untouched; a target above capacity leaves the vector unchanged |
| OptimizedVector.At | src/array_like/optimized_vector.hpp:60 | indexing returns element i of the abstract sequence |
| OptimizedVector.PushBack | src/array_like/optimized_vector.hpp:255-265 | the value is appended and every earlier element is kept |
| OptimizedVector.PopBack | src/array_like/optimized_vector.hpp:292-296 | the last element is removed and capacity kept; an empty vector is left unchanged because `mark_size` refuses the wrapped-around target |
| OptimizedVector.Erase | src/array_like/optimized_vector.hpp:298-306 | a position at or past the size changes nothing; otherwise that element is removed and the later ones shift left |
| OptimizedVector.Clear | src/array_like/optimized_vector.hpp:308-320 | the vector returns to the uninitialized state with no element and capacity 0 |
| OptimizedVector.Filled | src/array_like/optimized_vector.hpp:121-134 | the count constructor yields count copies of the value, and stays uninitialized exactly when count is 0 |
| OptimizedVector.Copy | src/array_like/optimized_vector.hpp:136-147 | the copy holds the same elements and is uninitialized exactly when the original is |
| OptimizedVector.Enlarge | src/array_like/optimized_vector.hpp:325-331 | growing gives exactly target elements; as written all of them are the given value, repaired the old elements are kept and followed by copies of the value |
| OptimizedVector.Resize | src/array_like/optimized_vector.hpp:323-332 | the size becomes the target; shrinking keeps the prefix; growing overwrites every element as written and keeps the old ones when repaired |
| OptimizedVector.ResizeOverwrites | src/array_like/optimized_vector.hpp:328-330 | growing a one-element vector to two replaces its element by the value as written, while repaired the element stays first |
| RootishStack.TriFormula | src/array_like/rootish_stack.hpp:179 | the triangular capacity of r blocks is r(r+1)/2 |
| RootishStack.TriMonotone | src/array_like/rootish_stack.hpp:162-174 | capacities of more blocks are larger, by at least the smaller block count |
| RootishStack.I2B | src/array_like/rootish_stack.hpp:157-160 | the block of index i is the b with b(b+1)/2 ≤ i < (b+1)(b+2)/2 |
| RootishStack.BlockUnique | src/array_like/rootish_stack.hpp:157-160 | that block number is unique |
| RootishStack.Locate | src/array_like/rootish_stack.hpp:183-188 | the located position has offset at most its block number and flattens back to the index |
| RootishStack.LocateFlat | src/array_like/rootish_stack.hpp:183-188 | locating the flat index of any in-block position gives that position back |
| RootishStack.Empty | src/array_like/rootish_stack.hpp:46-48 | a new stack has no blocks and no elements |
| RootishStack.Grow | src/array_like/rootish_stack.hpp:162-165 | one block of r+1 fresh slots is added; earlier blocks and the elements are unchanged |
| RootishStack.Shrink | src/array_like/rootish_stack.hpp:167-174 | trailing blocks are dropped, keeping the elements, until (r−2)(r−1)/2 < n or no block remains |
| RootishStack.MakeRoom | src/array_like/rootish_stack.hpp:178-179 | a block is added exactly when capacity equals n, after which there is a free slot past the elements and the elements are unchanged |
| RootishStack.PushBack | src/array_like/rootish_stack.hpp:177-181 | the value is appended, n grows by 1, and a block is added exactly when capacity equalled n |
| RootishStack.At | src/array_like/rootish_stack.hpp:190-193 | indexing returns element i in push order |
| RootishStack.Erase | src/array_like/rootish_stack.hpp:207-218 | element i is removed, later elements shift left and n drops by 1 |
| RootishStack.Clear | src/array_like/rootish_stack.hpp:195-200 | no block and no element remain |
| RootishStack.Next | src/array_like/rootish_stack.hpp:106-113 | `++` moves to the next flat slot: within the block up to offset b, then to the start of block b+1 |
| RootishStack.WalkVisitsSlots | src/array_like/rootish_stack.hpp:98-113 | k steps of `++` from a position read the k consecutive slots from its flat index |
| RootishStack.EndAsWritten | src/array_like/rootish_stack.hpp:225-228 | `end()` as written is position (r, 0), whose flat index is the capacity, not the size |
| RootishStack.EndAsWrittenOvershoots | src/array_like/rootish_stack.hpp:220-228 | iterating from `begin()` to the as-written `end()` reads the elements and then every slot at flat index n and beyond, so more slots than elements whenever capacity exceeds n |
| RootishStack.TwoPushesOvershoot | src/array_like/rootish_stack.hpp:220-228 | after two pushes (r = 2, 3 slots, elements [1, 2]) iterating to the as-written `end()` reads 1, 2 and then the unconstructed third slot |
| RootishStack.End | src/array_like/rootish_stack.hpp:225-228 | the corrected end lies at flat index n |
| RootishStack.IterationYieldsElements | src/array_like/rootish_stack.hpp:220-228 | iterating from `begin()` to the corrected end yields exactly the elements in push order |
| SingleList.SpineIsChain | src/list_based/single_linked_list.hpp:15-24 | following `next` k times from a node gives a chain of k live nodes |
| SingleList.ChainIsSpine | src/list_based/single_linked_list.hpp:15-24 | every chain is the one found by following `next` |
| SingleList.Empty | src/list_based/single_linked_list.hpp:119-124 | a new list is valid and empty |
| SingleList.PushBack | src/list_based/single_linked_list.hpp:214-227 | the new node holds the value with a null `next`, becomes the tail, and size grows by 1 |
| SingleList.PushBackAppends | src/list_based/single_linked_list.hpp:214-227 | push_back keeps the list valid and appends the value to its elements |
| SingleList.FindBefore | src/list_based/single_linked_list.hpp:253-255 | the search loop stops at the chain node whose `next` is the target |
| SingleList.FindBeforeTail | src/list_based/single_linked_list.hpp:253-255 | searching for the tail stops at the last-but-one node |
| SingleList.PopBackAsWritten | src/list_based/single_linked_list.hpp:245-264 | as written: an empty list is unchanged; otherwise the tail node is freed and size drops by 1 |
| SingleList.PopLastLeavesDanglingHead | src/list_based/single_linked_list.hpp:258-261 | popping the only element as written leaves size 0 with `head` on the freed node, so the list is no longer valid |
| SingleList.PopBack | src/list_based/single_linked_list.hpp:245-264 | corrected pop_back: an empty list is unchanged; otherwise the tail node is freed and size drops by 1 |
| SingleList.PopBackDropsLast | src/list_based/single_linked_list.hpp:245-264 | corrected pop_back keeps the list valid and drops its last element |
| SingleList.EraseAsWritten | src/list_based/single_linked_list.hpp:266-284 | as written: n ≥ size changes nothing; otherwise size drops by 1 and `tail` is never moved |
| SingleList.EraseLastLosesNextPush | src/list_based/single_linked_list.hpp:280-281 | erasing the last of two or more elements as written breaks validity, and a following push_back hangs the new node off an unlinked node, so it cannot be reached from head |
| SingleList.EraseHeadAsWrittenIsSound | src/list_based/single_linked_list.hpp:269-274 | erasing element 0 as written is nevertheless correct: the list stays valid without its first element |
| SingleList.Erase | src/list_based/single_linked_list.hpp:266-284 | corrected erase: n ≥ size changes nothing; otherwise size drops by 1 |
| SingleList.EraseRemoves | src/list_based/single_linked_list.hpp:266-284 | corrected erase keeps the list valid and removes exactly element n |
| SingleList.EraseInnerChain | src/list_based/single_linked_list.hpp:276-283 | unlinking an inner node drops exactly that node from the chain and changes no stored value |
| SingleList.ContainsFrom | src/list_based/single_linked_list.hpp:286-294 | the scan over k nodes finds v exactly when one of their values is v |
| SingleList.Contains | src/list_based/single_linked_list.hpp:286-294 | contains(v) holds exactly when v is an element |
| SingleList.Begin | src/list_based/single_linked_list.hpp:179-182 | `begin()` sits on head with order 0 |
| SingleList.End | src/list_based/single_linked_list.hpp:184-187 | `end()` sits on null with order equal to size |
| SingleList.Step | src/list_based/single_linked_list.hpp:42-47 | k `++` steps add k to the order |
| SingleList.StepFollowsChain | src/list_based/single_linked_list.hpp:42-47 | after k steps the iterator's `prev` is the k-th chain node and `now` is its `next` |
| SingleList.IterationReachesEnd | src/list_based/single_linked_list.hpp:179-187 | size steps from `begin()` land on `end()`: null, with order size and the tail as `prev` |
| XorList.CombineCommutes | src/list_based/xor_list.hpp:245-247 | `combine` is symmetric |
| XorList.CombineTwice | src/list_based/xor_list.hpp:245-247 | combining with the same address twice gives the first address back |
| XorList.CombineCancels | src/list_based/xor_list.hpp:245-247 | XOR cancellation in both argument positions, symmetry, and null as the identity |
| XorList.ChainIsTrace | src/list_based/xor_list.hpp:40-46 | walking an XOR-linked chain by `prev ^ link` visits exactly its nodes |
| XorList.ChainReversed | src/list_based/xor_list.hpp:151-156 | an XOR chain read from its far end is the reversed chain, with the same links |
| XorList.Empty | src/list_based/xor_list.hpp:240-249 | a new list is valid and empty |
| XorList.PushBack | src/list_based/xor_list.hpp:367-380 | the new node holds the value, becomes the tail, and size grows by 1 |
| XorList.PushBackAppends | src/list_based/xor_list.hpp:367-380 | push_back keeps the list valid and appends the value to its elements |
| XorList.PopBackAsWritten | src/list_based/xor_list.hpp:398-410 | as written: an empty list is unchanged; otherwise the tail is freed, size drops by 1 and `head` never changes |
| XorList.Unlink | src/list_based/xor_list.hpp:403-421 | dropping the tail re-links its predecessor by XOR into the new tail: the chain loses its last node, size drops by 1, `head` stays, and the remaining values are the elements but the last |
| XorList.PopLastLeavesHead | src/list_based/xor_list.hpp:403-408 | popping the only element as written leaves `head` on the freed node while `tail` is null, so the list is no longer valid |
| XorList.PopBack | src/list_based/xor_list.hpp:398-410 | corrected pop_back: an empty list is unchanged; otherwise the tail node is freed and size drops by 1 |
| XorList.PopBackDropsLast | src/list_based/xor_list.hpp:398-410 | corrected pop_back keeps the list valid and drops its last element |
| XorList.Begin | src/list_based/xor_list.hpp:302-305 | `begin()` sits on head with order 0 |
| XorList.End | src/list_based/xor_list.hpp:307-310 | `end()` has the tail as `prev`, null as `now` and order equal to size |
| XorList.Step | src/list_based/xor_list.hpp:40-46 | k `++` steps add k to the order |
| XorList.StepAlongChain | src/list_based/xor_list.hpp:40-46 | stepping along a chain by `combine(prev, now->link)` ends past its last node |
| XorList.IterationReachesEnd | src/list_based/xor_list.hpp:88-90 | size steps from `begin()` give exactly `end()`, and `end() - begin()` is the size |
| XorList.VisitIsTrace | src/list_based/xor_list.hpp:40-46 | the values read while stepping are the values of the traced nodes |
| XorList.ForwardIteration | src/list_based/xor_list.hpp:302-310 | forward iteration yields the elements in push order |
| XorList.StepToIndex | src/list_based/xor_list.hpp:424-430 | j steps from `begin()` reach node j with node j−1 as `prev` |
| XorList.EraseAsWritten | src/list_based/xor_list.hpp:412-438 | as written: n ≥ size changes nothing; otherwise size drops by 1 and no node is freed |
| XorList.EraseOnlyLeavesHead | src/list_based/xor_list.hpp:416-421 | erasing the only element as written leaves `head` non-null with size 0, so the list is no longer valid |
| XorList.Erase | src/list_based/xor_list.hpp:412-438 | corrected erase: n ≥ size changes nothing; otherwise size drops by 1 |
| XorList.RelinkedChain | src/list_based/xor_list.hpp:431-436 | re-linking node n's neighbours by XOR yields the chain without node n |
| XorList.EraseRemoves | src/list_based/xor_list.hpp:412-438 | corrected erase keeps the list valid and removes exactly element n |
| XorList.EraseLastRemoves | src/list_based/xor_list.hpp:416-421 | corrected erase of the last element keeps the list valid and drops it |
| XorList.EraseInnerRemoves | src/list_based/xor_list.hpp:424-437 | erase of a non-last element keeps the list valid and removes exactly that element |
| XorList.ContainsFrom | src/list_based/xor_list.hpp:440-448 | the scan over k nodes finds v exactly when one of their values is v |
| XorList.Contains | src/list_based/xor_list.hpp:440-448 | contains(v) holds exactly when v is an element |
| XorList.RBegin | src/list_based/xor_list.hpp:332-335 | `rbegin()` sits on the tail with order 0 |
| XorList.REnd | src/list_based/xor_list.hpp:337-340 | `rend()` sits on null, with head as `next` and order equal to size |
| XorList.ReverseStepAsWritten | src/list_based/xor_list.hpp:151-156 | the reverse `++` as written never changes the order |
| XorList.ReverseStep | src/list_based/xor_list.hpp:151-156 | the corrected reverse `++` adds 1 to the order per step |
| XorList.ReverseTrace | src/list_based/xor_list.hpp:332-340 | walking back from the tail visits the nodes in reverse, reading the reversed elements |
| XorList.ReverseIteration | src/list_based/xor_list.hpp:332-340 | reverse iteration yields the elements in reverse push order |
| XorList.ReverseIterationReachesREnd | src/list_based/xor_list.hpp:151-156 | size reverse steps reach `rend()`'s node, but as written `rend() - it` is still size there; the corrected step lands exactly on `rend()` |
| SkipList.InElements | src/list_based/skip_list.hpp:53-60 | a value is in the multiset exactly when some node holds it |
| SkipList.Empty | src/list_based/skip_list.hpp:62-70 | a new list is valid, of height 0 and empty |
| SkipList.NextAt | src/list_based/skip_list.hpp:16-19 | `next[l]` of a node is the first later node taller than l, or null when none is |
| SkipList.RankFrom | src/list_based/skip_list.hpp:107-109 | the scan passes exactly the leading nodes that the comparison lets the descent move past |
| SkipList.RankSplits | src/list_based/skip_list.hpp:127-129 | in a sorted list the nodes the descent moves past are exactly a prefix |
| SkipList.LastBelow | src/list_based/skip_list.hpp:131 | the last node before a position that reaches level l, or the sentinel |
| SkipList.LastBelowUnique | src/list_based/skip_list.hpp:131 | that node is unique |
| SkipList.NextAtSkips | src/list_based/skip_list.hpp:126-133 | nodes too short for level l do not change `next[l]` |
| SkipList.Trail | src/list_based/skip_list.hpp:124-133 | the level-by-level descent records one node for each level below the starting height |
| SkipList.TrailFindsLast | src/list_based/skip_list.hpp:124-133 | on each level the recorded node is the last node that level holds before the insertion point |
| SkipList.FindPrevs | src/list_based/skip_list.hpp:119-140 | `find_prev(x, h)` returns h nodes, each a real node or the sentinel |
| SkipList.FindPrevsAreLast | src/list_based/skip_list.hpp:119-140 | for each level below h it is the last node with value < x on that level, or the sentinel |
| SkipList.Insert | src/list_based/skip_list.hpp:142-160 | size grows by 1 and the height becomes the larger of the old height and the new node's rand()+1 |
| SkipList.InsertPlaces | src/list_based/skip_list.hpp:142-160 | the new node of height rand()+1 sits just after every value < x |
| SkipList.InsertAdds | src/list_based/skip_list.hpp:142-160 | insert keeps the list sorted and adds one copy of x, even of a duplicate |
| SkipList.InsertSplices | src/list_based/skip_list.hpp:152-157 | on every level of the new node, the recorded predecessor now points to it and it points to the predecessor's old successor |
| SkipList.Find | src/list_based/skip_list.hpp:98-117 | `find_prev(x)` stops at a real node or the sentinel |
| SkipList.FindLands | src/list_based/skip_list.hpp:98-117 | it stops either on a node equal to x or on the last node with value ≤ x |
| SkipList.FindPrev | src/list_based/skip_list.hpp:98-117 | `find_prev(x)` of the list is the sentinel or a node |
| SkipList.FindPrevFinds | src/list_based/skip_list.hpp:98-117 | the node found holds x exactly when x is present, and never holds a value > x |
| SkipList.Contains | src/list_based/skip_list.hpp:239-243 | contains(x) holds exactly when x is in the multiset |
| SkipList.Erase | src/list_based/skip_list.hpp:245-258 | an absent x changes nothing; otherwise size drops by 1 and the height stays |
| SkipList.EraseRemovesOne | src/list_based/skip_list.hpp:245-258 | erase keeps the list sorted and removes exactly one copy of x |
| SkipList.EraseUnlinks | src/list_based/skip_list.hpp:250-253 | on every level of the erased node its predecessor now points to its old successor |
| SkipList.SuccAsWritten | src/list_based/skip_list.hpp:260-275 | as written succ dereferences the sentinel's null `next` array exactly when the height is 0, and otherwise agrees with the corrected succ |
| SkipList.SuccAsWrittenOnEmpty | src/list_based/skip_list.hpp:260-275 | a list that never held a node has height 0, and succ on it dereferences null |
| SkipList.DescentEnd | src/list_based/skip_list.hpp:260-288 | the descent of succ and pred ends on the last node the comparison lets it pass |
| SkipList.Succ | src/list_based/skip_list.hpp:260-275 | succ(x) is none exactly when no element exceeds x, and otherwise the smallest element > x |
| SkipList.Pred | src/list_based/skip_list.hpp:277-292 | pred(x) is none exactly when no element is below x, and otherwise the largest element < x |
| SkipList.Begin | src/list_based/skip_list.hpp:197-204 | `begin()` is `end()` exactly when the list is empty, and otherwise the first node, which holds the least element |
| SkipList.Iterate | src/list_based/skip_list.hpp:176-179 | following `next[0]` from a node reads the values from that node on |
| SkipList.IterationIsSorted | src/list_based/skip_list.hpp:196-208 | iterating from `begin()` to `end()` yields every element once, in non-decreasing order |
| ObjectPool.New | src/memory/object_pool.hpp:144-199 | `::operator new(k)` returns the first unused address and uses up the next k |
| ObjectPool.Empty | src/memory/object_pool.hpp:44-82 | a new pool has no chunk, no block and an empty recycle list |
| ObjectPool.Range | src/memory/object_pool.hpp:89-91 | the addresses from a up to b, in order |
| ObjectPool.EmptySound | src/memory/object_pool.hpp:44-82 | a new pool hands out nothing that is in use and has no free slot |
| ObjectPool.AllocChunk | src/memory/object_pool.hpp:197-202 | a fresh chunk of ChunkSize slots is recorded in the pool and becomes the current chunk; recycle list and contents are untouched |
| ObjectPool.GetRaw | src/memory/object_pool.hpp:124-133 | the most recently recycled address comes back first (LIFO); otherwise the current address is bumped, after allocating a fresh chunk when the chunk is exhausted |
| ObjectPool.GetRawHandsOut | src/memory/object_pool.hpp:124-133 | the address handed out is non-null, not in use, no longer free, and the pool stays sound with it marked live |
| ObjectPool.GetRawTwiceDiffers | src/memory/object_pool.hpp:124-133 | two successive `get_raw` calls never return the same address |
| ObjectPool.Recycle | src/memory/object_pool.hpp:163-167 | the address is zeroed and pushed on the recycle list; nothing else changes |
| ObjectPool.RecycleReturns | src/memory/object_pool.hpp:163-167 | recycling a live address keeps the pool sound with that address free again |
| ObjectPool.RecycleThenGetRaw | src/memory/object_pool.hpp:124-167 | `get_raw` right after `recycle(a)` returns a and restores the recycle list |
| ObjectPool.Deallocate | src/memory/object_pool.hpp:172-176 | the n addresses a..a+n−1 are zeroed and pushed on the recycle list in that order |
| ObjectPool.DeallocateReturns | src/memory/object_pool.hpp:172-176 | deallocating n live addresses keeps the pool sound with them free again |
| ObjectPool.Allocate | src/memory/object_pool.hpp:135-147 | t < remaining slots take t slots from the current chunk; otherwise a separate block of t slots is recorded in the pool; with the chunk exhausted and t ≤ ChunkSize a fresh chunk is allocated first, and at t == ChunkSize that chunk is then passed over for a separate block |
| ObjectPool.AllocateHandsOut | src/memory/object_pool.hpp:135-147 | the t addresses handed out are non-null, not in use, not free, and the pool stays sound with them live |
| ObjectPool.ConstructRaw | src/memory/object_pool.hpp:149-155 | the address is the one `get_raw` gives and now holds the constructed value; other contents are unchanged |
| ObjectPool.Construct | src/memory/object_pool.hpp:157-161 | the given address now holds the value; other contents and the free slots are unchanged |
| ObjectPool.Absorb | src/memory/object_pool.hpp:87-103 | this pool's free slots become its own followed by that pool's, the chunk lists are concatenated, and that pool is left with nothing |
| ObjectPool.AbsorbSound | src/memory/object_pool.hpp:87-103 | absorbing a disjoint sound pool keeps this pool sound for the union of the live addresses |
| BitHash.Fresh | utils/xfast_hash.hpp:24-47 | a new table of any width is well formed |
| BitHash.Pow2Split | utils/xfast_hash.hpp:41-43 | a table wider than 6 bits is 64 sub-tables of 6 bits fewer |
| BitHash.Put | utils/xfast_hash.hpp:32-61 | put keeps the table well formed, creating a missing sub-table on demand |
| BitHash.Get | utils/xfast_hash.hpp:24-53 | every read of a new table gives T{}, both from the zeroed leaf and through an absent sub-table |
| BitHash.GetPutSame | utils/xfast_hash.hpp:28-61 | `get(i)` after `put(i, m)` returns m |
| BitHash.FreshPutSame | utils/xfast_hash.hpp:28-61 | on a new table too, `get(i)` after `put(i, m)` returns m |
| BitHash.IndexSplit | utils/xfast_hash.hpp:50-58 | distinct indices differ in `i & 63` or in `i >> 6` |
| BitHash.GetPutOther | utils/xfast_hash.hpp:28-61 | `put(i, m)` leaves `get(j)` unchanged for every j ≠ i |
| BitHash.FreshPutOther | utils/xfast_hash.hpp:49-61 | after one put into a new table every other index still reads T{} |
| BitHash.PutUpdatesContents | utils/xfast_hash.hpp:20-61 | as a flat array, put(i, m) writes m at i only, and a new table is all zero |
| BinaryTrie.Digit | src/integer/binary_trie.hpp:101 | the path digit at depth d is bit (bit−d−1) of t, most significant first, and is 0 or 1 |
| BinaryTrie.PrefixStep | src/integer/binary_trie.hpp:100-104 | each step of the descent extends the prefix by one digit |
| BinaryTrie.PrefixOrder | src/integer/binary_trie.hpp:55-69 | a smaller prefix at the same depth means a smaller value, so the 0-branch holds the smaller values |
| BinaryTrie.HasNodeSubtree | src/integer/binary_trie.hpp:20-45 | a node exists at a depth and prefix exactly when some stored value passes through it |
| BinaryTrie.Empty | src/integer/binary_trie.hpp:72 | a new trie is well formed and empty |
| BinaryTrie.Descend | src/integer/binary_trie.hpp:97-104 | the descent loop stops at the first depth whose next node along t's path is missing, having passed only existing nodes |
| BinaryTrie.StopFacts | src/integer/binary_trie.hpp:97-105 | the descent stops on an existing node, and reaches the leaf depth exactly when t is stored |
| BinaryTrie.StopNeighbour | src/integer/binary_trie.hpp:106-108 | where the descent stops, the jump of the node is the successor of t when the missing child is the 0-child and the predecessor when it is the 1-child; a missing jump means the trie is empty |
| BinaryTrie.Contains | src/integer/binary_trie.hpp:97-110 | contains(t) holds exactly when t is stored |
| BinaryTrie.Succ | src/integer/binary_trie.hpp:128-142 | succ(t) is the smallest stored value > t, or none when there is none |
| BinaryTrie.BackBelow | src/integer/binary_trie.hpp:124 | walking `links[0]` back from a leaf until its value is < t finds the largest stored value < t |
| BinaryTrie.PredAsWritten | src/integer/binary_trie.hpp:112-126 | as written, a value pred returns is stored and below t, but it may miss one |
| BinaryTrie.PredAsWrittenMisses | src/integer/binary_trie.hpp:121-123 | with 2 bits and {0} stored, pred(2) as written is none though 0 < 2; the corrected pred returns 0 |
| BinaryTrie.Pred | src/integer/binary_trie.hpp:112-126 | corrected pred(t) is the largest stored value < t, or none when there is none |
| BinaryTrie.ExtremeFinds | src/integer/binary_trie.hpp:144-174 | from a node with values below it, following the 0-branch when present (1-branch for max) reaches the smallest (largest) value below it |
| BinaryTrie.MinAsWritten | src/integer/binary_trie.hpp:160-174 | as written min returns the smallest value of a non-empty trie, and dereferences null on an empty trie of two or more bits because the loop has no break |
| BinaryTrie.MaxAsWritten | src/integer/binary_trie.hpp:144-158 | as written max returns the largest value of a non-empty trie, and dereferences null on an empty trie of two or more bits |
| BinaryTrie.Min | src/integer/binary_trie.hpp:55-69 | corrected min is none exactly when the trie is empty, and otherwise the smallest value |
| BinaryTrie.Max | src/integer/binary_trie.hpp:144-158 | corrected max is none exactly when the trie is empty, and otherwise the largest value |
| BinaryTrie.IterateFrom | src/integer/binary_trie.hpp:266-271 | following `links[1]` from a leaf yields the stored values from that leaf on, strictly increasing |
| BinaryTrie.IterationIsSorted | src/integer/binary_trie.hpp:305-311 | iterating from `begin()` (the minimum leaf) to `end()` yields every stored value once, in strictly increasing order |
| BinaryTrie.ClearPath | src/integer/binary_trie.hpp:189-197 | the fresh nodes created below the stop depth carry no jump |
| BinaryTrie.RaiseJumps | src/integer/binary_trie.hpp:204-211 | the climb after insert changes only jumps on t's path, each per the raise rule |
| BinaryTrie.NeighboursFound | src/integer/binary_trie.hpp:185-187 | with the correction, the neighbours insert links to are the predecessor and the successor of t |
| BinaryTrie.SpliceLinks | src/integer/binary_trie.hpp:198-203 | splicing the new leaf between its predecessor and successor keeps the leaf list doubly linked in order |
| BinaryTrie.InsertWith | src/integer/binary_trie.hpp:176-213 | insert adds t to the stored set, leaves jumps off t's path alone and sets those on it by the raise rule |
| BinaryTrie.InsertAsWritten | src/integer/binary_trie.hpp:176-213 | as written insert also adds exactly t to the stored set |
| BinaryTrie.InsertJumps | src/integer/binary_trie.hpp:204-211 | after the raise climb every node's jump again points at the extreme leaf of its missing side |
| BinaryTrie.InsertGood | src/integer/binary_trie.hpp:176-213 | corrected insert of an absent value keeps every trie invariant: nodes, jumps, leaf links and n |
| BinaryTrie.Insert | src/integer/binary_trie.hpp:176-213 | insert keeps the trie well formed and adds t; inserting a stored value changes nothing |
| BinaryTrie.Three2Neighbours | src/integer/binary_trie.hpp:185-187 | with 2 bits and {3} stored, inserting 0 as written finds neither a predecessor nor a successor to link to |
| BinaryTrie.InsertLinks | src/integer/binary_trie.hpp:185-203 | insert writes the `next` links of the neighbours it found |
| BinaryTrie.InsertAsWrittenUnlinks | src/integer/binary_trie.hpp:185-203 | inserting 0 into {3} as written leaves leaf 0 with no `next`, so iteration skips 3; corrected insert links 0 to 3 |
| BinaryTrie.Climb | src/integer/binary_trie.hpp:230-237 | the erase climb stops at the first ancestor that keeps another child, or at the root |
| BinaryTrie.FixAncestors | src/integer/binary_trie.hpp:244-251 | above the stop, only ancestors whose jump was the erased leaf are changed |
| BinaryTrie.EraseJumps | src/integer/binary_trie.hpp:238-251 | the stop node's jump becomes the neighbour on the side t was, and ancestors pointing at t get the replacement |
| BinaryTrie.EraseWith | src/integer/binary_trie.hpp:215-253 | erase removes exactly t from the stored set; with the correction the result has the erase shape |
| BinaryTrie.EraseAsWritten | src/integer/binary_trie.hpp:215-253 | as written erase also removes exactly t from the stored set |
| BinaryTrie.UnspliceLinks | src/integer/binary_trie.hpp:225-226 | unlinking the erased leaf from its neighbours keeps the leaf list doubly linked in order |
| BinaryTrie.EraseJumpsGood | src/integer/binary_trie.hpp:238-251 | after the corrected erase every jump again points at the extreme leaf of its node's missing side |
| BinaryTrie.EraseGood | src/integer/binary_trie.hpp:215-253 | corrected erase of a stored value keeps every trie invariant |
| BinaryTrie.Erase | src/integer/binary_trie.hpp:215-253 | erase keeps the trie well formed and removes t; erasing an absent value changes nothing |
| BinaryTrie.EraseTwoFromTwoThree | src/integer/binary_trie.hpp:246-248 | with 2 bits and {2, 3}, erasing 2 sets the root jump to `m[!c]`, which is null as written and 3 when corrected |
| BinaryTrie.EraseRootJump | src/integer/binary_trie.hpp:244-251 | an ancestor whose jump was the erased leaf takes the replacement the erase computes |
| BinaryTrie.RootNeedsJump | src/integer/binary_trie.hpp:20-45 | in {3} with 2 bits the root must carry a jump |
| BinaryTrie.EraseAsWrittenLosesJump | src/integer/binary_trie.hpp:244-251 | erasing 2 from {2, 3} as written leaves the root without the jump it needs; corrected erase points it at 3 |
| BinaryTrie.EraseRootSize | src/integer/binary_trie.hpp:242-243 | when the climb reaches the root, erase as written returns before `n -= 1`; corrected erase decrements n |
| BinaryTrie.EraseAsWrittenKeepsSize | src/integer/binary_trie.hpp:242-243 | erasing the only value 0 with 2 bits as written empties the trie but leaves n at 1; corrected erase leaves 0 |
| XFastTrie.Fresh | src/integer/x_fast_trie.hpp:101-105 | a new trie is well formed and empty: a lone root, empty tables and the dummy linked to itself |
| XFastTrie.Neighbours | src/integer/x_fast_trie.hpp:219-229 | both neighbours of a stored leaf or of the dummy are stored values or the dummy |
| XFastTrie.Bisect | src/integer/x_fast_trie.hpp:152-162 | the binary search over the prefix tables keeps l on an existing node and h on a missing one, and ends at the deepest existing node on t's path |
| XFastTrie.Search | src/integer/x_fast_trie.hpp:152-162 | the search returns a depth whose node on t's path exists while the next one does not |
| XFastTrie.SearchIsDescent | src/integer/x_fast_trie.hpp:152-162 | since the tables map every stored prefix to its node, the binary search stops where the bit-by-bit descent stops |
| XFastTrie.SearchEmpty | src/integer/x_fast_trie.hpp:152-162 | in an empty trie the search stops at the root, whose jump is unset |
| XFastTrie.SearchJump | src/integer/x_fast_trie.hpp:164-184 | when the search stops above the leaves, t is absent and the stop node's jump is a stored value, or unset, which happens only in an empty trie and always before the first insert |
| XFastTrie.SearchLeaf | src/integer/x_fast_trie.hpp:163 | the search reaches the leaf depth exactly when t is stored |
| XFastTrie.ContainsWith | src/integer/x_fast_trie.hpp:150-167 | contains dereferences the root's null jump exactly when no insert ever happened, unless repaired; any answer it gives is whether t is stored |
| XFastTrie.ContainsAsWritten | src/integer/x_fast_trie.hpp:150-167 | as written contains dereferences null exactly on a trie that never held a value, and otherwise answers membership |
| XFastTrie.Contains | src/integer/x_fast_trie.hpp:150-167 | corrected contains(t) holds exactly when t is stored |
| XFastTrie.WalkDown | src/integer/x_fast_trie.hpp:186 | walking `links[0]` from a stored leaf while its value is ≥ t stops at the largest stored value < t |
| XFastTrie.WalkUp | src/integer/x_fast_trie.hpp:189 | walking `links[1]` while the next value is < t ends on the largest stored value < t |
| XFastTrie.PredWith | src/integer/x_fast_trie.hpp:169-192 | pred dereferences the null root jump exactly on a never-filled trie, reads the dummy's unset value exactly on a trie emptied by erase, unless repaired; otherwise it answers the largest stored value < t |
| XFastTrie.PredFrom | src/integer/x_fast_trie.hpp:184-191 | from the node the search found, pred reaches the largest stored value < t, or one of the two faults |
| XFastTrie.PredAsWritten | src/integer/x_fast_trie.hpp:169-192 | as written pred dereferences null exactly on a never-filled trie and returns the dummy's unset value exactly on an emptied one; otherwise it answers correctly |
| XFastTrie.Pred | src/integer/x_fast_trie.hpp:169-192 | corrected pred(t) is none when t ≤ min and otherwise the largest stored value < t |
| XFastTrie.WalkRight | src/integer/x_fast_trie.hpp:211 | walking `links[1]` from a stored leaf while its value is ≤ t stops at the smallest stored value > t |
| XFastTrie.WalkLeft | src/integer/x_fast_trie.hpp:214 | walking `links[0]` while the previous value is > t ends on the smallest stored value > t |
| XFastTrie.Succ | src/integer/x_fast_trie.hpp:194-217 | succ(t) is none when t ≥ max and otherwise the smallest stored value > t |
| XFastTrie.SuccFrom | src/integer/x_fast_trie.hpp:209-216 | from the node the search found, succ reaches the smallest stored value > t |
| XFastTrie.Min | src/integer/x_fast_trie.hpp:225-229 | min is the dummy's next leaf: none exactly when the trie is empty, otherwise the smallest value |
| XFastTrie.Max | src/integer/x_fast_trie.hpp:219-223 | max is the dummy's previous leaf: none exactly when the trie is empty, otherwise the largest value |
| XFastTrie.Iterate | src/integer/x_fast_trie.hpp:328-375 | iterating from `begin()` through `links[1]` to the dummy yields every stored value once, strictly increasing |
| XFastTrie.NeighbourUnique | src/integer/x_fast_trie.hpp:169-217 | the largest value below t and the smallest above t are unique |
| XFastTrie.AroundFound | src/integer/x_fast_trie.hpp:241-244 | through the dummy, insert finds t's true predecessor and successor, those the corrected binary trie insert finds |
| XFastTrie.Insert | src/integer/x_fast_trie.hpp:231-271 | insert keeps the trie well formed, adds t, changes nothing when t is present, and acts on the trie as the corrected binary trie insert |
| XFastTrie.InsertEnds | src/integer/x_fast_trie.hpp:256-261 | splicing t in through the dummy keeps the dummy's links on the smallest and the largest value |
| XFastTrie.InsertMaps | src/integer/x_fast_trie.hpp:247-255 | the tables gain exactly the prefixes of t below the stop depth and still map every stored prefix |
| XFastTrie.EraseWith | src/integer/x_fast_trie.hpp:273-314 | erase removes exactly t, acts on the trie as the binary trie erase, keeps the dummy's links and the tables right, is a no-op for absent t, and keeps every invariant when repaired |
| XFastTrie.Erase | src/integer/x_fast_trie.hpp:273-314 | corrected erase keeps the trie well formed and removes t; absent t changes nothing |
| XFastTrie.EraseEnds | src/integer/x_fast_trie.hpp:284-285 | unlinking t through the dummy keeps the dummy's links on the smallest and the largest value |
| XFastTrie.EraseMaps | src/integer/x_fast_trie.hpp:290-298 | the tables lose exactly t's prefixes below the node where t branches off |
| XFastTrie.EraseNode | src/integer/x_fast_trie.hpp:290-298 | after erase a node remains exactly when it existed and was not on t's path below that branch node |
| XFastTrie.Zero | src/integer/x_fast_trie.hpp:231-271 | the 2-bit trie holding only 0 is well formed |
| XFastTrie.TwoThree | src/integer/x_fast_trie.hpp:231-271 | the 2-bit trie holding 2 and 3 is well formed |
| XFastTrie.EraseOnlyZero | src/integer/x_fast_trie.hpp:303-304 | erasing the only value 0 as written empties the trie but leaves n at 1; corrected erase leaves 0 |
| XFastTrie.EraseAsWrittenKeepsSize | src/integer/x_fast_trie.hpp:303-304 | the same, on the concrete trie that `insert(0)` builds |
| XFastTrie.TwoThreePointers | src/integer/x_fast_trie.hpp:241-268 | in {2, 3} the root jumps to 2, whose leaf has the dummy before it and 3 after it |
| XFastTrie.EraseTwo | src/integer/x_fast_trie.hpp:299-309 | erasing 2 from {2, 3} as written resets the root's jump to the dummy while 3 is still stored, and the search for 1 then stops at the root; corrected erase points the jump at 3 |
| XFastTrie.EraseAsWrittenJumpsToDummy | src/integer/x_fast_trie.hpp:299-309 | the same, on the concrete trie that `insert(2); insert(3)` builds |
| YTreap.PlugHeap | utils/yfast_treap.hpp:71-88 | a tree rebuilt from a path and a subtree is a priority heap exactly when the path, the subtree and their meeting point are |
| YTreap.PlugAtLeast | utils/yfast_treap.hpp:71-88 | every priority of the rebuilt tree is ≥ x exactly when every priority on the path and in the subtree is |
| YTreap.BubbleUp | utils/yfast_treap.hpp:90-99 | rotating u up past fathers of larger priority keeps the in-order sequence of the whole tree |
| YTreap.BubbleHeap | utils/yfast_treap.hpp:90-99 | bubbling a node whose children fit under the path yields a priority heap |
| YTreap.BubbleAtLeast | utils/yfast_treap.hpp:90-99 | bubbling keeps a lower bound on all priorities |
| YTreap.BubbleToRoot | utils/yfast_treap.hpp:90-99 | a node whose priority is below every priority on its path ends at the root, with everything before it on the left and everything after it on the right |
| YTreap.BubbleToRootAtLeast | utils/yfast_treap.hpp:230-232 | that root's two subtrees keep every lower bound the path and the node's children had |
| YTreap.Trickle | utils/yfast_treap.hpp:128-143 | trickling u down to a leaf and cutting it off leaves exactly u's left then right in-order sequence |
| YTreap.TrickleHeap | utils/yfast_treap.hpp:128-143 | rotating the child of smaller priority up each time keeps the heap |
| YTreap.TrickleAtLeast | utils/yfast_treap.hpp:128-143 | trickling keeps a lower bound on all priorities |
| YTreap.Locate | utils/yfast_treap.hpp:101-110 | the search path plus the slot it stops at rebuild the tree, and a non-empty slot holds the key searched for |
| YTreap.Contains | utils/yfast_treap.hpp:169-171 | contains(x) holds exactly when x is stored |
| YTreap.Insert | utils/yfast_treap.hpp:112-126 | insert keeps the treap valid, adds x, reports true exactly when x was absent and leaves the treap unchanged otherwise |
| YTreap.InsertValid | utils/yfast_treap.hpp:112-126 | a fresh leaf at the located slot bubbled up gives a valid treap with x added |
| YTreap.InsertOrder | utils/yfast_treap.hpp:112-126 | a fresh leaf placed between its in-order neighbours keeps the keys ascending |
| YTreap.Erase | utils/yfast_treap.hpp:145-167 | erase keeps the treap valid, removes x, reports true exactly when x was present and leaves the treap unchanged otherwise |
| YTreap.EraseValid | utils/yfast_treap.hpp:145-167 | trickling the located node down and cutting it gives a valid treap without that key |
| YTreap.EraseOrder | utils/yfast_treap.hpp:145-167 | removing the located node keeps the keys ascending |
| YTreap.EraseHeap | utils/yfast_treap.hpp:145-167 | removing the located node keeps the priority heap and the non-negative priorities |
| YTreap.AbsorbSmaller | utils/yfast_treap.hpp:173-201 | absorbing a treap of smaller keys through a temporary root trickled down gives a valid treap holding the other's keys then this one's, and empties the other |
| YTreap.Split | utils/yfast_treap.hpp:216-241 | split(x) of an absent x returns an empty treap and keeps this one; otherwise the returned treap holds the keys ≤ x, this one keeps the keys > x, both valid, and together in order they are the old sequence |
| YTreap.SplitSlot | utils/yfast_treap.hpp:223-229 | the slot for the sentinel is the empty child right after x in order |
| YTreap.SplitValid | utils/yfast_treap.hpp:223-237 | the sentinel of priority -1 bubbles to the root, and its two subtrees are valid treaps that split the sequence at x |
| YTreap.SplitOrder | utils/yfast_treap.hpp:223-229 | the keys before the sentinel's slot are the ascending keys ≤ x, those after it the ascending keys > x |
| YTreap.Min | utils/yfast_treap.hpp:243-252 | min is none exactly on an empty treap and otherwise the least key |
| YTreap.Max | utils/yfast_treap.hpp:254-263 | max is none exactly on an empty treap and otherwise the greatest key |
| YTreap.SuccFrom | utils/yfast_treap.hpp:303-315 | the descent that goes right past keys ≤ t finds the smallest key > t |
| YTreap.WalkBack | utils/yfast_treap.hpp:281-311 | from a key > t, stepping to the in-order predecessor while it is still > t ends on the smallest key > t |
| YTreap.Succ | utils/yfast_treap.hpp:303-315 | succ(t) is none exactly when no key is > t and otherwise the smallest such key |
| YTreap.PredFrom | utils/yfast_treap.hpp:334-346 | the descent that goes left past keys ≥ t finds the largest key < t |
| YTreap.WalkOn | utils/yfast_treap.hpp:292-342 | from a key < t, stepping to the in-order successor while it is still < t ends on the largest key < t |
| YTreap.Pred | utils/yfast_treap.hpp:334-346 | pred(t) is none exactly when no key is < t and otherwise the largest such key |
| YFastTrie.Fresh | src/integer/y_fast_trie.hpp:201-204 | a new trie has no leaves, no values and a zero count, and is well formed |
| YFastTrie.ChainAscending | src/integer/y_fast_trie.hpp:254-266 | the values of the leaves, taken in list order and each treap in order, ascend strictly |
| YFastTrie.OnlyLastEmpty | src/integer/y_fast_trie.hpp:294-318 | among the leaves only the last, the leaf of `top`, can hold an empty treap |
| YFastTrie.FirstAtLeast | src/integer/y_fast_trie.hpp:181-198 | the located leaf is the first whose representative is ≥ t |
| YFastTrie.Locate | src/integer/y_fast_trie.hpp:181-198 | locate(t) follows the root's null jump exactly on a trie that never held a value, unless repaired, and otherwise returns the first leaf whose representative is ≥ t |
| YFastTrie.LocateValues | src/integer/y_fast_trie.hpp:181-198 | everything before the located leaf is < t, everything after it is > t, so t is stored exactly when the located treap holds it |
| YFastTrie.Contains | src/integer/y_fast_trie.hpp:245-252 | contains(t) faults exactly on a never-filled trie, unless repaired, and otherwise holds exactly when t is stored |
| YFastTrie.PredAt | src/integer/y_fast_trie.hpp:270-280 | the located treap's pred, or else the previous leaf's maximum, is the largest stored value < t |
| YFastTrie.Pred | src/integer/y_fast_trie.hpp:270-280 | pred(t) faults exactly on a never-filled trie, unless repaired, and otherwise is the largest stored value < t |
| YFastTrie.SuccAt | src/integer/y_fast_trie.hpp:282-292 | the located treap's succ, or else the next leaf's minimum, is the smallest stored value > t |
| YFastTrie.Succ | src/integer/y_fast_trie.hpp:282-292 | succ(t) faults exactly on a never-filled trie, unless repaired, and otherwise is the smallest stored value > t |
| YFastTrie.FirstLeaf | src/integer/y_fast_trie.hpp:303-306 | the first leaf's minimum is the least stored value, none exactly when nothing is stored |
| YFastTrie.Min | src/integer/y_fast_trie.hpp:303-306 | min is none exactly when nothing is stored and otherwise the least value |
| YFastTrie.LastLeaf | src/integer/y_fast_trie.hpp:294-299 | the last leaf's maximum is the greatest value; when its treap is empty the leaf before it holds the greatest value as its representative |
| YFastTrie.Max | src/integer/y_fast_trie.hpp:294-301 | max reads the null treap of the list's sentinel exactly when the only leaf is the empty top leaf, unless repaired, and otherwise is none exactly when nothing is stored and else the greatest value |
| YFastTrie.AddTop | src/integer/y_fast_trie.hpp:255-257 | on an empty count the top leaf is added when missing, with no change to the values or the count |
| YFastTrie.InsertPlain | src/integer/y_fast_trie.hpp:258-261 | inserting t into the located treap keeps the leaf chain and adds t |
| YFastTrie.InsertSplit | src/integer/y_fast_trie.hpp:262-265 | splitting the located treap at t into a new leaf t and the old leaf keeps the chain |
| YFastTrie.InsertLeaves | src/integer/y_fast_trie.hpp:258-266 | the leaves after insert stay a chain up to `top`, hold t added, and report whether t was new |
| YFastTrie.Insert | src/integer/y_fast_trie.hpp:254-268 | insert keeps the trie well formed, adds t, raises the count exactly when t was new, and keeps the count right |
| YFastTrie.ErasePlain | src/integer/y_fast_trie.hpp:310-314 | erasing t from a leaf it does not represent (or from the top leaf) keeps the chain and removes t |
| YFastTrie.EraseMerge | src/integer/y_fast_trie.hpp:315-318 | erasing a leaf's representative t lets the next leaf absorb the rest, which keeps the chain and removes t |
| YFastTrie.EraseLeaves | src/integer/y_fast_trie.hpp:309-320 | the leaves after erase stay a chain up to `top`, hold t removed, and report whether t was there |
| YFastTrie.Erase | src/integer/y_fast_trie.hpp:140-179 | erase faults exactly on a never-filled trie, unless repaired; otherwise it keeps the trie well formed and removes t, and repaired it lowers the count exactly when t was stored and keeps it right |
| YFastTrie.Walk | src/integer/y_fast_trie.hpp:323-359 | the iterator's walk yields each leaf's values in order, and meets a null node exactly when a leaf's treap is empty, unless repaired |
| YFastTrie.Iterate | src/integer/y_fast_trie.hpp:337-347 | iterating from begin() faults exactly when there are no leaves or the top leaf's treap is empty, unless repaired, and otherwise yields every stored value once in ascending order |
| YFastTrie.TwoLeaves | src/integer/y_fast_trie.hpp:254-268 | the 4-bit trie holding 5 and 7, each in its own leaf before the empty top leaf 15, is well formed with a count of 2 |
| YFastTrie.TwoLeavesLocate | src/integer/y_fast_trie.hpp:156-198 | erase(5) on it locates leaf 0, which represents 5 and shares its highest bit with 7 |
| YFastTrie.EraseCountsTwice | src/integer/y_fast_trie.hpp:169-170 | as written, erase(5) on that trie leaves the count at 0 while 7 is still stored |
| YFastTrie.EraseCountsOnce | src/integer/y_fast_trie.hpp:313 | repaired, the same erase leaves the count at 1 |
| YFastTrie.EraseMiscounts | src/integer/y_fast_trie.hpp:309-320 | after that erase the count disagrees with the stored values as written and agrees when repaired |
| VanEmdeBoas.Empty | src/integer/van_emde_boas.hpp:52-72 | a new node has no min, no max and no clusters |
| VanEmdeBoas.SummaryDegree | src/integer/van_emde_boas.hpp:54-64 | the summary's and the clusters' degrees add up to the node's degree, and the summary is strictly smaller when d > 1 |
| VanEmdeBoas.High | src/integer/van_emde_boas.hpp:74-76 | x is below 2^d exactly when high(x) is below the summary's range |
| VanEmdeBoas.LowAsWritten | src/integer/van_emde_boas.hpp:78-82 | `low` as written keeps d/2 + 1 bits: it is the intended low part, or that plus 2^(d/2) |
| VanEmdeBoas.Low | src/integer/van_emde_boas.hpp:78-82 | the intended low part is below the clusters' range 2^(d/2) |
| VanEmdeBoas.Index | src/integer/van_emde_boas.hpp:84-86 | high and low recover i and y from index(i, y) when y is in the clusters' range |
| VanEmdeBoas.Split | src/integer/van_emde_boas.hpp:74-86 | index(high(x), low(x)) == x, with low(x) below the clusters' range |
| VanEmdeBoas.Order | src/integer/van_emde_boas.hpp:74-82 | values compare as their (high, low) pairs compare lexicographically |
| VanEmdeBoas.AtMost | src/integer/van_emde_boas.hpp:84-86 | a value whose (high, low) pair is at most (i, z) is at most index(i, z) |
| VanEmdeBoas.LowBreaksIndex | src/integer/van_emde_boas.hpp:78-86 | at degree 2, low(2) as written is 2, not 0, and index(high(2), low(2)) is 4 instead of 2 |
| VanEmdeBoas.IndexRoundTrip | src/integer/van_emde_boas.hpp:74-86 | with low masking d/2 bits, index(high(x), low(x)) == x and both parts are in range |
| VanEmdeBoas.Contains | src/integer/van_emde_boas.hpp:94-102 | contains holds at min and max, and at degree 1 holds only there |
| VanEmdeBoas.EmptyHoldsNothing | src/integer/van_emde_boas.hpp:94-102 | a valid node without min holds nothing |
| VanEmdeBoas.Bounds | src/integer/van_emde_boas.hpp:94-139 | every value a valid node holds lies between its min and its max, below 2^d |
| VanEmdeBoas.MemberBelow | src/integer/van_emde_boas.hpp:94-102 | a held value other than min is held in its cluster |
| VanEmdeBoas.BelowListed | src/integer/van_emde_boas.hpp:132-134 | a value held in a cluster has that cluster non-empty and listed in the summary |
| VanEmdeBoas.SingleEmptyBelow | src/integer/van_emde_boas.hpp:192-193 | a node whose min equals its max has only empty clusters |
| VanEmdeBoas.EmptyValid | src/integer/van_emde_boas.hpp:72 | an empty node is valid at any degree ≥ 1 |
| VanEmdeBoas.EmptyInsert | src/integer/van_emde_boas.hpp:116-119 | empty_insert sets both min and max to x and changes nothing else |
| VanEmdeBoas.EmptyInsertValid | src/integer/van_emde_boas.hpp:116-122 | empty_insert on a valid empty node gives a valid node holding exactly x |
| VanEmdeBoas.InsertWith | src/integer/van_emde_boas.hpp:121-141 | insert sets min to the smaller of x and the old min, and max to the larger of x and the old max |
| VanEmdeBoas.InsertBelow | src/integer/van_emde_boas.hpp:129-136 | the cluster part of insert leaves min and max alone and always leaves a summary |
| VanEmdeBoas.InsertAsWritten | src/integer/van_emde_boas.hpp:121-141 | insert as written sets min to the smaller of x and the old min |
| VanEmdeBoas.InsertCorrect | src/integer/van_emde_boas.hpp:121-141 | repaired insert keeps a node valid and adds exactly x |
| VanEmdeBoas.InsertBelowCorrect | src/integer/van_emde_boas.hpp:129-136 | the cluster part of repaired insert keeps the clusters and the summary consistent and adds exactly x below |
| VanEmdeBoas.Insert | src/integer/van_emde_boas.hpp:121-141 | the tree's insert keeps it valid and adds exactly x |
| VanEmdeBoas.SuccWith | src/integer/van_emde_boas.hpp:143-164 | succ(x) is none when max is unset or ≤ x, and is min when x < min at a degree above 1 |
| VanEmdeBoas.SuccCorrect | src/integer/van_emde_boas.hpp:143-164 | repaired succ returns, and returns the least held value above x |
| VanEmdeBoas.SuccInCluster | src/integer/van_emde_boas.hpp:151-154 | when x's cluster holds something above low(x), succ finds the answer in that cluster |
| VanEmdeBoas.SuccInSummary | src/integer/van_emde_boas.hpp:155-161 | otherwise the summary's succ of high(x) names the cluster whose min is the answer |
| VanEmdeBoas.Succ | src/integer/van_emde_boas.hpp:143-164 | the tree's succ(x) is the least held value above x, or none |
| VanEmdeBoas.PredWith | src/integer/van_emde_boas.hpp:166-189 | pred(x) is none when min is unset or ≥ x, and is max when max < x at a degree above 1 |
| VanEmdeBoas.PredCorrect | src/integer/van_emde_boas.hpp:166-189 | repaired pred returns, and returns the greatest held value below x |
| VanEmdeBoas.PredInCluster | src/integer/van_emde_boas.hpp:174-177 | when x's cluster holds something below low(x), pred finds the answer in that cluster |
| VanEmdeBoas.PredInSummary | src/integer/van_emde_boas.hpp:178-186 | otherwise the summary's pred of high(x) names the cluster whose max is the answer, or min is when no cluster is below |
| VanEmdeBoas.Pred | src/integer/van_emde_boas.hpp:166-189 | the tree's pred(x) is the greatest held value below x, or none |
| VanEmdeBoas.EraseNode | src/integer/van_emde_boas.hpp:191-219 | erase empties a node whose min equals its max, whatever x is |
| VanEmdeBoas.EraseAt | src/integer/van_emde_boas.hpp:204-217 | the cluster part of erase leaves min at the value it was given |
| VanEmdeBoas.EraseCorrect | src/integer/van_emde_boas.hpp:191-219 | erasing a held value returns, keeps the node valid, removes exactly x, and empties the node exactly when x was its only value |
| VanEmdeBoas.FirstValue | src/integer/van_emde_boas.hpp:199-203 | erasing min moves the least value of the first listed cluster up as the new min and erases that value below |
| VanEmdeBoas.EraseAtCorrect | src/integer/van_emde_boas.hpp:204-217 | erasing a value held below keeps the clusters and summary consistent and recomputes max |
| VanEmdeBoas.EraseKeepsCluster | src/integer/van_emde_boas.hpp:204-217 | when the cluster keeps a value, only max may change, to that cluster's max |
| VanEmdeBoas.EraseEmptiesCluster | src/integer/van_emde_boas.hpp:205-214 | when the cluster empties, its index leaves the summary and max falls to the last listed cluster's max or to min |
| VanEmdeBoas.Erase | src/integer/van_emde_boas.hpp:191-219 | the tree's erase keeps it valid and removes exactly x |
| VanEmdeBoas.Walk | src/integer/van_emde_boas.hpp:286-291 | stepping with the repaired succ from a held value t visits every held value ≥ t once, in increasing order; the source's succ can fault on a step instead (see Findings) |
| VanEmdeBoas.Iterate | src/integer/van_emde_boas.hpp:321-327 | iterating from begin() to end() with the repaired succ visits every held value once, in increasing order; as written, iterating {0, 3} at degree 2 faults on the first `++` (VanEmdeBoas.MissingClusterDeref) |
| VanEmdeBoas.EmptyOrder | src/integer/van_emde_boas.hpp:321-327 | on an empty tree begin() equals end() |
| VanEmdeBoas.MinFirst | src/integer/van_emde_boas.hpp:321-323 | begin() is a held value and the least one |
| VanEmdeBoas.ZeroThree | src/integer/van_emde_boas.hpp:121-141 | the degree-2 tree holding 0 and 3 is valid and has no cluster 0 |
| VanEmdeBoas.MissingClusterDeref | src/integer/van_emde_boas.hpp:151-174 | on {0, 3}, succ(1) and pred(1) as written read the never-created cluster 0 through a null pointer, and so does succ(0), the first `++` from begin(); repaired they return 3, 0 and 3 |
| VanEmdeBoas.InsertAll | src/integer/van_emde_boas.hpp:248-250 | inserting a list of d-bit values one after another keeps the tree valid and adds exactly those values |
| VanEmdeBoas.Copy | src/integer/van_emde_boas.hpp:248-250 | the copy constructor, inserting every value iteration yields into a fresh tree, gives a valid tree holding exactly the original's values |
| VanEmdeBoas.ZeroOne | src/integer/van_emde_boas.hpp:121-141 | the degree-2 tree holding 0 and 1 is valid |
| VanEmdeBoas.DuplicateInsert | src/integer/van_emde_boas.hpp:124-136 | inserting its min 0 again as written pushes 0 into cluster 0 a second time |
| VanEmdeBoas.DoubledBroken | src/integer/van_emde_boas.hpp:124-136 | the tree that results is not valid |
| VanEmdeBoas.DuplicateSurvivesErase | src/integer/van_emde_boas.hpp:121-141 | after that duplicate insert, erase(0) leaves 0 in the tree, while the repaired insert and erase remove it |
| VanEmdeBoas.EraseAbsentEmpties | src/integer/van_emde_boas.hpp:192-193 | erasing 1 from the degree-2 tree {3} as written empties it; the repaired erase keeps 3 |
| VanEmdeBoas.EraseBit | src/integer/van_emde_boas.hpp:194-197 | at degree 1, erasing from a node holding 0 and 1 keeps the other bit |
| BinaryTreeBase.WeightIsSize | src/binary_tree/binary_tree_base.hpp:56-61 | in a tree whose weights follow `WeightedUpdate`, the root's weight is the number of nodes |
| BinaryTreeBase.UpdateCounts | src/binary_tree/binary_tree_base.hpp:56-61 | `update` on a node over weighted subtrees gives it their sizes plus one, and keeps the in-order sequence |
| BinaryTreeBase.Rebuild | src/binary_tree/binary_tree_base.hpp:83-88 | updating every node from a changed subtree up to the root keeps the in-order sequence and makes the weights right again |
| BinaryTreeBase.WeightedAt | src/binary_tree/binary_tree_base.hpp:83-88 | in a weighted tree both the path to a subtree and the subtree are weighted |
| BinaryTreeBase.Contains | src/binary_tree/binary_tree_base.hpp:71-81 | on a tree in order, contains(k) holds exactly when k is a key |
| BinaryTreeBase.Found | src/binary_tree/binary_tree_base.hpp:71-81 | on a tree in order, find_node(root, k) is non-null exactly when k is a key |
| BinaryTreeBase.Slot | src/binary_tree/binary_tree_base.hpp:112-121 | the descent of insert_node ends at an empty slot of the same tree, with the keys before it ≤ k and those after it > k |
| BinaryTreeBase.SlotStep | src/binary_tree/binary_tree_base.hpp:116-120 | one step of that descent keeps the bound on the keys before and after the slot |
| BinaryTreeBase.InsertNonDecreasing | src/binary_tree/binary_tree_base.hpp:112-126 | a key placed between the keys ≤ it and the keys > it keeps the sequence non-decreasing |
| BinaryTreeBase.RemoveNonDecreasing | src/binary_tree/binary_tree_base.hpp:205-260 | dropping a key from a non-decreasing sequence keeps it non-decreasing |
| BinaryTreeBase.InsertNode | src/binary_tree/binary_tree_base.hpp:112-126 | insert adds one copy of k to the keys, duplicates included, and keeps the tree ordered and weighted |
| BinaryTreeBase.InsertAt | src/binary_tree/binary_tree_base.hpp:112-126 | a new leaf at the slot, updated up to the root, adds exactly k and keeps the tree valid |
| BinaryTreeBase.LeafKeys | src/binary_tree/binary_tree_base.hpp:122-124 | the new leaf sits between the keys before and after its slot |
| BinaryTreeBase.InsertValid | src/binary_tree/binary_tree_base.hpp:112-126 | the new leaf keeps the tree ordered and weighted |
| BinaryTreeBase.Counted | src/binary_tree/binary_tree_base.hpp:122 | one key spliced into a sequence adds it once and grows the size by one |
| BinaryTreeBase.Unlink | src/binary_tree/binary_tree_base.hpp:90-110 | unlink replaces u by its left child, or its right when there is no left, and updates the weights up from the father |
| BinaryTreeBase.RemoveMin | src/binary_tree/binary_tree_base.hpp:211-214 | the leftmost node of a subtree holds its least key, and cutting it leaves the rest in order |
| BinaryTreeBase.EraseWith | src/binary_tree/binary_tree_base.hpp:205-260 | erase dereferences the null node exactly when k is not a key, unless repaired; otherwise it removes one copy of k and keeps the tree valid |
| BinaryTreeBase.EraseNode | src/binary_tree/binary_tree_base.hpp:205-260 | erasing a node leaves its left subtree then its right subtree in its place in the in-order sequence |
| BinaryTreeBase.EraseAt | src/binary_tree/binary_tree_base.hpp:205-260 | erasing a located node removes exactly one copy of its key and keeps the tree valid |
| BinaryTreeBase.Removed | src/binary_tree/binary_tree_base.hpp:257 | one key cut out of a sequence removes it once, lowers the size by one and keeps the order |
| BinaryTreeBase.Erase | src/binary_tree/binary_tree_base.hpp:205-260 | the repaired erase keeps the tree valid and removes one copy of k, none when k is absent |
| BinaryTreeBase.SuccNodeAsWritten | src/binary_tree/binary_tree_base.hpp:142-151 | succ_node as written moves to the node one place earlier in order, none at the first |
| BinaryTreeBase.PredNodeAsWritten | src/binary_tree/binary_tree_base.hpp:153-162 | pred_node as written moves to the node one place later in order, none at the last |
| BinaryTreeBase.SuccNode | src/binary_tree/binary_tree_base.hpp:142-174 | the corrected successor is the node one place later in order, none at the last |
| BinaryTreeBase.PredNode | src/binary_tree/binary_tree_base.hpp:153-182 | the corrected predecessor is the node one place earlier in order, none at the first |
| BinaryTreeBase.Three | src/binary_tree/binary_tree_base.hpp:112-126 | the tree with root 2 and leaves 1 and 3 is valid |
| BinaryTreeBase.SuccNodeGoesBack | src/binary_tree/binary_tree_base.hpp:142-174 | on that tree `++` from the root as written lands on 1 rather than 3 |
| BinaryTreeBase.EraseMissing | src/binary_tree/binary_tree_base.hpp:205-207 | erase of any key from an empty tree as written dereferences null; repaired it leaves the tree empty |
| AvlTree.Rebalance | src/binary_tree/avl_tree.hpp:177-215 | the single and double rotations of the fix-ups keep the in-order sequence |
| AvlTree.InsertFix | src/binary_tree/avl_tree.hpp:84-131 | insert_fix, climbing from the new leaf, keeps the in-order sequence of the whole tree |
| AvlTree.DeleteFix | src/binary_tree/avl_tree.hpp:160-223 | delete_fix, climbing from the removed slot, keeps the in-order sequence of the whole tree |
| AvlTree.Insert | src/binary_tree/avl_tree.hpp:134-157 | insert keeps the tree ordered and balanced with its count right, adds x, reports true exactly when x was absent and leaves the tree unchanged otherwise |
| AvlTree.Del | src/binary_tree/avl_tree.hpp:226-243 | del removes the node's key from its place in order, moving the least key of the right subtree up when both children exist |
| AvlTree.Erase | src/binary_tree/avl_tree.hpp:255-263 | erase keeps the tree ordered and balanced with its count right, removes x, reports true exactly when x was present and leaves the tree unchanged otherwise |
| AvlTree.AvlInside | src/binary_tree/avl_tree.hpp:84-131 | every subtree of a balanced tree is balanced |
| AvlTree.AvlPlugSame | src/binary_tree/avl_tree.hpp:94-95 | replacing a subtree by a balanced one of the same height keeps the tree balanced and its height, which is why the fix-ups may stop there |
| AvlTree.RebalanceAvl | src/binary_tree/avl_tree.hpp:177-215 | rotating at a factor of ±2 gives a balanced subtree, one level lower unless the heavy child was even, the deletion-only case after which the climb stops |
| AvlTree.RightHeavy | src/binary_tree/avl_tree.hpp:177-195 | the right-right, right-left and deletion right-right rotations with the factors the source assigns are balanced |
| AvlTree.LeftHeavy | src/binary_tree/avl_tree.hpp:196-214 | the left-left, left-right and deletion left-left rotations with the factors the source assigns are balanced |
| AvlTree.InsertFixAvl | src/binary_tree/avl_tree.hpp:84-131 | after a subtree grows by one level, insert_fix leaves the whole tree balanced |
| AvlTree.DeleteFixAvl | src/binary_tree/avl_tree.hpp:160-223 | after a subtree shrinks by one level, delete_fix leaves the whole tree balanced |
| AvlTree.DelAvl | src/binary_tree/avl_tree.hpp:226-243 | del followed by delete_fix leaves a balanced tree balanced |
| AvlTree.AvlSize | src/binary_tree/avl_tree.hpp:11-17 | a balanced tree of height h has at least 2^(h/2) - 1 nodes, so its height is logarithmic in its size |
| RbTree.Paint | src/binary_tree/rb_tree.hpp:35-42 | recolouring a node keeps the in-order sequence |
| RbTree.PaintRootBlack | src/binary_tree/rb_tree.hpp:134 | painting the root black keeps the in-order sequence and leaves it not red |
| RbTree.Restructure | src/binary_tree/rb_tree.hpp:114-131 | the rotations for a red node under a red father with a black uncle keep the in-order sequence |
| RbTree.InsertFix | src/binary_tree/rb_tree.hpp:107-136 | insert_fix keeps the in-order sequence of the whole tree |
| RbTree.Insert | src/binary_tree/rb_tree.hpp:139-161 | insert keeps the tree ordered with its count right, adds x, reports true exactly when x was absent, leaves the tree unchanged otherwise, and keeps a red-black tree red-black |
| RbTree.WfPlug | src/binary_tree/rb_tree.hpp:107-136 | a tree rebuilt from a path and a subtree has equal black heights and no red-red edge exactly when the subtree does and the path fits its black height and colour |
| RbTree.PlugTop | src/binary_tree/rb_tree.hpp:134 | the colour at the root of a rebuilt tree is that of the path's top frame |
| RbTree.PaintRootBlackWf | src/binary_tree/rb_tree.hpp:134 | painting the root black turns a tree with equal black heights into a red-black tree |
| RbTree.RestructureWf | src/binary_tree/rb_tree.hpp:114-131 | the restructured subtree is black-rooted, has no red-red edge and is one black level higher |
| RbTree.InsertFixRb | src/binary_tree/rb_tree.hpp:107-136 | insert_fix on a red node whose only fault is a red father leaves a red-black tree |
| RbTree.InsertRedBlack | src/binary_tree/rb_tree.hpp:150-160 | hanging a red leaf in a red-black tree and running insert_fix leaves a red-black tree |
| RbTree.RedBlackHeight | src/binary_tree/rb_tree.hpp:11-24 | a tree of black height b has at least 2^b - 1 nodes and height at most 2b (+1 when its root is red) |
| RbTree.Climb | src/binary_tree/rb_tree.hpp:244-252 | moving the doubly-black mark up to the father keeps the in-order sequence, and the root that results is not red |
| RbTree.Blacken | src/binary_tree/rb_tree.hpp:181-185 | `blacken` never leaves a node red, and a node that was red or black stands for exactly one black level more |
| RbTree.DeleteFix | src/binary_tree/rb_tree.hpp:197-261 | delete_fix keeps the in-order sequence of the whole tree and leaves the root not red |
| RbTree.DeleteFixRb | src/binary_tree/rb_tree.hpp:197-261 | delete_fix, started with db one black level short of its sibling and the passes the loop needs, leaves a red-black tree |
| RbTree.RotateRb | src/binary_tree/rb_tree.hpp:202-208 | a pass that rotates a red sibling up keeps db one black level short under a now red father, so the loop still ends with a red-black tree |
| RbTree.RotateAwayOk | src/binary_tree/rb_tree.hpp:202-208 | after the red-sibling rotation the two new frames fit db one black level short, and db's father is red, so one more pass ends the loop |
| RbTree.BlackSiblingRb | src/binary_tree/rb_tree.hpp:209-252 | a pass at a black sibling either ends the loop with a red-black tree or moves the missing black level up to a black father |
| RbTree.AbsorbWf | src/binary_tree/rb_tree.hpp:209-240 | the rotations for a black sibling with a red child give a well-formed subtree with the father's colour, and its black height makes up the missing level |
| RbTree.Absorb | src/binary_tree/rb_tree.hpp:209-240 | the four cases with a red nephew keep the in-order sequence |
| RbTree.RotateAway | src/binary_tree/rb_tree.hpp:202-208 | rotating a red sibling up and going on one level lower keeps the in-order sequence |
| RbTree.Unhook | src/binary_tree/rb_tree.hpp:264-283 | the first half of del removes exactly x's key from its place in order |
| RbTree.Repair | src/binary_tree/rb_tree.hpp:188-194 | the second half of del keeps the in-order sequence |
| RbTree.DelAsWritten | src/binary_tree/rb_tree.hpp:197-261 | del as written hands back a destroyed node exactly when x is the root with at most one child, except a black leaf; otherwise it hands back the corrected root |
| RbTree.Del | src/binary_tree/rb_tree.hpp:264-288 | the corrected del removes exactly x's key from its place in order |
| RbTree.Erase | src/binary_tree/rb_tree.hpp:300-308 | erase keeps the tree ordered with its count right, removes x, reports true exactly when x was present, leaves the tree unchanged otherwise, and keeps a red-black tree red-black |
| RbTree.UnhookFits | src/binary_tree/rb_tree.hpp:264-283 | in a red-black tree the node del unhooks fitted its place, its only child being its replacement: that replacement is empty or a red leaf, and the frames above fit the node's colour |
| RbTree.UnhookSuccessorFits | src/binary_tree/rb_tree.hpp:275-281 | with two children, the leftmost node of the right subtree, whose key moves up, fits its place in the red-black tree in the same way |
| RbTree.RepairRb | src/binary_tree/rb_tree.hpp:284-285 | when the unhooked node fitted and the loop has the passes it needs, the second half of del leaves a red-black tree |
| RbTree.DelRedBlack | src/binary_tree/rb_tree.hpp:264-288 | del on a red-black tree leaves a red-black tree when delete_fix gets at least as many passes as the tree has keys |
| RbTree.EraseAsWritten | src/binary_tree/rb_tree.hpp:300-308 | erase as written reports presence correctly; the root it stores is the corrected one unless it is destroyed, which happens only when x was the root's key |
| RbTree.RootWithChild | src/binary_tree/rb_tree.hpp:291-297 | the black root 1 with a red right child 2 is an ordered red-black tree |
| RbTree.EraseRootDangles | src/binary_tree/rb_tree.hpp:264-305 | erasing 1 from it as written leaves the root naming the destroyed node; corrected it leaves the black 2 and a count of 1 |
| Treap.Empty | src/binary_tree/treap.hpp:19-37 | a new treap is valid and holds no keys |
| Treap.Contains | src/binary_tree/treap.hpp:19-37 | contains(x) holds exactly when x is a key |
| Treap.Insert | src/binary_tree/treap.hpp:42-83 | insert with the drawn priority keeps the treap ordered and heap-ordered with its count right, adds x, reports true exactly when x was absent and leaves the treap unchanged otherwise |
| Treap.Erase | src/binary_tree/treap.hpp:54-95 | erase keeps the treap valid with its count right, removes x, reports true exactly when x was present and leaves the treap unchanged otherwise |
| Treap.SizeFollowsKeys | src/binary_tree/treap.hpp:73-95 | in a treap whose keys ascend, the number of nodes is the number of distinct keys |
| Treap.InsertEraseContains | src/binary_tree/treap.hpp:73-95 | after insert(x) x is contained, after erase(x) it is not, and every other key is contained exactly as before either |
| Splay.Step | src/binary_tree/splay.hpp:38-50 | a zig-zig or zig-zag step lifts u two levels and keeps the in-order sequence, with everything before u on its left |
| Splay.Splay | src/binary_tree/splay.hpp:34-52 | splaying u to the root keeps the in-order sequence and leaves exactly the keys before u on its left |
| Splay.SplayStepAround | src/binary_tree/splay.hpp:35-51 | one step at the bottom of the path and the rest of the path rebuild the same sequence |
| Splay.FindLast | src/binary_tree/splay.hpp:55-59 | find_last returns null only on an empty tree, else a node of the tree that holds x exactly when x is a key |
| Splay.FindLastFacts | src/binary_tree/splay.hpp:55-59 | the search ends on x exactly when x is a key, and an empty slot below a node whose key is not x |
| Splay.FindParent | src/binary_tree/splay.hpp:55-59 | the search either stays put or goes deeper, ending at an empty slot only under a node whose key is not x |
| Splay.Access | src/binary_tree/splay.hpp:55-59 | splaying the last node on the search path keeps the keys and brings x to the root when x is a key |
| Splay.Contains | src/binary_tree/splay.hpp:55-59 | contains(x) holds exactly when x is a key, and the splay that comes with it keeps the tree valid and its keys in order |
| Splay.Insert | src/binary_tree/splay.hpp:61-71 | insert keeps the tree valid, adds x, reports true exactly when x was absent, puts x at the root and grows the count then, and leaves the tree unchanged otherwise |
| Splay.InsertAt | src/binary_tree/splay.hpp:63-66 | a new leaf at the slot the search ends on keeps the keys ascending and adds x once |
| Splay.Join | src/binary_tree/splay.hpp:81-87 | splaying the left subtree's maximum to its top and hanging the right subtree under it joins them in order |
| Splay.JoinTop | src/binary_tree/splay.hpp:81-82 | after that splay the maximum is at the top of the left subtree with no right child |
| Splay.Erase | src/binary_tree/splay.hpp:73-92 | erase keeps the tree valid, removes x and shrinks the count when x was a key, reports whether it was, and keeps the keys when it was not |
| ScapeGoat.Pow3 | src/binary_tree/scapegoat.hpp:84-86 | powers of 3 are positive, the numerator of the powers of 3/2 |
| ScapeGoat.PowGap | src/binary_tree/scapegoat.hpp:84-86 | j * 2^j < 3^j for j ≥ 1, so the climb for log base 3/2 ends |
| ScapeGoat.Log32 | src/binary_tree/scapegoat.hpp:84-86 | the search from k finds f with (3/2)^f ≤ q < (3/2)^(f+1) |
| ScapeGoat.Factor | src/binary_tree/scapegoat.hpp:30-86 | factor(q) is ⌊log base 3/2 of q⌋, the integer meaning of ⌊2.4663… · ln q⌋, and is at least 1 from q = 2 |
| ScapeGoat.Pack | src/binary_tree/scapegoat.hpp:59-65 | pack appends the subtree's keys in order to what is already in the array |
| ScapeGoat.Build | src/binary_tree/scapegoat.hpp:67-81 | rebuilding from the array around its middle gives a weighted tree of the same keys in which sibling sizes differ by at most one |
| ScapeGoat.Rebuilt | src/binary_tree/scapegoat.hpp:40-57 | rebuild(u) keeps u's keys and makes the subtree perfectly balanced and weighted |
| ScapeGoat.BalancedHeight | src/binary_tree/scapegoat.hpp:67-81 | a perfectly balanced tree of weight w has height at most log2(w) + 1 |
| ScapeGoat.RebuildLevel | src/binary_tree/scapegoat.hpp:96-101 | updating weights up the whole path is updating up to a level and then from there |
| ScapeGoat.Climb | src/binary_tree/scapegoat.hpp:98-101 | the climb from the new leaf's father stops at a node w, below the root's child, whose father is the first with 3·weight(w) > 2·weight(father), or at the root's child |
| ScapeGoat.RebuildAt | src/binary_tree/scapegoat.hpp:40-57 | rebuilding the subtree at a level of the path keeps the keys of the whole tree and its weights |
| ScapeGoat.SameKeysUp | src/binary_tree/scapegoat.hpp:40-57 | a subtree replaced by one with the same keys leaves the keys of the whole tree unchanged |
| ScapeGoat.SuffixWeighted | src/binary_tree/scapegoat.hpp:96 | the upper part of a weighted path is weighted |
| ScapeGoat.Insert | src/binary_tree/scapegoat.hpp:88-144 | insert keeps the tree ordered and weighted, adds x, reports true exactly when x was absent, and then raises both n and q; otherwise nothing changes |
| ScapeGoat.NonEmptyDepth | src/binary_tree/scapegoat.hpp:97-99 | a new leaf deeper than factor(q) has a father and a grandfather, so the climb's start is well defined |
| ScapeGoat.InsertLeaf | src/binary_tree/scapegoat.hpp:93-96 | the new leaf at the found position sits in order and the tree stays weighted |
| ScapeGoat.Erase | src/binary_tree/scapegoat.hpp:146-158 | erase keeps the tree ordered and weighted, removes x and lowers n when x was present; q resets to 0 on an empty tree, to n with the whole tree rebuilt balanced when 2n < q, and is kept otherwise |
| ScapeGoat.EraseKeys | src/binary_tree/scapegoat.hpp:148 | the base erase of a present key leaves the keys ascending without x and one fewer |
| BinomialHeap.BoundHolds | src/heap/binomial_heap.hpp:30-39 | a bound that every node below respects bounds every value there |
| BinomialHeap.ChainSize | src/heap/binomial_heap.hpp:30-39 | a binomial tree of rank k has 2^k nodes |
| BinomialHeap.EmptyIffZero | src/heap/binomial_heap.hpp:210-226 | a valid heap has no trees exactly when its size is 0 |
| BinomialHeap.Link | src/heap/binomial_heap.hpp:30-39 | link hangs the tree with the larger root under the other, whose rank grows by one; the values are the union and two trees of equal rank give a tree |
| BinomialHeap.LinkTree | src/heap/binomial_heap.hpp:34-37 | putting l first among w's children keeps all values and, when w's root is not larger, the heap order |
| BinomialHeap.InsertTree | src/heap/binomial_heap.hpp:51-60 | insert_tree adds the tree's values to the list, carrying while the first rank matches |
| BinomialHeap.InsertTreeShape | src/heap/binomial_heap.hpp:51-60 | carrying a tree of rank at most the first keeps the list a list of binomial trees of strictly increasing rank |
| BinomialHeap.Push | src/heap/binomial_heap.hpp:62-65 | push keeps the heap valid, adds x and grows the size by one |
| BinomialHeap.AppendTree | src/heap/binomial_heap.hpp:73-85 | append_tree adds the tree's values, linking it with the tail when their ranks match |
| BinomialHeap.LinkedLast | src/heap/binomial_heap.hpp:75-78 | linking the tail with x keeps the values of the output and x |
| BinomialHeap.AppendTreeShape | src/heap/binomial_heap.hpp:73-85 | appending a tree of rank k to an output that fits k keeps the output's ranks increasing and fitting k + 1 |
| BinomialHeap.SnocShape | src/heap/binomial_heap.hpp:80-82 | a tree of rank above the tail's appended to a valid list keeps it valid |
| BinomialHeap.FrontShape | src/heap/binomial_heap.hpp:75-78 | the list without its tail is still valid, and the tail has the largest rank |
| BinomialHeap.AppendTrees | src/heap/binomial_heap.hpp:87-97 | append_trees adds all values of the appended list |
| BinomialHeap.AppendTreesShape | src/heap/binomial_heap.hpp:87-97 | appending a valid list to an output that fits its first rank keeps the output valid |
| BinomialHeap.TailShape | src/heap/binomial_heap.hpp:41-49 | extracting the first tree leaves a valid list of larger ranks |
| BinomialHeap.FitsUp | src/heap/binomial_heap.hpp:73-85 | an output that fits rank k fits every larger rank |
| BinomialHeap.MergeLoop | src/heap/binomial_heap.hpp:103-134 | the merge loop's output holds the values of what it had and both inputs |
| BinomialHeap.Merge | src/heap/binomial_heap.hpp:99-136 | merge holds exactly the values of both lists |
| BinomialHeap.MergeLoopShape | src/heap/binomial_heap.hpp:103-134 | with the output's ranks below both inputs, the merge loop keeps the output a valid list |
| BinomialHeap.BelowNext | src/heap/binomial_heap.hpp:103-124 | an output that fits a rank at most an input's first rank lies below that input |
| BinomialHeap.MergeShape | src/heap/binomial_heap.hpp:99-136 | merging two valid lists gives a valid list |
| BinomialHeap.Meld | src/heap/binomial_heap.hpp:234-238 | meld(that) with the size repaired leaves this holding both heaps' values with the summed size and that empty with size 0 |
| BinomialHeap.MeldAsWritten | src/heap/binomial_heap.hpp:234-238 | as written, this is the same, but that keeps its old size, so it is valid only when it was already empty |
| BinomialHeap.MeldKeepsSize | src/heap/binomial_heap.hpp:234-238 | melding {7} into an empty heap leaves that with no trees but size 1; repaired its size is 0 |
| BinomialHeap.RootValues | src/heap/binomial_heap.hpp:171-178 | the roots' values, one per tree, in list order |
| BinomialHeap.MinIndex | src/heap/binomial_heap.hpp:149-176 | the scan picks a root with the least value, the first one among equals since it replaces only on strictly less |
| BinomialHeap.Top | src/heap/binomial_heap.hpp:171-217 | top is a held value and at most every held value |
| BinomialHeap.TopLeast | src/heap/binomial_heap.hpp:171-178 | the least root bounds every value of every tree |
| BinomialHeap.TreeBound | src/heap/binomial_heap.hpp:30-39 | a binomial tree's root is at most each of its values |
| BinomialHeap.InList | src/heap/binomial_heap.hpp:171-178 | a held value is in one of the trees |
| BinomialHeap.Nodes | src/heap/binomial_heap.hpp:138-147 | the sibling chain under a root as a list of trees, holding the same values |
| BinomialHeap.ChainNodes | src/heap/binomial_heap.hpp:138-182 | the children of a rank-k root are k binomial trees of ranks k-1 down to 0 |
| BinomialHeap.ReverseValues | src/heap/binomial_heap.hpp:138-147 | reversing a list keeps its values |
| BinomialHeap.RemoveAtValues | src/heap/binomial_heap.hpp:162-168 | cutting tree k out of the list removes exactly its values |
| BinomialHeap.PopList | src/heap/binomial_heap.hpp:180-187 | pop on a list removes exactly one copy of the least root value |
| BinomialHeap.PopValues | src/heap/binomial_heap.hpp:181-184 | merging the other trees with the reversed children of tree k loses only tree k's root |
| BinomialHeap.PopShape | src/heap/binomial_heap.hpp:180-187 | pop on a valid list gives a valid list |
| BinomialHeap.RestShape | src/heap/binomial_heap.hpp:162-168 | the list without tree k is valid |
| BinomialHeap.KidsShape | src/heap/binomial_heap.hpp:138-182 | the reversed children of a binomial tree are a valid list |
| BinomialHeap.Pop | src/heap/binomial_heap.hpp:223-226 | pop keeps the heap valid, removes one copy of top() and shrinks the size by one |
| BinomialHeap.DrainSorted | src/heap/binomial_heap.hpp:215-226 | popping the heap until it is empty yields its values in non-decreasing order |
| BinomialHeap.PutBack | src/heap/binomial_heap.hpp:215-226 | the least value followed by the rest is the whole multiset, in order from it |
| BinomialHeap.SizeIsRanks | src/heap/binomial_heap.hpp:30-60 | a list of binomial trees holds the sum of 2^rank values |
| BinomialHeap.CopyNode | src/heap/binomial_heap.hpp:198-207 | copying a node with its sibling and child lists gives the same values, ranks and shape |
| BinomialHeap.CopyRoots | src/heap/binomial_heap.hpp:198-207 | copying the root list gives the same trees in the same order |
| BinomialHeap.Copy | src/heap/binomial_heap.hpp:242-252 | the copy constructor and copy assignment give the same trees, values and size, valid when the original is |
| PairingHeap.Values | src/heap/pairing_heap.hpp:9-18 | a heap holds no values exactly when it is empty |
| PairingHeap.Root | src/heap/pairing_heap.hpp:61-69 | a node cut from its sibling list keeps its value and its subtree's values, and the list keeps the rest |
| PairingHeap.AtLeastValues | src/heap/pairing_heap.hpp:61-69 | a bound holds at every node exactly when it bounds every value |
| PairingHeap.BoundHolds | src/heap/pairing_heap.hpp:61-69 | a bound that holds at every node bounds every value |
| PairingHeap.BoundFound | src/heap/pairing_heap.hpp:61-69 | a bound on every value holds at every node |
| PairingHeap.Merge | src/heap/pairing_heap.hpp:61-70 | merge of two roots is a root holding both heaps' values, heap-ordered when both were, whose value is the smaller root value |
| PairingHeap.Link | src/heap/pairing_heap.hpp:64-69 | pushing l to the front of w's children keeps w's value and holds both heaps' values |
| PairingHeap.LinkOrdered | src/heap/pairing_heap.hpp:64-69 | that link keeps the heap order when w's value is not larger |
| PairingHeap.Lower | src/heap/pairing_heap.hpp:61-69 | a lower bound stays a bound when lowered |
| PairingHeap.Push | src/heap/pairing_heap.hpp:192-195 | push keeps the heap valid, adds x and grows the size by one |
| PairingHeap.Top | src/heap/pairing_heap.hpp:81-83 | top is a held value and at most every held value |
| PairingHeap.Nth | src/heap/pairing_heap.hpp:53-59 | the i-th node of a sibling list is a node |
| PairingHeap.Nodes | src/heap/pairing_heap.hpp:53-59 | a sibling list as a sequence of its nodes, as long as the list |
| PairingHeap.RemoveNode | src/heap/pairing_heap.hpp:53-59 | remove_node drops exactly node i of the list, with its subtree, and keeps the heap order of the rest |
| PairingHeap.RemoveNodeStep | src/heap/pairing_heap.hpp:56-57 | relinking the node before x past it removes x from the list |
| PairingHeap.FirstPass | src/heap/pairing_heap.hpp:109-113 | the first pass merges the children in pairs, pushing each pair to the front of a list that holds all their values |
| PairingHeap.FirstPassValues | src/heap/pairing_heap.hpp:110-112 | merging the first two children leaves a root and the rest of the list, with all values kept |
| PairingHeap.SecondPass | src/heap/pairing_heap.hpp:115-118 | the second pass merges the list into one root that holds all its values, heap-ordered when they were |
| PairingHeap.PopTree | src/heap/pairing_heap.hpp:107-121 | pop on a tree removes exactly its root value and keeps the heap order |
| PairingHeap.Pop | src/heap/pairing_heap.hpp:214-217 | pop keeps the heap valid, removes one copy of top() and shrinks the size by one |
| PairingHeap.Meld | src/heap/pairing_heap.hpp:203-208 | merge(that) leaves this holding both heaps' values with the summed size, and that empty with size 0 |
| PairingHeap.IsEmpty | src/heap/pairing_heap.hpp:219 | is_empty holds exactly when the size is 0 |
| PairingHeap.DrainSorted | src/heap/pairing_heap.hpp:188-217 | popping the heap until it is empty yields its values in non-decreasing order |
| PairingHeap.At | src/heap/pairing_heap.hpp:127-145 | a held node, named by its path of child indices, is a node |
| PairingHeap.ReplaceNth | src/heap/pairing_heap.hpp:86-93 | replacing node i of a list by y swaps exactly their subtrees' values and keeps the order when y is ordered |
| PairingHeap.Detach | src/heap/pairing_heap.hpp:88-90 | cutting the held node out of its father's children leaves the root and the cut subtree, which together hold all values, both heap-ordered |
| PairingHeap.NthOrdered | src/heap/pairing_heap.hpp:53-59 | the subtree of node i is heap-ordered and holds part of the list's values |
| PairingHeap.DecreaseKey | src/heap/pairing_heap.hpp:86-139 | re_push replaces the held node's value by key with the size unchanged, and keeps the heap valid when key is not larger |
| PairingHeap.PopAsWritten | src/heap/pairing_heap.hpp:107-121 | pop as written builds the repaired heap, but the new root's parent pointer still names the destroyed root exactly when the heap is not empty |
| PairingHeap.DecreaseKeyAsWritten | src/heap/pairing_heap.hpp:86-94 | re_push as written reaches the destroyed father exactly when the held node is the root with a stale parent, and otherwise acts as the repaired re_push |
| PairingHeap.CopyNode | src/heap/pairing_heap.hpp:38-46 | copying a node with its child and next lists gives the same values and shape |
| PairingHeap.Copy | src/heap/pairing_heap.hpp:171-181 | the copy constructor and copy assignment give the same tree, values and size, valid when the original is |
| PairingHeap.PopLeavesFather | src/heap/pairing_heap.hpp:86-121 | pushing 1 and 2 then popping leaves 2 as the root with a stale parent, so re_push(0) on it reaches the destroyed node; repaired it gives the root 0 |
| FibHeap.RootLeast | src/heap/fib_heap.hpp:169-176 | the root of a heap-ordered tree is at most each of its values |
| FibHeap.LeastRoot | src/heap/fib_heap.hpp:209-215 | a root no larger than any other root is the least held value |
| FibHeap.RemoveNode | src/heap/fib_heap.hpp:138-153 | remove_node drops exactly node i from the list, keeping the others in order, and empties a one-node list |
| FibHeap.Link | src/heap/fib_heap.hpp:169-176 | link makes the larger root an unmarked last child of the smaller, raising its degree by one and keeping both trees' values and the heap order |
| FibHeap.Adopt | src/heap/fib_heap.hpp:171-174 | appending l as an unmarked child of w keeps w's value and mark, raises its degree by one, and holds both trees' values |
| FibHeap.Update | src/heap/fib_heap.hpp:253-254 | writing a node named by its path replaces exactly that subtree and leaves the other roots alone |
| FibHeap.ParentOf | src/heap/fib_heap.hpp:221-255 | a node's parent is the node one step up its path, and holds it as a child |
| FibHeap.UpdateOrdered | src/heap/fib_heap.hpp:253-259 | writing an ordered subtree no smaller than its parent keeps every tree heap-ordered |
| FibHeap.Without | src/heap/fib_heap.hpp:222-223 | the parent with the node removed from its children keeps its value and mark, loses one degree and holds the rest of its values |
| FibHeap.Cut | src/heap/fib_heap.hpp:220-227 | cut moves the node, unmarked, to the end of the root list and removes it from its parent, keeping every value |
| FibHeap.CutOrdered | src/heap/fib_heap.hpp:220-227 | cut keeps every tree heap-ordered |
| FibHeap.CascadingCut | src/heap/fib_heap.hpp:230-240 | cascading_cut only appends roots, keeps every root value and every held value |
| FibHeap.CascadingCutStep | src/heap/fib_heap.hpp:233-237 | an unmarked node is marked in place; a marked node is cut and lands, unmarked, on the root list |
| FibHeap.CascadingOrdered | src/heap/fib_heap.hpp:230-240 | cascading_cut keeps every tree heap-ordered |
| FibHeap.Place | src/heap/fib_heap.hpp:201-207 | linking a tree into the degree table until its slot is free keeps slot d for degree-d ordered trees and adds the tree's values |
| FibHeap.Put | src/heap/fib_heap.hpp:207 | `a[d] = x` on a free slot keeps the table of one tree per degree well formed, adds exactly x's values, and leaves x in slot d, growing the table only when it is too short |
| FibHeap.Fill | src/heap/fib_heap.hpp:198-208 | the first loop of consolidate files every root in the table, keeping all their values |
| FibHeap.Collect | src/heap/fib_heap.hpp:209-215 | reading the table back in slot order yields exactly its values |
| FibHeap.CollectShape | src/heap/fib_heap.hpp:209-215 | the roots read back are heap-ordered with strictly increasing degrees |
| FibHeap.Consolidate | src/heap/fib_heap.hpp:190-217 | consolidate keeps every value, leaves no two roots of one degree, is empty only on an empty list, and names the least root |
| FibHeap.MaxDegree | src/heap/fib_heap.hpp:179-187 | max_degree(n) is d with d + 2 the least index k >= 2 whose Fibonacci number reaches n |
| FibHeap.FibPositive | src/heap/fib_heap.hpp:179-187 | Fibonacci numbers from the first on are positive, so the loop's bound grows |
| FibHeap.Empty | src/heap/fib_heap.hpp:29-64 | a new heap is valid and holds nothing |
| FibHeap.IsEmpty | src/heap/fib_heap.hpp:394-396 | is_empty and empty hold exactly when the count is zero |
| FibHeap.Top | src/heap/fib_heap.hpp:345-347 | top is a held value and the least one |
| FibHeap.Push | src/heap/fib_heap.hpp:160-166 | push keeps the heap valid, adds x, grows the count by one and makes x the top exactly when it is below the old top |
| FibHeap.PushValid | src/heap/fib_heap.hpp:161-164 | appending a one-node tree and moving min_tree to it exactly when it is smaller keeps the heap valid |
| FibHeap.Merge | src/heap/fib_heap.hpp:350-365 | merge leaves this valid with both heaps' values and summed count, and that empty with count 0 |
| FibHeap.MergeValid | src/heap/fib_heap.hpp:360-362 | concatenating the root lists and keeping the smaller min_tree gives a valid heap |
| FibHeap.Pop | src/heap/fib_heap.hpp:368-386 | pop on a non-empty heap removes exactly one copy of top, shrinks the count by one and leaves roots of distinct degrees; on an empty heap it does nothing |
| FibHeap.PopValues | src/heap/fib_heap.hpp:372-381 | moving the least root's children to the root list and removing it leaves every other value |
| FibHeap.DrainSorted | src/heap/fib_heap.hpp:345-386 | popping until empty yields the heap's values in non-decreasing order |
| FibHeap.RePush | src/heap/fib_heap.hpp:253-261 | re_push replaces the held value by key with the count unchanged, and when key is not larger keeps the heap valid with top the smaller of key and the old top |
| FibHeap.RePushCut | src/heap/fib_heap.hpp:256-260 | the cutting branch of re_push keeps values and validity |
| FibHeap.RePushInPlace | src/heap/fib_heap.hpp:254-260 | the in-place branch of re_push keeps values and validity |
| FibHeap.PopAsWritten | src/heap/fib_heap.hpp:368-386 | pop as written gives the same heap, but min_tree is left naming the deleted node exactly when the last value is popped |
| FibHeap.PushAsWritten | src/heap/fib_heap.hpp:161-165 | push as written reads through a freed min_tree exactly when one is left, and otherwise keeps min_tree on the least root |
| FibHeap.PopLastDangles | src/heap/fib_heap.hpp:368-386 | pushing 1, popping it and pushing 5 reads the freed node as written, while the repaired heap has 5 on top |

## Left out

- Input/output, `display`/`to_vec`/statistics helpers, `MEMORY_LEAK_TEST` and `DEBUG` counters, and the custom allocator hooks: they have no effect on the modelled state.
- Move constructors, move assignment and destructors of every container: these are only ownership transfers and deallocation. Copy constructors and copy assignment are modelled where the core defines them (`OptimizedVector.Copy`, `BinomialHeap.Copy`, `PairingHeap.Copy`, `VanEmdeBoas.Copy`); the fib heap and the object pool delete theirs.
- Comparators other than the default `std::less`: keys are `int` (or `nat`) under `<`, and `emplace`/`re_emplace` forms are the same as their value forms.
- The `BSTree`/`BSTNode` base that the AVL, red-black, treap, splay and scapegoat headers derive from is not part of this model. Its `find_last`, `adopt`, `splice`, `rotate` and `replace_with` helpers are given their textbook meaning over the `Trees` zipper.
- The hash tables built by `HASH_BUILDER` in the x-fast and y-fast tries are abstracted: the x-fast level maps are derived from the stored values, and the y-fast x-fast layer is the ordered list of its leaves.
- Randomness (`rand()`, random engines) is a parameter of the operations that use it; no distribution is modelled.
- RootishStack.Erase: requires `index < n`. `erase` does no bounds check, so an index past the end calls `destroy_at` on an arbitrary slot, and `n--` wraps around at 0. This undefined behaviour is excluded rather than modelled.
- RootishStack.I2B: the floating-point `ceil((-3 + sqrt(9 + 8i)) / 2)` is modelled by its exact integer meaning, the block that holds index i.
- OptimizedVector.PopBack: on an empty vector the wrapped-around `size() - 1` is modelled only through `mark_size` refusing it; `size_t` arithmetic is not modelled elsewhere.
- ScapeGoat.Factor: the floating-point `(int)(2.4663034623764317 * log(q))` is modelled as the exact floor of the base-3/2 logarithm of q, which the constant 1 / ln 1.5 computes; rounding of the `double` computation is not modelled.
- RbTree.Del: the `delete_fix` loop has no bound in the source; the model bounds it by a `fuel` argument, and `RbTree.Erase` passes twice the element count. On a red-black tree that is always enough (`RbTree.DelRedBlack`). On a tree that is not red-black, the source's loop can spin forever on a doubly black sibling, and the model then stops when the fuel runs out.
- PairingHeap.Merge: requires both arguments to be lone roots, with no `next` sibling, and the model's callers detach them first. The source's callers pass nodes whose `next` is still live: the pair in the first pass of `pop`, the list head in the second pass, and the node `push_decreased_key` cuts out. The model stays faithful because `merge` overwrites both `next` fields whenever both arguments are non-null. When one argument is null, the other's `next` is already null or is overwritten by the next merge.
- PairingHeap.Top: requires a non-empty heap. `top()` on an empty heap dereferences a null root, which is not modelled.
- PairingHeap.Pop: requires a non-empty heap. `pop()` on an empty heap dereferences a null root, which is not modelled.
- PairingHeap.DecreaseKey: the held node is named by its path from the root; `value_holder` handles that outlive a `pop` of their node are not modelled. A key larger than the old one keeps the value bookkeeping but gives no heap-order promise, since `re_push` assumes a decrease.
- BinomialHeap.CopyNode: the `father` fields are not modelled. `copy` gives a root list node the `father` it was passed and a child the original node `h` (line 205), not its copy; nothing in binomial_heap.hpp reads `father`, so this has no effect.
- PairingHeap.CopyNode: the `parent` fields are not modelled. `copy` sets `parent` only on the first child of each node, and the later siblings get null (line 44). Only `re_push` reads `parent`, and only on a node handed out by `push_and_hold`/`emplace_and_hold`; a copied node is never handed out, and a node pushed afterwards gets its `parent` from `merge`, so no `re_push` reaches a null set by `copy`.
- VanEmdeBoas.Copy: steps with the repaired `succ`. As written the copy constructor iterates the source tree, so copying {0, 3} at degree 2 faults like iteration does (VanEmdeBoas.MissingClusterDeref).
- BinomialHeap.Top: requires a non-empty heap. `top()` on an empty heap dereferences a null pointer, which is not modelled.
- BinomialHeap.Pop: requires a non-empty heap. The empty case is not modelled.
- FibHeap.Top: requires a non-empty heap. `top()` on an empty heap reads through a null `min_tree`, which is not modelled.
- FibHeap.RePush: the held node is named by its path. Validity is promised only when the key does not grow, because `re_push` assumes a decrease.
- FibHeap.Consolidate: the degree table is as long as needed. The source's `max_degree(size) + 2` slots are modelled separately by `FibHeap.MaxDegree`, and no degree bound linking the two is proved.
- VanEmdeBoas.Insert: requires `x < 2^d`. Out-of-range keys reach clusters outside the tree, which is not modelled.
- VanEmdeBoas.Pred: at degree 1 requires `x < 2`, matching the base case's two-slot layout.
- VanEmdeBoas: the per-node `address_map` is a map from cluster index to child node, and the signed `Int` keys are non-negative. The model uses the corrected `low` everywhere except in `VanEmdeBoas.LowAsWritten`.
- YTreap.Insert: the priority is a parameter instead of a random draw.
- YFastTrie: the iterator's `operator--` is not modelled; forward iteration is (`YFastTrie.Iterate`).
- BinaryTreeBase: `operator[]` and `emplace` forms are not modelled; they reduce to `find`/`insert`.

## Findings

| source | as written | input that shows it | evidently intended | confidence | as-written member | corrected member |
|---|---|---|---|---|---|---|
| src/array_like/optimized_vector.hpp:328-330 | growing `resize` constructs every slot 0..target-1 from `value`, overwriting the existing elements | a vector [1] resized to 2 with value 0 becomes [0, 0] | only the new slots are constructed, giving [1, 0] | not executed | OptimizedVector.ResizeOverwrites | OptimizedVector.Enlarge |
| src/array_like/rootish_stack.hpp:225-228 | `end()` is the first slot of block r, one past the last block, so iteration runs over unconstructed spare slots | two `push_back`s: r = 2 gives 3 slots for 2 elements | `end()` is one past the last element | not executed | RootishStack.TwoPushesOvershoot | RootishStack.IterationYieldsElements |
| src/list_based/single_linked_list.hpp:258-261 | `pop_back` on a one-element list writes `head == nullptr; tail == nullptr;`, two comparisons whose results are discarded, so both `head` and `tail` keep the freed node | push_back(1), pop_back() | the list becomes empty with null head and tail | not executed | SingleList.PopLastLeavesDanglingHead | SingleList.PopBackDropsLast |
| src/list_based/single_linked_list.hpp:280-281 | `erase` of the last node compares `tail == ...` instead of assigning, so `tail` keeps the removed node | a two-element list: erase the last, then push_back | tail moves to the previous node and the pushed value is reachable | not executed | SingleList.EraseLastLosesNextPush | SingleList.EraseRemoves |
| src/list_based/xor_list.hpp:403-408 | `pop_back` of the only node resets `tail` but not `head` | push_back(1), pop_back() | both ends become null | not executed | XorList.PopLastLeavesHead | XorList.PopBackDropsLast |
| src/list_based/xor_list.hpp:416-421 | `erase` of the only node resets `tail` but leaves `head` on the unlinked node | a one-element list: erase(begin()) | both ends become null | not executed | XorList.EraseOnlyLeavesHead | XorList.EraseLastRemoves |
| src/list_based/xor_list.hpp:151-156 | the reverse iterator's `++` moves the node but never updates `order`, so `rend() - it` stays `size` | any non-empty list: `size` steps from `rbegin()` | the iterator reaches `rend()`, order included | not executed | XorList.ReverseIterationReachesREnd | XorList.ReverseStep |
| src/list_based/skip_list.hpp:69, 260-275 | `succ` on a list that never held a node reads `next[0]` of a sentinel with no levels | a fresh list: succ(0) | no successor | not executed | SkipList.SuccAsWrittenOnEmpty | SkipList.Succ |
| src/integer/binary_trie.hpp:185-203 | a new minimum has no predecessor, and `insert` takes the new leaf's successor link from that null predecessor, so the leaf is linked to nothing | bit 2 holding {3}: insert 0 | the new leaf links to its successor 3 | not executed | BinaryTrie.InsertAsWrittenUnlinks | BinaryTrie.InsertGood |
| src/integer/binary_trie.hpp:121-123 | when the descent stops at a missing 1-child, `pred` takes the leaf before the jump target, though the jump already names the predecessor | bit 2 holding {0}: pred(2) gives none | pred(2) is 0 | not executed | BinaryTrie.PredAsWrittenMisses | BinaryTrie.Pred |
| src/integer/binary_trie.hpp:246-248 | `erase` resets an ancestor's jump to `m[!c]`, the wrong neighbour | bit 2 holding {2, 3}: erase 2 leaves the root with no jump, so succ(1) gives none | the root jumps to 3 | not executed | BinaryTrie.EraseAsWrittenLosesJump | BinaryTrie.EraseGood |
| src/integer/binary_trie.hpp:242-243 | `erase` returns at the root before `n--` | bit 2 holding {0}: erase 0 | the count drops to 0 | not executed | BinaryTrie.EraseAsWrittenKeepsSize | BinaryTrie.Erase |
| src/integer/binary_trie.hpp:144-174 | on an empty trie the root has no children, so the loop of `min`/`max` steps to a null `links[0]`/`links[1]` and dereferences it on the next round; a 1-bit trie ends the loop first and returns no value | a fresh 2-bit trie: min() | no minimum | not executed | BinaryTrie.MinAsWritten | BinaryTrie.Min |
| src/integer/x_fast_trie.hpp:164-165, 184 | `contains`/`pred` on a trie that never held a value follow a null root jump | a fresh trie: contains(0) | false, and no predecessor | not executed | XFastTrie.ContainsAsWritten | XFastTrie.Contains |
| src/integer/x_fast_trie.hpp:184-190, 301 | after erase empties the trie the root jumps to `dummy`, and `pred` returns `dummy`'s uninitialised value | insert 0, erase 0, pred(1) | no predecessor | not executed | XFastTrie.PredAsWritten | XFastTrie.Pred |
| src/integer/x_fast_trie.hpp:303-304 | `erase` returns at the root before `n -= 1` | bit 2 holding {0}: erase 0 | the count drops to 0 | not executed | XFastTrie.EraseAsWrittenKeepsSize | XFastTrie.Erase |
| src/integer/x_fast_trie.hpp:299-309 | `erase` resets an ancestor's jump to `m[!c]`, which can be `dummy` in a non-empty trie | bit 2 holding {2, 3}: erase 2, then pred(1) reads the dummy | the root jumps to 3 | not executed | XFastTrie.EraseAsWrittenJumpsToDummy | XFastTrie.Erase |
| src/integer/y_fast_trie.hpp:313, 169-170 | erasing a representative decrements `n` twice, once here and once in `x_erase` | 4-bit trie with leaves 5, 7, 15: erase(5) | the count drops by one | not executed | YFastTrie.EraseMiscounts | YFastTrie.EraseCountsOnce |
| src/integer/y_fast_trie.hpp:194-195 | `locate` (`repaired == false`) on a trie whose x-fast layer never held a value follows a null jump | a fresh trie: contains(0) | no leaf is found | not executed | YFastTrie.Locate | YFastTrie.Locate |
| src/integer/y_fast_trie.hpp:297-298 | `max` (`repaired == false`) on a lone leaf with an empty treap steps to the sentinel, whose treap is null | insert 5, erase 5, then max(): the top leaf stays, with an empty treap | no maximum | not executed | YFastTrie.Max | YFastTrie.Max |
| src/integer/y_fast_trie.hpp:395 | `begin()` (`repaired == false`) calls `end()` when the trie is empty but does not return it, then reads the sentinel's null treap | a fresh trie: begin() | `begin()` returns `end()` | not executed | YFastTrie.Iterate | YFastTrie.Iterate |
| src/integer/van_emde_boas.hpp:78-82 | `low` keeps d/2 + 1 bits instead of d/2 | degree 2, x = 2: high 1, low 2, index(1, 2) = 4 | index(high(x), low(x)) == x | not executed | VanEmdeBoas.LowBreaksIndex | VanEmdeBoas.IndexRoundTrip |
| src/integer/van_emde_boas.hpp:151, 174 | `succ`/`pred` use the looked-up cluster without checking that it exists, and iteration (`operator++` at line 287) and the copy constructor step with `succ` | degree 2 holding {0, 3}: succ(1) and pred(1) read the never-created cluster 0, and iterating from begin() = 0 faults on the first `++`, whose succ(0) reads it too | succ(1) is 3, pred(1) is 0, and iteration yields 0 then 3 | not executed | VanEmdeBoas.MissingClusterDeref | VanEmdeBoas.SuccCorrect |
| src/integer/van_emde_boas.hpp:124-136 | inserting the current minimum again pushes a copy of it into a cluster, since only `x < _min` is tested | degree 2 holding {0, 1}: insert 0 puts 0 into cluster 0 | inserting a present value changes nothing | not executed | VanEmdeBoas.DuplicateInsert | VanEmdeBoas.InsertCorrect |
| src/integer/van_emde_boas.hpp:192-193 | `erase` of an absent value in a one-value node empties the node | degree 2 holding {3}: erase 1 empties the tree | erasing an absent value changes nothing | not executed | VanEmdeBoas.EraseAbsentEmpties | VanEmdeBoas.EraseCorrect |
| src/binary_tree/binary_tree_base.hpp:142-162 | `succ_node` returns the maximum of the left subtree, the in-order predecessor, and `pred_node` the successor | the tree {1, 2, 3} rooted at 2: `succ_node` of the root gives 1 | `succ_node` returns the in-order successor | not executed | BinaryTreeBase.SuccNodeGoesBack | BinaryTreeBase.SuccNode |
| src/binary_tree/binary_tree_base.hpp:205-207 | `erase` of an absent key unlinks the null node `find_node` returns | an empty tree: erase(k) | nothing changes | not executed | BinaryTreeBase.EraseMissing | BinaryTreeBase.Erase |
| src/binary_tree/rb_tree.hpp:264-288 | erasing a root with one child leaves `root` naming the freed node | insert 1, insert 2, erase 1 | the child becomes the black root | not executed | RbTree.EraseRootDangles | RbTree.Erase |
| src/heap/pairing_heap.hpp:107-121, 88 | `pop` never clears the new root's `parent`, so a later `re_push` on it reaches the destroyed node | push 1, push 2, pop, then re_push(0) on 2 | the new root has no parent and becomes 0 | not executed | PairingHeap.CopyNode | src/heap/pairing_heap.hpp:38-46 | copying a node with its child and next lists gives the same values and shape |
| PairingHeap.Copy | src/heap/pairing_heap.hpp:171-181 | the copy constructor and copy assignment give the same tree, values and size, valid when the original is |
| PairingHeap.PopLeavesFather | PairingHeap.DecreaseKey |
| src/heap/binomial_heap.hpp:234-238 | `merge(that)` leaves `that._size` unchanged although `that` is emptied | an empty heap merges in a heap holding 7: `that` still reports size 1 | `that` reports size 0 | not executed | BinomialHeap.MeldKeepsSize | BinomialHeap.Meld |
| src/heap/fib_heap.hpp:191-192, 368-386 | popping the last value returns from `consolidate` early and leaves `min_tree` on the deleted node, which the next `push` reads | push 1, pop, push 5 | `min_tree` becomes null when the heap empties | not executed | FibHeap.PopLastDangles | FibHeap.Pop |

=== FILE: avl_tree.dfy ===
/**
 * AVLTree (src/binary_tree/avl_tree.hpp): a search tree whose nodes store
 * the balance factor `delta`, the height of the right subtree minus that of
 * the left.  Insertion and deletion climb from the changed slot updating
 * the factors, stopping as soon as the subtree's height is back to what it
 * was, and rotate where a factor reaches 2.
 */
module AvlTree {
  import opened Sequences
  import opened Bits
  import opened Trees

  /** The tag is the balance factor `delta`. */
  type ATree = Tree<int>

  datatype AvlSet = AvlSet(root: ATree, n: nat)

  function Height(t: ATree): nat {
    if t.Nil? then 0 else 1 + (if Height(t.left) < Height(t.right) then Height(t.right) else Height(t.left))
  }

  /** Every node's factor is its subtrees' height difference and lies in -1..1. */
  ghost predicate Avl(t: ATree) {
    t.Nil? || (Avl(t.left) && Avl(t.right) && t.tag == Height(t.right) - Height(t.left) && -1 <= t.tag <= 1)
  }

  ghost predicate Valid(s: AvlSet) {
    Ascending(Inorder(s.root)) && Avl(s.root) && s.n == |Inorder(s.root)|
  }

  function Abs(d: int): nat {
    if d < 0 then -d else d
  }

  /** The child on the side a factor of 2 or -2 leans to. */
  function Heavy(p: ATree): ATree
    requires p.Node?
  {
    if p.tag == 2 then p.right else p.left
  }

  /**
   * The rotations of `insert_fix` and `delete_fix` for a node p whose factor
   * has reached 2 (the mirror for -2), with r its right child: r leaning
   * right (factor 1), one left rotation, both factors 0; r leaning left,
   * a right rotation at r then a left one at p, the factors set from r's
   * left child's factor dy; r balanced, which only deletion meets, a
   * left rotation with p's factor 1 and r's lowered by one.  Any other node
   * is left alone.
   */
  function Rebalance(p: ATree, deleting: bool): (r: ATree)
    requires p.Node?
    ensures Inorder(r) == Inorder(p)
  {
    if p.tag == 2 && p.right.Node? then
      var a, r := p.left, p.right;
      if r.tag == 1 then
        RotateLeft(Node(a, p.key, 0, Node(r.left, r.key, 0, r.right)))
      else if r.tag == -1 && r.left.Node? then
        var dy := r.left.tag;
        var y := Node(r.left.left, r.left.key, 0, r.left.right);
        assert Inorder(Node(y, r.key, if dy == -1 then 1 else 0, r.right)) == Inorder(r);
        RotateLeft(Node(a, p.key, if dy == 1 then -1 else 0,
          RotateRight(Node(y, r.key, if dy == -1 then 1 else 0, r.right))))
      else if deleting then
        RotateLeft(Node(a, p.key, 1, Node(r.left, r.key, r.tag - 1, r.right)))
      else p
    else if p.tag == -2 && p.left.Node? then
      var l, c := p.left, p.right;
      if l.tag == -1 then
        RotateRight(Node(Node(l.left, l.key, 0, l.right), p.key, 0, c))
      else if l.tag == 1 && l.right.Node? then
        var dy := l.right.tag;
        var y := Node(l.right.left, l.right.key, 0, l.right.right);
        assert Inorder(Node(l.left, l.key, if dy == 1 then -1 else 0, y)) == Inorder(l);
        RotateRight(Node(RotateLeft(Node(l.left, l.key, if dy == 1 then -1 else 0, y)), p.key,
          if dy == -1 then 1 else 0, c))
      else if deleting then
        RotateRight(Node(Node(l.left, l.key, l.tag + 1, l.right), p.key, -1, c))
      else p
    else p
  }

  /**
   * `insert_fix(t, parent, x)`: x is the subtree hanging below the first
   * frame, one level taller than before.  The father's factor moves one
   * step towards x: from 1 or -1 to 0 the climb stops, from 0 to 1 or -1 it
   * goes on with the father, and anything else is rebalanced and stops.
   */
  function InsertFix(path: seq<Frame<int>>, x: ATree): (r: ATree)
    decreases |path|
    ensures Inorder(r) == Inorder(Plug(path, x))
  {
    if |path| == 0 then x
    else
      var f := path[0];
      var p := Grown(f, x);
      PlugSame(path[1..], p, Attach(f, x));
      if Abs(f.tag) == 1 && Abs(p.tag) == 0 then Plug(path[1..], p)
      else if Abs(f.tag) == 0 && Abs(p.tag) == 1 then InsertFix(path[1..], p)
      else
        PlugSame(path[1..], Rebalance(p, false), p);
        Plug(path[1..], Rebalance(p, false))
  }

  /** The father of x in one step of `insert_fix`, its factor moved one step towards x. */
  function Grown(f: Frame<int>, x: ATree): (p: ATree)
    ensures p.Node? && p.key == f.key && Inorder(p) == Inorder(Attach(f, x))
  {
    Attach(Frame(f.wentLeft, f.key, f.tag + (if f.wentLeft then -1 else 1), f.other), x)
  }

  /**
   * `delete_fix(t, parent, x)`: x is the subtree below the first frame, one
   * level shorter than before, possibly empty.  The side is found by
   * comparing x with the father's left child, so two empty subtrees count
   * as the left one; a father left without children gets factor 0.  From 1
   * or -1 to 0 the climb goes on, from 0 to 1 or -1 it stops; a factor of 2
   * or -2 is rebalanced, and the climb stops only after the rotation of a
   * balanced sibling, which keeps the height.
   */
  function DeleteFix(path: seq<Frame<int>>, x: ATree): (r: ATree)
    decreases |path|
    ensures Inorder(r) == Inorder(Plug(path, x))
  {
    if |path| == 0 then x
    else
      var f := path[0];
      var p := Shortened(f, x);
      PlugSame(path[1..], p, Attach(f, x));
      if Abs(f.tag) == 1 && Abs(p.tag) == 0 then DeleteFix(path[1..], p)
      else if Abs(f.tag) == 0 && Abs(p.tag) == 1 then Plug(path[1..], p)
      else
        var q := Rebalance(p, true);
        PlugSame(path[1..], q, p);
        if Stops(p) then Plug(path[1..], q) else DeleteFix(path[1..], q)
  }

  /**
   * The father of x in one step of `delete_fix`, with its new factor: the
   * side is found by comparing x with the father's left child, so two
   * empty subtrees count as the left one, and a father left without
   * children gets factor 0.
   */
  function Shortened(f: Frame<int>, x: ATree): (p: ATree)
    ensures p.Node? && p.key == f.key && Inorder(p) == Inorder(Attach(f, x))
  {
    var leaf := x.Nil? && f.other.Nil?;
    var d2 := if leaf then 0 else f.tag + (if f.wentLeft || leaf then 1 else -1);
    Attach(Frame(f.wentLeft, f.key, d2, f.other), x)
  }

  /** The rebalancing that ends `delete_fix`: a factor of 2 or -2 whose heavy child is balanced. */
  predicate Stops(p: ATree)
    requires p.Node?
  {
    (p.tag == 2 || p.tag == -2) && Heavy(p).Node? && Heavy(p).tag != 1 && Heavy(p).tag != -1
  }

  /**
   * `insert(t, key)`: the descent stops on an equal key; otherwise the new
   * node, factor 0, is hung in the empty slot, n grows and the factors are
   * fixed from its father up.
   */
  function Insert(s: AvlSet, x: int): (r: (AvlSet, bool))
    requires Valid(s)
    ensures Valid(r.0) && Keys(r.0.root) == Keys(s.root) + {x}
    ensures r.1 <==> x !in Keys(s.root)
    ensures r.1 ==> r.0.n == s.n + 1
    ensures !r.1 ==> r.0 == s
  {
    FindMember(s.root, x);
    var l := Find(Loc([], s.root), x);
    if l.focus.Node? then (s, false)
    else
      var leaf := Node(Nil, x, 0, Nil);
      var t := InsertFix(l.path, leaf);
      PlugNil(l.path);
      PlugLeaf(l.path, leaf);
      InsertAscending(Before(l.path), x, After(l.path));
      ElemsInsert(Before(l.path), x, After(l.path));
      InsertFixAvl(l.path, Nil, leaf);
      (AvlSet(t, s.n + 1), true)
  }

  /**
   * `del(t, x)`: a node missing a child is replaced by the other child; a
   * node with two takes the key of its successor, the leftmost node of its
   * right subtree, and that node is replaced by its right child.  The
   * factors are then fixed from the father of the replaced node.
   */
  function Del(l: Loc<int>): (r: ATree)
    requires l.focus.Node?
    ensures Inorder(r) == Before(l.path) + Inorder(l.focus.left) + Inorder(l.focus.right) + After(l.path)
  {
    var u := l.focus;
    PlugInorder(l.path, u.right);
    PlugInorder(l.path, u.left);
    if u.left.Nil? then
      assert Before(l.path) + Inorder(u.left) == Before(l.path);
      DeleteFix(l.path, u.right)
    else if u.right.Nil? then
      assert Inorder(u.left) + Inorder(u.right) == Inorder(u.left);
      DeleteFix(l.path, u.left)
    else
      var m := MinLoc(Loc([], u.right));
      var y := m.focus;
      var path := m.path + [Frame(false, y.key, u.tag, u.left)] + l.path;
      SuccessorKeys(l, m, path);
      DeleteFix(path, y.right)
  }

  /** `erase(x)`: when the search finds x, n shrinks and its node is deleted. */
  function Erase(s: AvlSet, x: int): (r: (AvlSet, bool))
    requires Valid(s)
    ensures Valid(r.0) && Keys(r.0.root) == Keys(s.root) - {x}
    ensures r.1 <==> x in Keys(s.root)
    ensures r.1 ==> r.0.n + 1 == s.n
    ensures !r.1 ==> r.0 == s
  {
    FindMember(s.root, x);
    var l := Find(Loc([], s.root), x);
    if l.focus.Nil? then (s, false)
    else (EraseAt(s, l), true)
  }

  /** The deletion once the search has stopped on a node: its key leaves the set and n shrinks by one. */
  function EraseAt(s: AvlSet, l: Loc<int>): (r: AvlSet)
    requires Valid(s) && Whole(l) == s.root && l.focus.Node?
    ensures Valid(r) && Keys(r.root) == Keys(s.root) - {l.focus.key}
    ensures r.n + 1 == s.n
  {
    var t := Del(l);
    DelKeys(l);
    DelAvl(l);
    AvlSet(t, s.n - 1)
  }

  /** Deleting the node at a position of an ascending tree keeps it ascending, one key shorter, without that key. */
  lemma DelKeys(l: Loc<int>)
    requires l.focus.Node? && Ascending(Inorder(Whole(l)))
    ensures Ascending(Inorder(Del(l))) && |Inorder(Del(l))| + 1 == |Inorder(Whole(l))|
    ensures Keys(Del(l)) == Keys(Whole(l)) - {l.focus.key}
  {
    var t := Del(l);
    var x := l.focus.key;
    var b, a := Before(l.path) + Inorder(l.focus.left), Inorder(l.focus.right) + After(l.path);
    PlugNode(l.path, l.focus);
    Assoc(b, Inorder(l.focus.right), After(l.path));
    RemoveAscending(b, x, a);
    ElemsRemove(b, x, a);
  }

  // ---------------------------------------------------------------------
  // The balance invariant

  /** The subtree at any position of an AVL tree is one. */
  lemma {:induction false} AvlInside(path: seq<Frame<int>>, t: ATree)
    requires Avl(Plug(path, t))
    decreases |path|
    ensures Avl(t)
  {
    if |path| > 0 {
      AvlInside(path[1..], Attach(path[0], t));
    }
  }

  /** Replacing a subtree of an AVL tree by an AVL tree of the same height gives an AVL tree of the same height. */
  lemma {:induction false} AvlPlugSame(path: seq<Frame<int>>, a: ATree, b: ATree)
    requires Avl(Plug(path, a)) && Avl(b) && Height(a) == Height(b)
    decreases |path|
    ensures Avl(Plug(path, b)) && Height(Plug(path, b)) == Height(Plug(path, a))
  {
    if |path| > 0 {
      AvlInside(path[1..], Attach(path[0], a));
      AvlPlugSame(path[1..], Attach(path[0], a), Attach(path[0], b));
    }
  }

  /** The rotations for a factor of 2 leave an AVL tree, one level lower unless the heavy child was balanced. */
  lemma RebalanceAvl(p: ATree, deleting: bool)
    requires p.Node? && Avl(p.left) && Avl(p.right)
    requires (p.tag == 2 && Height(p.right) == Height(p.left) + 2) || (p.tag == -2 && Height(p.left) == Height(p.right) + 2)
    requires !deleting ==> Heavy(p).tag != 0
    ensures Avl(Rebalance(p, deleting))
    ensures Stops(p) <==> Heavy(p).tag == 0
    ensures Height(Rebalance(p, deleting)) + (if Heavy(p).tag == 0 then 0 else 1) == Height(p)
  {
    if p.tag == 2 {
      RightHeavy(p.left, p.key, p.right, deleting);
    } else {
      LeftHeavy(p.left, p.key, p.right, deleting);
    }
  }

  lemma RightHeavy(a: ATree, k: int, r: ATree, deleting: bool)
    requires Avl(a) && Avl(r) && Height(r) == Height(a) + 2
    requires !deleting ==> r.tag != 0
    ensures var p := Node(a, k, 2, r);
      Avl(Rebalance(p, deleting)) && Height(Rebalance(p, deleting)) + (if r.tag == 0 then 0 else 1) == Height(p)
  {
    var p := Node(a, k, 2, r);
    var h := Height(a);
    assert Height(p) == h + 3;
    if r.tag == 1 {
      var inner := Node(a, k, 0, r.left);
      assert Height(r.left) == h && Height(r.right) == h + 1;
      assert Height(inner) == h + 1 && Avl(inner);
      assert Rebalance(p, deleting) == Node(inner, r.key, 0, r.right);
    } else if r.tag == -1 {
      var y := r.left;
      assert Height(y) == h + 1 && Height(r.right) == h;
      assert Height(y.left) <= h && Height(y.right) <= h;
      var t1 := if y.tag == 1 then -1 else 0;
      var t2 := if y.tag == -1 then 1 else 0;
      var inner, outer := Node(a, k, t1, y.left), Node(y.right, r.key, t2, r.right);
      assert Height(inner) == h + 1 && Avl(inner);
      assert Height(outer) == h + 1 && Avl(outer);
      assert Rebalance(p, deleting) == Node(inner, y.key, 0, outer);
    } else {
      var inner := Node(a, k, 1, r.left);
      assert Height(r.left) == h + 1 && Height(r.right) == h + 1;
      assert Height(inner) == h + 2 && Avl(inner);
      assert Rebalance(p, deleting) == Node(inner, r.key, -1, r.right);
    }
  }

  lemma LeftHeavy(l: ATree, k: int, c: ATree, deleting: bool)
    requires Avl(l) && Avl(c) && Height(l) == Height(c) + 2
    requires !deleting ==> l.tag != 0
    ensures var p := Node(l, k, -2, c);
      Avl(Rebalance(p, deleting)) && Height(Rebalance(p, deleting)) + (if l.tag == 0 then 0 else 1) == Height(p)
  {
    var p := Node(l, k, -2, c);
    var h := Height(c);
    assert Height(p) == h + 3;
    if l.tag == -1 {
      var inner := Node(l.right, k, 0, c);
      assert Height(l.right) == h && Height(l.left) == h + 1;
      assert Height(inner) == h + 1 && Avl(inner);
      assert Rebalance(p, deleting) == Node(l.left, l.key, 0, inner);
    } else if l.tag == 1 {
      var y := l.right;
      assert Height(y) == h + 1 && Height(l.left) == h;
      assert Height(y.left) <= h && Height(y.right) <= h;
      var t1 := if y.tag == 1 then -1 else 0;
      var t2 := if y.tag == -1 then 1 else 0;
      var inner, outer := Node(l.left, l.key, t1, y.left), Node(y.right, k, t2, c);
      assert Height(inner) == h + 1 && Avl(inner);
      assert Height(outer) == h + 1 && Avl(outer);
      assert Rebalance(p, deleting) == Node(inner, y.key, 0, outer);
    } else {
      var inner := Node(l.right, k, -1, c);
      assert Height(l.left) == h + 1 && Height(l.right) == h + 1;
      assert Height(inner) == h + 2 && Avl(inner);
      assert Rebalance(p, deleting) == Node(l.left, l.key, 1, inner);
    }
  }

  /**
   * `insert_fix` restores the invariant: given an AVL tree with `before` at a
   * position and x one level taller in its place, AVL itself, and either a
   * fresh leaf or leaning to one side.
   */
  lemma {:induction false} InsertFixAvl(path: seq<Frame<int>>, before: ATree, x: ATree)
    requires Avl(Plug(path, before)) && Avl(x) && x.Node? && Height(x) == Height(before) + 1
    requires x.tag != 0 || (x.left.Nil? && x.right.Nil?)
    decreases |path|
    ensures Avl(InsertFix(path, x))
  {
    if |path| > 0 {
      var f := path[0];
      var before' := Attach(f, before);
      AvlInside(path[1..], before');
      var p := Grown(f, x);
      TallerSide(f, before, x);
      if Abs(f.tag) == 1 && Abs(p.tag) == 0 {
        AvlPlugSame(path[1..], before', p);
      } else if Abs(f.tag) == 0 && Abs(p.tag) == 1 {
        InsertFixAvl(path[1..], before', p);
      } else {
        RebalanceAvl(p, false);
        AvlPlugSame(path[1..], before', Rebalance(p, false));
      }
    }
  }

  /**
   * One step of `insert_fix`: the father of a subtree that gained a level
   * gets the factor the loop gives it, which is its new height difference;
   * a balanced father grows and leans, a leaning father either balances at
   * its old height or leans by two towards a child that itself leans.
   */
  lemma TallerSide(f: Frame<int>, before: ATree, x: ATree)
    requires Avl(Attach(f, before)) && Avl(x) && x.Node? && Height(x) == Height(before) + 1
    requires x.tag != 0 || (x.left.Nil? && x.right.Nil?)
    ensures var p := Grown(f, x);
      && Avl(p.left) && Avl(p.right) && p.tag == Height(p.right) - Height(p.left)
      && (Abs(f.tag) == 0 ==> Abs(p.tag) == 1 && Height(p) == Height(Attach(f, before)) + 1)
      && (Abs(f.tag) == 1 && p.tag == 0 ==> Height(p) == Height(Attach(f, before)))
      && (Abs(f.tag) == 1 && p.tag != 0 ==>
            Abs(p.tag) == 2 && Heavy(p).tag != 0 && Height(p) == Height(Attach(f, before)) + 1)
  {
  }

  /** `delete_fix` restores the invariant: given an AVL tree with `before` at a position and x one level shorter in its place, AVL itself. */
  lemma {:induction false} DeleteFixAvl(path: seq<Frame<int>>, before: ATree, x: ATree)
    requires Avl(Plug(path, before)) && Avl(x) && Height(x) + 1 == Height(before)
    decreases |path|, 1
    ensures Avl(DeleteFix(path, x))
  {
    if |path| > 0 {
      var f := path[0];
      var before' := Attach(f, before);
      AvlInside(path[1..], before');
      var p := Shortened(f, x);
      ShorterSide(f, before, x);
      if Abs(f.tag) == 1 && Abs(p.tag) == 0 {
        DeleteFixAvl(path[1..], before', p);
      } else if Abs(f.tag) == 0 && Abs(p.tag) == 1 {
        AvlPlugSame(path[1..], before', p);
      } else {
        DeleteRebalanceAvl(path[1..], before', p);
      }
    }
  }

  /** The rebalancing branch of `delete_fix`: a father leaning by two, as tall as before, is rotated and the climb goes on unless it `Stops`. */
  lemma {:induction false} DeleteRebalanceAvl(path: seq<Frame<int>>, before: ATree, p: ATree)
    requires Avl(Plug(path, before)) && p.Node? && Avl(p.left) && Avl(p.right)
    requires p.tag == Height(p.right) - Height(p.left) && Abs(p.tag) == 2 && Height(p) == Height(before)
    decreases |path| + 1, 0
    ensures var q := Rebalance(p, true);
      Avl(if Stops(p) then Plug(path, q) else DeleteFix(path, q))
  {
    RebalanceAvl(p, true);
    var q := Rebalance(p, true);
    if Stops(p) {
      AvlPlugSame(path, before, q);
    } else {
      DeleteFixAvl(path, before, q);
    }
  }

  /**
   * One step of `delete_fix`: the father of a subtree that lost a level
   * gets the factor the loop gives it, which is its new height difference;
   * the father loses a level exactly when it was leaning and is now
   * balanced, and a balanced father cannot end up balanced.
   */
  lemma ShorterSide(f: Frame<int>, before: ATree, x: ATree)
    requires Avl(Attach(f, before)) && Avl(x) && Height(x) + 1 == Height(before)
    ensures var p := Shortened(f, x);
      && Avl(p.left) && Avl(p.right) && p.tag == Height(p.right) - Height(p.left) && Abs(p.tag) <= 2
      && (Abs(f.tag) == 0 ==> Abs(p.tag) == 1)
      && (Abs(f.tag) == 1 && p.tag == 0 ==> Height(p) + 1 == Height(Attach(f, before)))
      && (p.tag != 0 ==> Height(p) == Height(Attach(f, before)))
  {
  }

  /** Deleting the node at a position of an AVL tree leaves an AVL tree. */
  lemma DelAvl(l: Loc<int>)
    requires l.focus.Node? && Avl(Whole(l))
    ensures Avl(Del(l))
  {
    var u := l.focus;
    AvlInside(l.path, u);
    if u.left.Nil? {
      DeleteFixAvl(l.path, u, u.right);
    } else if u.right.Nil? {
      DeleteFixAvl(l.path, u, u.left);
    } else {
      var m := MinLoc(Loc([], u.right));
      var y := m.focus;
      var f := Frame(false, y.key, u.tag, u.left);
      var path := m.path + [f] + l.path;
      var u' := Node(u.left, y.key, u.tag, u.right);
      AvlPlugSame(l.path, u, u');
      assert Plug(m.path, y) == u.right;
      PlugAppend(m.path, [f] + l.path, y);
      PlugAppend([f], l.path, Plug(m.path, y));
      assert m.path + [f] + l.path == m.path + ([f] + l.path);
      assert Plug([f], u.right) == u';
      AvlInside(m.path, y);
      DeleteFixAvl(path, y, y.right);
    }
  }

  /** An AVL tree of height h holds at least 2^(h/2) - 1 keys: its height is logarithmic in its size. */
  lemma {:induction false} AvlSize(t: ATree)
    requires Avl(t)
    ensures Pow2(Height(t) / 2) <= |Inorder(t)| + 1
  {
    if t.Node? {
      AvlSize(t.left);
      AvlSize(t.right);
      var h := Height(t);
      if h >= 2 {
        Pow2Monotone((h - 2) / 2, Height(t.left) / 2);
        Pow2Monotone((h - 2) / 2, Height(t.right) / 2);
        assert Pow2(h / 2) == 2 * Pow2((h - 2) / 2) by {
          assert h / 2 == (h - 2) / 2 + 1;
        }
      } else {
        assert Pow2(h / 2) == 1;
      }
    }
  }
}

=== FILE: binary_tree_base.dfy ===
/**
 * BinaryTreeBase (src/binary_tree/binary_tree_base.hpp): an unbalanced
 * binary search tree that admits equal keys, with an updater run on every
 * node from a changed position up to the root.  The tag of a node is the
 * `weight` of `WeightedNode`; with the trivial updater the tags are simply
 * never read.  The keys kept in symmetric order are non-decreasing: equal
 * keys go to the right on insertion.
 */
module BinaryTreeBase {
  import opened Wrappers
  import opened Sequences
  import opened Trees

  type WTree = Tree<nat>

  /** `u->left ? u->left->weight : 0`. */
  function Weight(t: WTree): nat {
    if t.Nil? then 0 else t.tag
  }

  /** `WeightedUpdate::update`: a node whose weight is one more than its children's. */
  function Update(l: WTree, k: int, r: WTree): WTree {
    Node(l, k, Weight(l) + Weight(r) + 1, r)
  }

  /** Every node's weight is the number of nodes below and at it. */
  ghost predicate Weighted(t: WTree) {
    t.Nil? || (t.tag == Weight(t.left) + Weight(t.right) + 1 && Weighted(t.left) && Weighted(t.right))
  }

  /** The tree as the class keeps it: keys in order, equal keys allowed, and correct weights. */
  ghost predicate Valid(t: WTree) {
    NonDecreasing(Inorder(t)) && Weighted(t)
  }

  /** In a weighted tree the weight is the subtree size. */
  lemma {:induction false} WeightIsSize(t: WTree)
    requires Weighted(t)
    ensures Weight(t) == |Inorder(t)|
  {
    if t.Node? {
      WeightIsSize(t.left);
      WeightIsSize(t.right);
    }
  }

  /** The updater applied over two weighted subtrees makes a weighted tree whose weight counts its keys. */
  lemma UpdateCounts(l: WTree, k: int, r: WTree)
    ensures Weighted(l) && Weighted(r) ==>
      Weighted(Update(l, k, r)) && Weight(Update(l, k, r)) == |Inorder(l)| + 1 + |Inorder(r)|
    ensures Inorder(Update(l, k, r)) == Inorder(l) + [k] + Inorder(r)
  {
    if Weighted(l) && Weighted(r) {
      WeightIsSize(l);
      WeightIsSize(r);
    }
  }

  /** One step of `bottom_up_update`: the father rebuilt over a new subtree, its weight recomputed. */
  function Fix(f: Frame<nat>, t: WTree): WTree {
    if f.wentLeft then Update(t, f.key, f.other) else Update(f.other, f.key, t)
  }

  /** Every subtree hanging beside the way up is weighted. */
  ghost predicate PathWeighted(path: seq<Frame<nat>>) {
    forall i :: 0 <= i < |path| ==> Weighted(path[i].other)
  }

  /**
   * A subtree put back at a position, every ancestor's weight recomputed on
   * the way up (`bottom_up_update` from the father of the changed slot).
   */
  function Rebuild(path: seq<Frame<nat>>, t: WTree): (r: WTree)
    decreases |path|
    ensures Inorder(r) == Before(path) + Inorder(t) + After(path)
    ensures PathWeighted(path) && Weighted(t) ==> Weighted(r)
  {
    if |path| == 0 then t
    else
      var f := path[0];
      assert Inorder(Fix(f, t)) == Inorder(Attach(f, t));
      assert PathWeighted(path) ==> PathWeighted(path[1..]) by {
        if PathWeighted(path) {
          forall i | 0 <= i < |path[1..]| ensures Weighted(path[1..][i].other) {
            assert path[1..][i] == path[i + 1];
          }
        }
      }
      var r := Rebuild(path[1..], Fix(f, t));
      PlugInorder(path[1..], Attach(f, t));
      PlugInorder(path, t);
      r
  }

  /** Rebuilding from a position is fixing its father and rebuilding from there. */
  lemma RebuildStep(path: seq<Frame<nat>>, t: WTree)
    requires |path| > 0
    ensures Rebuild(path, t) == Rebuild(path[1..], Fix(path[0], t))
  {
  }

  /** The subtrees beside the way up to a position of a weighted tree are weighted, and so is the subtree there. */
  lemma {:induction false} WeightedAt(path: seq<Frame<nat>>, t: WTree)
    requires Weighted(Plug(path, t))
    decreases |path|
    ensures PathWeighted(path) && Weighted(t)
  {
    if |path| > 0 {
      WeightedAt(path[1..], Attach(path[0], t));
      forall i | 0 <= i < |path| ensures Weighted(path[i].other) {
        if i > 0 {
          assert path[i] == path[1..][i - 1];
        }
      }
    }
  }

  /** `contains`: whether `find_node` reaches a node. */
  function Contains(t: WTree, k: int): (b: bool)
    ensures NonDecreasing(Inorder(t)) ==> (b <==> k in Inorder(t))
  {
    Found(t, k);
    Find(Loc([], t), k).focus.Node?
  }

  /** In a tree with keys in order, the search of `find_node` ends on a node exactly when the key is stored. */
  lemma Found(t: WTree, k: int)
    ensures NonDecreasing(Inorder(t)) ==> (Find(Loc([], t), k).focus.Node? <==> k in Inorder(t))
  {
    if NonDecreasing(Inorder(t)) {
      FindMember(t, k);
    }
  }

  /**
   * The descent of `insert_node`: left when the new key is smaller, right
   * otherwise, so equal keys go right; ends at the empty slot the node is
   * hung in.
   */
  function Slot(l: Loc<nat>, k: int): (r: Loc<nat>)
    decreases l.focus
    ensures Whole(r) == Whole(l) && r.focus.Nil?
    ensures NonDecreasing(Inorder(Whole(l))) && AllAtMost(Before(l.path), k) && AllAbove(After(l.path), k) ==>
      AllAtMost(Before(r.path), k) && AllAbove(After(r.path), k)
  {
    if l.focus.Nil? then l
    else
      SlotStep(l, k);
      Slot(if k < l.focus.key then DownLeft(l) else DownRight(l), k)
  }

  /** One step of the descent keeps the keys before the position at most k and those after it above k. */
  lemma SlotStep(l: Loc<nat>, k: int)
    requires l.focus.Node?
    ensures NonDecreasing(Inorder(Whole(l))) && AllAtMost(Before(l.path), k) && AllAbove(After(l.path), k) ==>
      && (k < l.focus.key ==> AllAbove(After(DownLeft(l).path), k))
      && (l.focus.key <= k ==> AllAtMost(Before(DownRight(l).path), k))
  {
    if NonDecreasing(Inorder(Whole(l))) {
      SortedLoc(l);
    }
  }

  /** A non-decreasing sequence stays so with x put after the keys at most x and before those above it. */
  lemma InsertNonDecreasing(b: seq<int>, x: int, a: seq<int>)
    requires NonDecreasing(b + a) && AllAtMost(b, x) && AllAbove(a, x)
    ensures NonDecreasing(b + [x] + a)
  {
    var s := b + [x] + a;
    forall i, j | 0 <= i < j < |s| ensures s[i] <= s[j] {
      if j < |b| {
        assert s[i] == (b + a)[i] && s[j] == (b + a)[j];
      } else if |b| < i {
        assert s[i] == (b + a)[i - 1] && s[j] == (b + a)[j - 1];
      } else {
        assert i < |b| ==> s[i] == b[i] && b[i] in b;
        assert |b| < j ==> s[j] == a[j - |b| - 1] && a[j - |b| - 1] in a;
      }
    }
  }

  /** Dropping one element of a non-decreasing sequence keeps it non-decreasing. */
  lemma RemoveNonDecreasing(b: seq<int>, x: int, a: seq<int>)
    requires NonDecreasing(b + [x] + a)
    ensures NonDecreasing(b + a)
  {
    var s := b + [x] + a;
    forall i, j | 0 <= i < j < |b + a| ensures (b + a)[i] <= (b + a)[j] {
      var i', j' := if i < |b| then i else i + 1, if j < |b| then j else j + 1;
      assert (b + a)[i] == s[i'] && (b + a)[j] == s[j'];
    }
  }

  /**
   * `insert_node` of a new node with key k: hung as a leaf in the slot the
   * descent ends at, weights recomputed up to the root.  The key goes after
   * every equal key already there.
   */
  function InsertNode(t: WTree, k: int): (r: WTree)
    ensures multiset(Inorder(r)) == multiset(Inorder(t)) + multiset{k}
    ensures Valid(t) ==> Valid(r)
    ensures |Inorder(r)| == |Inorder(t)| + 1
  {
    var s := Slot(Loc([], t), k);
    InsertAt(t, k, s.path);
    Rebuild(s.path, Node(Nil, k, 1, Nil))
  }

  /** Hanging a leaf in the slot the descent ends at adds the key, keeps order and weights, and counts one more. */
  lemma InsertAt(t: WTree, k: int, path: seq<Frame<nat>>)
    requires path == Slot(Loc([], t), k).path
    ensures var r := Rebuild(path, Node(Nil, k, 1, Nil));
      && multiset(Inorder(r)) == multiset(Inorder(t)) + multiset{k}
      && (Valid(t) ==> Valid(r))
      && |Inorder(r)| == |Inorder(t)| + 1
  {
    LeafKeys(t, k, path);
    Counted(t, Rebuild(path, Node(Nil, k, 1, Nil)), Before(path), k, After(path));
    if Valid(t) {
      InsertValid(t, k, path);
    }
  }

  /** The keys around an empty slot, and around the leaf hung there. */
  lemma LeafKeys(t: WTree, k: int, path: seq<Frame<nat>>)
    requires Plug(path, Nil) == t
    ensures Inorder(t) == Before(path) + After(path)
    ensures Inorder(Rebuild(path, Node(Nil, k, 1, Nil))) == Before(path) + [k] + After(path)
  {
    PlugNil(path);
    var leaf: WTree := Node(Nil, k, 1, Nil);
    assert Inorder(leaf) == [k];
  }

  lemma InsertValid(t: WTree, k: int, path: seq<Frame<nat>>)
    requires path == Slot(Loc([], t), k).path && Valid(t)
    ensures Valid(Rebuild(path, Node(Nil, k, 1, Nil)))
  {
    var b, a := Before(path), After(path);
    LeafKeys(t, k, path);
    assert AllAtMost(b, k) && AllAbove(a, k) by {
      var e: seq<Frame<nat>> := [];
      assert Before(e) == [] && After(e) == [];
    }
    WeightedAt(path, Nil);
    InsertNonDecreasing(b, k, a);
  }

  /** A tree whose keys are another's with k put in somewhere holds one more k and one more key. */
  lemma Counted(t: WTree, r: WTree, b: seq<int>, k: int, a: seq<int>)
    requires Inorder(t) == b + a && Inorder(r) == b + [k] + a
    ensures multiset(Inorder(r)) == multiset(Inorder(t)) + multiset{k}
    ensures |Inorder(r)| == |Inorder(t)| + 1
  {
    assert multiset(b + [k] + a) == multiset(b + a) + multiset{k};
  }

  /**
   * `unlink(u)`: u's left child if it has one, else its right child, takes
   * u's place, and weights are recomputed from u's father up.  Called only
   * on nodes with at most one child, for which exactly u's key goes; a
   * right subtree beside a left one would be lost.
   */
  function Unlink(path: seq<Frame<nat>>, u: WTree): (r: WTree)
    requires u.Node?
    ensures u.left.Nil? || u.right.Nil? ==> Inorder(r) == Before(path) + Inorder(u.left) + Inorder(u.right) + After(path)
    ensures u.left.Node? && u.right.Node? ==> Inorder(r) == Before(path) + Inorder(u.left) + After(path)
    ensures PathWeighted(path) && Weighted(u) ==> Weighted(r)
  {
    var s := if u.left.Node? then u.left else u.right;
    Rebuild(path, s)
  }

  /**
   * The leftmost node of a right subtree taken out: the node `erase` swaps
   * with a node that has two children.  Returns the subtree without it,
   * weights recomputed along the left spine, and its key.
   */
  function RemoveMin(t: WTree): (r: (WTree, int))
    requires t.Node?
    decreases t
    ensures [r.1] + Inorder(r.0) == Inorder(t)
    ensures Weighted(t) ==> Weighted(r.0)
  {
    if t.left.Nil? then (t.right, t.key)
    else
      var (rest, m) := RemoveMin(t.left);
      UpdateCounts(rest, t.key, t.right);
      (Update(rest, t.key, t.right), m)
  }

  /**
   * `erase(key)` as written when `repaired` is false: `find_node`, then
   * `node->left` with no test for a null node, so erasing a key that is
   * not stored dereferences null.  Repaired, a missing key leaves the tree
   * as it is.  A node with two children trades places with the leftmost
   * node of its right subtree first; the node then has at most one child
   * and is unlinked.
   */
  function EraseWith(t: WTree, k: int, repaired: bool): (o: Outcome<WTree>)
    requires Valid(t)
    ensures o.NullDeref? <==> !repaired && k !in Inorder(t)
    ensures o.Returned? && k !in Inorder(t) ==> o.value == t
    ensures o.Returned? && k in Inorder(t) ==>
      multiset(Inorder(o.value)) == multiset(Inorder(t)) - multiset{k} && |Inorder(o.value)| + 1 == |Inorder(t)|
    ensures o.Returned? ==> Valid(o.value)
  {
    Found(t, k);
    var l := Find(Loc([], t), k);
    if l.focus.Nil? then
      if repaired then Returned(t) else NullDeref
    else
      EraseAt(t, l);
      Returned(EraseNode(l))
  }

  /**
   * The tree with the node at a position taken out, as `erase` leaves it
   * once it has found the node: the node's left subtree and then its right
   * subtree take its place in the in-order sequence, and weights stay right.
   */
  function EraseNode(l: Loc<nat>): (r: WTree)
    requires l.focus.Node?
    ensures Inorder(r) == (Before(l.path) + Inorder(l.focus.left)) + (Inorder(l.focus.right) + After(l.path))
    ensures PathWeighted(l.path) && Weighted(l.focus) ==> Weighted(r)
  {
    var u := l.focus;
    var b, a := Before(l.path), After(l.path);
    if u.left.Nil? || u.right.Nil? then
      Assoc(b + Inorder(u.left), Inorder(u.right), a);
      Unlink(l.path, u)
    else
      var (rest, m) := RemoveMin(u.right);
      UpdateCounts(u.left, m, rest);
      SpliceRegroup(b, Inorder(u.left), [m], Inorder(rest), a);
      Rebuild(l.path, Update(u.left, m, rest))
  }

  /** Taking out the node the search for k found removes one k and keeps the tree valid. */
  lemma EraseAt(t: WTree, l: Loc<nat>)
    requires Valid(t) && Whole(l) == t && l.focus.Node?
    ensures var k, r := l.focus.key, EraseNode(l);
      && multiset(Inorder(r)) == multiset(Inorder(t)) - multiset{k} && |Inorder(r)| + 1 == |Inorder(t)|
      && Valid(r)
  {
    var u := l.focus;
    var b, a := Before(l.path) + Inorder(u.left), Inorder(u.right) + After(l.path);
    PlugNode(l.path, u);
    WeightedAt(l.path, u);
    Removed(t, EraseNode(l), b, u.key, a);
  }

  /** A tree whose keys are another's with one k dropped holds one k and one key fewer, still in order. */
  lemma Removed(t: WTree, r: WTree, b: seq<int>, k: int, a: seq<int>)
    requires Inorder(t) == b + [k] + a && Inorder(r) == b + a
    ensures multiset(Inorder(r)) == multiset(Inorder(t)) - multiset{k} && |Inorder(r)| + 1 == |Inorder(t)|
    ensures NonDecreasing(Inorder(t)) ==> NonDecreasing(Inorder(r))
  {
    DropOne(b, k, a);
    if NonDecreasing(Inorder(t)) {
      RemoveNonDecreasing(b, k, a);
    }
  }

  /** Dropping one element from the middle of a sequence takes one copy of it out of the multiset. */
  lemma DropOne(b: seq<int>, k: int, a: seq<int>)
    ensures multiset(b + a) == multiset(b + [k] + a) - multiset{k}
    ensures |b + a| + 1 == |b + [k] + a|
  {
    assert multiset(b + [k] + a) == multiset(b) + multiset([k]) + multiset(a);
    assert multiset(b + a) == multiset(b) + multiset(a);
  }

  /** `erase` with the missing-key test it evidently intends. */
  function Erase(t: WTree, k: int): (r: WTree)
    requires Valid(t)
    ensures Valid(r)
    ensures multiset(Inorder(r)) == multiset(Inorder(t)) - multiset{k}
  {
    EraseWith(t, k, true).value
  }

  /**
   * `succ_node` as written: the maximum of the left subtree, else the first
   * ancestor reached from the right.  That is the in-order predecessor, and
   * `iterator::operator++` steps with it, so iteration goes backwards.
   */
  function SuccNodeAsWritten(l: Loc<nat>): (r: Option<Loc<nat>>)
    requires l.focus.Node?
    ensures r.None? <==> Index(l) == 0
    ensures r.Some? ==> Whole(r.value) == Whole(l) && r.value.focus.Node? && Index(r.value) + 1 == Index(l)
  {
    if l.focus.left.Node? then Some(MaxLoc(DownLeft(l))) else UpFromRight(l.path, l.focus)
  }

  /** `pred_node` as written: the in-order successor, the mirror mistake. */
  function PredNodeAsWritten(l: Loc<nat>): (r: Option<Loc<nat>>)
    requires l.focus.Node?
    ensures r.None? <==> Index(l) + 1 == |Inorder(Whole(l))|
    ensures r.Some? ==> Whole(r.value) == Whole(l) && r.value.focus.Node? && Index(r.value) == Index(l) + 1
  {
    PlugInorder(l.path, l.focus);
    if l.focus.right.Node? then Some(MinLoc(DownRight(l))) else UpFromLeft(l.path, l.focus)
  }

  /** `succ_node` as its name and `operator++` intend: the node one step later in symmetric order. */
  function SuccNode(l: Loc<nat>): (r: Option<Loc<nat>>)
    requires l.focus.Node?
    ensures r.None? <==> Index(l) + 1 == |Inorder(Whole(l))|
    ensures r.Some? ==> Whole(r.value) == Whole(l) && r.value.focus.Node? && Index(r.value) == Index(l) + 1
  {
    SuccLoc(l)
  }

  /** `pred_node` as intended: the node one step earlier in symmetric order. */
  function PredNode(l: Loc<nat>): (r: Option<Loc<nat>>)
    requires l.focus.Node?
    ensures r.None? <==> Index(l) == 0
    ensures r.Some? ==> Whole(r.value) == Whole(l) && r.value.focus.Node? && Index(r.value) + 1 == Index(l)
  {
    PredLoc(l)
  }

  /** The tree holding 1, 2 and 3 that inserting 2, 1 and 3 builds. */
  function Three(): (t: WTree)
    ensures Valid(t) && Inorder(t) == [1, 2, 3] && t.key == 2
  {
    var t := Node(Node(Nil, 1, 1, Nil), 2, 3, Node(Nil, 3, 1, Nil));
    assert Inorder(t) == [1] + [2] + [3];
    t
  }

  /** At the root of that tree, holding 2, `succ_node` answers the node holding 1 where `SuccNode` answers 3. */
  lemma SuccNodeGoesBack()
    ensures SuccNodeAsWritten(Loc([], Three())).Some?
    ensures SuccNodeAsWritten(Loc([], Three())).value.focus.key == 1
    ensures SuccNode(Loc([], Three())).Some? && SuccNode(Loc([], Three())).value.focus.key == 3
  {
    var l := Loc([], Three());
    var p := SuccNodeAsWritten(l).value;
    var s := SuccNode(l).value;
    KeyAt(p);
    KeyAt(s);
  }

  /** Erasing from an empty tree dereferences null as written and changes nothing once repaired. */
  lemma EraseMissing(k: int)
    ensures EraseWith(Nil, k, false).NullDeref?
    ensures EraseWith(Nil, k, true) == Returned(Nil)
  {
  }
}

=== FILE: binary_trie.dfy ===
/**
 * BinaryTrie (src/integer/binary_trie.hpp): a set of `bit`-bit unsigned
 * integers stored as a binary trie read most significant bit first.  A path
 * node missing one child keeps a jump pointer to the smallest leaf below it
 * (missing its 0-child) or the largest (missing its 1-child); the leaves form
 * a doubly linked list.
 *
 * The trie shape is a function of the stored values: a node at depth d with
 * prefix q exists exactly when the root is meant or some value's d leading
 * bits are q.  The mutable pointer state is modelled as maps: `jump` from a
 * path node to the value of the leaf it points at, `prev` and `next` from a
 * leaf value to its neighbours' values (`links[0]` and `links[1]`); a missing
 * entry is a null pointer.  Leaves are named by their values, which are
 * unique.
 */
module BinaryTrie {
  import opened Wrappers
  import opened Bits

  /** The node at `depth` whose path spells `prefix`; leaves are at depth `bit`. */
  datatype Node = Node(depth: nat, prefix: nat)

  datatype Trie = Trie(bit: nat, values: set<nat>, jump: map<Node, nat>, prev: map<nat, nat>, next: map<nat, nat>, n: nat)

  /** The d leading bits of a bit-bit value: `t >> (bit - d)`. */
  function Prefix(bit: nat, t: nat, d: nat): nat
    requires d <= bit
  {
    Shr(t, bit - d)
  }

  /** The path digit at depth d: `(t >> (bit - d - 1)) & 1`. */
  function Digit(bit: nat, t: nat, d: nat): (c: nat)
    requires d < bit
    ensures c < 2
  {
    Prefix(bit, t, d + 1) % 2
  }

  /** A child's prefix is its father's prefix followed by the digit. */
  lemma PrefixStep(bit: nat, t: nat, d: nat)
    requires d < bit
    ensures Prefix(bit, t, d + 1) == 2 * Prefix(bit, t, d) + Digit(bit, t, d)
  {
  }

  /** Values that share d' leading bits share every shorter prefix. */
  lemma {:induction false} PrefixShallower(bit: nat, v: nat, w: nat, d: nat, e: nat)
    requires d <= e <= bit && Prefix(bit, v, e) == Prefix(bit, w, e)
    decreases e - d
    ensures Prefix(bit, v, d) == Prefix(bit, w, d)
  {
    if d < e {
      PrefixStep(bit, v, e - 1);
      PrefixStep(bit, w, e - 1);
      PrefixShallower(bit, v, w, d, e - 1);
    }
  }

  /** A smaller prefix at any depth means a smaller value. */
  lemma PrefixOrder(bit: nat, v: nat, w: nat, d: nat)
    requires d <= bit && Prefix(bit, v, d) < Prefix(bit, w, d)
    ensures v < w
  {
    ShrOrder(v, w, bit - d);
  }

  /** Every bit-bit value passes through the root, whose prefix is empty. */
  lemma PrefixRoot(bit: nat, v: nat)
    requires v < Pow2(bit)
    ensures Prefix(bit, v, 0) == 0
  {
    ShrBound(v, 0, bit);
  }

  /** Node (d, q) exists: the root, or the d leading bits of some stored value are q. */
  predicate HasNode(tr: Trie, d: nat, q: nat) {
    d <= tr.bit && ((d == 0 && q == 0) || exists v | v in tr.values :: Prefix(tr.bit, v, d) == q)
  }

  /** The values stored below node (d, q). */
  function Subtree(tr: Trie, d: nat, q: nat): set<nat>
    requires d <= tr.bit
  {
    set v | v in tr.values && Prefix(tr.bit, v, d) == q
  }

  /** Below the root, a node exists exactly when some value is stored below it. */
  lemma HasNodeSubtree(tr: Trie, d: nat, q: nat)
    requires 0 < d <= tr.bit
    ensures HasNode(tr, d, q) <==> Subtree(tr, d, q) != {}
  {
    if HasNode(tr, d, q) {
      var v :| v in tr.values && Prefix(tr.bit, v, d) == q;
      assert v in Subtree(tr, d, q);
    }
  }

  /** A node's values are those of its two children. */
  lemma SubtreeSplit(tr: Trie, d: nat, q: nat)
    requires d < tr.bit
    ensures Subtree(tr, d, q) == Subtree(tr, d + 1, 2 * q) + Subtree(tr, d + 1, 2 * q + 1)
  {
    forall v | v in tr.values
      ensures Prefix(tr.bit, v, d) == q <==> Prefix(tr.bit, v, d + 1) in {2 * q, 2 * q + 1}
    {
      PrefixStep(tr.bit, v, d);
    }
  }

  /** All stored values have `bit` bits. */
  ghost predicate InRange(tr: Trie) {
    tr.bit >= 1 && forall v :: v in tr.values ==> v < Pow2(tr.bit)
  }

  ghost predicate IsMin(s: set<nat>, m: nat) {
    m in s && forall x :: x in s ==> m <= x
  }

  ghost predicate IsMax(s: set<nat>, m: nat) {
    m in s && forall x :: x in s ==> x <= m
  }

  /** `o` is the largest value of `s` below `t`, or None when there is none. */
  ghost predicate PredIn(s: set<nat>, t: nat, o: Option<nat>) {
    if o.Some? then o.value in s && o.value < t && forall x :: x in s && x < t ==> x <= o.value
    else forall x :: x in s ==> t <= x
  }

  /** `o` is the smallest value of `s` above `t`, or None when there is none. */
  ghost predicate SuccIn(s: set<nat>, t: nat, o: Option<nat>) {
    if o.Some? then o.value in s && t < o.value && forall x :: x in s && t < x ==> o.value <= x
    else forall x :: x in s ==> x <= t
  }

  /**
   * The jump pointer of an existing path node with at most one child: none
   * without children, the smallest value below it when the 0-child is
   * missing, the largest when the 1-child is missing.
   */
  ghost predicate JumpGood(tr: Trie, d: nat, q: nat)
    requires d < tr.bit
  {
    HasNode(tr, d, q) ==>
      var l, r, u := HasNode(tr, d + 1, 2 * q), HasNode(tr, d + 1, 2 * q + 1), Node(d, q);
      && (!l && !r ==> u !in tr.jump)
      && (!l && r ==> u in tr.jump && IsMin(Subtree(tr, d, q), tr.jump[u]))
      && (l && !r ==> u in tr.jump && IsMax(Subtree(tr, d, q), tr.jump[u]))
  }

  /** The leaf of a stored value links to its neighbours in value order. */
  ghost predicate LinkGood(tr: Trie, v: nat) {
    v in tr.values ==> PredIn(tr.values, v, Lookup(tr.prev, v)) && SuccIn(tr.values, v, Lookup(tr.next, v))
  }

  /** The representation invariant the operations keep: jump pointers and leaf links as intended, n the size. */
  ghost predicate Good(tr: Trie) {
    && InRange(tr)
    && tr.n == |tr.values|
    && (forall d: nat, q: nat :: d < tr.bit ==> JumpGood(tr, d, q))
    && (forall v :: LinkGood(tr, v))
  }

  /** The constructor: a lone root. */
  function Empty(bit: nat): (tr: Trie)
    requires bit >= 1
    ensures Good(tr) && tr.values == {}
  {
    var tr := Trie(bit, {}, map[], map[], map[], 0);
    assert forall d: nat, q: nat :: d < tr.bit ==> JumpGood(tr, d, q) by {
      forall d: nat, q: nat | d < tr.bit ensures JumpGood(tr, d, q) {
        assert !HasNode(tr, d + 1, 2 * q) && !HasNode(tr, d + 1, 2 * q + 1);
      }
    }
    tr
  }

  /**
   * The descent every operation starts with: from depth d, follow the digits
   * of t while the child exists; the depth where it stops.
   */
  function Descend(tr: Trie, t: nat, d: nat): (i: nat)
    requires d <= tr.bit
    decreases tr.bit - d
    ensures d <= i <= tr.bit
    ensures i < tr.bit ==> !HasNode(tr, i + 1, Prefix(tr.bit, t, i + 1))
    ensures forall e :: d < e <= i ==> HasNode(tr, e, Prefix(tr.bit, t, e))
  {
    if d < tr.bit && HasNode(tr, d + 1, Prefix(tr.bit, t, d + 1)) then Descend(tr, t, d + 1) else d
  }

  function Stop(tr: Trie, t: nat): (i: nat)
    ensures i <= tr.bit
  {
    Descend(tr, t, 0)
  }

  /** The descent reaches the leaf level exactly when t is stored, and stops at an existing node. */
  lemma StopFacts(tr: Trie, t: nat)
    requires InRange(tr) && t < Pow2(tr.bit)
    ensures var i := Stop(tr, t);
      && HasNode(tr, i, Prefix(tr.bit, t, i))
      && (i == tr.bit <==> t in tr.values)
  {
    var i := Stop(tr, t);
    PrefixRoot(tr.bit, t);
    if i == tr.bit {
      var v :| v in tr.values && Prefix(tr.bit, v, tr.bit) == Prefix(tr.bit, t, tr.bit);
    }
  }

  /** A stored value passes through the child its digit names. */
  lemma ChildOf(tr: Trie, v: nat, d: nat)
    requires v in tr.values && d < tr.bit
    ensures HasNode(tr, d + 1, 2 * Prefix(tr.bit, v, d) + Digit(tr.bit, v, d))
  {
    PrefixStep(tr.bit, v, d);
  }

  /** Every stored value passes through the child of node (d, its prefix) that its digit names. */
  lemma AllChildren(tr: Trie, d: nat)
    requires d < tr.bit
    ensures forall w :: w in tr.values ==> HasNode(tr, d + 1, 2 * Prefix(tr.bit, w, d) + Digit(tr.bit, w, d))
  {
    forall w | w in tr.values ensures HasNode(tr, d + 1, 2 * Prefix(tr.bit, w, d) + Digit(tr.bit, w, d)) {
      ChildOf(tr, w, d);
    }
  }

  /** Every stored value has the root's empty prefix. */
  lemma AllRoot(tr: Trie)
    requires InRange(tr)
    ensures forall w :: w in tr.values ==> Prefix(tr.bit, w, 0) == 0
  {
    forall w | w in tr.values ensures Prefix(tr.bit, w, 0) == 0 {
      PrefixRoot(tr.bit, w);
    }
  }

  /** A value below a node whose c-child is missing takes the other child. */
  lemma OtherChild(tr: Trie, v: nat, d: nat, q: nat, c: nat)
    requires v in tr.values && d < tr.bit && Prefix(tr.bit, v, d) == q && c < 2
    requires !HasNode(tr, d + 1, 2 * q + c)
    ensures Prefix(tr.bit, v, d + 1) == 2 * q + 1 - c
  {
    ChildOf(tr, v, d);
    PrefixStep(tr.bit, v, d);
  }

  /** Values outside a node's subtree lie entirely on one side of it. */
  lemma Outside(tr: Trie, d: nat, v: nat, w: nat)
    requires d <= tr.bit && Prefix(tr.bit, v, d) != Prefix(tr.bit, w, d)
    ensures v < w <==> Prefix(tr.bit, v, d) < Prefix(tr.bit, w, d)
  {
    if Prefix(tr.bit, v, d) < Prefix(tr.bit, w, d) {
      PrefixOrder(tr.bit, v, w, d);
    } else {
      PrefixOrder(tr.bit, w, v, d);
    }
  }

  /** No stored value lies below a node that has neither child. */
  lemma NoValueBelow(tr: Trie, d: nat, q: nat)
    requires d < tr.bit && !HasNode(tr, d + 1, 2 * q) && !HasNode(tr, d + 1, 2 * q + 1)
    ensures forall w :: w in tr.values ==> Prefix(tr.bit, w, d) != q
  {
    forall w | w in tr.values ensures Prefix(tr.bit, w, d) != q {
      PrefixStep(tr.bit, w, d);
    }
  }

  /** A path node with neither child is the root of an empty trie. */
  lemma Childless(tr: Trie, d: nat, q: nat)
    requires InRange(tr) && d < tr.bit && HasNode(tr, d, q)
    requires !HasNode(tr, d + 1, 2 * q) && !HasNode(tr, d + 1, 2 * q + 1)
    ensures tr.values == {}
  {
    NoValueBelow(tr, d, q);
    AllRoot(tr);
  }

  /**
   * Where the descent for an absent t stops, the jump pointer names t's
   * successor when t would go left and its predecessor when t would go right
   * (and is null only in the empty trie).
   */
  lemma StopNeighbour(tr: Trie, t: nat)
    requires Good(tr) && t < Pow2(tr.bit) && t !in tr.values
    ensures var i := Stop(tr, t);
      var u, c := Node(i, Prefix(tr.bit, t, i)), Digit(tr.bit, t, i);
      && (u !in tr.jump ==> tr.values == {})
      && (c == 0 ==> SuccIn(tr.values, t, Lookup(tr.jump, u)))
      && (c == 1 ==> PredIn(tr.values, t, Lookup(tr.jump, u)))
  {
    StopFacts(tr, t);
    var i := Stop(tr, t);
    var q, c := Prefix(tr.bit, t, i), Digit(tr.bit, t, i);
    var u := Node(i, q);
    PrefixStep(tr.bit, t, i);
    assert !HasNode(tr, i + 1, 2 * q + c);
    assert JumpGood(tr, i, q);
    var l, r := HasNode(tr, i + 1, 2 * q), HasNode(tr, i + 1, 2 * q + 1);
    if !l && !r {
      Childless(tr, i, q);
    } else {
      var sub := Subtree(tr, i, q);
      var j := tr.jump[u];
      assert j in sub;
      OtherChild(tr, j, i, q, c);
      forall x | x in tr.values
        ensures c == 0 ==> (t < x ==> j <= x) && (t < j)
        ensures c == 1 ==> (x < t ==> x <= j) && (j < t)
      {
        if Prefix(tr.bit, x, i) == q {
          assert x in sub;
        } else {
          Outside(tr, i, x, t);
          Outside(tr, i, x, j);
        }
        Outside(tr, i + 1, j, t);
      }
    }
  }

  /** `contains(t)`: true when the descent reaches a leaf, else whether the jump-derived leaf holds t. */
  function Contains(tr: Trie, t: nat): (b: bool)
    requires Good(tr) && t < Pow2(tr.bit)
    ensures b <==> t in tr.values
  {
    StopFacts(tr, t);
    var i := Stop(tr, t);
    if i == tr.bit then true
    else
      var u, c := Node(i, Prefix(tr.bit, t, i)), Digit(tr.bit, t, i);
      var w := if c == 0 then Lookup(tr.jump, u)
               else if u in tr.jump then Lookup(tr.next, tr.jump[u]) else None;
      StopNeighbour(tr, t);
      assert w.Some? ==> w.value in tr.values by {
        if c == 1 && u in tr.jump {
          assert LinkGood(tr, tr.jump[u]);
        }
      }
      w.Some? && w.value == t
  }

  /**
   * `succ(t)`: the next leaf of t's own leaf; otherwise the successor found
   * from the jump pointer where the descent stops, stepping once more if that
   * leaf holds t.
   */
  function Succ(tr: Trie, t: nat): (r: Option<nat>)
    requires Good(tr) && t < Pow2(tr.bit)
    ensures SuccIn(tr.values, t, r)
  {
    StopFacts(tr, t);
    var i := Stop(tr, t);
    if i == tr.bit then
      assert LinkGood(tr, t);
      Lookup(tr.next, t)
    else
      var u, c := Node(i, Prefix(tr.bit, t, i)), Digit(tr.bit, t, i);
      var w := if c == 0 then Lookup(tr.jump, u)
               else if u in tr.jump then Lookup(tr.next, tr.jump[u]) else None;
      StopNeighbour(tr, t);
      assert c == 1 && u in tr.jump ==> LinkGood(tr, tr.jump[u]);
      if w.Some? && w.value == t then Lookup(tr.next, t) else w
  }

  /**
   * The loop closing `pred`: `while (u && u->get_value() >= t) u = u->links[0]`.
   * From a stored leaf at or above t it walks down to t's predecessor.
   */
  function BackBelow(tr: Trie, w: Option<nat>, t: nat): (r: Option<nat>)
    requires Good(tr) && (w.Some? ==> w.value in tr.values)
    decreases if w.Some? then w.value + 1 else 0
    ensures w.Some? && w.value < t ==> r == w
    ensures w.Some? && w.value >= t ==> PredIn(tr.values, t, r)
    ensures w.None? ==> r.None?
  {
    if w.Some? && w.value >= t then
      assert LinkGood(tr, w.value);
      BackBelow(tr, Lookup(tr.prev, w.value), t)
    else w
  }

  /**
   * `pred(t)` as written: when t would go right at the stop node it starts
   * from `jump->links[0]`, the leaf before the jump target, although the jump
   * target is already t's predecessor.
   */
  function PredAsWritten(tr: Trie, t: nat): (r: Option<nat>)
    requires Good(tr) && t < Pow2(tr.bit)
    ensures r.Some? ==> r.value in tr.values && r.value < t
  {
    StopFacts(tr, t);
    var i := Stop(tr, t);
    if i == tr.bit then
      assert LinkGood(tr, t);
      Lookup(tr.prev, t)
    else
      var u, c := Node(i, Prefix(tr.bit, t, i)), Digit(tr.bit, t, i);
      StopNeighbour(tr, t);
      assert c == 1 && u in tr.jump ==> LinkGood(tr, tr.jump[u]);
      var w := if c == 0 then Lookup(tr.jump, u)
               else if u in tr.jump then Lookup(tr.prev, tr.jump[u]) else None;
      BackBelow(tr, w, t)
  }

  /** `pred(t)` as evidently intended: the jump target itself when t would go right. */
  function Pred(tr: Trie, t: nat): (r: Option<nat>)
    requires Good(tr) && t < Pow2(tr.bit)
    ensures PredIn(tr.values, t, r)
  {
    StopFacts(tr, t);
    var i := Stop(tr, t);
    if i == tr.bit then
      assert LinkGood(tr, t);
      Lookup(tr.prev, t)
    else
      var u, c := Node(i, Prefix(tr.bit, t, i)), Digit(tr.bit, t, i);
      StopNeighbour(tr, t);
      var w := Lookup(tr.jump, u);
      BackBelow(tr, w, t)
  }

  /** The 2-bit trie holding only 0, as `insert(0)` on an empty trie leaves it. */
  function Zero2(): Trie {
    Trie(2, {0}, map[Node(0, 0) := 0, Node(1, 0) := 0], map[], map[], 1)
  }

  lemma Zero2Good()
    ensures Good(Zero2())
  {
    var tr := Zero2();
    assert Pow2(2) == 4;
    forall d: nat, q: nat | d < tr.bit ensures JumpGood(tr, d, q) {
      assert Prefix(2, 0, d) == 0 && Prefix(2, 0, d + 1) == 0;
      assert Subtree(tr, d, 0) == {0};
    }
  }

  /** Searching 2 in the trie {0}: the descent stops at the root, where 2 would go right. */
  lemma Zero2Descent()
    ensures Stop(Zero2(), 2) == 0
  {
    var tr := Zero2();
    assert Shr(2, 1) == 1;
    assert !HasNode(tr, 1, 1);
  }

  /** With {0} stored in two bits, `pred(2)` as written finds nothing although 0 < 2 is stored. */
  lemma PredAsWrittenMisses()
    ensures Good(Zero2()) && 0 in Zero2().values && PredAsWritten(Zero2(), 2).None?
    ensures Good(Zero2()) && Pred(Zero2(), 2) == Some(0)
  {
    Zero2Good();
    Zero2Descent();
    assert Prefix(2, 2, 0) == 0 && Digit(2, 2, 0) == 1;
  }

  /**
   * The loop of `min` (dir = 0) and `max` (dir = 1) from node (d, q): take
   * the preferred child if present, else the other one, for every remaining
   * level, without checking for null.
   */
  function Extreme(tr: Trie, d: nat, q: nat, dir: nat): (o: Outcome<Option<nat>>)
    requires d <= tr.bit && dir < 2
    decreases tr.bit - d
  {
    if d == tr.bit then Returned(Some(q))
    else if HasNode(tr, d + 1, 2 * q + dir) then Extreme(tr, d + 1, 2 * q + dir, dir)
    else if HasNode(tr, d + 1, 2 * q + 1 - dir) then Extreme(tr, d + 1, 2 * q + 1 - dir, dir)
    else if d + 1 < tr.bit then NullDeref
    else Returned(None)
  }

  /**
   * The extreme of a child is the extreme of its father when the loop
   * descends into it: the preferred child, or the other one when the
   * preferred child holds nothing.
   */
  lemma ChildExtreme(tr: Trie, d: nat, q: nat, dir: nat, next: nat, m: nat)
    requires d < tr.bit && dir < 2
    requires next == 2 * q + dir || (next == 2 * q + 1 - dir && Subtree(tr, d + 1, 2 * q + dir) == {})
    requires dir == 0 ==> IsMin(Subtree(tr, d + 1, next), m)
    requires dir == 1 ==> IsMax(Subtree(tr, d + 1, next), m)
    ensures dir == 0 ==> IsMin(Subtree(tr, d, q), m)
    ensures dir == 1 ==> IsMax(Subtree(tr, d, q), m)
  {
    SubtreeSplit(tr, d, q);
    forall x | x in Subtree(tr, d, q)
      ensures dir == 0 ==> m <= x
      ensures dir == 1 ==> x <= m
    {
      if Prefix(tr.bit, x, d + 1) != next {
        Outside(tr, d + 1, x, m);
      }
    }
  }

  /** One step of the loop from a node with values below it: into a child that exists. */
  lemma ExtremeStep(tr: Trie, d: nat, q: nat, dir: nat) returns (next: nat)
    requires d < tr.bit && dir < 2 && Subtree(tr, d, q) != {}
    ensures HasNode(tr, d + 1, next)
    ensures next == 2 * q + dir || (next == 2 * q + 1 - dir && !HasNode(tr, d + 1, 2 * q + dir))
    ensures Extreme(tr, d, q, dir) == Extreme(tr, d + 1, next, dir)
  {
    if HasNode(tr, d + 1, 2 * q + dir) {
      next := 2 * q + dir;
    } else {
      var v :| v in Subtree(tr, d, q);
      PrefixStep(tr.bit, v, d);
      next := 2 * q + 1 - dir;
      assert Prefix(tr.bit, v, d + 1) == next;
    }
  }

  /** From a node with values below it, the loop returns the smallest (dir = 0) or largest (dir = 1) of them. */
  lemma {:induction false} ExtremeFinds(tr: Trie, d: nat, q: nat, dir: nat)
    requires d <= tr.bit && dir < 2 && Subtree(tr, d, q) != {}
    decreases tr.bit - d
    ensures Extreme(tr, d, q, dir).Returned? && Extreme(tr, d, q, dir).value.Some?
    ensures dir == 0 ==> IsMin(Subtree(tr, d, q), Extreme(tr, d, q, dir).value.value)
    ensures dir == 1 ==> IsMax(Subtree(tr, d, q), Extreme(tr, d, q, dir).value.value)
  {
    var sub := Subtree(tr, d, q);
    if d == tr.bit {
      forall x | x in sub ensures x == q {
        assert Prefix(tr.bit, x, d) == x;
      }
      var x :| x in sub;
      assert sub == {q};
    } else {
      var next := ExtremeStep(tr, d, q, dir);
      HasNodeSubtree(tr, d + 1, next);
      HasNodeSubtree(tr, d + 1, 2 * q + dir);
      ExtremeFinds(tr, d + 1, next, dir);
      ChildExtreme(tr, d, q, dir, next, Extreme(tr, d + 1, next, dir).value.value);
    }
  }

  /** `min()` and `max()` as written: on an empty trie of two or more bits they dereference null. */
  function MinAsWritten(tr: Trie): (o: Outcome<Option<nat>>)
    requires InRange(tr)
    ensures tr.values != {} ==> o.Returned? && o.value.Some? && IsMin(tr.values, o.value.value)
    ensures tr.values == {} && tr.bit >= 2 ==> o == NullDeref
  {
    AllRoot(tr);
    assert Subtree(tr, 0, 0) == tr.values;
    if tr.values != {} then ExtremeFinds(tr, 0, 0, 0); Extreme(tr, 0, 0, 0)
    else Extreme(tr, 0, 0, 0)
  }

  function MaxAsWritten(tr: Trie): (o: Outcome<Option<nat>>)
    requires InRange(tr)
    ensures tr.values != {} ==> o.Returned? && o.value.Some? && IsMax(tr.values, o.value.value)
    ensures tr.values == {} && tr.bit >= 2 ==> o == NullDeref
  {
    AllRoot(tr);
    assert Subtree(tr, 0, 0) == tr.values;
    if tr.values != {} then ExtremeFinds(tr, 0, 0, 1); Extreme(tr, 0, 0, 1)
    else Extreme(tr, 0, 0, 1)
  }

  /** `min_node()`, which breaks out on null: the smallest value, or None in the empty trie. */
  function Min(tr: Trie): (r: Option<nat>)
    requires InRange(tr)
    ensures r.Some? <==> tr.values != {}
    ensures r.Some? ==> IsMin(tr.values, r.value)
  {
    if tr.values == {} then None
    else
      var o := MinAsWritten(tr);
      o.value
  }

  /** `max()` as evidently intended, mirroring `min_node()`. */
  function Max(tr: Trie): (r: Option<nat>)
    requires InRange(tr)
    ensures r.Some? <==> tr.values != {}
    ensures r.Some? ==> IsMax(tr.values, r.value)
  {
    if tr.values == {} then None
    else
      var o := MaxAsWritten(tr);
      o.value
  }

  /** The values the iterator visits from leaf w by `++` (following `links[1]`) until null. */
  function IterateFrom(tr: Trie, w: Option<nat>): (vs: seq<nat>)
    requires Good(tr) && (w.Some? ==> w.value in tr.values)
    decreases if w.Some? then Pow2(tr.bit) - w.value else 0
    ensures forall k :: 0 <= k < |vs| ==> vs[k] in tr.values
    ensures forall j, k :: 0 <= j < k < |vs| ==> vs[j] < vs[k]
    ensures w.Some? ==> forall x :: x in tr.values ==> (x in vs <==> w.value <= x)
    ensures w.None? ==> vs == []
    ensures w.Some? ==> |vs| > 0 && vs[0] == w.value
  {
    if w.None? then []
    else
      assert LinkGood(tr, w.value);
      var rest := IterateFrom(tr, Lookup(tr.next, w.value));
      [w.value] + rest
  }

  /** Iteration from `begin()` (`min_node`) to `end()` (null) lists the stored values in ascending order. */
  lemma IterationIsSorted(tr: Trie)
    requires Good(tr)
    ensures var vs := IterateFrom(tr, Min(tr));
      && (forall j, k :: 0 <= j < k < |vs| ==> vs[j] < vs[k])
      && (forall x :: x in vs <==> x in tr.values)
  {
  }

  /** The node at depth e on t's path. */
  function PathNode(bit: nat, t: nat, e: nat): Node
    requires e <= bit
  {
    Node(e, Prefix(bit, t, e))
  }

  /** Node k lies on t's path at a depth in [lo, hi). */
  predicate OnPath(bit: nat, t: nat, k: Node, lo: nat, hi: nat) {
    lo <= k.depth < hi && hi <= bit && k.prefix == Prefix(bit, t, k.depth)
  }

  /**
   * `k->jump = nullptr` on the node where the descent for t stopped, and the
   * null jumps of the path nodes `insert` creates below it: t's path from
   * depth i on carries no jump.
   */
  function ClearPath(jump: map<Node, nat>, bit: nat, t: nat, i: nat): (r: map<Node, nat>)
    ensures forall k :: Lookup(r, k) == if OnPath(bit, t, k, i, bit) then None else Lookup(jump, k)
  {
    map k | k in jump && !OnPath(bit, t, k, i, bit) :: jump[k]
  }

  /**
   * The climb closing `insert`, at the path node of depth e: it points the jump
   * at the new leaf when the 0-child is missing and the jump is null or
   * larger than t, or the 1-child is missing and the jump is null or smaller.
   */
  function Raised(tr: Trie, t: nat, e: nat): Option<nat>
    requires e < tr.bit
  {
    var q := Prefix(tr.bit, t, e);
    var j := Lookup(tr.jump, Node(e, q));
    var l, r := HasNode(tr, e + 1, 2 * q), HasNode(tr, e + 1, 2 * q + 1);
    if (!l && (j.None? || j.value > t)) || (!r && (j.None? || j.value < t)) then Some(t) else j
  }

  /** The climb from depth d - 1 up to the root, each path node updated as `Raised` says. */
  function RaiseJumps(tr: Trie, t: nat, d: nat): (r: map<Node, nat>)
    requires d <= tr.bit
    decreases d
    ensures forall k :: !OnPath(tr.bit, t, k, 0, d) ==> Lookup(r, k) == Lookup(tr.jump, k)
    ensures forall e: nat :: e < d ==> Lookup(r, PathNode(tr.bit, t, e)) == Raised(tr, t, e)
  {
    if d == 0 then tr.jump
    else
      var e := d - 1;
      var next := tr.(jump := Assign(tr.jump, PathNode(tr.bit, t, e), Raised(tr, t, e)));
      assert forall f: nat :: f < e ==> Raised(next, t, f) == Raised(tr, t, f);
      RaiseJumps(next, t, e)
  }

  /**
   * The new leaf's neighbours in `insert(t)`, from the node u where the
   * descent stopped and t's digit c there: the predecessor is u's jump
   * (c = 1) or the leaf before it (c = 0), the successor the predecessor's
   * next leaf.  As written (`repaired` false) a new minimum gets no successor;
   * the repair takes u's old jump, the smallest leaf above t, instead.
   */
  function Neighbours(tr: Trie, t: nat, repaired: bool): (pair: (Option<nat>, Option<nat>))
    requires t < Pow2(tr.bit) && Stop(tr, t) < tr.bit
  {
    var i := Stop(tr, t);
    var u, c := PathNode(tr.bit, t, i), Digit(tr.bit, t, i);
    var j := Lookup(tr.jump, u);
    var pred := if c == 1 then j else if j.Some? then Lookup(tr.prev, j.value) else None;
    var succ := if pred.Some? then Lookup(tr.next, pred.value) else if repaired && c == 0 then j else None;
    (pred, succ)
  }

  /** The repaired neighbours are t's predecessor and successor among the stored values. */
  lemma NeighboursFound(tr: Trie, t: nat)
    requires Good(tr) && t < Pow2(tr.bit) && t !in tr.values
    ensures Stop(tr, t) < tr.bit
    ensures PredIn(tr.values, t, Neighbours(tr, t, true).0)
    ensures SuccIn(tr.values, t, Neighbours(tr, t, true).1)
  {
    StopFacts(tr, t);
    StopNeighbour(tr, t);
    var i := Stop(tr, t);
    var u, c := PathNode(tr.bit, t, i), Digit(tr.bit, t, i);
    var j := Lookup(tr.jump, u);
    var (pred, succ) := Neighbours(tr, t, true);
    if c == 0 && j.Some? {
      assert LinkGood(tr, j.value);
      SuccPred(tr.values, t, j.value, pred);
    }
    if pred.Some? {
      assert LinkGood(tr, pred.value);
      PredSucc(tr.values, t, pred.value, succ);
    }
  }

  /** t's successor j has t's predecessor as its own. */
  lemma SuccPred(s: set<nat>, t: nat, j: nat, o: Option<nat>)
    requires t !in s && SuccIn(s, t, Some(j)) && PredIn(s, j, o)
    ensures PredIn(s, t, o)
  {
  }

  /** t's predecessor p has t's successor as its own. */
  lemma PredSucc(s: set<nat>, t: nat, p: nat, o: Option<nat>)
    requires t !in s && PredIn(s, t, Some(p)) && SuccIn(s, p, o)
    ensures SuccIn(s, t, o)
  {
  }

  /** The new leaf's `links[0]` and its predecessor's `links[1]`... as `prev` after the splice. */
  function SplicePrev(prev: map<nat, nat>, t: nat, pred: Option<nat>, succ: Option<nat>): map<nat, nat> {
    var p := Assign(prev, t, pred);
    if succ.Some? then p[succ.value := t] else p
  }

  function SpliceNext(next: map<nat, nat>, t: nat, pred: Option<nat>, succ: Option<nat>): map<nat, nat> {
    var n := Assign(next, t, succ);
    if pred.Some? then n[pred.value := t] else n
  }

  /** Splicing t between its predecessor and successor keeps every leaf linked to its neighbours. */
  lemma SpliceLinks(tr: Trie, r: Trie, t: nat, pred: Option<nat>, succ: Option<nat>)
    requires forall v :: LinkGood(tr, v)
    requires t !in tr.values && PredIn(tr.values, t, pred) && SuccIn(tr.values, t, succ)
    requires r.values == tr.values + {t}
    requires r.prev == SplicePrev(tr.prev, t, pred, succ) && r.next == SpliceNext(tr.next, t, pred, succ)
    ensures forall v :: LinkGood(r, v)
  {
    forall v | v in r.values ensures LinkGood(r, v) {
      if v != t {
        assert LinkGood(tr, v);
      }
    }
  }

  /** The trie `insert` builds before its climb: t stored, t's path cleared from depth i on. */
  function Grown(tr: Trie, t: nat, i: nat): Trie {
    tr.(values := tr.values + {t}, jump := ClearPath(tr.jump, tr.bit, t, i))
  }

  /** `insert(t)`: the descent, the new leaf spliced between its neighbours, the climb, `n++`. */
  function InsertWith(tr: Trie, t: nat, repaired: bool): (r: Trie)
    requires InRange(tr) && t < Pow2(tr.bit)
    ensures r.bit == tr.bit && r.values == tr.values + {t}
    ensures t !in tr.values ==> forall k :: !OnPath(tr.bit, t, k, 0, tr.bit) ==> Lookup(r.jump, k) == Lookup(tr.jump, k)
    ensures t !in tr.values ==> forall e: nat :: e < tr.bit ==>
      Lookup(r.jump, PathNode(tr.bit, t, e)) == Raised(Grown(tr, t, Stop(tr, t)), t, e)
  {
    StopFacts(tr, t);
    if Stop(tr, t) == tr.bit then tr
    else
      var (pred, succ) := Neighbours(tr, t, repaired);
      SpliceIn(tr, t, pred, succ)
  }

  /**
   * The new leaf t spliced between `pred` and `succ`, t's path grown from the
   * descent's stop with null jumps, the climb run over it, and `n++`.
   */
  function SpliceIn(tr: Trie, t: nat, pred: Option<nat>, succ: Option<nat>): (r: Trie)
    requires t < Pow2(tr.bit)
    ensures InsertShape(tr, t, r)
    ensures r.prev == SplicePrev(tr.prev, t, pred, succ) && r.next == SpliceNext(tr.next, t, pred, succ)
    ensures r.n == tr.n + 1
  {
    var i := Stop(tr, t);
    var grown := Grown(tr, t, i).(prev := SplicePrev(tr.prev, t, pred, succ),
                                  next := SpliceNext(tr.next, t, pred, succ),
                                  n := tr.n + 1);
    assert forall e: nat :: e < tr.bit ==> Raised(grown, t, e) == Raised(Grown(tr, t, i), t, e);
    grown.(jump := RaiseJumps(grown, t, tr.bit))
  }

  function InsertAsWritten(tr: Trie, t: nat): (r: Trie)
    requires InRange(tr) && t < Pow2(tr.bit)
    ensures r.values == tr.values + {t}
  {
    InsertWith(tr, t, false)
  }

  /** Values that differ in d leading bits differ in every longer prefix. */
  lemma {:induction false} PrefixDiffers(bit: nat, v: nat, w: nat, d: nat, e: nat)
    requires d <= e <= bit && Prefix(bit, v, d) != Prefix(bit, w, d)
    decreases e - d
    ensures Prefix(bit, v, e) != Prefix(bit, w, e)
  {
    if d < e {
      PrefixDiffers(bit, v, w, d, e - 1);
      PrefixStep(bit, v, e - 1);
      PrefixStep(bit, w, e - 1);
    }
  }

  /** Below the node where the descent for t stopped, no stored value shares t's path. */
  lemma BelowStop(tr: Trie, t: nat, e: nat, v: nat)
    requires Stop(tr, t) < e <= tr.bit && v in tr.values
    ensures Prefix(tr.bit, v, e) != Prefix(tr.bit, t, e)
  {
    var i := Stop(tr, t);
    assert Prefix(tr.bit, v, i + 1) != Prefix(tr.bit, t, i + 1);
    PrefixDiffers(tr.bit, v, t, i + 1, e);
  }

  /** Storing t adds exactly the nodes of t's path. */
  lemma GrowHasNode(tr: Trie, r: Trie, t: nat, e: nat, x: nat)
    requires r.bit == tr.bit && r.values == tr.values + {t} && e <= tr.bit
    ensures HasNode(r, e, x) <==> HasNode(tr, e, x) || x == Prefix(tr.bit, t, e)
  {
    if x == Prefix(tr.bit, t, e) {
      assert t in r.values;
    }
  }

  /** Storing t adds t to the values below the nodes of its path and nowhere else. */
  lemma GrowSubtree(tr: Trie, r: Trie, t: nat, d: nat, q: nat)
    requires r.bit == tr.bit && r.values == tr.values + {t} && d <= tr.bit
    ensures Subtree(r, d, q) == Subtree(tr, d, q) + (if Prefix(tr.bit, t, d) == q then {t} else {})
  {
  }

  /** The facts about `insert(t)`'s result that its jump pointers are judged by. */
  ghost predicate InsertShape(tr: Trie, t: nat, r: Trie)
    requires t < Pow2(tr.bit)
  {
    && r.bit == tr.bit && r.values == tr.values + {t}
    && (forall k :: !OnPath(tr.bit, t, k, 0, tr.bit) ==> Lookup(r.jump, k) == Lookup(tr.jump, k))
    && (forall e: nat :: e < tr.bit ==> Lookup(r.jump, PathNode(tr.bit, t, e)) == Raised(Grown(tr, t, Stop(tr, t)), t, e))
  }

  /** A node off t's path keeps its children, its values and its jump. */
  lemma InsertJumpOff(tr: Trie, t: nat, r: Trie, d: nat, q: nat)
    requires Good(tr) && t < Pow2(tr.bit) && t !in tr.values && InsertShape(tr, t, r)
    requires d < tr.bit && q != Prefix(tr.bit, t, d)
    ensures JumpGood(r, d, q)
  {
    PrefixStep(tr.bit, t, d);
    GrowHasNode(tr, r, t, d, q);
    GrowHasNode(tr, r, t, d + 1, 2 * q);
    GrowHasNode(tr, r, t, d + 1, 2 * q + 1);
    GrowSubtree(tr, r, t, d, q);
    assert !OnPath(tr.bit, t, Node(d, q), 0, tr.bit);
    assert JumpGood(tr, d, q);
  }

  /** Adding t to a set moves its minimum (maximum) to t exactly when t is smaller (larger). */
  lemma ExtremeAdd(s: set<nat>, t: nat, j: nat, cd: nat)
    requires cd < 2 && (cd == 1 ==> IsMin(s, j)) && (cd == 0 ==> IsMax(s, j))
    ensures cd == 1 ==> IsMin(s + {t}, if j > t then t else j)
    ensures cd == 0 ==> IsMax(s + {t}, if j < t then t else j)
  {
  }

  /** Above the stop, a node missing the side t does not take: its jump moves to t when t is the new extreme. */
  lemma InsertJumpLone(tr: Trie, t: nat, r: Trie, d: nat)
    requires InRange(tr) && t < Pow2(tr.bit) && t !in tr.values && InsertShape(tr, t, r)
    requires d < Stop(tr, t) && JumpGood(tr, d, Prefix(tr.bit, t, d))
    requires !HasNode(tr, d + 1, 2 * Prefix(tr.bit, t, d) + 1 - Digit(tr.bit, t, d))
    ensures JumpGood(r, d, Prefix(tr.bit, t, d))
  {
    var i := Stop(tr, t);
    var q, cd := Prefix(tr.bit, t, d), Digit(tr.bit, t, d);
    var o := 2 * q + 1 - cd;
    var g := Grown(tr, t, i);
    PrefixStep(tr.bit, t, d);
    PrefixRoot(tr.bit, t);
    assert HasNode(tr, d, q);
    assert HasNode(tr, d + 1, 2 * q + cd);
    var u := Node(d, q);
    var j := tr.jump[u];
    assert !OnPath(tr.bit, t, u, i, tr.bit);
    GrowHasNode(tr, g, t, d + 1, o);
    GrowHasNode(tr, g, t, d + 1, 2 * q + cd);
    assert Raised(g, t, d) == Some(if cd == 1 then (if j > t then t else j) else (if j < t then t else j));
    GrowHasNode(tr, r, t, d + 1, o);
    GrowHasNode(tr, r, t, d + 1, 2 * q + cd);
    GrowSubtree(tr, r, t, d, q);
    ExtremeAdd(Subtree(tr, d, q), t, j, cd);
  }

  /** A node above the stop keeps its children but t, so only a node missing a side needs its jump checked. */
  lemma InsertJumpAbove(tr: Trie, t: nat, r: Trie, d: nat)
    requires Good(tr) && t < Pow2(tr.bit) && t !in tr.values && InsertShape(tr, t, r)
    requires d < Stop(tr, t)
    ensures JumpGood(r, d, Prefix(tr.bit, t, d))
  {
    var q, cd := Prefix(tr.bit, t, d), Digit(tr.bit, t, d);
    var o := 2 * q + 1 - cd;
    if HasNode(tr, d + 1, o) {
      PrefixStep(tr.bit, t, d);
      GrowHasNode(tr, r, t, d + 1, o);
      GrowHasNode(tr, r, t, d + 1, 2 * q + cd);
    } else {
      assert JumpGood(tr, d, q);
      InsertJumpLone(tr, t, r, d);
    }
  }

  /** t's path from the stop down holds t alone, so its jumps all name t (or none, where both children exist). */
  lemma InsertJumpBelow(tr: Trie, t: nat, r: Trie, d: nat)
    requires InRange(tr) && t < Pow2(tr.bit) && t !in tr.values && InsertShape(tr, t, r)
    requires Stop(tr, t) <= d < tr.bit
    ensures JumpGood(r, d, Prefix(tr.bit, t, d))
  {
    StopFacts(tr, t);
    var i := Stop(tr, t);
    var q, cd := Prefix(tr.bit, t, d), Digit(tr.bit, t, d);
    var o := 2 * q + 1 - cd;
    var g := Grown(tr, t, i);
    PrefixStep(tr.bit, t, d);
    GrowHasNode(tr, r, t, d + 1, o);
    GrowHasNode(tr, g, t, d + 1, o);
    GrowHasNode(tr, r, t, d + 1, 2 * q + cd);
    GrowHasNode(tr, g, t, d + 1, 2 * q + cd);
    assert Lookup(g.jump, PathNode(tr.bit, t, d)).None?;
    assert Lookup(r.jump, PathNode(tr.bit, t, d)) == Raised(g, t, d);
    if !HasNode(tr, d + 1, o) {
      if d == i {
        Childless(tr, i, q);
      } else {
        forall v | v in tr.values ensures Prefix(tr.bit, v, d) != q {
          BelowStop(tr, t, d, v);
        }
      }
      GrowSubtree(tr, r, t, d, q);
      assert Subtree(tr, d, q) == {};
    }
  }

  /** Every node's jump pointer is as intended after `insert(t)`. */
  lemma InsertJumps(tr: Trie, t: nat, r: Trie)
    requires Good(tr) && t < Pow2(tr.bit) && t !in tr.values && InsertShape(tr, t, r)
    ensures forall d: nat, q: nat :: d < r.bit ==> JumpGood(r, d, q)
  {
    forall d: nat, q: nat | d < r.bit ensures JumpGood(r, d, q) {
      if q != Prefix(tr.bit, t, d) {
        InsertJumpOff(tr, t, r, d, q);
      } else if d < Stop(tr, t) {
        InsertJumpAbove(tr, t, r, d);
      } else {
        InsertJumpBelow(tr, t, r, d);
      }
    }
  }

  /** The repaired `insert` of a new value keeps the representation invariant. */
  lemma InsertGood(tr: Trie, t: nat)
    requires Good(tr) && t < Pow2(tr.bit) && t !in tr.values
    ensures Good(InsertWith(tr, t, true))
  {
    NeighboursFound(tr, t);
    var (pred, succ) := Neighbours(tr, t, true);
    SpliceGood(tr, t, pred, succ);
  }

  /** Splicing a new value in between its true neighbours keeps the representation invariant. */
  lemma SpliceGood(tr: Trie, t: nat, pred: Option<nat>, succ: Option<nat>)
    requires Good(tr) && t < Pow2(tr.bit) && t !in tr.values
    requires PredIn(tr.values, t, pred) && SuccIn(tr.values, t, succ)
    ensures Good(SpliceIn(tr, t, pred, succ))
  {
    var r := SpliceIn(tr, t, pred, succ);
    InsertJumps(tr, t, r);
    SpliceLinks(tr, r, t, pred, succ);
  }

  /**
   * `insert(t)` as evidently intended: the stored values gain t, and the
   * jump pointers, leaf links and size stay as the invariant describes.
   */
  function Insert(tr: Trie, t: nat): (r: Trie)
    requires Good(tr) && t < Pow2(tr.bit)
    ensures Good(r) && r.bit == tr.bit && r.values == tr.values + {t}
    ensures t in tr.values ==> r == tr
  {
    StopFacts(tr, t);
    if t in tr.values then tr
    else InsertGood(tr, t); InsertWith(tr, t, true)
  }

  /** The prefix of the other child of t's path node at depth e: t's path with the digit flipped. */
  function Sibling(bit: nat, t: nat, e: nat): nat
    requires e < bit
  {
    2 * Prefix(bit, t, e) + 1 - Digit(bit, t, e)
  }

  /**
   * The climb of `erase(t)` from the leaf's father at depth e: it removes
   * t's path node by node and stops at the first node that keeps another
   * child, or at the root.
   */
  function Climb(tr: Trie, t: nat, e: nat): (b: nat)
    requires e < tr.bit
    decreases e
    ensures b <= e
    ensures b == 0 || HasNode(tr, b + 1, Sibling(tr.bit, t, b))
    ensures forall f: nat :: b < f <= e ==> !HasNode(tr, f + 1, Sibling(tr.bit, t, f))
  {
    if e == 0 || HasNode(tr, e + 1, Sibling(tr.bit, t, e)) then e else Climb(tr, t, e - 1)
  }

  /**
   * The neighbour that replaces t in an ancestor's jump at depth f: as
   * written `m[!c]`, the neighbour on the side t did not take; as evidently
   * intended `m[c]`.  `m[0]` is t's predecessor, `m[1]` its successor.
   */
  function Replacement(bit: nat, t: nat, f: nat, m0: Option<nat>, m1: Option<nat>, repaired: bool): Option<nat>
    requires f < bit
  {
    if (Digit(bit, t, f) == 1) == repaired then m1 else m0
  }

  /** An ancestor's jump after `erase(t)`: the replacement if it named t, else as before. */
  function Fixed(jump: map<Node, nat>, bit: nat, t: nat, f: nat, m0: Option<nat>, m1: Option<nat>, repaired: bool): Option<nat>
    requires f < bit
  {
    var j := Lookup(jump, PathNode(bit, t, f));
    if j == Some(t) then Replacement(bit, t, f, m0, m1, repaired) else j
  }

  /** The last loop of `erase(t)`: from depth e - 1 up, an ancestor whose jump named t takes the replacement. */
  function FixAncestors(jump: map<Node, nat>, bit: nat, t: nat, e: nat, m0: Option<nat>, m1: Option<nat>, repaired: bool): (r: map<Node, nat>)
    requires e <= bit
    decreases e
    ensures forall k :: !OnPath(bit, t, k, 0, e) ==> Lookup(r, k) == Lookup(jump, k)
    ensures forall f: nat :: f < e ==>
      Lookup(r, PathNode(bit, t, f)) == Fixed(jump, bit, t, f, m0, m1, repaired)
  {
    if e == 0 then jump
    else
      var f := e - 1;
      var k := PathNode(bit, t, f);
      var fixed := if Lookup(jump, k) == Some(t) then Assign(jump, k, Replacement(bit, t, f, m0, m1, repaired)) else jump;
      FixAncestors(fixed, bit, t, f, m0, m1, repaired)
  }

  /** The jumps after `erase(t)`: `m[!c]` at the node b where the climb stopped, then the ancestors above it repaired. */
  function EraseJumps(tr: Trie, t: nat, b: nat, m0: Option<nat>, m1: Option<nat>, repaired: bool): (r: map<Node, nat>)
    requires b < tr.bit
    ensures forall k :: !OnPath(tr.bit, t, k, 0, b + 1) ==> Lookup(r, k) == Lookup(tr.jump, k)
    ensures Lookup(r, PathNode(tr.bit, t, b)) == (if Digit(tr.bit, t, b) == 0 then m1 else m0)
    ensures forall f: nat :: f < b ==> Lookup(r, PathNode(tr.bit, t, f)) == Fixed(tr.jump, tr.bit, t, f, m0, m1, repaired)
  {
    var jump := Assign(tr.jump, PathNode(tr.bit, t, b), if Digit(tr.bit, t, b) == 0 then m1 else m0);
    assert forall f: nat :: f < b ==> Fixed(jump, tr.bit, t, f, m0, m1, repaired) == Fixed(tr.jump, tr.bit, t, f, m0, m1, repaired);
    FixAncestors(jump, tr.bit, t, b, m0, m1, repaired)
  }

  /** The repaired `erase(t)`'s result, t being stored: t's leaf unlinked, the values without t, the jumps fixed. */
  ghost predicate EraseShape(tr: Trie, t: nat, r: Trie)
    requires tr.bit >= 1
  {
    var m0, m1 := Lookup(tr.prev, t), Lookup(tr.next, t);
    && r.bit == tr.bit && r.values == tr.values - {t}
    && r.jump == EraseJumps(tr, t, Climb(tr, t, tr.bit - 1), m0, m1, true)
    && r.prev == (if m1.Some? then Assign(tr.prev, m1.value, m0) else tr.prev)
    && r.next == (if m0.Some? then Assign(tr.next, m0.value, m1) else tr.next)
    && r.n == tr.n - 1
  }

  /**
   * `erase(t)`: nothing when t is absent; otherwise t's leaf is unlinked,
   * its path removed up to the node b where it branches off, and the jumps
   * repaired.  As written (`repaired` false) the size is left alone when b is
   * the root, and an ancestor's jump at t moves to the wrong neighbour.
   */
  function EraseWith(tr: Trie, t: nat, repaired: bool): (r: Trie)
    requires InRange(tr) && tr.n == |tr.values| && t < Pow2(tr.bit)
    ensures r.bit == tr.bit && r.values == tr.values - {t}
    ensures t in tr.values && repaired ==> EraseShape(tr, t, r)
  {
    if t !in tr.values then tr
    else
      var m0, m1 := Lookup(tr.prev, t), Lookup(tr.next, t);
      var b := Climb(tr, t, tr.bit - 1);
      Trie(tr.bit, tr.values - {t},
           EraseJumps(tr, t, b, m0, m1, repaired),
           if m1.Some? then Assign(tr.prev, m1.value, m0) else tr.prev,
           if m0.Some? then Assign(tr.next, m0.value, m1) else tr.next,
           if b == 0 && !repaired then tr.n else tr.n - 1)
  }

  function EraseAsWritten(tr: Trie, t: nat): (r: Trie)
    requires InRange(tr) && tr.n == |tr.values| && t < Pow2(tr.bit)
    ensures r.bit == tr.bit && r.values == tr.values - {t}
  {
    EraseWith(tr, t, false)
  }

  /** b is where `erase(t)`'s climb stops: the root or a node with another child, none in between. */
  ghost predicate ClimbStop(tr: Trie, t: nat, b: nat) {
    && b < tr.bit
    && (b == 0 || HasNode(tr, b + 1, Sibling(tr.bit, t, b)))
    && (forall f: nat :: b < f < tr.bit ==> !HasNode(tr, f + 1, Sibling(tr.bit, t, f)))
  }

  /** Below the node where `erase(t)`'s climb stops, t has its path to itself. */
  lemma {:induction false} Alone(tr: Trie, t: nat, b: nat, f: nat, v: nat)
    requires ClimbStop(tr, t, b) && b < f <= tr.bit && v in tr.values
    decreases tr.bit - f
    ensures v == t || Prefix(tr.bit, v, f) != Prefix(tr.bit, t, f)
  {
    if f < tr.bit {
      Alone(tr, t, b, f + 1, v);
      PrefixStep(tr.bit, v, f);
      PrefixStep(tr.bit, t, f);
      assert !HasNode(tr, f + 1, Sibling(tr.bit, t, f));
    }
  }

  /** The values below a node form an interval of the stored values. */
  lemma Convex(tr: Trie, d: nat, q: nat, a: nat, x: nat, w: nat)
    requires d <= tr.bit && a in Subtree(tr, d, q) && w in Subtree(tr, d, q) && x in tr.values && a <= x <= w
    ensures x in Subtree(tr, d, q)
  {
    if Prefix(tr.bit, x, d) != q {
      Outside(tr, d, x, a);
      Outside(tr, d, x, w);
    }
  }

  /** Removing t removes it from the values below the nodes of its path, and leaves other nodes' values alone. */
  lemma ShrinkSubtree(tr: Trie, r: Trie, t: nat, d: nat, q: nat)
    requires r.bit == tr.bit && r.values == tr.values - {t} && d <= tr.bit
    ensures Subtree(r, d, q) == Subtree(tr, d, q) - {t}
  {
  }

  /** A node off t's path exists after removing t exactly when it did before. */
  lemma ShrinkHasNode(tr: Trie, r: Trie, t: nat, e: nat, x: nat)
    requires r.bit == tr.bit && r.values == tr.values - {t} && e <= tr.bit && x != Prefix(tr.bit, t, e)
    ensures HasNode(r, e, x) <==> HasNode(tr, e, x)
  {
    if e > 0 && HasNode(tr, e, x) {
      var v :| v in tr.values && Prefix(tr.bit, v, e) == x;
      assert v in r.values;
    }
  }

  /** A node off t's path keeps its children, its values and its jump when t is erased. */
  lemma EraseJumpOff(tr: Trie, t: nat, r: Trie, d: nat, q: nat)
    requires r.bit == tr.bit && r.values == tr.values - {t}
    requires d < tr.bit && q != Prefix(tr.bit, t, d) && JumpGood(tr, d, q)
    requires Lookup(r.jump, Node(d, q)) == Lookup(tr.jump, Node(d, q))
    ensures JumpGood(r, d, q)
  {
    PrefixStep(tr.bit, t, d);
    ShrinkHasNode(tr, r, t, d, q);
    ShrinkHasNode(tr, r, t, d + 1, 2 * q);
    ShrinkHasNode(tr, r, t, d + 1, 2 * q + 1);
    ShrinkSubtree(tr, r, t, d, q);
  }

  /** t's path below the climb's stop disappears with t. */
  lemma EraseJumpGone(tr: Trie, t: nat, r: Trie, b: nat, d: nat)
    requires r.bit == tr.bit && r.values == tr.values - {t}
    requires ClimbStop(tr, t, b) && b < d < tr.bit
    ensures !HasNode(r, d, Prefix(tr.bit, t, d))
  {
    forall v | v in r.values ensures Prefix(tr.bit, v, d) != Prefix(tr.bit, t, d) {
      Alone(tr, t, b, d, v);
    }
  }

  /**
   * At the node where the climb stops, when it keeps another child: the side
   * t took is gone, and its jump is t's successor (the smallest value left
   * below it) or t's predecessor (the largest).
   */
  lemma EraseJumpKept(tr: Trie, t: nat, r: Trie, b: nat)
    requires r.bit == tr.bit && r.values == tr.values - {t} && t in tr.values && LinkGood(tr, t)
    requires ClimbStop(tr, t, b) && HasNode(tr, b + 1, Sibling(tr.bit, t, b))
    requires Lookup(r.jump, PathNode(tr.bit, t, b)) == if Digit(tr.bit, t, b) == 0 then Lookup(tr.next, t) else Lookup(tr.prev, t)
    ensures JumpGood(r, b, Prefix(tr.bit, t, b))
  {
    var q, cb, s := Prefix(tr.bit, t, b), Digit(tr.bit, t, b), Sibling(tr.bit, t, b);
    var m0, m1 := Lookup(tr.prev, t), Lookup(tr.next, t);
    PrefixStep(tr.bit, t, b);
    forall v | v in r.values ensures Prefix(tr.bit, v, b + 1) != Prefix(tr.bit, t, b + 1) {
      Alone(tr, t, b, b + 1, v);
    }
    ShrinkHasNode(tr, r, t, b + 1, s);
    ShrinkSubtree(tr, r, t, b, q);
    var w :| w in tr.values && Prefix(tr.bit, w, b + 1) == s;
    PrefixStep(tr.bit, w, b);
    forall x | x in Subtree(r, b, q) ensures cb == 0 ==> t < x ensures cb == 1 ==> x < t {
      PrefixStep(tr.bit, x, b);
      Alone(tr, t, b, b + 1, x);
      Outside(tr, b + 1, x, t);
    }
    Outside(tr, b + 1, w, t);
    if cb == 0 {
      Convex(tr, b, q, t, m1.value, w);
    } else {
      Convex(tr, b, q, w, m0.value, t);
    }
  }

  /** When the climb reaches a root with no other child, t was the only value: the root is left bare, with no jump. */
  lemma EraseJumpLast(tr: Trie, t: nat, r: Trie, b: nat)
    requires r.bit == tr.bit && r.values == tr.values - {t} && InRange(tr) && t in tr.values && LinkGood(tr, t)
    requires ClimbStop(tr, t, b) && !HasNode(tr, b + 1, Sibling(tr.bit, t, b))
    requires Lookup(r.jump, PathNode(tr.bit, t, b)) == if Digit(tr.bit, t, b) == 0 then Lookup(tr.next, t) else Lookup(tr.prev, t)
    ensures b == 0 && r.values == {} && JumpGood(r, 0, 0)
  {
    PrefixRoot(tr.bit, t);
    PrefixStep(tr.bit, t, 0);
    forall v | v in tr.values ensures v == t {
      Alone(tr, t, 0, 1, v);
      PrefixRoot(tr.bit, v);
      PrefixStep(tr.bit, v, 0);
    }
    assert tr.values == {t};
  }

  /** Above the climb's stop, t's path keeps a value w other than t below every node. */
  lemma OtherBelow(tr: Trie, t: nat, b: nat, d: nat) returns (w: nat)
    requires t in tr.values && ClimbStop(tr, t, b) && d < b
    ensures w in tr.values && w != t && Prefix(tr.bit, w, d) == Prefix(tr.bit, t, d)
    ensures Prefix(tr.bit, w, d + 1) == Prefix(tr.bit, t, d + 1)
  {
    w :| w in tr.values && Prefix(tr.bit, w, b + 1) == Sibling(tr.bit, t, b);
    PrefixStep(tr.bit, w, b);
    PrefixStep(tr.bit, t, b);
    PrefixShallower(tr.bit, w, t, d + 1, b);
    PrefixShallower(tr.bit, w, t, d, b);
  }

  /**
   * Above the climb's stop, a node missing the side t does not take: if its
   * jump named t, the smallest (largest) value left below it is t's
   * successor (predecessor), which the repaired loop puts there.
   */
  lemma EraseJumpLone(tr: Trie, t: nat, r: Trie, b: nat, d: nat)
    requires r.bit == tr.bit && r.values == tr.values - {t} && t in tr.values && LinkGood(tr, t)
    requires ClimbStop(tr, t, b) && d < b && JumpGood(tr, d, Prefix(tr.bit, t, d)) && HasNode(tr, d, Prefix(tr.bit, t, d))
    requires !HasNode(tr, d + 1, Sibling(tr.bit, t, d))
    requires Lookup(r.jump, PathNode(tr.bit, t, d)) == Fixed(tr.jump, tr.bit, t, d, Lookup(tr.prev, t), Lookup(tr.next, t), true)
    ensures JumpGood(r, d, Prefix(tr.bit, t, d))
  {
    var q, cd := Prefix(tr.bit, t, d), Digit(tr.bit, t, d);
    var m0, m1 := Lookup(tr.prev, t), Lookup(tr.next, t);
    var w := OtherBelow(tr, t, b, d);
    PrefixStep(tr.bit, t, d);
    ShrinkHasNode(tr, r, t, d + 1, Sibling(tr.bit, t, d));
    ShrinkSubtree(tr, r, t, d, q);
    assert w in Subtree(tr, d, q) && w in r.values;
    var j := tr.jump[Node(d, q)];
    if j == t {
      if cd == 1 {
        Convex(tr, d, q, t, m1.value, w);
      } else {
        Convex(tr, d, q, w, m0.value, t);
      }
    }
  }

  /** Above the climb's stop the node keeps t's side; only a node missing the other side needs its jump checked. */
  lemma EraseJumpAbove(tr: Trie, t: nat, r: Trie, b: nat, d: nat)
    requires r.bit == tr.bit && r.values == tr.values - {t} && InRange(tr) && t in tr.values && LinkGood(tr, t)
    requires ClimbStop(tr, t, b) && d < b && JumpGood(tr, d, Prefix(tr.bit, t, d))
    requires Lookup(r.jump, PathNode(tr.bit, t, d)) == Fixed(tr.jump, tr.bit, t, d, Lookup(tr.prev, t), Lookup(tr.next, t), true)
    ensures JumpGood(r, d, Prefix(tr.bit, t, d))
  {
    var q, o := Prefix(tr.bit, t, d), Sibling(tr.bit, t, d);
    var w := OtherBelow(tr, t, b, d);
    PrefixStep(tr.bit, t, d);
    assert HasNode(r, d + 1, Prefix(tr.bit, t, d + 1)) by {
      assert w in r.values;
    }
    ShrinkHasNode(tr, r, t, d + 1, o);
    if !HasNode(tr, d + 1, o) {
      PrefixRoot(tr.bit, t);
      EraseJumpLone(tr, t, r, b, d);
    }
  }

  /** Unlinking t's leaf keeps every remaining leaf linked to its neighbours. */
  lemma UnspliceLinks(tr: Trie, r: Trie, t: nat)
    requires forall v :: LinkGood(tr, v)
    requires t in tr.values && r.values == tr.values - {t}
    requires var m0, m1 := Lookup(tr.prev, t), Lookup(tr.next, t);
      && r.prev == (if m1.Some? then Assign(tr.prev, m1.value, m0) else tr.prev)
      && r.next == (if m0.Some? then Assign(tr.next, m0.value, m1) else tr.next)
    ensures forall v :: LinkGood(r, v)
  {
    assert LinkGood(tr, t);
    forall v | v in r.values ensures LinkGood(r, v) {
      assert LinkGood(tr, v);
    }
  }

  /** One node's jump pointer after the repaired `erase(t)`, given how the erase treated it. */
  lemma EraseJumpAt(tr: Trie, t: nat, r: Trie, b: nat, d: nat, q: nat)
    requires r.bit == tr.bit && r.values == tr.values - {t} && InRange(tr) && t in tr.values && LinkGood(tr, t)
    requires ClimbStop(tr, t, b) && d < tr.bit && JumpGood(tr, d, q)
    requires q != Prefix(tr.bit, t, d) ==> Lookup(r.jump, Node(d, q)) == Lookup(tr.jump, Node(d, q))
    requires q == Prefix(tr.bit, t, d) && d == b ==>
      Lookup(r.jump, PathNode(tr.bit, t, b)) == if Digit(tr.bit, t, b) == 0 then Lookup(tr.next, t) else Lookup(tr.prev, t)
    requires q == Prefix(tr.bit, t, d) && d < b ==>
      Lookup(r.jump, PathNode(tr.bit, t, d)) == Fixed(tr.jump, tr.bit, t, d, Lookup(tr.prev, t), Lookup(tr.next, t), true)
    ensures JumpGood(r, d, q)
  {
    if q != Prefix(tr.bit, t, d) {
      EraseJumpOff(tr, t, r, d, q);
    } else if b < d {
      EraseJumpGone(tr, t, r, b, d);
    } else if d == b {
      if HasNode(tr, b + 1, Sibling(tr.bit, t, b)) {
        EraseJumpKept(tr, t, r, b);
      } else {
        EraseJumpLast(tr, t, r, b);
        PrefixRoot(tr.bit, t);
      }
    } else {
      EraseJumpAbove(tr, t, r, b, d);
    }
  }

  /** Every node's jump pointer is as intended after the repaired `erase(t)`. */
  lemma EraseJumpsGood(tr: Trie, t: nat, r: Trie)
    requires InRange(tr) && t in tr.values && LinkGood(tr, t) && EraseShape(tr, t, r)
    requires forall d: nat, q: nat :: d < tr.bit ==> JumpGood(tr, d, q)
    ensures forall d: nat, q: nat :: d < r.bit ==> JumpGood(r, d, q)
  {
    var b := Climb(tr, t, tr.bit - 1);
    assert ClimbStop(tr, t, b);
    forall d: nat, q: nat | d < r.bit ensures JumpGood(r, d, q) {
      assert q != Prefix(tr.bit, t, d) ==> !OnPath(tr.bit, t, Node(d, q), 0, b + 1);
      EraseJumpAt(tr, t, r, b, d, q);
    }
  }

  /** The repaired `erase` of a stored value keeps the representation invariant. */
  lemma EraseGood(tr: Trie, t: nat)
    requires Good(tr) && t < Pow2(tr.bit) && t in tr.values
    ensures Good(EraseWith(tr, t, true))
  {
    var r := EraseWith(tr, t, true);
    assert LinkGood(tr, t);
    EraseJumpsGood(tr, t, r);
    UnspliceLinks(tr, r, t);
  }

  /**
   * `erase(t)` as evidently intended: the stored values lose t, and the jump
   * pointers, leaf links and size stay as the invariant describes.
   */
  function Erase(tr: Trie, t: nat): (r: Trie)
    requires Good(tr) && t < Pow2(tr.bit)
    ensures Good(r) && r.bit == tr.bit && r.values == tr.values - {t}
    ensures t !in tr.values ==> r == tr
  {
    if t !in tr.values then tr
    else EraseGood(tr, t); EraseWith(tr, t, true)
  }

  /** The 2-bit trie holding only 3. */
  function Three2(): Trie {
    Trie(2, {3}, map[Node(0, 0) := 3, Node(1, 1) := 3], map[], map[], 1)
  }

  lemma Three2Good()
    ensures Good(Three2())
  {
    var tr := Three2();
    assert Pow2(2) == 4;
    assert Shr(3, 1) == 1 && Shr(3, 2) == 0;
    forall d: nat, q: nat | d < tr.bit ensures JumpGood(tr, d, q) {
      assert Subtree(tr, d, Prefix(2, 3, d)) == {3};
    }
  }

  /** Inserting 0 into {3}: the descent stops at the root, where 0 goes left. */
  lemma Three2Descent()
    ensures Stop(Three2(), 0) == 0 && Digit(2, 0, 0) == 0
  {
    var tr := Three2();
    assert Shr(3, 1) == 1 && Shr(0, 1) == 0;
    assert !HasNode(tr, 1, 0);
  }

  /** As written, the new leaf 0 gets neither neighbour: the leaf before the root's jump 3 is null. */
  lemma Three2Neighbours()
    ensures Stop(Three2(), 0) < 2 && Neighbours(Three2(), 0, false) == (None, None)
  {
    Three2Descent();
  }

  /** The leaf links an insert leaves are the splice of t between the neighbours it found. */
  lemma InsertLinks(tr: Trie, t: nat, repaired: bool)
    requires InRange(tr) && t < Pow2(tr.bit) && t !in tr.values
    ensures Stop(tr, t) < tr.bit
    ensures var (pred, succ) := Neighbours(tr, t, repaired);
      InsertWith(tr, t, repaired).next == SpliceNext(tr.next, t, pred, succ)
  {
    StopFacts(tr, t);
  }

  /** In the repaired trie {0, 3} the leaf 0 links to 3. */
  lemma LinkedZeroThree(r: Trie)
    requires Good(r) && r.values == {0, 3}
    ensures Lookup(r.next, 0) == Some(3)
  {
    assert LinkGood(r, 0);
  }

  /**
   * Inserting 0 into {3} as written leaves the new leaf with no successor, so
   * iteration from 0 and `succ(0)` miss 3; the repaired insert links 0 to 3.
   */
  lemma InsertAsWrittenUnlinks()
    ensures Good(Three2()) && InsertAsWritten(Three2(), 0).values == {0, 3}
    ensures 0 !in InsertAsWritten(Three2(), 0).next
    ensures Lookup(Insert(Three2(), 0).next, 0) == Some(3)
  {
    AsWrittenZero();
    RepairedZero();
  }

  /** Inserting 0 into {3} as written: the leaf 0 gets no successor link. */
  lemma AsWrittenZero()
    ensures Good(Three2()) && InsertAsWritten(Three2(), 0).values == {0, 3}
    ensures 0 !in InsertAsWritten(Three2(), 0).next
  {
    Three2Good();
    assert Pow2(2) == 4;
    Three2Neighbours();
    InsertLinks(Three2(), 0, false);
  }

  /** Inserting 0 into {3} with the repair: the leaf 0 links to 3. */
  lemma RepairedZero()
    ensures Good(Three2()) && Lookup(Insert(Three2(), 0).next, 0) == Some(3)
  {
    Three2Good();
    assert Pow2(2) == 4;
    LinkedZeroThree(Insert(Three2(), 0));
  }

  /** The 2-bit trie {2, 3}, as inserting 2 and then 3 leaves it. */
  function TwoThree2(): Trie {
    Trie(2, {2, 3}, map[Node(0, 0) := 2], map[3 := 2], map[2 := 3], 2)
  }

  lemma TwoThree2Good()
    ensures Good(TwoThree2())
  {
    assert Pow2(2) == 4;
    TwoThreeJumps(TwoThree2());
    TwoThreeLinks(TwoThree2());
  }

  /** The nodes of a 2-bit trie holding 2 and 3: the root, its 1-child, and the two leaves. */
  lemma TwoThreeJumps(tr: Trie)
    requires tr.bit == 2 && tr.values == {2, 3} && tr.jump == map[Node(0, 0) := 2]
    ensures forall d: nat, q: nat :: d < tr.bit ==> JumpGood(tr, d, q)
  {
    forall d: nat, q: nat | d < tr.bit ensures JumpGood(tr, d, q) {
      if d == 0 && q == 0 {
        TwoThreeRoot(tr);
      } else if d == 1 && q == 1 {
        TwoThreeInner(tr);
      } else {
        TwoThreeAbsent(tr, d, q);
      }
    }
  }

  /** The values at depth 1 and 2 of {2, 3}. */
  lemma TwoThreePrefixes(v: nat)
    requires v == 2 || v == 3
    ensures Prefix(2, v, 0) == 0 && Prefix(2, v, 1) == 1 && Prefix(2, v, 2) == v
  {
    assert Shr(v, 1) == 1;
  }

  /** The root of {2, 3} has only a 1-child and jumps to the minimum 2. */
  lemma TwoThreeRoot(tr: Trie)
    requires tr.bit == 2 && tr.values == {2, 3} && tr.jump == map[Node(0, 0) := 2]
    ensures JumpGood(tr, 0, 0)
  {
    assert Shr(3, 1) == 1;
    assert 3 in tr.values && Prefix(2, 3, 1) == 1;
    assert HasNode(tr, 1, 1);
    forall v | v in tr.values ensures Prefix(2, v, 1) != 0 {
      TwoThreePrefixes(v);
    }
    assert Subtree(tr, 0, 0) == {2, 3};
  }

  /** The node (1, 1) of {2, 3} has both children and so no jump. */
  lemma TwoThreeInner(tr: Trie)
    requires tr.bit == 2 && tr.values == {2, 3}
    ensures JumpGood(tr, 1, 1)
  {
    assert HasNode(tr, 2, 2) by { assert 2 in tr.values && Prefix(2, 2, 2) == 2; }
    assert HasNode(tr, 2, 3) by { assert 3 in tr.values && Prefix(2, 3, 2) == 3; }
  }

  /** No other inner node exists in {2, 3}. */
  lemma TwoThreeAbsent(tr: Trie, d: nat, q: nat)
    requires tr.bit == 2 && tr.values == {2, 3}
    requires d < 2 && !(d == 0 && q == 0) && !(d == 1 && q == 1)
    ensures !HasNode(tr, d, q)
  {
    forall v | v in tr.values ensures Prefix(2, v, d) != q {
      TwoThreePrefixes(v);
    }
  }

  /** The leaves 2 and 3 of {2, 3} link to each other. */
  lemma TwoThreeLinks(tr: Trie)
    requires tr.values == {2, 3} && tr.prev == map[3 := 2] && tr.next == map[2 := 3]
    ensures forall v :: LinkGood(tr, v)
  {
    forall v ensures LinkGood(tr, v) {
      if v == 2 {
        assert Lookup(tr.prev, 2) == None && Lookup(tr.next, 2) == Some(3);
      } else if v == 3 {
        assert Lookup(tr.prev, 3) == Some(2) && Lookup(tr.next, 3) == None;
      }
    }
  }

  /** The root of {2, 3} jumps to 2, and 2's leaf links to 3 only. */
  lemma TwoThree2Pointers()
    ensures Lookup(TwoThree2().jump, Node(0, 0)) == Some(2)
    ensures Lookup(TwoThree2().prev, 2) == None && Lookup(TwoThree2().next, 2) == Some(3)
  {
  }

  /** Erasing 2 from {2, 3}: the climb stops at node (1, 1), which keeps the leaf 3. */
  lemma TwoThreeClimb(tr: Trie)
    requires tr.bit == 2 && tr.values == {2, 3}
    ensures Climb(tr, 2, 1) == 1 && Digit(2, 2, 1) == 0 && Digit(2, 2, 0) == 1
  {
    assert Shr(2, 1) == 1;
    assert 3 in tr.values && Prefix(2, 3, 2) == 3;
    assert HasNode(tr, 2, 3);
  }

  /** Erasing 2 from {2, 3} leaves {3}, with the root's jump at 2's predecessor (none) as written and at 3 repaired. */
  lemma EraseTwoFromTwoThree(tr: Trie, repaired: bool)
    requires InRange(tr) && tr.bit == 2 && tr.values == {2, 3} && tr.n == |tr.values|
    requires Lookup(tr.jump, Node(0, 0)) == Some(2) && Lookup(tr.prev, 2) == None && Lookup(tr.next, 2) == Some(3)
    ensures 2 < Pow2(tr.bit)
    ensures EraseWith(tr, 2, repaired).bit == 2 && EraseWith(tr, 2, repaired).values == {3}
    ensures Lookup(EraseWith(tr, 2, repaired).jump, Node(0, 0)) == (if repaired then Some(3) else None)
  {
    assert Pow2(2) == 4;
    assert 2 in tr.values;
    assert EraseWith(tr, 2, repaired).values == {3};
    assert Lookup(EraseWith(tr, 2, repaired).jump, Node(0, 0)) == (if repaired then Some(3) else None) by {
      TwoThreeClimb(tr);
      EraseRootJump(tr, 2, repaired);
    }
  }

  /** When `erase(t)`'s climb stops below the root, a root jump naming t takes the replacement neighbour. */
  lemma EraseRootJump(tr: Trie, t: nat, repaired: bool)
    requires InRange(tr) && tr.n == |tr.values| && t < Pow2(tr.bit) && t in tr.values
    requires Climb(tr, t, tr.bit - 1) > 0 && Lookup(tr.jump, Node(0, 0)) == Some(t)
    ensures Lookup(EraseWith(tr, t, repaired).jump, Node(0, 0))
         == Replacement(tr.bit, t, 0, Lookup(tr.prev, t), Lookup(tr.next, t), repaired)
  {
    PrefixRoot(tr.bit, t);
    var b := Climb(tr, t, tr.bit - 1);
    var m0, m1 := Lookup(tr.prev, t), Lookup(tr.next, t);
    assert PathNode(tr.bit, t, 0) == Node(0, 0);
    assert Fixed(tr.jump, tr.bit, t, 0, m0, m1, repaired) == Replacement(tr.bit, t, 0, m0, m1, repaired);
    assert EraseWith(tr, t, repaired).jump == EraseJumps(tr, t, b, m0, m1, repaired);
  }

  /** A 2-bit trie holding only 3 has its root's 1-child and not its 0-child, so the root needs a jump. */
  lemma RootNeedsJump(r: Trie)
    requires r.bit == 2 && r.values == {3} && Node(0, 0) !in r.jump
    ensures !JumpGood(r, 0, 0)
  {
    assert Shr(3, 1) == 1;
    assert HasNode(r, 1, 1);
  }

  /**
   * Erasing 2 from {2, 3} as written resets the root's jump, which named 2,
   * to 2's predecessor, null: the root, missing its 0-child, loses the jump
   * to its smallest value 3, so `succ(1)` would answer none.  The repaired
   * erase points the root's jump at 3.
   */
  lemma EraseAsWrittenLosesJump()
    ensures Good(TwoThree2()) && EraseAsWritten(TwoThree2(), 2).values == {3}
    ensures Node(0, 0) !in EraseAsWritten(TwoThree2(), 2).jump
    ensures !JumpGood(EraseAsWritten(TwoThree2(), 2), 0, 0)
    ensures Lookup(Erase(TwoThree2(), 2).jump, Node(0, 0)) == Some(3)
  {
    TwoThree2Good();
    TwoThree2Pointers();
    EraseTwoFromTwoThree(TwoThree2(), false);
    EraseTwoFromTwoThree(TwoThree2(), true);
    RootNeedsJump(EraseAsWritten(TwoThree2(), 2));
  }

  /** When `erase(t)`'s climb reaches the root, as written the size stays; repaired it drops by one. */
  lemma EraseRootSize(tr: Trie, t: nat)
    requires InRange(tr) && tr.n == |tr.values| && t < Pow2(tr.bit) && t in tr.values
    requires Climb(tr, t, tr.bit - 1) == 0
    ensures EraseWith(tr, t, false).n == tr.n
    ensures EraseWith(tr, t, true).n == tr.n - 1
  {
  }

  /** Erasing 0 from {0}: the climb reaches the root. */
  lemma Zero2Climb()
    ensures Climb(Zero2(), 0, 1) == 0
  {
    Zero2NoSibling(Zero2());
  }

  /** In {0}, the leaf 1 next to 0 is absent. */
  lemma Zero2NoSibling(tr: Trie)
    requires tr.bit == 2 && tr.values == {0}
    ensures Sibling(2, 0, 1) == 1 && !HasNode(tr, 2, 1)
  {
    assert Shr(0, 1) == 0;
    forall v | v in tr.values ensures Prefix(2, v, 2) != 1 {
      assert v == 0;
    }
  }

  /** Erasing the only value as written leaves the size at 1; the repaired erase brings it to 0. */
  lemma EraseAsWrittenKeepsSize()
    ensures Good(Zero2()) && EraseAsWritten(Zero2(), 0).values == {}
    ensures EraseAsWritten(Zero2(), 0).n == 1
    ensures Erase(Zero2(), 0).n == 0
  {
    Zero2Good();
    assert Pow2(2) == 4;
    Zero2Climb();
    EraseRootSize(Zero2(), 0);
  }
}

=== FILE: binomial_heap.dfy ===
/**
 * BinomialHeap (src/heap/binomial_heap.hpp): a min-heap kept as a list of
 * binomial trees in increasing rank.  Nodes are in first-child /
 * next-sibling form; the root list, whose nodes have no sibling of their
 * own here, is a sequence.  Pushing carries equal ranks like binary
 * addition, merging walks both root lists at once, popping merges the
 * minimum root's children back in.
 */
module BinomialHeap {
  import opened Sequences
  import opened Bits

  /** A node below a root: value, rank, the head of its child list and the next node in its list. */
  datatype BNode = Nil | Node(value: int, rank: nat, child: BNode, sibling: BNode)

  /** A root of the root list: value, rank and the head of its child list. */
  datatype BTree = BTree(value: int, rank: nat, child: BNode)

  function Values(h: BNode): multiset<int> {
    if h.Nil? then multiset{} else multiset{h.value} + Values(h.child) + Values(h.sibling)
  }

  function TreeValues(t: BTree): multiset<int> {
    multiset{t.value} + Values(t.child)
  }

  /** Every value at or after h is at least v. */
  predicate AtLeast(h: BNode, v: int) {
    h.Nil? || (v <= h.value && AtLeast(h.child, v) && AtLeast(h.sibling, v))
  }

  /** Heap order: every node's value is at most the values below it. */
  predicate Ordered(h: BNode) {
    h.Nil? || (AtLeast(h.child, h.value) && Ordered(h.child) && Ordered(h.sibling))
  }

  lemma {:induction false} BoundHolds(h: BNode, v: int, x: int)
    requires AtLeast(h, v) && x in Values(h)
    ensures v <= x
  {
    assert Values(h) == multiset{h.value} + Values(h.child) + Values(h.sibling);
    if x == h.value {
    } else if x in Values(h.child) {
      BoundHolds(h.child, v, x);
    } else {
      BoundHolds(h.sibling, v, x);
    }
  }

  lemma {:induction false} Lower(h: BNode, v: int, w: int)
    requires AtLeast(h, v) && w <= v
    ensures AtLeast(h, w)
  {
    if h.Node? {
      Lower(h.child, v, w);
      Lower(h.sibling, v, w);
    }
  }

  /**
   * The chain h holds binomial trees of ranks k-1 down to 0, in that
   * order: the child list of a binomial tree of rank k.
   */
  predicate Chain(h: BNode, k: nat)
    decreases k
  {
    if k == 0 then h.Nil? else h.Node? && h.rank == k - 1 && Chain(h.child, k - 1) && Chain(h.sibling, k - 1)
  }

  /** A heap-ordered binomial tree. */
  predicate IsTree(t: BTree) {
    Chain(t.child, t.rank) && AtLeast(t.child, t.value) && Ordered(t.child)
  }

  /** A binomial tree of rank k holds 2^k values, its child list 2^k - 1. */
  lemma ChainSize(h: BNode, k: nat)
    requires Chain(h, k)
    ensures |Values(h)| + 1 == Pow2(k)
  {
    ChainCount(h, k);
    CountValues(h);
  }

  /** The number of nodes at or after h. */
  function Count(h: BNode): nat {
    if h.Nil? then 0 else 1 + Count(h.child) + Count(h.sibling)
  }

  /** A chain of rank k has 2^k - 1 nodes. */
  lemma {:induction false} ChainCount(h: BNode, k: nat)
    requires Chain(h, k)
    decreases k
    ensures Count(h) + 1 == Pow2(k)
  {
    if k > 0 {
      ChainCount(h.child, k - 1);
      ChainCount(h.sibling, k - 1);
    }
  }

  /** Every node contributes one value. */
  lemma {:induction false} CountValues(h: BNode)
    ensures |Values(h)| == Count(h)
  {
    if h.Node? {
      CountValues(h.child);
      CountValues(h.sibling);
    }
  }

  // ---------------------------------------------------------------------
  // Root lists

  predicate AllTrees(list: seq<BTree>) {
    forall i :: 0 <= i < |list| ==> IsTree(list[i])
  }

  /** Ranks strictly increasing along the list. */
  predicate Increasing(list: seq<BTree>) {
    forall i, j :: 0 <= i < j < |list| ==> list[i].rank < list[j].rank
  }

  function ListValues(list: seq<BTree>): multiset<int> {
    if |list| == 0 then multiset{} else TreeValues(list[0]) + ListValues(list[1..])
  }

  lemma Cons(t: BTree, s: seq<BTree>)
    ensures ListValues([t] + s) == TreeValues(t) + ListValues(s)
  {
    assert ([t] + s)[1..] == s;
  }

  lemma {:induction false} ListValuesConcat(a: seq<BTree>, b: seq<BTree>)
    ensures ListValues(a + b) == ListValues(a) + ListValues(b)
  {
    if |a| > 0 {
      assert (a + b)[0] == a[0];
      assert (a + b)[1..] == a[1..] + b;
      ListValuesConcat(a[1..], b);
      Regroup(TreeValues(a[0]), ListValues(a[1..]), ListValues(b));
    } else {
      assert a + b == b;
    }
  }

  lemma Snoc(s: seq<BTree>, t: BTree)
    ensures ListValues(s + [t]) == ListValues(s) + TreeValues(t)
  {
    ListValuesConcat(s, [t]);
    Cons(t, []);
    assert [t] + [] == [t];
  }

  /** The binomial heap: the root list and the count `_size`. */
  datatype BinomialHeap = BinomialHeap(roots: seq<BTree>, size: nat)

  predicate Valid(q: BinomialHeap) {
    AllTrees(q.roots) && Increasing(q.roots) && q.size == |ListValues(q.roots)|
  }

  /** A valid heap has no trees exactly when its count is zero. */
  lemma EmptyIffZero(q: BinomialHeap)
    requires Valid(q)
    ensures q.roots == [] <==> q.size == 0
  {
    if q.roots != [] {
      assert q.roots[0].value in ListValues(q.roots);
    }
  }

  /**
   * `link(a, b)`: the root with the smaller value (a on a tie) takes the
   * other as the new head of its child list and its rank grows by one.
   * Two binomial trees of one rank give one of the next rank.
   */
  function Link(a: BTree, b: BTree): (r: BTree)
    ensures TreeValues(r) == TreeValues(a) + TreeValues(b)
    ensures r.value == (if b.value < a.value then b.value else a.value)
    ensures r.rank == (if b.value < a.value then b.rank else a.rank) + 1
    ensures IsTree(a) && IsTree(b) && a.rank == b.rank ==> IsTree(r)
  {
    var (w, l) := if b.value < a.value then (b, a) else (a, b);
    LinkTree(w, l);
    BTree(w.value, w.rank + 1, Node(l.value, l.rank, l.child, w.child))
  }

  lemma LinkTree(w: BTree, l: BTree)
    ensures TreeValues(BTree(w.value, w.rank + 1, Node(l.value, l.rank, l.child, w.child)))
      == TreeValues(w) + TreeValues(l)
    ensures IsTree(w) && IsTree(l) && w.rank == l.rank && w.value <= l.value ==>
      IsTree(BTree(w.value, w.rank + 1, Node(l.value, l.rank, l.child, w.child)))
  {
    if IsTree(w) && IsTree(l) && w.rank == l.rank && w.value <= l.value {
      Lower(l.child, l.value, w.value);
    }
  }

  /**
   * `insert_tree(heap, tree)`: while the list's first tree has the rank of
   * the carried one they are linked, like a carry in binary addition; the
   * carry then goes in front.
   */
  function InsertTree(list: seq<BTree>, t: BTree): (r: seq<BTree>)
    ensures ListValues(r) == TreeValues(t) + ListValues(list) && 0 < |r| <= |list| + 1
  {
    if |list| > 0 && list[0].rank == t.rank then
      InsertTree(list[1..], Link(t, list[0]))
    else
      Cons(t, list);
      [t] + list
  }

  /** Carrying a tree no larger than the list's first into a list of increasing binomial trees keeps it so. */
  lemma {:induction false} InsertTreeShape(list: seq<BTree>, t: BTree)
    requires AllTrees(list) && Increasing(list) && IsTree(t)
    requires |list| > 0 ==> t.rank <= list[0].rank
    ensures AllTrees(InsertTree(list, t)) && Increasing(InsertTree(list, t))
  {
    if |list| > 0 && list[0].rank == t.rank {
      var u := Link(t, list[0]);
      assert |list| > 1 ==> list[0].rank < list[1].rank;
      InsertTreeShape(list[1..], u);
    } else {
      var r := [t] + list;
      assert forall i :: 0 < i < |r| ==> r[i] == list[i - 1];
    }
  }

  /** `push(x)`: a rank-0 tree carried into the list; the count grows by one. */
  function Push(q: BinomialHeap, x: int): (r: BinomialHeap)
    requires Valid(q)
    ensures Valid(r) && ListValues(r.roots) == ListValues(q.roots) + multiset{x} && r.size == q.size + 1
  {
    var t := BTree(x, 0, Nil);
    InsertTreeShape(q.roots, t);
    BinomialHeap(InsertTree(q.roots, t), q.size + 1)
  }

  // ---------------------------------------------------------------------
  // Merging root lists

  function Last(out: seq<BTree>): BTree
    requires |out| > 0
  {
    out[|out| - 1]
  }

  /**
   * `append_tree(head, prev, tail, x)`: x joins the end of the output
   * list, linked with the last tree when their ranks are equal.
   */
  function AppendTree(out: seq<BTree>, x: BTree): (r: seq<BTree>)
    ensures |r| > 0 && ListValues(r) == ListValues(out) + TreeValues(x)
  {
    if |out| == 0 then
      Snoc([], x);
      assert [] + [x] == [x];
      [x]
    else if Last(out).rank == x.rank then
      var front := out[..|out| - 1];
      LinkedLast(out, front, x);
      front + [Link(Last(out), x)]
    else
      Snoc(out, x);
      out + [x]
  }

  lemma LinkedLast(out: seq<BTree>, front: seq<BTree>, x: BTree)
    requires |out| > 0 && front == out[..|out| - 1]
    ensures ListValues(front + [Link(Last(out), x)]) == ListValues(out) + TreeValues(x)
  {
    assert out == front + [Last(out)];
    Snoc(front, Last(out));
    Snoc(front, Link(Last(out), x));
  }

  /** The output so far: increasing binomial trees ending at rank at most k. */
  predicate Fits(out: seq<BTree>, k: nat) {
    AllTrees(out) && Increasing(out) && (|out| > 0 ==> Last(out).rank <= k)
  }

  /**
   * Appending a binomial tree no smaller than the last keeps the output
   * increasing; its last rank is x's, or one more when x was linked.
   */
  lemma AppendTreeShape(out: seq<BTree>, x: BTree)
    requires Fits(out, x.rank) && IsTree(x)
    ensures Fits(AppendTree(out, x), x.rank + 1)
    ensures |out| == 0 || Last(out).rank < x.rank ==> Last(AppendTree(out, x)).rank == x.rank
  {
    if |out| == 0 {
      SnocShape([], x);
      assert [] + [x] == [x];
    } else if Last(out).rank == x.rank {
      var front := out[..|out| - 1];
      FrontShape(out);
      SnocShape(front, Link(Last(out), x));
    } else {
      SnocShape(out, x);
    }
  }

  lemma SnocShape(s: seq<BTree>, t: BTree)
    requires AllTrees(s) && Increasing(s) && IsTree(t) && (|s| > 0 ==> Last(s).rank < t.rank)
    ensures AllTrees(s + [t]) && Increasing(s + [t]) && Last(s + [t]) == t
  {
    var r := s + [t];
    assert forall i :: 0 <= i < |s| ==> r[i] == s[i];
  }

  lemma FrontShape(s: seq<BTree>)
    requires AllTrees(s) && Increasing(s) && |s| > 0
    ensures AllTrees(s[..|s| - 1]) && Increasing(s[..|s| - 1])
    ensures |s| > 1 ==> Last(s[..|s| - 1]).rank < Last(s).rank
  {
  }

  /** `append_trees(h, p, t, xs)`: each tree of xs appended in turn. */
  function AppendTrees(out: seq<BTree>, xs: seq<BTree>): (r: seq<BTree>)
    decreases |xs|
    ensures ListValues(r) == ListValues(out) + ListValues(xs)
  {
    if |xs| == 0 then out
    else
      var r := AppendTrees(AppendTree(out, xs[0]), xs[1..]);
      Regroup(ListValues(out), TreeValues(xs[0]), ListValues(xs[1..]));
      r
  }

  lemma Regroup(a: multiset<int>, b: multiset<int>, c: multiset<int>)
    ensures a + b + c == a + (b + c)
  {
  }

  lemma Swap(a: multiset<int>, b: multiset<int>, c: multiset<int>, d: multiset<int>)
    ensures a + b + c + d == a + c + (b + d)
  {
  }

  lemma Swap2(a: multiset<int>, b: multiset<int>, c: multiset<int>, d: multiset<int>, e: multiset<int>)
    ensures a + (b + c) + d + e == a + (b + d) + (c + e)
  {
  }

  lemma {:induction false} AppendTreesShape(out: seq<BTree>, xs: seq<BTree>)
    requires AllTrees(xs) && Increasing(xs) && AllTrees(out) && Increasing(out)
    requires |xs| > 0 ==> Fits(out, xs[0].rank)
    decreases |xs|
    ensures AllTrees(AppendTrees(out, xs)) && Increasing(AppendTrees(out, xs))
  {
    if |xs| > 0 {
      var o := AppendTree(out, xs[0]);
      AppendTreeShape(out, xs[0]);
      TailShape(xs);
      if |xs| > 1 {
        FitsUp(o, xs[0].rank + 1, xs[1].rank);
      }
      AppendTreesShape(o, xs[1..]);
      assert AppendTrees(out, xs) == AppendTrees(o, xs[1..]);
    }
  }

  lemma TailShape(xs: seq<BTree>)
    requires AllTrees(xs) && Increasing(xs) && |xs| > 0
    ensures AllTrees(xs[1..]) && Increasing(xs[1..]) && IsTree(xs[0])
    ensures |xs| > 1 ==> xs[0].rank < xs[1].rank
  {
  }

  lemma FitsUp(out: seq<BTree>, k: nat, k': nat)
    requires Fits(out, k) && k <= k'
    ensures Fits(out, k')
  {
  }

  /**
   * The loop of `merge(h1, h2)`: the first tree of smaller rank, or the
   * two first trees linked when their ranks agree, is appended; what is
   * left of either list is appended at the end.
   */
  function MergeLoop(h1: seq<BTree>, h2: seq<BTree>, out: seq<BTree>): (r: seq<BTree>)
    decreases |h1| + |h2|
    ensures ListValues(r) == ListValues(out) + ListValues(h1) + ListValues(h2)
  {
    if |h1| == 0 then AppendTrees(out, h2)
    else if |h2| == 0 then AppendTrees(out, h1)
    else if h1[0].rank < h2[0].rank then
      var r := MergeLoop(h1[1..], h2, AppendTree(out, h1[0]));
      Regroup(ListValues(out), TreeValues(h1[0]), ListValues(h1[1..]));
      r
    else if h2[0].rank < h1[0].rank then
      var r := MergeLoop(h1, h2[1..], AppendTree(out, h2[0]));
      Swap(ListValues(out), TreeValues(h2[0]), ListValues(h1), ListValues(h2[1..]));
      r
    else
      var r := MergeLoop(h1[1..], h2[1..], AppendTree(out, Link(h1[0], h2[0])));
      Swap2(ListValues(out), TreeValues(h1[0]), TreeValues(h2[0]), ListValues(h1[1..]), ListValues(h2[1..]));
      r
  }

  /** `merge(h1, h2)`: either list alone when the other is empty, the loop otherwise. */
  function Merge(h1: seq<BTree>, h2: seq<BTree>): (r: seq<BTree>)
    ensures ListValues(r) == ListValues(h1) + ListValues(h2)
  {
    if |h1| == 0 then h2 else if |h2| == 0 then h1 else MergeLoop(h1, h2, [])
  }

  /** The output may take the first tree of h next. */
  predicate Below(out: seq<BTree>, h: seq<BTree>) {
    |h| > 0 ==> Fits(out, h[0].rank)
  }

  lemma {:induction false} MergeLoopShape(h1: seq<BTree>, h2: seq<BTree>, out: seq<BTree>)
    requires AllTrees(h1) && Increasing(h1) && AllTrees(h2) && Increasing(h2)
    requires AllTrees(out) && Increasing(out) && Below(out, h1) && Below(out, h2)
    decreases |h1| + |h2|
    ensures AllTrees(MergeLoop(h1, h2, out)) && Increasing(MergeLoop(h1, h2, out))
  {
    if |h1| == 0 {
      AppendTreesShape(out, h2);
    } else if |h2| == 0 {
      AppendTreesShape(out, h1);
    } else if h1[0].rank < h2[0].rank {
      var o := AppendTree(out, h1[0]);
      TakeFirst(h1, h2, out);
      MergeLoopShape(h1[1..], h2, o);
      assert MergeLoop(h1, h2, out) == MergeLoop(h1[1..], h2, o);
    } else if h2[0].rank < h1[0].rank {
      var o := AppendTree(out, h2[0]);
      TakeFirst(h2, h1, out);
      MergeLoopShape(h1, h2[1..], o);
      assert MergeLoop(h1, h2, out) == MergeLoop(h1, h2[1..], o);
    } else {
      var o := AppendTree(out, Link(h1[0], h2[0]));
      TakeLinked(h1, h2, out);
      MergeLoopShape(h1[1..], h2[1..], o);
      assert MergeLoop(h1, h2, out) == MergeLoop(h1[1..], h2[1..], o);
    }
  }

  /** Appending the first tree of the list with the smaller first rank keeps the loop's requirements. */
  lemma TakeFirst(h: seq<BTree>, g: seq<BTree>, out: seq<BTree>)
    requires AllTrees(h) && Increasing(h) && AllTrees(g) && Increasing(g)
    requires AllTrees(out) && Increasing(out) && Below(out, h) && Below(out, g)
    requires |h| > 0 && |g| > 0 && h[0].rank < g[0].rank
    ensures var o := AppendTree(out, h[0]);
      AllTrees(h[1..]) && Increasing(h[1..]) && AllTrees(o) && Increasing(o) && Below(o, h[1..]) && Below(o, g)
  {
    TailShape(h);
    var o := AppendTree(out, h[0]);
    AppendTreeShape(out, h[0]);
    BelowNext(o, h[0].rank + 1, h[1..]);
    BelowNext(o, h[0].rank + 1, g);
  }

  /** Appending the link of two first trees of equal rank keeps the loop's requirements. */
  lemma TakeLinked(h1: seq<BTree>, h2: seq<BTree>, out: seq<BTree>)
    requires AllTrees(h1) && Increasing(h1) && AllTrees(h2) && Increasing(h2)
    requires AllTrees(out) && Increasing(out) && Below(out, h1) && Below(out, h2)
    requires |h1| > 0 && |h2| > 0 && h1[0].rank == h2[0].rank
    ensures var o := AppendTree(out, Link(h1[0], h2[0]));
      AllTrees(h1[1..]) && Increasing(h1[1..]) && AllTrees(h2[1..]) && Increasing(h2[1..])
      && AllTrees(o) && Increasing(o) && Below(o, h1[1..]) && Below(o, h2[1..])
  {
    TailShape(h1);
    TailShape(h2);
    var x := Link(h1[0], h2[0]);
    assert x.rank == h1[0].rank + 1;
    FitsUp(out, h1[0].rank, x.rank);
    var o := AppendTree(out, x);
    AppendTreeShape(out, x);
    BelowNext(o, x.rank, h1[1..]);
    BelowNext(o, x.rank, h2[1..]);
  }

  lemma BelowNext(o: seq<BTree>, k: nat, h: seq<BTree>)
    requires Fits(o, k) && (|h| > 0 ==> k <= h[0].rank)
    ensures Below(o, h)
  {
  }

  /** Merging two lists of increasing binomial trees gives one. */
  lemma MergeShape(h1: seq<BTree>, h2: seq<BTree>)
    requires AllTrees(h1) && Increasing(h1) && AllTrees(h2) && Increasing(h2)
    ensures AllTrees(Merge(h1, h2)) && Increasing(Merge(h1, h2))
  {
    if |h1| > 0 && |h2| > 0 {
      MergeLoopShape(h1, h2, []);
    }
  }

  /** The public `merge(that)`: this heap takes both root lists; that one is emptied and its count zeroed. */
  function Meld(q: BinomialHeap, that: BinomialHeap): (r: (BinomialHeap, BinomialHeap))
    requires Valid(q) && Valid(that)
    ensures Valid(r.0) && Valid(r.1)
    ensures ListValues(r.0.roots) == ListValues(q.roots) + ListValues(that.roots) && r.0.size == q.size + that.size
    ensures ListValues(r.1.roots) == multiset{} && r.1.size == 0
  {
    MergeShape(q.roots, that.roots);
    (BinomialHeap(Merge(q.roots, that.roots), q.size + that.size), BinomialHeap([], 0))
  }

  /** The public `merge(that)` as written: that heap's root is cleared but its count is left as it was. */
  function MeldAsWritten(q: BinomialHeap, that: BinomialHeap): (r: (BinomialHeap, BinomialHeap))
    requires Valid(q) && Valid(that)
    ensures r.0 == Meld(q, that).0 && r.1.roots == [] && r.1.size == that.size
    ensures Valid(r.1) <==> that.size == 0
  {
    (BinomialHeap(Merge(q.roots, that.roots), q.size + that.size), BinomialHeap([], that.size))
  }

  /** Melding a one-element heap in: as written the emptied heap still reports one element, corrected it reports none. */
  lemma MeldKeepsSize()
    ensures var q, that := BinomialHeap([], 0), BinomialHeap([BTree(7, 0, Nil)], 1);
      Valid(that) && MeldAsWritten(q, that).1 == BinomialHeap([], 1) && !Valid(MeldAsWritten(q, that).1) &&
      Meld(q, that).1.size == 0
  {
    var that := BinomialHeap([BTree(7, 0, Nil)], 1);
    Cons(BTree(7, 0, Nil), []);
    assert [BTree(7, 0, Nil)] + [] == [BTree(7, 0, Nil)];
    assert ListValues(that.roots) == multiset{7};
  }

  // ---------------------------------------------------------------------
  // The minimum

  /** The root values in list order. */
  function RootValues(list: seq<BTree>): (r: seq<int>)
    ensures |r| == |list| && forall i :: 0 <= i < |list| ==> r[i] == list[i].value
  {
    seq(|list|, i requires 0 <= i < |list| => list[i].value)
  }

  /** The scan of `top` and `remove_min_tree`: the first root with the least value. */
  function MinIndex(list: seq<BTree>): (k: nat)
    requires |list| > 0
    ensures k < |list| && forall j :: 0 <= j < |list| ==> list[k].value <= list[j].value
    ensures forall j :: 0 <= j < k ==> list[k].value < list[j].value
  {
    FirstMin(RootValues(list))
  }

  /** `top()`: the least root value, the least value stored; the heap must not be empty. */
  function Top(q: BinomialHeap): (r: int)
    requires Valid(q) && |q.roots| > 0
    ensures r in ListValues(q.roots) && forall x :: x in ListValues(q.roots) ==> r <= x
  {
    var k := MinIndex(q.roots);
    TopLeast(q.roots, k);
    q.roots[k].value
  }

  lemma TopLeast(list: seq<BTree>, k: nat)
    requires AllTrees(list) && k < |list|
    requires forall j :: 0 <= j < |list| ==> list[k].value <= list[j].value
    ensures list[k].value in ListValues(list) && forall x :: x in ListValues(list) ==> list[k].value <= x
  {
    forall x | x in ListValues(list) ensures list[k].value <= x {
      var j := InList(list, x);
      TreeBound(list[j], x);
    }
    ListValuesConcat(list[..k], list[k..]);
    assert list == list[..k] + list[k..];
    assert list[k..][0] == list[k];
  }

  lemma TreeBound(t: BTree, x: int)
    requires IsTree(t) && x in TreeValues(t)
    ensures t.value <= x
  {
    if x != t.value {
      BoundHolds(t.child, t.value, x);
    }
  }

  /** The entry of a list holding a value. */
  lemma {:induction false} InList(list: seq<BTree>, x: int) returns (j: nat)
    requires x in ListValues(list)
    ensures j < |list| && x in TreeValues(list[j])
  {
    if x in TreeValues(list[0]) {
      j := 0;
    } else {
      var j' := InList(list[1..], x);
      j := j' + 1;
    }
  }

  // ---------------------------------------------------------------------
  // Popping

  /** The nodes of a child list as trees of their own, in list order. */
  function Nodes(h: BNode): (r: seq<BTree>)
    ensures ListValues(r) == Values(h)
  {
    if h.Nil? then [] else
      Cons(BTree(h.value, h.rank, h.child), Nodes(h.sibling));
      [BTree(h.value, h.rank, h.child)] + Nodes(h.sibling)
  }

  /** The child list of a binomial tree of rank k: k binomial trees of ranks k-1 down to 0. */
  lemma {:induction false} ChainNodes(h: BNode, k: nat)
    requires Chain(h, k) && Ordered(h)
    decreases k
    ensures |Nodes(h)| == k
    ensures forall i :: 0 <= i < k ==> IsTree(Nodes(h)[i]) && Nodes(h)[i].rank == k - 1 - i
  {
    if k > 0 {
      ChainNodes(h.sibling, k - 1);
      var n, m := Nodes(h), Nodes(h.sibling);
      assert n == [BTree(h.value, h.rank, h.child)] + m;
      assert IsTree(n[0]);
      forall i | 0 < i < k ensures n[i] == m[i - 1] {
      }
    }
  }

  lemma {:induction false} ReverseValues(s: seq<BTree>)
    ensures ListValues(Reverse(s)) == ListValues(s)
  {
    if s != [] {
      ReverseValues(s[1..]);
      assert Reverse(s) == Reverse(s[1..]) + [s[0]];
      Snoc(Reverse(s[1..]), s[0]);
    }
  }

  /** Taking the entry k out of a list takes its tree's values out. */
  lemma RemoveAtValues(list: seq<BTree>, k: nat)
    requires k < |list|
    ensures ListValues(list[..k] + list[k + 1..]) + TreeValues(list[k]) == ListValues(list)
  {
    SplitAt(list, k);
    ThreeParts(list[..k], list[k], list[k + 1..]);
  }

  lemma ThreeParts(a: seq<BTree>, t: BTree, b: seq<BTree>)
    ensures ListValues(a + b) + TreeValues(t) == ListValues(a + ([t] + b))
  {
    ListValuesConcat(a, [t] + b);
    ListValuesConcat(a, b);
    Cons(t, b);
    Rotate(ListValues(a), ListValues(b), TreeValues(t));
  }

  lemma Rotate(a: multiset<int>, b: multiset<int>, c: multiset<int>)
    ensures a + b + c == a + (c + b)
  {
  }

  /**
   * `pop(h)`: the first minimum tree taken out of the list by
   * `remove_min_tree`, and its child list, reversed into increasing
   * rank, merged with the rest.
   */
  function PopList(list: seq<BTree>): (r: seq<BTree>)
    requires |list| > 0
    ensures ListValues(r) + multiset{list[MinIndex(list)].value} == ListValues(list)
  {
    var k := MinIndex(list);
    var kids := Reverse(Nodes(list[k].child));
    PopValues(list, k, kids);
    Merge(list[..k] + list[k + 1..], kids)
  }

  lemma PopValues(list: seq<BTree>, k: nat, kids: seq<BTree>)
    requires k < |list| && kids == Reverse(Nodes(list[k].child))
    ensures ListValues(Merge(list[..k] + list[k + 1..], kids)) + multiset{list[k].value} == ListValues(list)
  {
    ReverseValues(Nodes(list[k].child));
    RemoveAtValues(list, k);
    Regroup(ListValues(list[..k] + list[k + 1..]), Values(list[k].child), multiset{list[k].value});
  }

  /** Popping keeps a list of increasing binomial trees. */
  lemma PopShape(list: seq<BTree>)
    requires AllTrees(list) && Increasing(list) && |list| > 0
    ensures AllTrees(PopList(list)) && Increasing(PopList(list))
  {
    var k := MinIndex(list);
    RestShape(list, k);
    KidsShape(list[k]);
    MergeShape(list[..k] + list[k + 1..], Reverse(Nodes(list[k].child)));
  }

  lemma RestShape(list: seq<BTree>, k: nat)
    requires AllTrees(list) && Increasing(list) && k < |list|
    ensures AllTrees(list[..k] + list[k + 1..]) && Increasing(list[..k] + list[k + 1..])
  {
    var rest := list[..k] + list[k + 1..];
    assert forall i :: 0 <= i < |rest| ==> rest[i] == list[if i < k then i else i + 1];
  }

  lemma KidsShape(t: BTree)
    requires IsTree(t)
    ensures AllTrees(Reverse(Nodes(t.child))) && Increasing(Reverse(Nodes(t.child)))
  {
    var n := Nodes(t.child);
    ChainNodes(t.child, t.rank);
    var kids := Reverse(n);
    assert forall i :: 0 <= i < |kids| ==> kids[i] == n[|n| - 1 - i] && kids[i].rank == i;
  }

  /** The public `pop()`: the least value removed and the count lowered; the heap must not be empty. */
  function Pop(q: BinomialHeap): (r: BinomialHeap)
    requires Valid(q) && |q.roots| > 0
    ensures Valid(r) && ListValues(r.roots) == ListValues(q.roots) - multiset{Top(q)} && r.size + 1 == q.size
  {
    PopShape(q.roots);
    var r := PopList(q.roots);
    assert |ListValues(r)| + 1 == q.size;
    BinomialHeap(r, q.size - 1)
  }

  /** The values popped one by one until the heap is empty. */
  function Drain(q: BinomialHeap): (r: seq<int>)
    requires Valid(q)
    decreases q.size
  {
    if |q.roots| == 0 then [] else [Top(q)] + Drain(Pop(q))
  }

  /** Popping until empty yields every value, in ascending order. */
  lemma {:induction false} DrainSorted(q: BinomialHeap)
    requires Valid(q)
    decreases q.size
    ensures multiset(Drain(q)) == ListValues(q.roots) && NonDecreasing(Drain(q))
  {
    if |q.roots| > 0 {
      var t, p := Top(q), Pop(q);
      DrainSorted(p);
      var d := Drain(p);
      PutBack(t, d, ListValues(q.roots));
      SortedCons(t, d);
      assert Drain(q) == [t] + d;
    }
  }

  /** The least of m, put in front of the rest of m. */
  lemma PutBack(t: int, d: seq<int>, m: multiset<int>)
    requires t in m && multiset(d) == m - multiset{t} && forall x :: x in m ==> t <= x
    ensures multiset([t] + d) == m && forall y :: y in multiset(d) ==> t <= y
  {
    assert multiset([t] + d) == multiset{t} + multiset(d);
  }

  /** The sum of 2^rank over a root list. */
  function RankSum(list: seq<BTree>): nat {
    if |list| == 0 then 0 else Pow2(list[0].rank) + RankSum(list[1..])
  }

  /** A tree of rank k holds 2^k values, so the count is the sum of 2^rank over the roots. */
  lemma {:induction false} SizeIsRanks(list: seq<BTree>)
    requires AllTrees(list)
    ensures |ListValues(list)| == RankSum(list)
  {
    if |list| > 0 {
      ChainSize(list[0].child, list[0].rank);
      SizeIsRanks(list[1..]);
    }
  }

  // ---------------------------------------------------------------------
  // Copying

  /**
   * `copy(h, father)` below a root: a fresh node with h's value and rank,
   * then copies of its sibling list and of its child list.  The `father`
   * fields it writes are not modelled: the heap never reads them.
   */
  function CopyNode(h: BNode): (r: BNode)
    ensures r == h
  {
    if h.Nil? then Nil else Node(h.value, h.rank, CopyNode(h.child), CopyNode(h.sibling))
  }

  /** `copy` along the root list: each root and its child list copied, in order. */
  function CopyRoots(list: seq<BTree>): (r: seq<BTree>)
    ensures r == list
  {
    if |list| == 0 then []
    else
      assert list == [list[0]] + list[1..];
      [BTree(list[0].value, list[0].rank, CopyNode(list[0].child))] + CopyRoots(list[1..])
  }

  /**
   * The copy constructor, and copy assignment once the old trees are
   * destroyed: the copied root list with `that.size()`.  The copy has the
   * same trees, values and count, and is valid when `that` is.
   */
  function Copy(that: BinomialHeap): (r: BinomialHeap)
    ensures r.roots == that.roots && r.size == that.size
    ensures ListValues(r.roots) == ListValues(that.roots)
    ensures Valid(that) ==> Valid(r)
  {
    BinomialHeap(CopyRoots(that.roots), that.size)
  }
}

=== FILE: bit_hash.dfy ===
/**
 * BitHash (utils/xfast_hash.hpp): a table indexed by N-bit integers.  Up to
 * 6 bits it is a flat array of 2^N cells; beyond that it is an array of 64
 * lazily created sub-tables of N - 6 bits, the low 6 bits of an index
 * choosing the sub-table and the remaining high bits the index within it.
 *
 * `index >> 6` and `index & 63` are written `index / 64` and `index % 64`,
 * which agree on the unsigned indices the table takes.  Cells hold `int`;
 * `T{}` is 0.
 */
module BitHash {
  import opened Wrappers
  import opened Bits

  /** Bits an index spends on choosing a sub-table. */
  const Fan: nat := 6

  /** Sub-tables of a two-level table: `1u << 6u`. */
  const Width: nat := 64

  datatype Table = Leaf(mem: seq<int>) | Split(subs: seq<Option<Table>>)

  /** An N-bit table: a leaf of 2^N cells for N <= 6, otherwise 64 optional (N - 6)-bit sub-tables. */
  ghost predicate Valid(t: Table, n: nat)
    decreases t
  {
    match t
    case Leaf(mem) => n <= Fan && |mem| == Pow2(n)
    case Split(subs) =>
      n > Fan && |subs| == Width
      && forall k :: 0 <= k < |subs| ==> subs[k].Some? ==> Valid(subs[k].value, n - Fan)
  }

  /** 2^N = 64 * 2^(N - 6) beyond six bits, so high bits of an N-bit index fit the sub-table. */
  lemma Pow2Split(n: nat)
    requires n >= Fan
    ensures Pow2(n) == Width * Pow2(n - Fan)
  {
    Pow2Add(n - Fan, Fan);
  }

  /** The constructor: zeroed cells at the leaf level, no sub-tables above it. */
  function Fresh(n: nat): (t: Table)
    ensures Valid(t, n)
  {
    if n <= Fan then Leaf(seq(Pow2(n), _ => 0)) else Split(seq(Width, _ => None))
  }

  /**
   * `get(index)`: the cell at the leaf level; through the sub-table
   * `index & 63` above it, 0 if that is absent.  A new table reads 0
   * everywhere, from its zeroed leaf or through an absent sub-table.
   */
  function Get(t: Table, n: nat, index: nat): (m: int)
    requires Valid(t, n) && index < Pow2(n)
    decreases n
    ensures t == Fresh(n) ==> m == 0
  {
    match t
    case Leaf(mem) => mem[index]
    case Split(subs) =>
      Pow2Split(n);
      var mask, shifted := index % Width, index / Width;
      if subs[mask].None? then 0 else Get(subs[mask].value, n - Fan, shifted)
  }

  /** `put(index, m)`: writes the cell, creating the sub-table `index & 63` on first use. */
  function Put(t: Table, n: nat, index: nat, m: int): (r: Table)
    requires Valid(t, n) && index < Pow2(n)
    decreases n
    ensures Valid(r, n)
  {
    match t
    case Leaf(mem) => Leaf(mem[index := m])
    case Split(subs) =>
      Pow2Split(n);
      var mask, shifted := index % Width, index / Width;
      var sub := if subs[mask].None? then Fresh(n - Fan) else subs[mask].value;
      Split(subs[mask := Some(Put(sub, n - Fan, shifted, m))])
  }

  /** The table as the array of 2^N cells it stands for. */
  ghost function Contents(t: Table, n: nat): (c: seq<int>)
    requires Valid(t, n)
    ensures |c| == Pow2(n)
  {
    seq(Pow2(n), i requires 0 <= i < Pow2(n) => Get(t, n, i))
  }

  /** Reading the cell just written yields the written value. */
  lemma {:induction false} GetPutSame(t: Table, n: nat, index: nat, m: int)
    requires Valid(t, n) && index < Pow2(n)
    decreases n
    ensures Get(Put(t, n, index, m), n, index) == m
  {
    match t
    case Leaf(_) =>
    case Split(subs) =>
      Pow2Split(n);
      var mask, shifted := index % Width, index / Width;
      var sub := if subs[mask].None? then Fresh(n - Fan) else subs[mask].value;
      if subs[mask].Some? {
        GetPutSame(sub, n - Fan, shifted, m);
      } else {
        FreshPutSame(n - Fan, shifted, m);
      }
  }

  /** The same for a sub-table created on first use. */
  lemma {:induction false} FreshPutSame(n: nat, index: nat, m: int)
    requires index < Pow2(n)
    decreases n
    ensures Get(Put(Fresh(n), n, index, m), n, index) == m
  {
    if n > Fan {
      Pow2Split(n);
      FreshPutSame(n - Fan, index / Width, m);
    }
  }

  /** Two distinct indices differ in their low six bits or in the rest. */
  lemma IndexSplit(i: nat, j: nat)
    requires i != j
    ensures i % Width != j % Width || i / Width != j / Width
  {
  }

  /** Writing one cell leaves every other cell as it was. */
  lemma {:induction false} GetPutOther(t: Table, n: nat, index: nat, m: int, other: nat)
    requires Valid(t, n) && index < Pow2(n) && other < Pow2(n) && other != index
    decreases n
    ensures Get(Put(t, n, index, m), n, other) == Get(t, n, other)
  {
    match t
    case Leaf(_) =>
    case Split(subs) =>
      Pow2Split(n);
      IndexSplit(index, other);
      var mask, shifted := index % Width, index / Width;
      if other % Width == mask {
        if subs[mask].Some? {
          GetPutOther(subs[mask].value, n - Fan, shifted, m, other / Width);
        } else {
          FreshPutOther(n - Fan, shifted, m, other / Width);
        }
      }
  }

  /** The same for a sub-table created on first use: its other cells stay 0. */
  lemma {:induction false} FreshPutOther(n: nat, index: nat, m: int, other: nat)
    requires index < Pow2(n) && other < Pow2(n) && other != index
    decreases n
    ensures Get(Put(Fresh(n), n, index, m), n, other) == 0
  {
    if n > Fan {
      Pow2Split(n);
      IndexSplit(index, other);
      if other % Width == index % Width {
        FreshPutOther(n - Fan, index / Width, m, other / Width);
      }
    }
  }

  /** `put` is an array update of the cells the table stands for, and a fresh table is all zero. */
  lemma PutUpdatesContents(t: Table, n: nat, index: nat, m: int)
    requires Valid(t, n) && index < Pow2(n)
    ensures Contents(Put(t, n, index, m), n) == Contents(t, n)[index := m]
    ensures Contents(Fresh(n), n) == seq(Pow2(n), _ => 0)
  {
    forall i | 0 <= i < Pow2(n) ensures Contents(Put(t, n, index, m), n)[i] == Contents(t, n)[index := m][i] {
      if i == index { GetPutSame(t, n, index, m); } else { GetPutOther(t, n, index, m, i); }
    }
  }
}

=== FILE: bits.dfy ===
/**
 * Powers of two and the shifts of unsigned integers that the bit-indexed
 * structures (tables, tries, van Emde Boas trees) take apart their keys with:
 * `v >> k` is `v / Pow2(k)` and `v & ((1 << k) - 1)` is `v % Pow2(k)`.
 */
module Bits {

  /** `1 << n`. */
  function Pow2(n: nat): (p: nat)
    ensures p >= 1
  {
    if n == 0 then 1 else 2 * Pow2(n - 1)
  }

  lemma {:induction false} Pow2Add(a: nat, b: nat)
    ensures Pow2(a + b) == Pow2(a) * Pow2(b)
    decreases a
  {
    if a > 0 {
      Pow2Add(a - 1, b);
      assert Pow2(a + b) == 2 * Pow2(a - 1 + b);
    }
  }

  lemma {:induction false} Pow2Monotone(a: nat, b: nat)
    requires a <= b
    ensures Pow2(a) <= Pow2(b)
    decreases b
  {
    if a < b {
      Pow2Monotone(a, b - 1);
    }
  }

  /** `v >> k`: k halvings, each dropping the lowest bit. */
  function Shr(v: nat, k: nat): nat
    decreases k
  {
    if k == 0 then v else Shr(v, k - 1) / 2
  }

  /** Shifting is monotone. */
  lemma {:induction false} ShrMonotone(a: nat, b: nat, k: nat)
    requires a <= b
    decreases k
    ensures Shr(a, k) <= Shr(b, k)
  {
    if k > 0 {
      ShrMonotone(a, b, k - 1);
    }
  }

  /** Numbers whose high bits compare strictly compare the same way. */
  lemma {:induction false} ShrOrder(a: nat, b: nat, k: nat)
    requires Shr(a, k) < Shr(b, k)
    decreases k
    ensures a < b
  {
    if k > 0 {
      ShrOrder(a, b, k - 1);
    }
  }

  /** A (k + m)-bit number shifted right by m bits has k bits. */
  lemma {:induction false} ShrBound(v: nat, k: nat, m: nat)
    requires v < Pow2(k + m)
    decreases m
    ensures Shr(v, m) < Pow2(k)
  {
    if m > 0 {
      ShrBound(v, k + 1, m - 1);
      assert Pow2(k + 1) == 2 * Pow2(k);
    }
  }

  /** Shifting by a then by b is shifting by a + b. */
  lemma {:induction false} ShrShr(v: nat, a: nat, b: nat)
    decreases b
    ensures Shr(Shr(v, a), b) == Shr(v, a + b)
  {
    if b > 0 {
      ShrShr(v, a, b - 1);
    }
  }
}

=== FILE: compare.dfy ===
/** The three-way comparison of utils/compare.hpp, used by the search trees and the skip list. */
module Compare {

  /** The outcome of comparing two keys. */
  datatype Relation = Eq | Less | Greater

  /** `DefaultCompare`: tests equality first, then `<`. */
  function DefaultCompare(a: int, b: int): (r: Relation)
    ensures r == Eq <==> a == b
    ensures r == Less <==> a < b
    ensures r == Greater <==> b < a
  {
    if a == b then Eq else if a < b then Less else Greater
  }
}

=== FILE: fib_heap.dfy ===
/**
 * FibHeap (src/heap/fib_heap.hpp): a min-heap kept as a circular list of
 * heap-ordered trees with a pointer to the least root.  Pushing and
 * merging only splice lists; popping moves the least root's children up
 * and consolidates the roots so no two share a degree; `re_push` lowers a
 * value in place, cutting the node and then its marked ancestors.
 *
 * Circular lists are sequences starting at their `first` node, a node's
 * degree is the length of its child sequence, and a node handle is the
 * path of indices from the root list down to it.
 */
module FibHeap {
  import opened Wrappers
  import opened Sequences

  /** A node: its value, its mark and its children in list order. */
  datatype FTree = FTree(value: int, mark: bool, kids: seq<FTree>)

  function Degree(t: FTree): nat {
    |t.kids|
  }

  function Values(t: FTree): multiset<int>
    decreases t
  {
    multiset{t.value} + Forest(t.kids)
  }

  /** The values of a list of trees. */
  function Forest(f: seq<FTree>): multiset<int>
    decreases f
  {
    if f == [] then multiset{} else Values(f[0]) + Forest(f[1..])
  }

  /** Heap order: every node's value is at most its children's. */
  predicate Ordered(t: FTree)
    decreases t
  {
    forall i :: 0 <= i < |t.kids| ==> t.value <= t.kids[i].value && Ordered(t.kids[i])
  }

  predicate AllOrdered(f: seq<FTree>) {
    forall i :: 0 <= i < |f| ==> Ordered(f[i])
  }

  /** v is at most every value of m. */
  predicate Least(v: int, m: multiset<int>) {
    forall x :: x in m ==> v <= x
  }

  // ---------------------------------------------------------------------
  // Values of lists

  lemma Cons(t: FTree, s: seq<FTree>)
    ensures Forest([t] + s) == Values(t) + Forest(s)
  {
    assert ([t] + s)[1..] == s;
  }

  lemma {:induction false} Concat(a: seq<FTree>, b: seq<FTree>)
    ensures Forest(a + b) == Forest(a) + Forest(b)
  {
    if a == [] {
      assert a + b == b;
    } else {
      assert (a + b)[0] == a[0];
      assert (a + b)[1..] == a[1..] + b;
      Concat(a[1..], b);
      Regroup(Values(a[0]), Forest(a[1..]), Forest(b));
    }
  }

  lemma Regroup(a: multiset<int>, b: multiset<int>, c: multiset<int>)
    ensures a + b + c == a + (b + c)
  {
  }

  lemma Rotate(a: multiset<int>, b: multiset<int>, c: multiset<int>)
    ensures a + b + c == a + (c + b)
  {
  }

  lemma Cancel(a: multiset<int>, b: multiset<int>, c: multiset<int>)
    requires a + c == b + c
    ensures a == b
  {
    assert a == a + c - c;
  }

  lemma ThreeParts(a: seq<FTree>, t: FTree, b: seq<FTree>)
    ensures Forest(a + b) + Values(t) == Forest(a + ([t] + b))
  {
    Concat(a, [t] + b);
    Concat(a, b);
    Cons(t, b);
    Rotate(Forest(a), Forest(b), Values(t));
  }

  /** The tree at index i of a list, and so its root value, counts among the list's values. */
  lemma {:induction false} InForestAt(f: seq<FTree>, i: nat)
    requires i < |f|
    ensures f[i].value in Forest(f)
  {
    if i > 0 {
      InForestAt(f[1..], i - 1);
    }
  }

  /** The entry of a list holding a value. */
  lemma {:induction false} InForest(f: seq<FTree>, x: int) returns (j: nat)
    requires x in Forest(f)
    ensures j < |f| && x in Values(f[j])
  {
    if x in Values(f[0]) {
      j := 0;
    } else {
      var j' := InForest(f[1..], x);
      j := j' + 1;
    }
  }

  /** A heap-ordered tree's root is at most each of its values. */
  lemma {:induction false} RootLeast(t: FTree, x: int)
    requires Ordered(t) && x in Values(t)
    decreases t
    ensures t.value <= x
  {
    if x != t.value {
      var j := InForest(t.kids, x);
      RootLeast(t.kids[j], x);
    }
  }

  /** A root no larger than every root is no larger than every value. */
  lemma LeastRoot(f: seq<FTree>, k: nat)
    requires AllOrdered(f) && k < |f|
    requires forall j :: 0 <= j < |f| ==> f[k].value <= f[j].value
    ensures f[k].value in Forest(f) && Least(f[k].value, Forest(f))
  {
    InForestAt(f, k);
    forall x | x in Forest(f) ensures f[k].value <= x {
      var j := InForest(f, x);
      RootLeast(f[j], x);
    }
  }

  // ---------------------------------------------------------------------
  // List surgery

  /**
   * `remove_node(first, x)` for the node at index i: a lone node leaves
   * the empty list, otherwise x is unlinked and, when it was first, its
   * successor becomes first.
   */
  function RemoveNode(s: seq<FTree>, i: nat): (r: seq<FTree>)
    requires i < |s|
    ensures |r| + 1 == |s| && (|s| == 1 ==> r == [])
    ensures forall j :: 0 <= j < |r| ==> r[j] == s[if j < i then j else j + 1]
    ensures Forest(r) + Values(s[i]) == Forest(s)
    ensures AllOrdered(s) ==> AllOrdered(r)
  {
    assert s == s[..i] + ([s[i]] + s[i + 1..]);
    ThreeParts(s[..i], s[i], s[i + 1..]);
    s[..i] + s[i + 1..]
  }

  lemma UpdateAt(s: seq<FTree>, i: nat, t: FTree)
    requires i < |s|
    ensures Forest(s[i := t]) + Values(s[i]) == Forest(s) + Values(t)
  {
    assert s == s[..i] + ([s[i]] + s[i + 1..]);
    assert s[i := t] == s[..i] + ([t] + s[i + 1..]);
    ThreeParts(s[..i], s[i], s[i + 1..]);
    ThreeParts(s[..i], t, s[i + 1..]);
  }

  function Unmark(t: FTree): FTree {
    FTree(t.value, false, t.kids)
  }

  /**
   * `link(x, y)`: the tree with the smaller root (x on a tie) takes the
   * other, unmarked, as its last child.
   */
  function Link(x: FTree, y: FTree): (r: FTree)
    ensures Values(r) == Values(x) + Values(y)
    ensures r.value == (if y.value < x.value then y.value else x.value)
    ensures Degree(r) == (if y.value < x.value then Degree(y) else Degree(x)) + 1
    ensures r.mark == (if y.value < x.value then y.mark else x.mark)
    ensures !r.kids[Degree(r) - 1].mark
    ensures Ordered(x) && Ordered(y) ==> Ordered(r)
  {
    if y.value < x.value then Adopt(y, x) else Adopt(x, y)
  }

  /** w with l, unmarked, as its last child. */
  function Adopt(w: FTree, l: FTree): (r: FTree)
    ensures r.value == w.value && r.mark == w.mark && Degree(r) == Degree(w) + 1 && !r.kids[Degree(w)].mark
    ensures Values(r) == Values(w) + Values(l)
    ensures Ordered(w) && Ordered(l) && w.value <= l.value ==> Ordered(r)
  {
    AdoptValues(w, l);
    AdoptOrdered(w, l);
    FTree(w.value, w.mark, w.kids + [Unmark(l)])
  }

  lemma AdoptValues(w: FTree, l: FTree)
    ensures Values(FTree(w.value, w.mark, w.kids + [Unmark(l)])) == Values(w) + Values(l)
  {
    Concat(w.kids, [Unmark(l)]);
    Cons(Unmark(l), []);
    assert [Unmark(l)] + [] == [Unmark(l)];
    assert Values(Unmark(l)) == Values(l);
    Regroup(multiset{w.value}, Forest(w.kids), Values(l));
  }

  lemma AdoptOrdered(w: FTree, l: FTree)
    ensures Ordered(w) && Ordered(l) && w.value <= l.value ==> Ordered(FTree(w.value, w.mark, w.kids + [Unmark(l)]))
  {
    if Ordered(w) && Ordered(l) && w.value <= l.value {
      var k := w.kids + [Unmark(l)];
      assert forall i :: 0 <= i < |w.kids| ==> k[i] == w.kids[i];
      assert Ordered(Unmark(l));
    }
  }

  // ---------------------------------------------------------------------
  // Node handles

  /** p leads from the list f down to a node: a root index, then child indices. */
  predicate IsPath(f: seq<FTree>, p: seq<nat>)
    decreases p
  {
    |p| > 0 && p[0] < |f| && (|p| == 1 || IsPath(f[p[0]].kids, p[1..]))
  }

  function Get(f: seq<FTree>, p: seq<nat>): FTree
    requires IsPath(f, p)
    decreases p
  {
    if |p| == 1 then f[p[0]] else Get(f[p[0]].kids, p[1..])
  }

  /** The root f[p[0]] with the node at p[1..] among its descendants replaced by t. */
  function Under(c: FTree, p: seq<nat>, t: FTree): FTree
    requires |p| > 1 && IsPath(c.kids, p[1..])
    decreases p, 0
  {
    FTree(c.value, c.mark, Update(c.kids, p[1..], t))
  }

  /** The list with the node at p replaced by t. */
  function Update(f: seq<FTree>, p: seq<nat>, t: FTree): (r: seq<FTree>)
    requires IsPath(f, p)
    decreases p, 1
    ensures |r| == |f| && IsPath(r, p) && Get(r, p) == t
    ensures forall i :: 0 <= i < |f| && i != p[0] ==> r[i] == f[i]
    ensures |p| > 1 ==> r[p[0]].value == f[p[0]].value && r[p[0]].mark == f[p[0]].mark
    ensures Forest(r) + Values(Get(f, p)) == Forest(f) + Values(t)
  {
    if |p| == 1 then
      UpdateAt(f, p[0], t);
      f[p[0] := t]
    else
      var c := f[p[0]];
      var u := Update(c.kids, p[1..], t);
      UpdateStep(f, p, t, u);
      f[p[0] := FTree(c.value, c.mark, u)]
  }

  lemma UpdateStep(f: seq<FTree>, p: seq<nat>, t: FTree, u: seq<FTree>)
    requires IsPath(f, p) && |p| > 1
    requires IsPath(u, p[1..]) && Get(u, p[1..]) == t
    requires Forest(u) + Values(Get(f, p)) == Forest(f[p[0]].kids) + Values(t)
    ensures IsPath(f[p[0] := FTree(f[p[0]].value, f[p[0]].mark, u)], p)
    ensures Get(f[p[0] := FTree(f[p[0]].value, f[p[0]].mark, u)], p) == t
    ensures Forest(f[p[0] := FTree(f[p[0]].value, f[p[0]].mark, u)]) + Values(Get(f, p)) == Forest(f) + Values(t)
  {
    var c := f[p[0]];
    var c' := FTree(c.value, c.mark, u);
    var g := Get(f, p);
    UpdateAt(f, p[0], c');
    assert Values(c') + Values(g) == Values(c) + Values(t) by {
      Regroup(multiset{c.value}, Forest(u), Values(g));
      Regroup(multiset{c.value}, Forest(c.kids), Values(t));
    }
    Shift(Forest(f[p[0] := c']), Forest(f), Values(c), Values(c'), Values(g), Values(t));
  }

  /** From F + c = G + c' and c' + g = c + t follows F + g = G + t. */
  lemma Shift(F: multiset<int>, G: multiset<int>, c: multiset<int>, c': multiset<int>, g: multiset<int>, t: multiset<int>)
    requires F + c == G + c' && c' + g == c + t
    ensures F + g == G + t
  {
    calc {
      F + g + c;
      F + c + g;
      G + c' + g;
      G + (c' + g);
      G + (c + t);
      G + t + c;
    }
    Cancel(F + g, G + t, c);
  }

  function Parent(p: seq<nat>): seq<nat>
    requires |p| > 0
  {
    p[..|p| - 1]
  }

  function Last(p: seq<nat>): nat
    requires |p| > 0
  {
    p[|p| - 1]
  }

  /** The parent of the node at p, which holds it at child index Last(p). */
  function ParentOf(f: seq<FTree>, p: seq<nat>): (r: FTree)
    requires IsPath(f, p) && |p| >= 2
    ensures IsPath(f, Parent(p)) && r == Get(f, Parent(p))
    ensures Last(p) < |r.kids| && Get(f, p) == r.kids[Last(p)]
  {
    GetParent(f, p);
    Get(f, Parent(p))
  }

  lemma {:induction false} GetParent(f: seq<FTree>, p: seq<nat>)
    requires IsPath(f, p) && |p| >= 2
    decreases p
    ensures IsPath(f, Parent(p)) && Last(p) < |Get(f, Parent(p)).kids|
    ensures Get(f, p) == Get(f, Parent(p)).kids[Last(p)]
  {
    if |p| > 2 {
      GetParent(f[p[0]].kids, p[1..]);
      assert Parent(p)[1..] == Parent(p[1..]);
    }
  }

  /** The node at a path of heap-ordered trees is heap-ordered. */
  lemma {:induction false} PathOrdered(f: seq<FTree>, p: seq<nat>)
    requires IsPath(f, p) && AllOrdered(f)
    decreases p
    ensures Ordered(Get(f, p))
  {
    if |p| > 1 {
      PathOrdered(f[p[0]].kids, p[1..]);
    }
  }

  /** In heap-ordered trees a node is at least its parent. */
  lemma ParentLe(f: seq<FTree>, p: seq<nat>)
    requires IsPath(f, p) && |p| >= 2 && AllOrdered(f)
    ensures ParentOf(f, p).value <= Get(f, p).value
  {
    var par := ParentOf(f, p);
    PathOrdered(f, Parent(p));
    OrderedKid(par, Last(p));
  }

  lemma OrderedKid(t: FTree, j: nat)
    requires Ordered(t) && j < |t.kids|
    ensures t.value <= t.kids[j].value && Ordered(t.kids[j])
  {
  }

  /**
   * Replacing a node by a heap-ordered tree whose root is at least the
   * parent's keeps the list heap-ordered.
   */
  lemma {:induction false} UpdateOrdered(f: seq<FTree>, p: seq<nat>, t: FTree)
    requires IsPath(f, p) && AllOrdered(f) && Ordered(t)
    requires |p| >= 2 ==> ParentOf(f, p).value <= t.value
    decreases p
    ensures AllOrdered(Update(f, p, t))
  {
    if |p| > 1 {
      var c := f[p[0]];
      if |p| > 2 {
        assert Parent(p)[1..] == Parent(p[1..]);
        assert ParentOf(c.kids, p[1..]) == ParentOf(f, p);
      }
      UpdateOrdered(c.kids, p[1..], t);
      var u := Update(c.kids, p[1..], t);
      KidsOrdered(c, u, p[1]);
      assert Update(f, p, t) == f[p[0] := FTree(c.value, c.mark, u)];
    }
  }

  /** Changing one child of a heap-ordered node to a heap-ordered tree no smaller than the node keeps it heap-ordered. */
  lemma KidsOrdered(c: FTree, u: seq<FTree>, j: nat)
    requires Ordered(c) && AllOrdered(u) && |u| == |c.kids| && j < |u|
    requires forall i :: 0 <= i < |u| && i != j ==> u[i] == c.kids[i]
    requires c.value <= u[j].value
    ensures Ordered(FTree(c.value, c.mark, u))
  {
  }

  /** `cut`'s parent: the child at index Last(p) removed, the degree one lower. */
  function Without(f: seq<FTree>, p: seq<nat>): (w: FTree)
    requires IsPath(f, p) && |p| >= 2
    ensures w.value == ParentOf(f, p).value && w.mark == ParentOf(f, p).mark
    ensures Degree(w) + 1 == Degree(ParentOf(f, p))
    ensures Values(w) + Values(Get(f, p)) == Values(ParentOf(f, p))
    ensures AllOrdered(f) ==> Ordered(w)
  {
    var par := ParentOf(f, p);
    var w := FTree(par.value, par.mark, RemoveNode(par.kids, Last(p)));
    Regroup(multiset{par.value}, Forest(w.kids), Values(Get(f, p)));
    WithoutOrdered(f, p, w);
    w
  }

  lemma WithoutOrdered(f: seq<FTree>, p: seq<nat>, w: FTree)
    requires IsPath(f, p) && |p| >= 2
    requires w == FTree(ParentOf(f, p).value, ParentOf(f, p).mark, RemoveNode(ParentOf(f, p).kids, Last(p)))
    ensures AllOrdered(f) ==> Ordered(w)
  {
    if AllOrdered(f) {
      PathOrdered(f, Parent(p));
    }
  }

  /**
   * `cut(x)` for the node at p, holding x by the time of the cut: x
   * leaves its parent's child list, the parent's degree drops by one, and
   * x joins the end of the root list unmarked.
   */
  function Cut(f: seq<FTree>, p: seq<nat>, x: FTree): (r: seq<FTree>)
    requires IsPath(f, p) && |p| >= 2
    ensures |r| == |f| + 1 && r[|f|] == Unmark(x)
    ensures forall i :: 0 <= i < |f| ==> r[i].value == f[i].value
    ensures forall i :: 0 <= i < |f| && i != p[0] ==> r[i] == f[i]
    ensures IsPath(r, Parent(p)) && Get(r, Parent(p)) == Without(f, p)
    ensures Forest(r) + Values(Get(f, p)) == Forest(f) + Values(x)
  {
    var u := Update(f, Parent(p), Without(f, p));
    CutValues(f, p, x, u);
    CutPath(u, Parent(p), Unmark(x));
    u + [Unmark(x)]
  }

  lemma CutValues(f: seq<FTree>, p: seq<nat>, x: FTree, u: seq<FTree>)
    requires IsPath(f, p) && |p| >= 2
    requires Forest(u) + Values(ParentOf(f, p)) == Forest(f) + Values(Without(f, p))
    ensures Forest(u + [Unmark(x)]) + Values(Get(f, p)) == Forest(f) + Values(x)
  {
    var w, g := Without(f, p), Get(f, p);
    assert Forest(u) + Values(g) == Forest(f) by {
      assert Forest(u) + Values(g) + Values(w) == Forest(u) + Values(ParentOf(f, p));
      Cancel(Forest(u) + Values(g), Forest(f), Values(w));
    }
    Concat(u, [Unmark(x)]);
    Cons(Unmark(x), []);
    assert [Unmark(x)] + [] == [Unmark(x)];
    assert Values(Unmark(x)) == Values(x);
    Rotate(Forest(u), Values(x), Values(g));
  }

  /** Adding a root at the end keeps every path and what it leads to. */
  lemma CutPath(u: seq<FTree>, q: seq<nat>, y: FTree)
    requires IsPath(u, q)
    ensures IsPath(u + [y], q) && Get(u + [y], q) == Get(u, q)
  {
    assert (u + [y])[q[0]] == u[q[0]];
  }

  /** Cutting a node out of heap-ordered trees and adding it as a root keeps them heap-ordered. */
  lemma CutOrdered(f: seq<FTree>, p: seq<nat>, x: FTree)
    requires IsPath(f, p) && |p| >= 2 && AllOrdered(f) && Ordered(x)
    ensures AllOrdered(Cut(f, p, x))
  {
    var q := Parent(p);
    var w := Without(f, p);
    if |q| >= 2 {
      assert ParentOf(f, p) == Get(f, q);
      ParentLe(f, q);
    }
    UpdateOrdered(f, q, w);
    var u := Update(f, q, w);
    var r := Cut(f, p, x);
    assert r == u + [Unmark(x)];
    assert forall i :: 0 <= i < |u| ==> r[i] == u[i];
    assert Ordered(Unmark(x));
  }

  /**
   * `cascading_cut(p)`: a root stops the climb; an unmarked node is
   * marked; a marked one is cut and the climb goes on from its parent.
   */
  function CascadingCut(f: seq<FTree>, p: seq<nat>): (r: seq<FTree>)
    requires IsPath(f, p)
    decreases |p|
    ensures |r| >= |f| && forall i :: 0 <= i < |f| ==> r[i].value == f[i].value
    ensures forall i :: 0 <= i < |f| && i != p[0] ==> r[i] == f[i]
    ensures Forest(r) == Forest(f)
  {
    if |p| == 1 then f
    else
      var t := Get(f, p);
      if !t.mark then
        MarkValues(f, p);
        Update(f, p, Mark(t))
      else
        var g := Cut(f, p, t);
        Cancel(Forest(g), Forest(f), Values(t));
        CascadingCut(g, Parent(p))
  }

  function Mark(t: FTree): FTree {
    FTree(t.value, true, t.kids)
  }

  lemma MarkValues(f: seq<FTree>, p: seq<nat>)
    requires IsPath(f, p) && |p| > 1
    ensures Forest(Update(f, p, Mark(Get(f, p)))) == Forest(f)
  {
    var t := Get(f, p);
    assert Values(Mark(t)) == Values(t);
    Cancel(Forest(Update(f, p, Mark(t))), Forest(f), Values(t));
  }

  /** What cascading cut does with one node: an unmarked non-root is marked and stays, a marked one becomes an unmarked root. */
  lemma CascadingCutStep(f: seq<FTree>, p: seq<nat>)
    requires IsPath(f, p) && |p| >= 2
    ensures !Get(f, p).mark ==> |CascadingCut(f, p)| == |f| && IsPath(CascadingCut(f, p), p) && Get(CascadingCut(f, p), p) == Mark(Get(f, p))
    ensures Get(f, p).mark ==> |CascadingCut(f, p)| > |f| && CascadingCut(f, p)[|f|] == Unmark(Get(f, p))
  {
    var t := Get(f, p);
    if t.mark {
      var g := Cut(f, p, t);
      assert CascadingCut(f, p) == CascadingCut(g, Parent(p));
    }
  }

  /** Cascading cut keeps heap order. */
  lemma {:induction false} CascadingOrdered(f: seq<FTree>, p: seq<nat>)
    requires IsPath(f, p) && AllOrdered(f)
    decreases |p|
    ensures AllOrdered(CascadingCut(f, p))
  {
    if |p| > 1 {
      var t := Get(f, p);
      PathOrdered(f, p);
      if !t.mark {
        ParentLe(f, p);
        UpdateOrdered(f, p, Mark(t));
      } else {
        CutOrdered(f, p, t);
        CascadingOrdered(Cut(f, p, t), Parent(p));
      }
    }
  }

  /** The node at a path holds a value of the list. */
  lemma {:induction false} GetIn(f: seq<FTree>, p: seq<nat>)
    requires IsPath(f, p)
    decreases p
    ensures Get(f, p).value in Forest(f)
  {
    var c := f[p[0]];
    if |p| == 1 {
      InForestAt(f, p[0]);
    } else {
      GetIn(c.kids, p[1..]);
      var j := p[0];
      assert f == f[..j] + ([c] + f[j + 1..]);
      ThreeParts(f[..j], c, f[j + 1..]);
    }
  }

  // ---------------------------------------------------------------------
  // Consolidation

  function Slot(o: Option<FTree>): multiset<int> {
    if o.Some? then Values(o.value) else multiset{}
  }

  /** The values held by the degree table of `consolidate`. */
  function Table(a: seq<Option<FTree>>): multiset<int> {
    if a == [] then multiset{} else Slot(a[0]) + Table(a[1..])
  }

  /** Slot d of the table holds, if anything, a heap-ordered tree of degree d. */
  predicate TableOk(a: seq<Option<FTree>>) {
    forall d :: 0 <= d < |a| && a[d].Some? ==> Degree(a[d].value) == d && Ordered(a[d].value)
  }

  lemma {:induction false} TableConcat(a: seq<Option<FTree>>, b: seq<Option<FTree>>)
    ensures Table(a + b) == Table(a) + Table(b)
  {
    if a == [] {
      assert a + b == b;
    } else {
      assert (a + b)[0] == a[0];
      assert (a + b)[1..] == a[1..] + b;
      TableConcat(a[1..], b);
      Regroup(Slot(a[0]), Table(a[1..]), Table(b));
    }
  }

  lemma TableAt(a: seq<Option<FTree>>, d: nat, o: Option<FTree>)
    requires d < |a|
    ensures Table(a[d := o]) + Slot(a[d]) == Table(a) + Slot(o)
  {
    var b, c := a[..d], a[d + 1..];
    SplitAt(a, d);
    SplitUpdate(a, d, o);
    TableConcat(b, [a[d]] + c);
    TableConcat(b, [o] + c);
    assert ([a[d]] + c)[1..] == c && ([o] + c)[1..] == c;
    Regroup(Table(b), Slot(a[d]), Table(c));
    Regroup(Table(b), Slot(o), Table(c));
    Rotate(Table(b), Table(c), Slot(a[d]));
    Rotate(Table(b), Table(c), Slot(o));
  }

  function Empties(k: nat): (r: seq<Option<FTree>>)
    ensures |r| == k && Table(r) == multiset{} && forall d :: 0 <= d < k ==> r[d].None?
  {
    if k == 0 then [] else [None] + Empties(k - 1)
  }

  /** The table grown with empty slots to length n. */
  function Pad(a: seq<Option<FTree>>, n: nat): (r: seq<Option<FTree>>)
    requires |a| <= n
    ensures |r| == n && Table(r) == Table(a)
    ensures forall d :: 0 <= d < n ==> r[d] == if d < |a| then a[d] else None
  {
    TableConcat(a, Empties(n - |a|));
    a + Empties(n - |a|)
  }

  /**
   * The inner loop of `consolidate`: while the slot for x's degree is
   * taken, x is linked with its occupant, which leaves the slot; then x
   * takes the slot for its degree.
   */
  function Place(a: seq<Option<FTree>>, x: FTree): (r: seq<Option<FTree>>)
    requires TableOk(a) && Ordered(x)
    decreases |a| - Degree(x)
    ensures TableOk(r) && Table(r) == Table(a) + Values(x)
  {
    var d := Degree(x);
    if d < |a| && a[d].Some? then
      var y := a[d].value;
      Vacate(a, x);
      var r := Place(a[d := None], Link(x, y));
      PlaceValues(Table(r), Table(a[d := None]), Table(a), Values(x), Values(y));
      r
    else
      Put(a, x)
  }

  /** Emptying the slot for x's degree and linking x with its occupant keeps the table's shape and values. */
  lemma Vacate(a: seq<Option<FTree>>, x: FTree)
    requires TableOk(a) && Ordered(x) && Degree(x) < |a| && a[Degree(x)].Some?
    ensures var d, y := Degree(x), a[Degree(x)].value;
      && TableOk(a[d := None]) && Ordered(Link(x, y)) && Degree(Link(x, y)) == d + 1
      && Table(a[d := None]) + Values(y) == Table(a)
  {
    var d, y := Degree(x), a[Degree(x)].value;
    assert Ordered(y) && Degree(y) == d;
    ClearOk(a, d);
    TableAt(a, d, None);
  }

  /** Emptying a slot keeps the table's shape. */
  lemma ClearOk(a: seq<Option<FTree>>, d: nat)
    requires TableOk(a) && d < |a|
    ensures TableOk(a[d := None])
  {
    var b := a[d := None];
    forall e | 0 <= e < |b| && b[e].Some? ensures Degree(b[e].value) == e && Ordered(b[e].value) {
      assert b[e] == a[e];
    }
  }

  /** x takes the free slot for its degree, the table grown with empty slots when it is too short. */
  function Put(a: seq<Option<FTree>>, x: FTree): (r: seq<Option<FTree>>)
    requires TableOk(a) && Ordered(x) && !(Degree(x) < |a| && a[Degree(x)].Some?)
    ensures TableOk(r) && Table(r) == Table(a) + Values(x)
    ensures |r| == if Degree(x) < |a| then |a| else Degree(x) + 1
    ensures r[Degree(x)] == Some(x)
  {
    var d := Degree(x);
    var b := if d < |a| then a else Pad(a, d + 1);
    TableAt(b, d, Some(x));
    b[d := Some(x)]
  }

  lemma PlaceValues(r: multiset<int>, a': multiset<int>, a: multiset<int>, x: multiset<int>, y: multiset<int>)
    requires r == a' + (x + y) && a' + y == a
    ensures r == a + x
  {
  }

  /** The outer loop of `consolidate`: the roots taken off the list from the first on and placed in turn. */
  function Fill(a: seq<Option<FTree>>, f: seq<FTree>): (r: seq<Option<FTree>>)
    requires TableOk(a) && AllOrdered(f)
    decreases |f|
    ensures TableOk(r) && Table(r) == Table(a) + Forest(f)
  {
    if f == [] then a
    else
      var r := Fill(Place(a, f[0]), f[1..]);
      Regroup(Table(a), Values(f[0]), Forest(f[1..]));
      r
  }

  /** The closing loop of `consolidate`: the occupied slots from i on, by increasing degree, form the new root list. */
  function Collect(a: seq<Option<FTree>>, i: nat): (r: seq<FTree>)
    requires i <= |a|
    decreases |a| - i
    ensures Forest(r) == Table(a[i..])
  {
    if i == |a| then []
    else
      var c := Collect(a, i + 1);
      CollectValues(a, i, c);
      (if a[i].Some? then [a[i].value] else []) + c
  }

  lemma CollectValues(a: seq<Option<FTree>>, i: nat, c: seq<FTree>)
    requires i < |a| && Forest(c) == Table(a[i + 1..])
    ensures Forest((if a[i].Some? then [a[i].value] else []) + c) == Table(a[i..])
  {
    assert a[i..][0] == a[i] && a[i..][1..] == a[i + 1..];
    if a[i].Some? {
      Cons(a[i].value, c);
    } else {
      assert [] + c == c;
    }
  }

  /** Roots of strictly increasing degree: no two share one. */
  predicate ByDegree(f: seq<FTree>) {
    forall i, j :: 0 <= i < j < |f| ==> Degree(f[i]) < Degree(f[j])
  }

  /** Degrees all at least i. */
  predicate From(f: seq<FTree>, i: nat) {
    forall j :: 0 <= j < |f| ==> i <= Degree(f[j])
  }

  lemma {:induction false} CollectShape(a: seq<Option<FTree>>, i: nat)
    requires i <= |a| && TableOk(a)
    decreases |a| - i
    ensures AllOrdered(Collect(a, i)) && ByDegree(Collect(a, i)) && From(Collect(a, i), i)
  {
    if i < |a| {
      CollectShape(a, i + 1);
      var c := Collect(a, i + 1);
      if a[i].Some? {
        assert Collect(a, i) == [a[i].value] + c;
        ConsShape(a[i].value, c, i);
      } else {
        assert Collect(a, i) == [] + c == c;
      }
    }
  }

  lemma ConsShape(t: FTree, c: seq<FTree>, i: nat)
    requires AllOrdered(c) && ByDegree(c) && From(c, i + 1) && Ordered(t) && Degree(t) == i
    ensures AllOrdered([t] + c) && ByDegree([t] + c) && From([t] + c, i)
  {
    var r := [t] + c;
    assert forall j :: 1 <= j < |r| ==> r[j] == c[j - 1];
  }

  /** The root values in list order. */
  function RootValues(f: seq<FTree>): (r: seq<int>)
    ensures |r| == |f| && forall i :: 0 <= i < |f| ==> r[i] == f[i].value
  {
    seq(|f|, i requires 0 <= i < |f| => f[i].value)
  }

  /**
   * `consolidate()`: nothing happens to an empty list; otherwise the
   * trees are linked until no two roots share a degree, the root list is
   * rebuilt by increasing degree and `min_tree` is its first least root.
   */
  function Consolidate(f: seq<FTree>): (r: (seq<FTree>, nat))
    requires AllOrdered(f)
    ensures AllOrdered(r.0) && ByDegree(r.0) && Forest(r.0) == Forest(f)
    ensures f == [] <==> r.0 == []
    ensures f != [] ==> r.1 < |r.0| && r.0[r.1].value in Forest(f) && Least(r.0[r.1].value, Forest(f))
  {
    if f == [] then ([], 0)
    else
      var a := Fill([], f);
      var roots := Collect(a, 0);
      assert a[0..] == a;
      CollectShape(a, 0);
      InForestAt(f, 0);
      var m := FirstMin(RootValues(roots));
      LeastRoot(roots, m);
      (roots, m)
  }

  /** `max_degree(n)`: k - 2 for the first index k >= 2 with Fibonacci number F(k) >= n. */
  method MaxDegree(n: nat) returns (d: nat)
    ensures n <= Fib(d + 2) && forall j :: 2 <= j < d + 2 ==> Fib(j) < n
  {
    var k: nat, f, f2, f1 := 2, 1, 0, 1;
    while f < n
      invariant k >= 2 && f == Fib(k) && f1 == Fib(k - 1) && f2 == Fib(k - 2)
      invariant forall j :: 2 <= j < k ==> Fib(j) < n
      decreases n - f
    {
      FibPositive(k - 1);
      f2 := f1;
      f1 := f;
      f := f1 + f2;
      k := k + 1;
    }
    d := k - 2;
  }

  function Fib(k: nat): nat {
    if k < 2 then k else Fib(k - 1) + Fib(k - 2)
  }

  lemma {:induction false} FibPositive(k: nat)
    requires k >= 1
    ensures Fib(k) >= 1
  {
    if k > 2 {
      FibPositive(k - 1);
    }
  }

  // ---------------------------------------------------------------------
  // The heap

  /** The heap: the root list, the index of `min_tree` in it and the count `_size`. */
  datatype FibHeap = FibHeap(roots: seq<FTree>, min: nat, size: nat)

  predicate Valid(q: FibHeap) {
    AllOrdered(q.roots) && q.size == |Forest(q.roots)| &&
    (q.roots != [] ==> q.min < |q.roots| && Least(q.roots[q.min].value, Forest(q.roots)))
  }

  function Empty(): (r: FibHeap)
    ensures Valid(r) && Forest(r.roots) == multiset{}
  {
    FibHeap([], 0, 0)
  }

  /** `empty()` and `is_empty()`: no root; in a valid heap exactly when the count is zero. */
  function IsEmpty(q: FibHeap): (b: bool)
    requires Valid(q)
    ensures b <==> q.size == 0
  {
    NonEmptyHolds(q.roots);
    q.roots == []
  }

  lemma NonEmptyHolds(f: seq<FTree>)
    ensures f != [] ==> |Forest(f)| > 0
  {
    if f != [] {
      InForestAt(f, 0);
    }
  }

  /** `top()`: the value of `min_tree`, the least value; the heap must not be empty. */
  function Top(q: FibHeap): (r: int)
    requires Valid(q) && q.roots != []
    ensures r in Forest(q.roots) && Least(r, Forest(q.roots))
  {
    InForestAt(q.roots, q.min);
    q.roots[q.min].value
  }

  /** `push(t)` through `insert`: a one-node tree at the end of the roots, `min_tree` moved to it when it is smaller. */
  function Push(q: FibHeap, x: int): (r: FibHeap)
    requires Valid(q)
    ensures Valid(r) && Forest(r.roots) == Forest(q.roots) + multiset{x} && r.size == q.size + 1
    ensures Top(r) == if q.roots == [] || x < Top(q) then x else Top(q)
  {
    var t := FTree(x, false, []);
    var m := if q.roots == [] || x < q.roots[q.min].value then |q.roots| else q.min;
    var r := FibHeap(q.roots + [t], m, q.size + 1);
    PushValid(q, x, r);
    r
  }

  lemma PushValid(q: FibHeap, x: int, r: FibHeap)
    requires Valid(q)
    requires r.roots == q.roots + [FTree(x, false, [])] && r.size == q.size + 1
    requires r.min == if q.roots == [] || x < q.roots[q.min].value then |q.roots| else q.min
    ensures Valid(r) && Forest(r.roots) == Forest(q.roots) + multiset{x}
  {
    var t := FTree(x, false, []);
    Concat(q.roots, [t]);
    Cons(t, []);
    assert [t] + [] == [t];
    assert Values(t) == multiset{x};
    assert forall i :: 0 <= i < |q.roots| ==> r.roots[i] == q.roots[i];
    assert r.roots[|q.roots|] == t;
  }

  /**
   * The public `merge(that)`: an empty heap takes all of that; an empty
   * that changes nothing; otherwise the root lists are spliced, the
   * smaller `min_tree` wins (that's on a tie) and that is emptied.
   */
  function Merge(q: FibHeap, that: FibHeap): (r: (FibHeap, FibHeap))
    requires Valid(q) && Valid(that)
    ensures Valid(r.0) && Valid(r.1)
    ensures Forest(r.0.roots) == Forest(q.roots) + Forest(that.roots) && r.0.size == q.size + that.size
    ensures r.1.roots == [] && r.1.size == 0
  {
    if q.roots == [] then (that, Empty())
    else if that.roots == [] then (q, that)
    else
      var m := if q.roots[q.min].value < that.roots[that.min].value then q.min else |q.roots| + that.min;
      var r := FibHeap(q.roots + that.roots, m, q.size + that.size);
      MergeValid(q, that, r);
      (r, Empty())
  }

  lemma MergeValid(q: FibHeap, that: FibHeap, r: FibHeap)
    requires Valid(q) && Valid(that) && q.roots != [] && that.roots != []
    requires r.roots == q.roots + that.roots && r.size == q.size + that.size
    requires r.min == if q.roots[q.min].value < that.roots[that.min].value then q.min else |q.roots| + that.min
    ensures Valid(r) && Forest(r.roots) == Forest(q.roots) + Forest(that.roots)
  {
    Concat(q.roots, that.roots);
    ConcatOrdered(q.roots, that.roots);
    var v, w := q.roots[q.min].value, that.roots[that.min].value;
    if v < w {
      assert r.roots[r.min] == q.roots[q.min];
      LeastUnion(v, w, Forest(q.roots), Forest(that.roots));
    } else {
      assert r.roots[r.min] == that.roots[that.min];
      LeastUnion(w, v, Forest(that.roots), Forest(q.roots));
    }
  }

  /** Two lists of heap-ordered trees joined are one. */
  lemma ConcatOrdered(a: seq<FTree>, b: seq<FTree>)
    requires AllOrdered(a) && AllOrdered(b)
    ensures AllOrdered(a + b)
  {
    forall i | 0 <= i < |a + b| ensures Ordered((a + b)[i]) {
      if i < |a| {
        assert (a + b)[i] == a[i];
      } else {
        assert (a + b)[i] == b[i - |a|];
      }
    }
  }

  /** The smaller of the least values of two multisets is the least of their union. */
  lemma LeastUnion(v: int, w: int, m: multiset<int>, n: multiset<int>)
    requires Least(v, m) && Least(w, n) && v <= w
    ensures Least(v, m + n) && Least(v, n + m)
  {
  }

  /**
   * `pop()`: the children of `min_tree` join the end of the root list,
   * `min_tree` leaves it, the count drops and the roots are consolidated.
   * An empty heap is left as it is.
   */
  function Pop(q: FibHeap): (r: FibHeap)
    requires Valid(q)
    ensures Valid(r)
    ensures q.roots == [] ==> r == q
    ensures q.roots != [] ==> Forest(r.roots) + multiset{Top(q)} == Forest(q.roots) && r.size + 1 == q.size && ByDegree(r.roots)
  {
    if q.roots == [] then q
    else
      var x := q.roots[q.min];
      var all := q.roots + x.kids;
      PopValues(q, all);
      var list := RemoveNode(all, q.min);
      var c := Consolidate(list);
      InForestAt(q.roots, q.min);
      FibHeap(c.0, c.1, q.size - 1)
  }

  lemma PopValues(q: FibHeap, all: seq<FTree>)
    requires Valid(q) && q.roots != [] && all == q.roots + q.roots[q.min].kids
    ensures q.min < |all| && all[q.min] == q.roots[q.min] && AllOrdered(all)
    ensures Forest(RemoveNode(all, q.min)) + multiset{q.roots[q.min].value} == Forest(q.roots)
  {
    var x := q.roots[q.min];
    Concat(q.roots, x.kids);
    AppendOrdered(q.roots, x);
    ChildrenUp(Forest(RemoveNode(all, q.min)), x.value, Forest(x.kids), Forest(q.roots));
  }

  lemma AppendOrdered(f: seq<FTree>, x: FTree)
    requires AllOrdered(f) && Ordered(x)
    ensures AllOrdered(f + x.kids)
  {
    var all := f + x.kids;
    assert forall i :: 0 <= i < |x.kids| ==> all[|f| + i] == x.kids[i];
  }

  /** With L + ({v} + K) = R + K, L + {v} = R. */
  lemma ChildrenUp(L: multiset<int>, v: int, K: multiset<int>, R: multiset<int>)
    requires L + (multiset{v} + K) == R + K
    ensures L + multiset{v} == R
  {
    Regroup(L, multiset{v}, K);
    Cancel(L + multiset{v}, R, K);
  }

  /** The values popped one by one until the heap is empty. */
  function Drain(q: FibHeap): (r: seq<int>)
    requires Valid(q)
    decreases q.size
  {
    if q.roots == [] then [] else [Top(q)] + Drain(Pop(q))
  }

  /** Popping until empty yields every value, in ascending order. */
  lemma {:induction false} DrainSorted(q: FibHeap)
    requires Valid(q)
    decreases q.size
    ensures multiset(Drain(q)) == Forest(q.roots) && NonDecreasing(Drain(q))
  {
    if q.roots != [] {
      var t, p := Top(q), Pop(q);
      DrainSorted(p);
      var d := Drain(p);
      PutBack(t, d, Forest(q.roots), Forest(p.roots));
      SortedCons(t, d);
      assert Drain(q) == [t] + d;
    }
  }

  /** The least of m, put in front of the rest of m. */
  lemma PutBack(t: int, d: seq<int>, m: multiset<int>, rest: multiset<int>)
    requires Least(t, m) && multiset(d) == rest && rest + multiset{t} == m
    ensures multiset([t] + d) == m && forall y :: y in multiset(d) ==> t <= y
  {
    assert multiset([t] + d) == multiset{t} + multiset(d);
    forall y | y in multiset(d) ensures t <= y {
      assert y in m;
    }
  }

  // ---------------------------------------------------------------------
  // Decreasing a value

  /**
   * `value_holder::re_push(value)` for the node at p: the node takes the
   * value; when it now beats its parent it is cut and its parent goes
   * through the cascading cut; `min_tree` moves to it when it beats the
   * old least.  A heap stays valid when the value does not grow.
   */
  function RePush(q: FibHeap, p: seq<nat>, key: int): (r: FibHeap)
    requires Valid(q) && IsPath(q.roots, p)
    ensures r.size == q.size
    ensures Forest(r.roots) + multiset{Get(q.roots, p).value} == Forest(q.roots) + multiset{key}
    ensures key <= Get(q.roots, p).value ==> Valid(r) && r.roots != [] && Top(r) == if key < Top(q) then key else Top(q)
  {
    var f := q.roots;
    var n := Get(f, p);
    var x := FTree(key, n.mark, n.kids);
    var top := f[q.min].value;
    if |p| >= 2 && key < ParentOf(f, p).value then
      var c := Cut(f, p, x);
      var g := CascadingCut(c, Parent(p));
      var r := FibHeap(g, if key < top then |f| else q.min, q.size);
      RePushCut(q, p, key, r);
      r
    else
      var u := Update(f, p, x);
      var r := FibHeap(u, if key < top then p[0] else q.min, q.size);
      RePushInPlace(q, p, key, r);
      r
  }

  lemma KeyValues(n: FTree, x: FTree, F: multiset<int>, G: multiset<int>)
    requires x == FTree(x.value, n.mark, n.kids) && F + Values(n) == G + Values(x)
    ensures F + multiset{n.value} == G + multiset{x.value}
  {
    Regroup(F, multiset{n.value}, Forest(n.kids));
    Regroup(G, multiset{x.value}, Forest(n.kids));
    Cancel(F + multiset{n.value}, G + multiset{x.value}, Forest(n.kids));
  }

  lemma Lowered(n: FTree, key: int)
    requires Ordered(n) && key <= n.value
    ensures Ordered(FTree(key, n.mark, n.kids))
  {
  }

  lemma SameSize(F: multiset<int>, G: multiset<int>, a: int, b: int)
    requires F + multiset{a} == G + multiset{b}
    ensures |F| == |G|
  {
    assert |F + multiset{a}| == |F| + 1;
    assert |G + multiset{b}| == |G| + 1;
  }

  /** With F + {old} = G + {key} and v the least of G and at most key, v is the least of F. */
  lemma NewLeast(F: multiset<int>, G: multiset<int>, old_: int, key: int, v: int)
    requires F + multiset{old_} == G + multiset{key} && Least(v, G) && v <= key
    ensures Least(v, F)
  {
    forall y | y in F ensures v <= y {
      assert y in G + multiset{key};
    }
  }

  lemma RePushCut(q: FibHeap, p: seq<nat>, key: int, r: FibHeap)
    requires Valid(q) && IsPath(q.roots, p) && |p| >= 2 && key < ParentOf(q.roots, p).value
    requires r.size == q.size
    requires r.roots == CascadingCut(Cut(q.roots, p, FTree(key, Get(q.roots, p).mark, Get(q.roots, p).kids)), Parent(p))
    requires r.min == if key < q.roots[q.min].value then |q.roots| else q.min
    ensures Forest(r.roots) + multiset{Get(q.roots, p).value} == Forest(q.roots) + multiset{key}
    ensures key <= Get(q.roots, p).value ==> Valid(r) && r.roots[r.min].value == if key < q.roots[q.min].value then key else q.roots[q.min].value
  {
    var f, n := q.roots, Get(q.roots, p);
    var x := FTree(key, n.mark, n.kids);
    var c := Cut(f, p, x);
    KeyValues(n, x, Forest(c), Forest(f));
    if key <= n.value {
      CutKeepsOrder(f, p, x, n);
      Revalue(q, r, n.value, key);
    }
  }

  lemma CutKeepsOrder(f: seq<FTree>, p: seq<nat>, x: FTree, n: FTree)
    requires IsPath(f, p) && |p| >= 2 && AllOrdered(f) && n == Get(f, p)
    requires x == FTree(x.value, n.mark, n.kids) && x.value <= n.value
    ensures AllOrdered(CascadingCut(Cut(f, p, x), Parent(p)))
  {
    PathOrdered(f, p);
    Lowered(n, x.value);
    CutOrdered(f, p, x);
    CascadingOrdered(Cut(f, p, x), Parent(p));
  }

  /** A heap whose values changed by one, old to key with key no larger, is valid when `min_tree` holds the smaller of key and the old least. */
  lemma Revalue(q: FibHeap, r: FibHeap, old_: int, key: int)
    requires Valid(q) && q.roots != [] && AllOrdered(r.roots) && r.size == q.size
    requires Forest(r.roots) + multiset{old_} == Forest(q.roots) + multiset{key}
    requires r.min < |r.roots| && r.roots[r.min].value == if key < q.roots[q.min].value then key else q.roots[q.min].value
    ensures Valid(r)
  {
    SameSize(Forest(r.roots), Forest(q.roots), old_, key);
    var top := q.roots[q.min].value;
    NewLeast(Forest(r.roots), Forest(q.roots), old_, key, if key < top then key else top);
  }

  lemma RePushInPlace(q: FibHeap, p: seq<nat>, key: int, r: FibHeap)
    requires Valid(q) && IsPath(q.roots, p) && !(|p| >= 2 && key < ParentOf(q.roots, p).value)
    requires r.size == q.size
    requires r.roots == Update(q.roots, p, FTree(key, Get(q.roots, p).mark, Get(q.roots, p).kids))
    requires r.min == if key < q.roots[q.min].value then p[0] else q.min
    ensures Forest(r.roots) + multiset{Get(q.roots, p).value} == Forest(q.roots) + multiset{key}
    ensures key <= Get(q.roots, p).value ==> Valid(r) && r.roots[r.min].value == if key < q.roots[q.min].value then key else q.roots[q.min].value
  {
    var f, n := q.roots, Get(q.roots, p);
    var x := FTree(key, n.mark, n.kids);
    KeyValues(n, x, Forest(r.roots), Forest(f));
    if key <= n.value {
      PathOrdered(f, p);
      Lowered(n, key);
      UpdateOrdered(f, p, x);
      InPlaceMin(q, p, key, r);
      Revalue(q, r, n.value, key);
    }
  }

  lemma InPlaceMin(q: FibHeap, p: seq<nat>, key: int, r: FibHeap)
    requires Valid(q) && IsPath(q.roots, p) && !(|p| >= 2 && key < ParentOf(q.roots, p).value)
    requires key <= Get(q.roots, p).value
    requires r.roots == Update(q.roots, p, FTree(key, Get(q.roots, p).mark, Get(q.roots, p).kids))
    requires r.min == if key < q.roots[q.min].value then p[0] else q.min
    ensures r.min < |r.roots| && r.roots[r.min].value == if key < q.roots[q.min].value then key else q.roots[q.min].value
  {
    var f := q.roots;
    var top := f[q.min].value;
    if |p| >= 2 {
      GetIn(f, Parent(p));
      assert top <= ParentOf(f, p).value <= key;
    }
    if key < top {
      assert |p| == 1 && r.roots[p[0]] == Get(r.roots, p);
    } else if |p| == 1 && p[0] == q.min {
      GetIn(f, p);
      assert r.roots[p[0]] == Get(r.roots, p);
    }
  }

  // ---------------------------------------------------------------------
  // The pointer `pop` leaves behind

  /** `min_tree` as written: null, a root of the list, or the node `pop` has just freed. */
  datatype MinTree = Null | At(index: nat) | Freed

  /** A step of the heap as written: the heap and its `min_tree`, or a read through the freed `min_tree`. */
  datatype Step = Done(heap: FibHeap, minTree: MinTree) | ReadsFreed

  /** `min_tree` names the least root, or is null on an empty heap. */
  predicate Tracks(q: FibHeap, m: MinTree) {
    m == if q.roots == [] then Null else At(q.min)
  }

  /**
   * `pop()` as written: a freed `min_tree` is followed into the freed
   * node; otherwise as `Pop`, except that when the last value goes
   * `consolidate` returns at once and `min_tree` keeps naming the node
   * just deleted.
   */
  function PopAsWritten(q: FibHeap, m: MinTree): (r: Step)
    requires Valid(q) && (Tracks(q, m) || (q.roots == [] && m.Freed?))
    ensures r.ReadsFreed? <==> m.Freed?
    ensures r.Done? ==> r.heap == Pop(q)
    ensures r.Done? ==> (r.minTree.Freed? <==> q.size == 1)
    ensures r.Done? && q.size != 1 ==> Tracks(r.heap, r.minTree)
  {
    if m.Freed? then ReadsFreed
    else if m.Null? then Done(q, Null)
    else
      var p := Pop(q);
      if !IsEmpty(p) then Done(p, At(p.min))
      else
        Done(p, Freed)
  }

  /** `push(x)` as written: `insert` compares x with the value of a non-null `min_tree`, freed or not. */
  function PushAsWritten(q: FibHeap, m: MinTree, x: int): (r: Step)
    requires Valid(q) && (Tracks(q, m) || (q.roots == [] && m.Freed?))
    ensures r.ReadsFreed? <==> m.Freed?
    ensures r.Done? ==> r.heap == Push(q, x) && Tracks(r.heap, r.minTree)
  {
    if m.Freed? then ReadsFreed else Done(Push(q, x), At(Push(q, x).min))
  }

  /**
   * Push 1, pop it, push 5: as written the second push reads the freed
   * node; the model's heap, with no `min_tree` once empty, has 5 on top.
   */
  lemma PopLastDangles()
    ensures var q := Push(Empty(), 1);
      PopAsWritten(q, At(0)) == Done(Empty(), Freed) &&
      PushAsWritten(Empty(), Freed, 5) == ReadsFreed &&
      Top(Push(Pop(q), 5)) == 5
  {
    var q := Push(Empty(), 1);
    assert q.size == 1;
    assert Pop(q).roots == [];
  }
}

=== FILE: object_pool.dfy ===
/**
 * ObjectPool (src/memory/object_pool.hpp): a fixed-size allocator that
 * carves objects out of chunks of `ChunkSize` slots and reuses returned
 * slots last-in first-out.
 *
 * Addresses are natural numbers, 0 being the null pointer; one slot holds
 * one object.  The system allocator behind `::operator new` is the `System`
 * value threaded through the operations that call it: it hands out the next
 * `k` unused addresses.  Object contents are `int`.
 */
module ObjectPool {
  import opened Sequences

  type Addr = nat

  const Null: Addr := 0

  /** The default `ChunkSize` template argument: slots per chunk. */
  const ChunkSize: nat := 1000

  /** `::operator new`: every address from `top` on is still unused. */
  datatype System = System(top: Addr)

  /** `operator new(k)` returns `top` and marks the next k addresses used. */
  function New(sys: System, k: nat): (r: (System, Addr))
    requires sys.top > Null
    ensures r.1 == sys.top && r.0.top == sys.top + k
  {
    (System(sys.top + k), sys.top)
  }

  /**
   * The pool's fields: `[current, chunkEnd)` is the unused tail of the
   * current chunk, `pool` the blocks obtained from the system, `recycleList`
   * the returned slots (most recent last), `memory` the objects' contents.
   */
  datatype Pool = Pool(chunkEnd: Addr, current: Addr, pool: seq<Addr>, recycleList: seq<Addr>, memory: map<Addr, int>)

  /** A default-constructed pool. */
  function Empty(): (p: Pool)
    ensures p.current == p.chunkEnd && p.recycleList == [] && p.pool == []
  {
    Pool(Null, Null, [], [], map[])
  }

  /** `a` lies in the unused tail of the current chunk. */
  predicate InChunk(p: Pool, a: Addr) {
    p.current <= a < p.chunkEnd
  }

  /** The addresses `a, a + 1, ..., b - 1`, as `deallocate` and `absorb` visit them. */
  function Range(a: Addr, b: Addr): (r: seq<Addr>)
    ensures |r| == if a <= b then b - a else 0
    ensures forall i :: 0 <= i < |r| ==> r[i] == a + i
    ensures forall k :: k in r <==> a <= k < b
  {
    if a < b then
      var r := seq(b - a, i => a + i);
      forall k | a <= k < b ensures k in r {
        assert r[k - a] == k;
      }
      r
    else []
  }

  /** The n slots from `a`, as a set. */
  ghost function Slots(a: Addr, n: nat): (s: set<Addr>)
    decreases n
    ensures forall k :: k in s <==> a <= k < a + n
  {
    if n == 0 then {} else {a} + Slots(a + 1, n - 1)
  }

  /** Every slot the pool can still hand out: the recycle list, then the chunk tail in address order. */
  function FreeList(p: Pool): seq<Addr> {
    p.recycleList + Range(p.current, p.chunkEnd)
  }

  /**
   * The allocator invariant relative to the system and to the set `live` of
   * addresses handed out and not yet returned: no slot is free twice, free
   * and live slots are disjoint, and all of them were obtained from the
   * system.
   */
  ghost predicate Sound(p: Pool, sys: System, live: set<Addr>) {
    && Null < sys.top
    && p.current <= p.chunkEnd <= sys.top
    && (p.current == Null ==> p.chunkEnd == Null)
    && Distinct(p.recycleList)
    && (forall a :: a in p.recycleList ==> Null < a < sys.top && !InChunk(p, a) && a !in live)
    && (forall a :: a in live ==> Null < a < sys.top && !InChunk(p, a))
  }

  /** A fresh pool over a fresh system owns nothing and has handed nothing out. */
  lemma EmptySound(sys: System)
    requires Null < sys.top
    ensures Sound(Empty(), sys, {})
    ensures FreeList(Empty()) == []
  {
  }

  /** `alloc_chunk`: a new block of ChunkSize slots becomes the current chunk. */
  function AllocChunk(p: Pool, sys: System): (r: (Pool, System))
    requires Null < sys.top
    ensures r.0.pool == p.pool + [sys.top]
    ensures r.0.current == sys.top && r.0.chunkEnd == sys.top + ChunkSize
    ensures r.1.top == sys.top + ChunkSize
    ensures r.0.recycleList == p.recycleList && r.0.memory == p.memory
  {
    var (sys', start) := New(sys, ChunkSize);
    (p.(pool := p.pool + [start], current := start, chunkEnd := start + ChunkSize), sys')
  }

  /** The result of an operation that hands out memory. */
  datatype Got = Got(pool: Pool, sys: System, addr: Addr)

  /**
   * `get_raw`: the most recently recycled slot if there is one; otherwise
   * the next slot of the current chunk, allocating a new chunk first when
   * the current one is used up.
   */
  function GetRaw(p: Pool, sys: System): (g: Got)
    requires Null < sys.top
    ensures p.recycleList != [] ==>
      g.addr == p.recycleList[|p.recycleList| - 1] && g.pool.recycleList == p.recycleList[..|p.recycleList| - 1]
      && g.sys == sys
    ensures p.recycleList == [] && p.current != p.chunkEnd ==>
      g.addr == p.current && g.pool.current == p.current + 1 && g.sys == sys
    ensures p.recycleList == [] && p.current == p.chunkEnd ==>
      g.addr == sys.top && g.pool.current == sys.top + 1 && g.pool.chunkEnd == sys.top + ChunkSize
      && g.pool.pool == p.pool + [sys.top] && g.sys.top == sys.top + ChunkSize
    ensures g.pool.memory == p.memory
  {
    if p.recycleList != [] then
      var last := p.recycleList[|p.recycleList| - 1];
      Got(p.(recycleList := p.recycleList[..|p.recycleList| - 1]), sys, last)
    else
      var (q, sys') := if p.chunkEnd == p.current then AllocChunk(p, sys) else (p, sys);
      Got(q.(current := q.current + 1), sys', q.current)
  }

  /**
   * `get_raw` hands out a slot that is not live, is not null, and is no
   * longer free, and the invariant holds with that slot added to the live set.
   */
  lemma GetRawHandsOut(p: Pool, sys: System, live: set<Addr>)
    requires Sound(p, sys, live)
    ensures var g := GetRaw(p, sys);
      && g.addr != Null && g.addr !in live
      && g.addr !in g.pool.recycleList && !InChunk(g.pool, g.addr)
      && Sound(g.pool, g.sys, live + {g.addr})
  {
    var g := GetRaw(p, sys);
    var q, a := g.pool, g.addr;
    if p.recycleList != [] {
      var n := |p.recycleList|;
      assert a == p.recycleList[n - 1] && a in p.recycleList;
      assert q.recycleList == p.recycleList[..n - 1];
      forall b | b in q.recycleList ensures b in p.recycleList && b != a {
        var i :| 0 <= i < n - 1 && q.recycleList[i] == b;
        assert p.recycleList[i] == b;
      }
    } else if p.current != p.chunkEnd {
      assert a == p.current && q.current == a + 1 && q.chunkEnd == p.chunkEnd;
      assert InChunk(p, a);
    } else {
      assert a == sys.top && q.current == a + 1 && g.sys.top == sys.top + ChunkSize;
    }
  }

  /** Two `get_raw` calls in a row never hand out the same slot. */
  lemma GetRawTwiceDiffers(p: Pool, sys: System, live: set<Addr>)
    requires Sound(p, sys, live)
    ensures var g := GetRaw(p, sys);
      GetRaw(g.pool, g.sys).addr != g.addr
  {
    var g := GetRaw(p, sys);
    GetRawHandsOut(p, sys, live);
    GetRawHandsOut(g.pool, g.sys, live + {g.addr});
  }

  /** `recycle(a)`: zeroes the object and pushes its slot on the recycle list. */
  function Recycle(p: Pool, a: Addr): (q: Pool)
    ensures q.recycleList == p.recycleList + [a]
    ensures a in q.memory && q.memory[a] == 0
    ensures forall b :: b != a && b in p.memory ==> b in q.memory && q.memory[b] == p.memory[b]
    ensures q.current == p.current && q.chunkEnd == p.chunkEnd && q.pool == p.pool
  {
    p.(memory := p.memory[a := 0], recycleList := p.recycleList + [a])
  }

  /** Returning a live slot keeps the invariant with the slot no longer live. */
  lemma RecycleReturns(p: Pool, sys: System, live: set<Addr>, a: Addr)
    requires Sound(p, sys, live) && a in live
    ensures Sound(Recycle(p, a), sys, live - {a})
  {
    var q := Recycle(p, a);
    forall i, j | 0 <= i < j < |q.recycleList| ensures q.recycleList[i] != q.recycleList[j] {
      if j == |p.recycleList| {
        assert q.recycleList[i] in p.recycleList;
      }
    }
  }

  /** Recycling a slot and asking for one gives the same slot back (last in, first out) and restores the list. */
  lemma RecycleThenGetRaw(p: Pool, sys: System, a: Addr)
    requires Null < sys.top
    ensures var g := GetRaw(Recycle(p, a), sys);
      g.addr == a && g.pool.recycleList == p.recycleList && g.sys == sys
  {
    assert (p.recycleList + [a])[..|p.recycleList|] == p.recycleList;
  }

  /** `deallocate(a, n)`: recycles the n consecutive slots from `a`, in address order. */
  function Deallocate(p: Pool, a: Addr, n: nat): (q: Pool)
    decreases n
    ensures q.recycleList == p.recycleList + Range(a, a + n)
    ensures forall k :: k in Slots(a, n) ==> k in q.memory && q.memory[k] == 0
    ensures forall b :: b !in Slots(a, n) && b in p.memory ==> b in q.memory && q.memory[b] == p.memory[b]
    ensures q.current == p.current && q.chunkEnd == p.chunkEnd && q.pool == p.pool
  {
    if n == 0 then p
    else
      var q := Deallocate(Recycle(p, a), a + 1, n - 1);
      assert p.recycleList + [a] + Range(a + 1, a + n) == p.recycleList + Range(a, a + n);
      q
  }

  /** Giving back a live block of n slots keeps the invariant with those slots no longer live. */
  lemma DeallocateReturns(p: Pool, sys: System, live: set<Addr>, a: Addr, n: nat)
    requires Sound(p, sys, live)
    requires Slots(a, n) <= live
    ensures Sound(Deallocate(p, a, n), sys, live - Slots(a, n))
  {
    var q, r, m := Deallocate(p, a, n), Range(a, a + n), |p.recycleList|;
    assert q.recycleList == p.recycleList + r;
    forall i, j | 0 <= i < j < |q.recycleList| ensures q.recycleList[i] != q.recycleList[j] {
      if i < m && j >= m {
        assert q.recycleList[i] in p.recycleList;
        assert q.recycleList[j] == r[j - m] && r[j - m] in Slots(a, n);
      } else if i >= m {
        assert q.recycleList[i] == r[i - m] && q.recycleList[j] == r[j - m];
      }
    }
    forall b | b in q.recycleList ensures Null < b < sys.top && !InChunk(q, b) && b !in live - Slots(a, n) {
      if b !in p.recycleList {
        assert b in r && b in Slots(a, n) && b in live;
      }
    }
  }

  /**
   * `allocate(t)`: t consecutive slots.  An exhausted chunk is replaced first
   * when t fits in a chunk; the slots come from the current chunk when it
   * has strictly more than t left, otherwise from a block of their own
   * obtained from the system and recorded in `pool`.  So a request for
   * exactly `ChunkSize` slots on an exhausted chunk obtains a fresh chunk
   * and then, the comparison being strict, a separate block as well.
   */
  function Allocate(p: Pool, sys: System, t: nat): (g: Got)
    requires Null < sys.top
    ensures g.pool.recycleList == p.recycleList && g.pool.memory == p.memory
    ensures p.current != p.chunkEnd && t < p.chunkEnd - p.current ==>
      g.addr == p.current && g.pool.current == p.current + t && g.pool.chunkEnd == p.chunkEnd && g.sys == sys
    ensures p.current != p.chunkEnd && t >= p.chunkEnd - p.current ==>
      g.addr == sys.top && g.pool.pool == p.pool + [sys.top] && g.sys.top == sys.top + t
      && g.pool.current == p.current && g.pool.chunkEnd == p.chunkEnd
    ensures p.current == p.chunkEnd && t < ChunkSize ==>
      g.addr == sys.top && g.pool.pool == p.pool + [sys.top] && g.sys.top == sys.top + ChunkSize
      && g.pool.current == sys.top + t && g.pool.chunkEnd == sys.top + ChunkSize
    ensures p.current == p.chunkEnd && t == ChunkSize ==>
      g.addr == sys.top + ChunkSize && g.pool.pool == p.pool + [sys.top, sys.top + ChunkSize]
      && g.sys.top == sys.top + 2 * ChunkSize
      && g.pool.current == sys.top && g.pool.chunkEnd == sys.top + ChunkSize
    ensures p.current == p.chunkEnd && t > ChunkSize ==>
      g.addr == sys.top && g.pool.pool == p.pool + [sys.top] && g.sys.top == sys.top + t
      && g.pool.current == p.current && g.pool.chunkEnd == p.chunkEnd
  {
    var (q, sys') := if p.chunkEnd == p.current && t <= ChunkSize then AllocChunk(p, sys) else (p, sys);
    if t < q.chunkEnd - q.current then
      Got(q.(current := q.current + t), sys', q.current)
    else
      var (sys'', block) := New(sys', t);
      Got(q.(pool := q.pool + [block]), sys'', block)
  }

  /** The t slots `allocate` hands out are none of them live or free, and the invariant holds with them live. */
  lemma AllocateHandsOut(p: Pool, sys: System, live: set<Addr>, t: nat)
    requires Sound(p, sys, live)
    ensures var g := Allocate(p, sys, t);
      && g.addr != Null
      && (forall k :: k in Slots(g.addr, t) ==> k !in live && k !in g.pool.recycleList && !InChunk(g.pool, k))
      && Sound(g.pool, g.sys, live + Slots(g.addr, t))
  {
  }

  /** `construct_raw(v)`: a slot from `get_raw` holding v. */
  function ConstructRaw(p: Pool, sys: System, v: int): (g: Got)
    requires Null < sys.top
    ensures g.addr == GetRaw(p, sys).addr
    ensures g.addr in g.pool.memory && g.pool.memory[g.addr] == v
    ensures forall b :: b != g.addr && b in p.memory ==> b in g.pool.memory && g.pool.memory[b] == p.memory[b]
  {
    var g := GetRaw(p, sys);
    g.(pool := g.pool.(memory := g.pool.memory[g.addr := v]))
  }

  /** `construct(p, v)`: places v at a slot the caller already holds. */
  function Construct(p: Pool, a: Addr, v: int): (q: Pool)
    ensures a in q.memory && q.memory[a] == v
    ensures forall b :: b != a && b in p.memory ==> b in q.memory && q.memory[b] == p.memory[b]
    ensures FreeList(q) == FreeList(p)
  {
    p.(memory := p.memory[a := v])
  }

  /**
   * `absorb(that)`: the rest of this pool's chunk joins its recycle list,
   * then that pool's recycle list and blocks are appended, this pool takes
   * over that pool's chunk, and that pool is left empty.
   */
  function Absorb(p: Pool, that: Pool): (r: (Pool, Pool))
    ensures FreeList(r.0) == FreeList(p) + FreeList(that)
    ensures r.0.pool == p.pool + that.pool
    ensures FreeList(r.1) == [] && r.1.pool == []
  {
    var recycled := p.recycleList + Range(p.current, p.chunkEnd) + that.recycleList;
    (p.(recycleList := recycled, pool := p.pool + that.pool, current := that.current, chunkEnd := that.chunkEnd),
     that.(recycleList := [], pool := [], current := Null, chunkEnd := Null))
  }

  /**
   * Two sound pools over one system whose free slots are disjoint, and
   * neither of which has a slot free that the other has handed out, absorb
   * into a sound pool responsible for both live sets.
   */
  lemma AbsorbSound(p: Pool, that: Pool, sys: System, live: set<Addr>, liveThat: set<Addr>)
    requires Sound(p, sys, live) && Sound(that, sys, liveThat)
    requires forall i, j :: 0 <= i < |FreeList(p)| && 0 <= j < |FreeList(that)| ==> FreeList(p)[i] != FreeList(that)[j]
    requires forall a :: a in liveThat ==> a !in FreeList(p)
    requires forall a :: a in live ==> a !in FreeList(that)
    ensures Sound(Absorb(p, that).0, sys, live + liveThat)
  {
    var q := Absorb(p, that).0;
    var f, g := FreeList(p), FreeList(that);
    assert q.recycleList == f + that.recycleList;
    assert Distinct(f) by {
      forall i, j | 0 <= i < j < |f| ensures f[i] != f[j] {
        if j >= |p.recycleList| && i < |p.recycleList| {
          assert !InChunk(p, f[i]);
        }
      }
    }
    forall i, j | 0 <= i < j < |q.recycleList| ensures q.recycleList[i] != q.recycleList[j] {
      if i < |f| && j >= |f| {
        assert q.recycleList[j] == g[j - |f|];
      }
    }
    forall a | a in f ensures a !in g {
      var i :| 0 <= i < |f| && f[i] == a;
      forall j | 0 <= j < |g| ensures g[j] != a {
        assert f[i] != g[j];
      }
    }
    forall a | a in q.recycleList ensures Null < a < sys.top && !InChunk(q, a) && a !in live + liveThat {
      if a in f {
        assert a !in g;
      }
    }
  }
}

=== FILE: optimized_vector.dfy ===
/**
 * optimized_vector (src/array_like/optimized_vector.hpp): a vector with a
 * small local buffer of `localSize` slots that moves to a heap block, whose
 * size doubles, once the local buffer is too small.
 *
 * `buf` is the storage the current state owns: nothing when uninitialized,
 * the local buffer when local, the heap block when on the heap.  `size`
 * counts the leading slots of `buf` that hold elements; the slots after them
 * are raw storage.  Elements are `int`, the element type of the tests.
 */
module OptimizedVector {

  /** Where the elements live (`MEM_STATE`). */
  datatype MemState = Uninitialized | Locally | OnHeap

  /** The content the model gives to raw storage; no operation reads it before writing it. */
  const Raw: int := 0

  /** `b` doubled zero or more times reaches `c`. */
  ghost predicate DoublingOf(b: nat, c: nat)
    decreases c - b
  {
    0 < b <= c && (c == b || (2 * b <= c && DoublingOf(2 * b, c)))
  }

  datatype Vector = Vector(localSize: nat, state: MemState, buf: seq<int>, size: nat)
  {
    /** The representation invariant: size never exceeds the storage, whose extent the state fixes. */
    ghost predicate Valid() {
      && localSize > 0
      && size <= |buf|
      && (state == Uninitialized ==> buf == [] && size == 0)
      && (state == Locally ==> |buf| == localSize)
      && (state == OnHeap ==> |buf| > localSize && DoublingOf(localSize, |buf|))
    }

    /**
     * `capacity()`: 0 when uninitialized, the local size when local, the
     * block length on the heap.  On a valid vector that is exactly the
     * storage the state owns, and it bounds the size.
     */
    function Capacity(): (c: nat)
      ensures Valid() ==> c == |buf| && size <= c
      ensures state == Uninitialized ==> c == 0
    {
      match state
      case Uninitialized => 0
      case Locally => localSize
      case OnHeap => |buf|
    }

    /** The elements, in order. */
    function Elements(): seq<int>
      requires size <= |buf|
    {
      buf[..size]
    }
  }

  /** The default constructor: no storage at all. */
  function Empty(localSize: nat): (v: Vector)
    requires localSize > 0
    ensures v.Valid() && v.Elements() == [] && v.Capacity() == 0
  {
    Vector(localSize, Uninitialized, [], 0)
  }

  /** The `new_capacity <<= 1` loop of `assure_capacity`: `c` doubled until it reaches `target`. */
  function Doubled(c: nat, target: nat): (r: nat)
    requires c > 0
    decreases target - c
    ensures r >= target && DoublingOf(c, r)
    ensures r == c || r < 2 * target
  {
    if c >= target then c else Doubled(2 * c, target)
  }

  /**
   * `assure_capacity`: an uninitialized vector first becomes local with no
   * elements; storage too small for `target` is replaced by a heap block of
   * the current capacity doubled until it reaches `target`, into which the
   * elements move.
   */
  function AssureCapacity(v: Vector, target: nat): (r: Vector)
    requires v.Valid()
    ensures r.Valid() && r.state != Uninitialized && r.localSize == v.localSize
    ensures r.Capacity() >= target
    ensures r.Elements() == v.Elements()
    ensures var c := if v.state == Uninitialized then v.localSize else v.Capacity();
            if c >= target then r.Capacity() == c
            else r.state == OnHeap && DoublingOf(c, r.Capacity()) && r.Capacity() < 2 * target
  {
    var v1 := if v.state == Uninitialized then Vector(v.localSize, Locally, seq(v.localSize, _ => Raw), 0) else v;
    if |v1.buf| >= target then v1
    else
      var c := Doubled(|v1.buf|, target);
      assert DoublingOf(v.localSize, |v1.buf|);
      DoublingTransitive(v.localSize, |v1.buf|, c);
      Vector(v.localSize, OnHeap, v1.buf[..v1.size] + seq(c - v1.size, _ => Raw), v1.size)
  }

  /** Doubling chains compose. */
  lemma {:induction false} DoublingTransitive(a: nat, b: nat, c: nat)
    requires DoublingOf(a, b) && DoublingOf(b, c)
    ensures DoublingOf(a, c)
    decreases b - a
  {
    if a != b {
      DoublingTransitive(2 * a, b, c);
      assert 2 * a <= c;
    }
  }

  /** `mark_size`: sets the size, but refuses a target above the capacity, so the size never exceeds it. */
  function MarkSize(v: Vector, target: nat): (r: Vector)
    requires v.Valid()
    ensures r.Valid()
    ensures r.buf == v.buf && r.state == v.state
    ensures target <= v.Capacity() ==> r.size == target
    ensures target > v.Capacity() ==> r == v
  {
    if v.Capacity() < target then v
    else if v.state == Uninitialized then v
    else v.(size := target)
  }

  /** `operator[]`. */
  function At(v: Vector, i: nat): (x: int)
    requires v.Valid() && i < v.size
    ensures x == v.Elements()[i]
  {
    v.buf[i]
  }

  /** `push_back`: makes room for one more element and constructs it at the end. */
  function PushBack(v: Vector, x: int): (r: Vector)
    requires v.Valid()
    ensures r.Valid()
    ensures r.Elements() == v.Elements() + [x]
    ensures r.Capacity() >= |r.Elements()|
  {
    var v1 := AssureCapacity(v, v.size + 1);
    v1.(buf := v1.buf[v1.size := x], size := v1.size + 1)
  }

  /**
   * `pop_back`: `mark_size(size() - 1)`.  On an empty vector `size() - 1`
   * wraps around to the largest `size_t`, which exceeds every capacity and
   * which `mark_size` therefore refuses, so nothing changes.
   */
  function PopBack(v: Vector): (r: Vector)
    requires v.Valid()
    ensures r.Valid() && r.Capacity() == v.Capacity()
    ensures |v.Elements()| == 0 ==> r == v
    ensures |v.Elements()| > 0 ==> r.Elements() == v.Elements()[..|v.Elements()| - 1]
  {
    if v.size == 0 then v else MarkSize(v, v.size - 1)
  }

  /**
   * `erase(position)`: out-of-range positions are ignored; otherwise the later
   * elements move one slot left (the last slot keeps its moved-from value) and
   * the size drops by one.
   */
  function Erase(v: Vector, position: nat): (r: Vector)
    requires v.Valid()
    ensures r.Valid() && r.Capacity() == v.Capacity()
    ensures position >= |v.Elements()| ==> r == v
    ensures position < |v.Elements()| ==>
              r.Elements() == v.Elements()[..position] + v.Elements()[position + 1..]
  {
    if position >= v.size then v
    else
      var moved := v.buf[..position] + v.buf[position + 1..v.size] + v.buf[v.size - 1..];
      MarkSize(v.(buf := moved), v.size - 1)
  }

  /** `clear`: back to the uninitialized state, releasing the heap block. */
  function Clear(v: Vector): (r: Vector)
    requires v.Valid()
    ensures r.Valid() && r.state == Uninitialized && r.Capacity() == 0 && r.Elements() == []
    ensures r.localSize == v.localSize
  {
    Vector(v.localSize, Uninitialized, [], 0)
  }

  /**
   * The count constructor `optimized_vector(count, value)`: `count` copies of
   * `value`, in storage of at least `count` slots.
   */
  function Filled(localSize: nat, count: nat, value: int): (r: Vector)
    requires localSize > 0
    ensures r.Valid() && r.Elements() == seq(count, _ => value)
    ensures count == 0 <==> r.state == Uninitialized
  {
    if count == 0 then Empty(localSize)
    else
      var v1 := MarkSize(AssureCapacity(Empty(localSize), count), count);
      v1.(buf := seq(count, _ => value) + v1.buf[count..])
  }

  /** The copy constructor: an uninitialized source gives an uninitialized copy; otherwise the elements are copied. */
  function Copy(that: Vector): (r: Vector)
    requires that.Valid()
    ensures r.Valid() && r.Elements() == that.Elements() && r.localSize == that.localSize
    ensures r.state == Uninitialized <==> that.state == Uninitialized
  {
    if that.state == Uninitialized then Empty(that.localSize)
    else
      var v1 := MarkSize(AssureCapacity(Empty(that.localSize), that.size), that.size);
      v1.(buf := that.Elements() + v1.buf[that.size..])
  }

  /**
   * The growing branch of `resize(target, value)`: room for `target`
   * elements, size `target`, then `value` constructed in slots
   * 0..target-1.  As written the loop starts at slot 0 and so overwrites
   * the existing elements; repaired it starts at the old size, which keeps
   * them, as a resize that grows is meant to.
   */
  function Enlarge(v: Vector, target: nat, value: int, repaired: bool): (r: Vector)
    requires v.Valid() && v.size < target
    ensures r.Valid() && r.localSize == v.localSize && |r.Elements()| == target
    ensures repaired ==> r.Elements() == v.Elements() + seq(target - v.size, _ => value)
    ensures !repaired ==> r.Elements() == seq(target, _ => value)
  {
    var v1 := MarkSize(AssureCapacity(v, target), target);
    var from := if repaired then v.size else 0;
    v1.(buf := v1.buf[..from] + seq(target - from, _ => value) + v1.buf[target..])
  }

  /**
   * `resize(target, value)`: pops elements while there are more than
   * `target`; when there are fewer, grows to `target` as `Enlarge` does.
   */
  method Resize(v: Vector, target: nat, value: int, repaired: bool) returns (r: Vector)
    requires v.Valid()
    ensures r.Valid() && |r.Elements()| == target
    ensures target <= |v.Elements()| ==> r.Elements() == v.Elements()[..target]
    ensures target > |v.Elements()| && repaired ==> r.Elements() == v.Elements() + seq(target - |v.Elements()|, _ => value)
    ensures target > |v.Elements()| && !repaired ==> r.Elements() == seq(target, _ => value)
  {
    r := v;
    while r.size > target
      invariant r.Valid() && r.localSize == v.localSize
      invariant target <= |v.Elements()| ==> target <= r.size
      invariant r.size <= v.size && r.Elements() == v.Elements()[..r.size]
      invariant target > v.size ==> r == v
      decreases r.size
    {
      r := PopBack(r);
    }
    if r.size < target {
      r := Enlarge(r, target, value, repaired);
    }
  }

  /**
   * Growing a one-element vector to two: as written the old element is
   * replaced by `value`; repaired it stays in front.
   */
  lemma {:induction false} ResizeOverwrites(v: Vector, value: int)
    requires v.Valid() && |v.Elements()| == 1 && v.Elements()[0] != value
    ensures Enlarge(v, 2, value, false).Elements() == [value, value]
    ensures Enlarge(v, 2, value, true).Elements() == [v.Elements()[0], value]
  {
    assert seq(2, _ => value) == [value, value];
    assert v.Elements() + seq(1, _ => value) == [v.Elements()[0], value];
  }
}

=== FILE: pairing_heap.dfy ===
/**
 * PairingHeap (src/heap/pairing_heap.hpp): a min-heap kept as one tree in
 * first-child / next-sibling form.  Merging two roots hangs the larger
 * as the first child of the smaller; popping pairs the root's children
 * left to right and folds the pairs back together from the last one.
 */
module PairingHeap {
  import opened Wrappers
  import opened Sequences

  /** A node with its value, the head of its child list and the next node in its own sibling list. */
  datatype PHeap = Empty | PNode(value: int, child: PHeap, next: PHeap)

  /** The values of a node, of everything below it and of every node after it in its list. */
  function Values(h: PHeap): (r: multiset<int>)
    ensures h.Empty? <==> r == multiset{}
  {
    if h.Empty? then multiset{} else multiset{h.value} + Values(h.child) + Values(h.next)
  }

  /** A node cut off from its list. */
  function Root(h: PHeap): (r: PHeap)
    requires h.PNode?
    ensures r.PNode? && r.next.Empty? && r.value == h.value && Values(r) + Values(h.next) == Values(h)
  {
    PNode(h.value, h.child, Empty)
  }

  /** Every value at or after h is at least v. */
  predicate AtLeast(h: PHeap, v: int) {
    h.Empty? || (v <= h.value && AtLeast(h.child, v) && AtLeast(h.next, v))
  }

  /** Heap order: every node's value is at most the values below it. */
  predicate Ordered(h: PHeap) {
    h.Empty? || (AtLeast(h.child, h.value) && Ordered(h.child) && Ordered(h.next))
  }

  predicate IsRoot(h: PHeap) {
    h.Empty? || h.next.Empty?
  }

  lemma AtLeastValues(h: PHeap, v: int)
    ensures AtLeast(h, v) ==> forall x :: x in Values(h) ==> v <= x
    ensures (forall x :: x in Values(h) ==> v <= x) ==> AtLeast(h, v)
  {
    if AtLeast(h, v) {
      forall x | x in Values(h) ensures v <= x {
        BoundHolds(h, v, x);
      }
    }
    if forall x :: x in Values(h) ==> v <= x {
      BoundFound(h, v);
    }
  }

  lemma {:induction false} BoundHolds(h: PHeap, v: int, x: int)
    requires AtLeast(h, v) && x in Values(h)
    ensures v <= x
  {
    assert Values(h) == multiset{h.value} + Values(h.child) + Values(h.next);
    if x == h.value {
    } else if x in Values(h.child) {
      BoundHolds(h.child, v, x);
    } else {
      BoundHolds(h.next, v, x);
    }
  }

  lemma {:induction false} BoundFound(h: PHeap, v: int)
    requires forall x :: x in Values(h) ==> v <= x
    ensures AtLeast(h, v)
  {
    if h.PNode? {
      assert Values(h) == multiset{h.value} + Values(h.child) + Values(h.next);
      assert h.value in Values(h);
      forall y | y in Values(h.child) ensures v <= y {
        assert y in Values(h);
      }
      forall y | y in Values(h.next) ensures v <= y {
        assert y in Values(h);
      }
      BoundFound(h.child, v);
      BoundFound(h.next, v);
    }
  }

  /** The heap: the root and the element count `_size`. */
  datatype PairingHeap = PairingHeap(root: PHeap, size: nat)

  ghost predicate Valid(q: PairingHeap) {
    IsRoot(q.root) && Ordered(q.root) && q.size == |Values(q.root)|
  }

  /**
   * `merge(h1, h2)`: an absent heap gives the other one; otherwise the
   * root with the larger value (the second on a tie) becomes the first
   * child of the other.
   */
  function Merge(a: PHeap, b: PHeap): (r: PHeap)
    requires IsRoot(a) && IsRoot(b)
    ensures IsRoot(r) && Values(r) == Values(a) + Values(b)
    ensures Ordered(a) && Ordered(b) ==> Ordered(r)
    ensures a.PNode? && b.PNode? ==> r.value == (if b.value < a.value then b.value else a.value)
  {
    if a.Empty? then b
    else if b.Empty? then a
    else if b.value < a.value then Link(b, a)
    else Link(a, b)
  }

  /** The body of `merge` once the winner w is known: l joins the front of w's children. */
  function Link(w: PHeap, l: PHeap): (r: PHeap)
    requires w.PNode? && l.PNode? && w.next.Empty? && l.next.Empty?
    ensures r.PNode? && r.value == w.value && r.next.Empty? && Values(r) == Values(w) + Values(l)
    ensures Ordered(w) && Ordered(l) && w.value <= l.value ==> Ordered(r)
  {
    LinkOrdered(w, l);
    PNode(w.value, PNode(l.value, l.child, w.child), Empty)
  }

  lemma LinkOrdered(w: PHeap, l: PHeap)
    requires w.PNode? && l.PNode? && w.next.Empty? && l.next.Empty?
    ensures Ordered(w) && Ordered(l) && w.value <= l.value ==> Ordered(PNode(w.value, PNode(l.value, l.child, w.child), Empty))
  {
    Lower(l.child, l.value, w.value);
  }

  /** A bound below a lower bound is a bound. */
  lemma Lower(h: PHeap, v: int, w: int)
    ensures AtLeast(h, v) && w <= v ==> AtLeast(h, w)
  {
    AtLeastValues(h, v);
    AtLeastValues(h, w);
  }

  /** `push(x)`: a new node merged with the root; the count grows by one. */
  function Push(q: PairingHeap, x: int): (r: PairingHeap)
    requires Valid(q)
    ensures Valid(r) && Values(r.root) == Values(q.root) + multiset{x} && r.size == q.size + 1
  {
    PairingHeap(Merge(q.root, PNode(x, Empty, Empty)), q.size + 1)
  }

  /** `top()`: the root's value, the least stored; the heap must not be empty. */
  function Top(q: PairingHeap): (r: int)
    requires Valid(q) && q.root.PNode?
    ensures r in Values(q.root) && forall x :: x in Values(q.root) ==> r <= x
  {
    var h := q.root;
    assert Ordered(h) && AtLeast(h, h.value);
    forall x | x in Values(h) ensures h.value <= x {
      BoundHolds(h, h.value, x);
    }
    assert h.value in Values(h);
    h.value
  }

  function Length(h: PHeap): nat {
    if h.Empty? then 0 else 1 + Length(h.next)
  }

  /** The i-th node of a sibling list. */
  function Nth(h: PHeap, i: nat): (r: PHeap)
    requires i < Length(h)
    ensures r.PNode?
  {
    if i == 0 then h else Nth(h.next, i - 1)
  }

  /** The nodes of a sibling list, each cut off from the list. */
  function Nodes(h: PHeap): (r: seq<PHeap>)
    ensures |r| == Length(h)
  {
    if h.Empty? then [] else [Root(h)] + Nodes(h.next)
  }

  /**
   * `remove_node(list, x)`: the list without its i-th node, the others in
   * their order.  The source finds x by walking the list.
   */
  function RemoveNode(h: PHeap, i: nat): (r: PHeap)
    requires i < Length(h)
    ensures Nodes(r) == Nodes(h)[..i] + Nodes(h)[i + 1..]
    ensures Values(r) + Values(Root(Nth(h, i))) == Values(h)
    ensures Ordered(h) ==> Ordered(r)
  {
    if i == 0 then
      assert Values(h) == Values(Root(h)) + Values(h.next);
      h.next
    else
      var t := RemoveNode(h.next, i - 1);
      RemoveNodeStep(h, i, t);
      PNode(h.value, h.child, t)
  }

  lemma RemoveNodeStep(h: PHeap, i: nat, t: PHeap)
    requires 0 < i < Length(h)
    requires Nodes(t) == Nodes(h.next)[..i - 1] + Nodes(h.next)[i..]
    requires Values(t) + Values(Root(Nth(h.next, i - 1))) == Values(h.next)
    requires Ordered(h.next) ==> Ordered(t)
    ensures Nodes(PNode(h.value, h.child, t)) == Nodes(h)[..i] + Nodes(h)[i + 1..]
    ensures Values(PNode(h.value, h.child, t)) + Values(Root(Nth(h, i))) == Values(h)
    ensures Ordered(h) ==> Ordered(PNode(h.value, h.child, t))
  {
    ConsNodes(Root(h), Nodes(h.next), Nodes(t), i);
    StepValues(h, t, Values(Root(Nth(h.next, i - 1))), multiset{});
  }

  lemma ConsNodes(x: PHeap, n: seq<PHeap>, m: seq<PHeap>, i: nat)
    requires 0 < i <= |n| && m == n[..i - 1] + n[i..]
    ensures [x] + m == ([x] + n)[..i] + ([x] + n)[i + 1..]
  {
    assert ([x] + n)[..i] == [x] + n[..i - 1];
    assert ([x] + n)[i + 1..] == n[i..];
  }

  /** A change below the first node of a list, seen from the list. */
  lemma StepValues(h: PHeap, t: PHeap, d: multiset<int>, e: multiset<int>)
    requires h.PNode? && Values(t) + d == Values(h.next) + e
    ensures Values(PNode(h.value, h.child, t)) + d == Values(h) + e
  {
    NodeValues(h.value, h.child, t);
    NodeValues(h.value, h.child, h.next);
    Shift(Values(Root(h)), Values(t), Values(h.next), d, e);
  }

  /** A node's values are its own and those below it, then those after it. */
  lemma NodeValues(v: int, c: PHeap, n: PHeap)
    ensures Values(PNode(v, c, n)) == Values(PNode(v, c, Empty)) + Values(n)
  {
  }

  /** Adding the same values to both sides of an equation. */
  lemma Shift(a: multiset<int>, t: multiset<int>, n: multiset<int>, d: multiset<int>, e: multiset<int>)
    requires t + d == n + e
    ensures (a + t) + d == (a + n) + e
  {
    assert (a + t) + d == a + (t + d);
    assert (a + n) + e == a + (n + e);
  }

  /** Every heap in a list is a root. */
  predicate AllRoots(list: seq<PHeap>) {
    forall i :: 0 <= i < |list| ==> IsRoot(list[i])
  }

  /** Every heap in a list is in heap order. */
  predicate AllOrdered(list: seq<PHeap>) {
    forall i :: 0 <= i < |list| ==> Ordered(list[i])
  }

  /**
   * The first loop of `pop`: the children taken two at a time from the
   * front, each pair merged and pushed on the front of `list`; a last odd
   * child is pushed alone.
   */
  function FirstPass(h: PHeap, list: seq<PHeap>): (r: seq<PHeap>)
    requires AllRoots(list)
    ensures AllRoots(r) && ListValues(r) == Values(h) + ListValues(list)
    ensures Ordered(h) && AllOrdered(list) ==> AllOrdered(r)
    decreases Length(h)
  {
    if h.Empty? then list
    else if h.next.Empty? then
      Front(Root(h), list);
      [Root(h)] + list
    else
      var m := Merge(Root(h), Root(h.next));
      FirstPassValues(h, m);
      Front(m, list);
      FirstPass(h.next.next, [m] + list)
  }

  /** A root pushed on the front of a list. */
  lemma Front(m: PHeap, list: seq<PHeap>)
    requires IsRoot(m) && AllRoots(list)
    ensures AllRoots([m] + list) && ListValues([m] + list) == Values(m) + ListValues(list)
    ensures Ordered(m) && AllOrdered(list) ==> AllOrdered([m] + list)
  {
    assert ([m] + list)[1..] == list;
  }

  lemma FirstPassValues(h: PHeap, m: PHeap)
    requires h.PNode? && h.next.PNode? && m == Merge(Root(h), Root(h.next))
    ensures IsRoot(m) && Length(h) == 2 + Length(h.next.next)
    ensures Values(m) + Values(h.next.next) == Values(h)
    ensures Ordered(h) ==> Ordered(m) && Ordered(h.next.next)
  {
    var n := h.next;
    assert Values(h) == Values(Root(h)) + (Values(Root(n)) + Values(n.next));
    if Ordered(h) {
      assert Ordered(n);
      assert Ordered(Root(h)) && Ordered(Root(n));
    }
  }

  /** The values held in a list of heaps. */
  function ListValues(list: seq<PHeap>): multiset<int> {
    if |list| == 0 then multiset{} else Values(list[0]) + ListValues(list[1..])
  }

  /** The second loop of `pop`: the list folded from the front into one heap by `merge(x, y)`. */
  function SecondPass(list: seq<PHeap>, acc: PHeap): (r: PHeap)
    requires IsRoot(acc) && AllRoots(list)
    ensures IsRoot(r) && Values(r) == ListValues(list) + Values(acc)
    ensures Ordered(acc) && AllOrdered(list) ==> Ordered(r)
  {
    if |list| == 0 then acc
    else
      var m := Merge(acc, list[0]);
      Rest(list);
      SecondPass(list[1..], m)
  }

  /** The list after its head. */
  lemma Rest(list: seq<PHeap>)
    requires |list| > 0 && AllRoots(list)
    ensures IsRoot(list[0]) && AllRoots(list[1..]) && ListValues(list) == Values(list[0]) + ListValues(list[1..])
    ensures AllOrdered(list) ==> Ordered(list[0]) && AllOrdered(list[1..])
  {
  }

  /** `pop(h)`: the root dropped and its children paired in two passes. */
  function PopTree(h: PHeap): (r: PHeap)
    requires h.PNode? && IsRoot(h)
    ensures IsRoot(r) && Values(r) == Values(h) - multiset{h.value}
    ensures Ordered(h) ==> Ordered(r)
  {
    SecondPass(FirstPass(h.child, []), Empty)
  }

  /** The public `pop()`: the least value removed and the count lowered; the heap must not be empty. */
  function Pop(q: PairingHeap): (r: PairingHeap)
    requires Valid(q) && q.root.PNode?
    ensures Valid(r) && Values(r.root) == Values(q.root) - multiset{Top(q)} && r.size + 1 == q.size
  {
    PairingHeap(PopTree(q.root), q.size - 1)
  }

  /** The public `merge(that)`: this heap takes every value of both and their total count; that one is left empty. */
  function Meld(q: PairingHeap, that: PairingHeap): (r: (PairingHeap, PairingHeap))
    requires Valid(q) && Valid(that)
    ensures Valid(r.0) && Values(r.0.root) == Values(q.root) + Values(that.root) && r.0.size == q.size + that.size
    ensures r.1 == PairingHeap(Empty, 0)
  {
    (PairingHeap(Merge(q.root, that.root), q.size + that.size), PairingHeap(Empty, 0))
  }

  function IsEmpty(q: PairingHeap): (r: bool)
    requires Valid(q)
    ensures r <==> q.size == 0
  {
    q.root.Empty?
  }

  /** The values popped one by one until the heap is empty. */
  function Drain(q: PairingHeap): (r: seq<int>)
    requires Valid(q)
    decreases q.size
  {
    if q.root.Empty? then [] else [Top(q)] + Drain(Pop(q))
  }

  /** Popping until empty yields every value, in ascending order. */
  lemma {:induction false} DrainSorted(q: PairingHeap)
    requires Valid(q)
    decreases q.size
    ensures multiset(Drain(q)) == Values(q.root) && NonDecreasing(Drain(q))
  {
    if q.root.PNode? {
      var t, p := Top(q), Pop(q);
      DrainSorted(p);
      var m, d := Values(q.root), Drain(p);
      assert Drain(q) == [t] + d;
      assert forall y :: y in multiset(d) ==> y in m;
      SortedCons(t, d);
      TakeOut(m, t, multiset(d));
    }
  }

  /** A member put back into what is left once it is taken out gives the whole. */
  lemma TakeOut(m: multiset<int>, t: int, rest: multiset<int>)
    requires t in m && rest == m - multiset{t}
    ensures multiset{t} + rest == m
  {
  }

  // ---------------------------------------------------------------------
  // Copying

  /**
   * `copy(node, parent)`: a fresh node with the value, then a copy of its
   * child list and a copy of its next list.  The `parent` fields it
   * writes are not modelled: only the first child of each node gets one.
   */
  function CopyNode(h: PHeap): (r: PHeap)
    ensures r == h
  {
    if h.Empty? then Empty else PNode(h.value, CopyNode(h.child), CopyNode(h.next))
  }

  /**
   * The copy constructor, and copy assignment once the old tree is
   * destroyed: the copied root with `that._size`.  The copy has the same
   * shape, values and count, and is valid when `that` is.
   */
  function Copy(that: PairingHeap): (r: PairingHeap)
    ensures r.root == that.root && r.size == that.size
    ensures Values(r.root) == Values(that.root)
    ensures Valid(that) ==> Valid(r)
  {
    PairingHeap(CopyNode(that.root), that.size)
  }

  // ---------------------------------------------------------------------
  // Decreasing a held key

  /** A node reached from the root by picking a child, by its place in the child list, at each level. */
  ghost predicate IsPath(h: PHeap, path: seq<nat>)
    decreases |path|
  {
    |path| == 0 || (h.PNode? && path[0] < Length(h.child) && IsPath(Nth(h.child, path[0]), path[1..]))
  }

  function At(h: PHeap, path: seq<nat>): (r: PHeap)
    requires IsPath(h, path) && h.PNode?
    decreases |path|
    ensures r.PNode?
  {
    if |path| == 0 then h else At(Nth(h.child, path[0]), path[1..])
  }

  /** The list with its i-th node replaced by y, y's own successor ignored. */
  function ReplaceNth(h: PHeap, i: nat, y: PHeap): (r: PHeap)
    requires i < Length(h) && y.PNode?
    ensures Length(r) == Length(h)
    ensures Values(r) + Values(Root(Nth(h, i))) == Values(h) + Values(Root(y))
    ensures Ordered(h) && Ordered(Root(y)) ==> Ordered(r)
  {
    if i == 0 then
      assert Values(h) == Values(Root(h)) + Values(h.next);
      PNode(y.value, y.child, h.next)
    else
      var t := ReplaceNth(h.next, i - 1, y);
      assert Nth(h, i) == Nth(h.next, i - 1);
      StepValues(h, t, Values(Root(Nth(h, i))), Values(Root(y)));
      PNode(h.value, h.child, t)
  }

  /**
   * The node at a non-empty path cut out of its father's child list, as
   * `remove_node(x->parent->children, x)` does: the tree left over, and
   * the node itself.
   */
  function Detach(h: PHeap, path: seq<nat>): (r: (PHeap, PHeap))
    requires h.PNode? && IsPath(h, path) && |path| > 0
    decreases |path|
    ensures r.0.PNode? && r.0.value == h.value && r.0.next == h.next && r.1 == Root(At(h, path))
    ensures Values(Root(r.0)) + Values(r.1) == Values(Root(h))
    ensures Ordered(Root(h)) ==> Ordered(Root(r.0)) && Ordered(r.1)
  {
    var y := Nth(h.child, path[0]);
    assert IsPath(y, path[1..]) && At(h, path) == At(y, path[1..]);
    if |path| == 1 then DetachChild(h, path[0])
    else
      var (y', x) := Detach(y, path[1..]);
      DetachAbove(h, path[0], y', x)
  }

  /** The i-th child cut out of a node's child list. */
  function DetachChild(h: PHeap, i: nat): (r: (PHeap, PHeap))
    requires h.PNode? && i < Length(h.child)
    ensures r.0.PNode? && r.0.value == h.value && r.0.next == h.next && r.1 == Root(Nth(h.child, i))
    ensures Values(Root(r.0)) + Values(r.1) == Values(Root(h))
    ensures Ordered(Root(h)) ==> Ordered(Root(r.0)) && Ordered(r.1)
  {
    var c := RemoveNode(h.child, i);
    DetachHere(h, i, c);
    (PNode(h.value, c, h.next), Root(Nth(h.child, i)))
  }

  /** The i-th child of a node replaced by y', what is left of it once x was cut out below it. */
  function DetachAbove(h: PHeap, i: nat, y': PHeap, x: PHeap): (r: (PHeap, PHeap))
    requires h.PNode? && i < Length(h.child) && y'.PNode?
    requires Values(Root(y')) + Values(x) == Values(Root(Nth(h.child, i)))
    requires Ordered(Root(Nth(h.child, i))) ==> Ordered(Root(y')) && Ordered(x)
    ensures r.0.PNode? && r.0.value == h.value && r.0.next == h.next && r.1 == x
    ensures Values(Root(r.0)) + Values(r.1) == Values(Root(h))
    ensures Ordered(Root(h)) ==> Ordered(Root(r.0)) && Ordered(r.1)
  {
    var c := ReplaceNth(h.child, i, y');
    DetachBelow(h, i, y', x, c);
    (PNode(h.value, c, h.next), x)
  }

  lemma DetachHere(h: PHeap, i: nat, c: PHeap)
    requires h.PNode? && i < Length(h.child)
    requires Values(c) + Values(Root(Nth(h.child, i))) == Values(h.child) && (Ordered(h.child) ==> Ordered(c))
    ensures Values(Root(PNode(h.value, c, h.next))) + Values(Root(Nth(h.child, i))) == Values(Root(h))
    ensures Ordered(Root(h)) ==> Ordered(Root(PNode(h.value, c, h.next))) && Ordered(Root(Nth(h.child, i)))
  {
    ChildValues(h, c, Values(Root(Nth(h.child, i))), multiset{});
    NthOrdered(h.child, i);
    assert Values(c) <= Values(h.child);
    KeepOrder(h, c);
  }

  lemma DetachBelow(h: PHeap, i: nat, y': PHeap, x: PHeap, c: PHeap)
    requires h.PNode? && i < Length(h.child) && y'.PNode?
    requires Values(Root(y')) + Values(x) == Values(Root(Nth(h.child, i)))
    requires Ordered(Root(Nth(h.child, i))) ==> Ordered(Root(y')) && Ordered(x)
    requires Values(c) + Values(Root(Nth(h.child, i))) == Values(h.child) + Values(Root(y'))
    requires Ordered(h.child) && Ordered(Root(y')) ==> Ordered(c)
    ensures Values(Root(PNode(h.value, c, h.next))) + Values(x) == Values(Root(h))
    ensures Ordered(Root(h)) ==> Ordered(Root(PNode(h.value, c, h.next))) && Ordered(x)
  {
    Cancel(Values(c), Values(Root(Nth(h.child, i))), Values(h.child), Values(Root(y')), Values(x));
    ChildValues(h, c, Values(x), multiset{});
    NthOrdered(h.child, i);
    KeepOrder(h, c);
  }

  /** A change to a node's child list, seen from the node. */
  lemma ChildValues(h: PHeap, c: PHeap, d: multiset<int>, e: multiset<int>)
    requires h.PNode? && Values(c) + d == Values(h.child) + e
    ensures Values(Root(PNode(h.value, c, h.next))) + d == Values(Root(h)) + e
  {
    var v := multiset{h.value};
    assert Values(Root(PNode(h.value, c, h.next))) == v + Values(c);
    assert Values(Root(h)) == v + Values(h.child);
    Shift(v, Values(c), Values(h.child), d, e);
  }

  /** A child list with no values beyond the old one's keeps a node's heap order. */
  lemma KeepOrder(h: PHeap, c: PHeap)
    requires h.PNode? && Values(c) <= Values(h.child)
    ensures Ordered(Root(h)) && Ordered(c) ==> Ordered(Root(PNode(h.value, c, h.next)))
  {
    AtLeastValues(c, h.value);
    AtLeastValues(h.child, h.value);
  }

  lemma Cancel(a: multiset<int>, b: multiset<int>, c: multiset<int>, d: multiset<int>, e: multiset<int>)
    requires a + b == c + d && d + e == b
    ensures a + e == c && a <= c
  {
    forall z ensures (a + e)[z] == c[z] {
      assert (a + b)[z] == (c + d)[z];
      assert (d + e)[z] == b[z];
    }
    assert a + e == c;
  }

  /** A node of an ordered list is ordered, and its values are among the list's. */
  lemma {:induction false} NthOrdered(h: PHeap, i: nat)
    requires i < Length(h)
    ensures Ordered(h) ==> Ordered(Root(Nth(h, i)))
    ensures Values(Root(Nth(h, i))) <= Values(h)
  {
    if i > 0 {
      NthOrdered(h.next, i - 1);
    }
  }

  /**
   * `push_decreased_key(h, x, key)`: x takes the new key; a node with a
   * father is cut from its father's child list and merged with the root,
   * the root itself stays where it is.  With a key no larger than the old
   * one heap order survives.
   */
  function DecreaseKey(q: PairingHeap, path: seq<nat>, key: int): (r: PairingHeap)
    requires Valid(q) && q.root.PNode? && IsPath(q.root, path)
    ensures IsRoot(r.root) && r.size == q.size
    ensures Values(r.root) == Values(q.root) - multiset{At(q.root, path).value} + multiset{key}
    ensures key <= At(q.root, path).value ==> Valid(r)
  {
    var h := q.root;
    if |path| == 0 then
      Lower(h.child, h.value, key);
      Rekey(Values(h), h.value, Values(h.child), key);
      PairingHeap(PNode(key, h.child, Empty), q.size)
    else
      var (rest, x) := Detach(h, path);
      Lower(x.child, x.value, key);
      var y := PNode(key, x.child, Empty);
      Rekey(Values(x), x.value, Values(x.child), key);
      RekeyBelow(Values(h), Values(Root(rest)), Values(x), x.value, Values(y), key);
      PairingHeap(Merge(Root(rest), y), q.size)
  }

  /** A node's value replaced by a key: one copy of the old value out, the key in, the count kept. */
  lemma Rekey(m: multiset<int>, v: int, c: multiset<int>, key: int)
    requires m == multiset{v} + c
    ensures multiset{key} + c == m - multiset{v} + multiset{key} && |multiset{key} + c| == |m|
  {
  }

  /** The same for a node cut out below the root and merged back with its new key. */
  lemma RekeyBelow(m: multiset<int>, rest: multiset<int>, x: multiset<int>, v: int, y: multiset<int>, key: int)
    requires rest + x == m && v in x && y == x - multiset{v} + multiset{key}
    ensures rest + y == m - multiset{v} + multiset{key} && |rest + y| == |m|
  {
  }

  // ---------------------------------------------------------------------
  // The father pointer left behind by pop

  /**
   * `pop` as written, with whether the new root's `parent` field still
   * names the deleted root: the new root always comes from the deleted
   * root's child list and `merge` never clears the winner's `parent`.
   */
  function PopAsWritten(q: PairingHeap): (r: (PairingHeap, bool))
    requires Valid(q) && q.root.PNode?
    ensures r.0 == Pop(q) && (r.1 <==> r.0.root.PNode?)
  {
    var p := Pop(q);
    (p, p.root.PNode?)
  }

  /**
   * `re_push` as written: on a node whose `parent` field is set, the
   * father's child list is read; for a root left so by `pop` the father
   * is freed memory, shown as None.
   */
  function DecreaseKeyAsWritten(q: PairingHeap, parentSet: bool, path: seq<nat>, key: int): (r: Option<PairingHeap>)
    requires Valid(q) && q.root.PNode? && IsPath(q.root, path)
    ensures r.None? <==> |path| == 0 && parentSet
    ensures r.Some? ==> r.value == DecreaseKey(q, path, key)
  {
    if |path| == 0 && parentSet then None else Some(DecreaseKey(q, path, key))
  }

  /** Pushing 1 and 2 and popping leaves 2 at the root with its father freed; re-pushing it then reads that memory. */
  lemma PopLeavesFather()
    ensures var q := Push(Push(PairingHeap(Empty, 0), 1), 2);
      var (p, parentSet) := PopAsWritten(q);
      p == PairingHeap(PNode(2, Empty, Empty), 1) && parentSet &&
      DecreaseKeyAsWritten(p, parentSet, [], 0).None? &&
      DecreaseKey(p, [], 0) == PairingHeap(PNode(0, Empty, Empty), 1)
  {
    var q := Push(Push(PairingHeap(Empty, 0), 1), 2);
    assert q.root == PNode(1, PNode(2, Empty, Empty), Empty);
  }
}

=== FILE: rb_tree.dfy ===
/**
 * RbTree (src/binary_tree/rb_tree.hpp): a red-black search tree.  Insertion
 * hangs a red leaf and repairs red-red edges bottom-up; deletion unhooks a
 * node with at most one child and pushes the missing black up as a
 * "doubly black" mark.
 */
module RbTree {
  import opened Sequences
  import opened Bits
  import opened Trees

  datatype Color = Red | Black | DoublyBlack

  type RTree = Tree<Color>

  datatype RbSet = RbSet(root: RTree, n: nat)

  /** `is_red`: a node, coloured red. */
  predicate IsRed(t: RTree) {
    t.Node? && t.tag == Red
  }

  /** `is_black`: no node, or a black one. */
  predicate IsBlack(t: RTree) {
    t.Nil? || t.tag == Black
  }

  function Paint(t: RTree, c: Color): (r: RTree)
    ensures Inorder(r) == Inorder(t)
  {
    if t.Nil? then Nil else Node(t.left, t.key, c, t.right)
  }

  /** `t->color = BLACK` on the root. */
  function PaintRootBlack(t: RTree): (r: RTree)
    ensures Inorder(r) == Inorder(t) && !IsRed(r)
  {
    Paint(t, Black)
  }

  /** The black nodes on the way down the left spine. */
  function BlackHeight(t: RTree): nat {
    if t.Nil? then 0 else BlackHeight(t.left) + (if t.tag == Black then 1 else 0)
  }

  /** Red and black only, no red node with a red child, and every way down meets as many black nodes. */
  ghost predicate Wf(t: RTree) {
    t.Nil? || (Wf(t.left) && Wf(t.right) && t.tag != DoublyBlack &&
      BlackHeight(t.left) == BlackHeight(t.right) &&
      (t.tag == Red ==> !IsRed(t.left) && !IsRed(t.right)))
  }

  /** A red-black tree: well formed with a root that is not red. */
  ghost predicate RedBlack(t: RTree) {
    Wf(t) && !IsRed(t)
  }

  /** The keys strictly ascending and `n` the element count. */
  ghost predicate Ordered(s: RbSet) {
    Ascending(Inorder(s.root)) && s.n == |Inorder(s.root)|
  }

  // ---------------------------------------------------------------------
  // Insertion

  /**
   * The rotations of `insert_fix` for a red x below a red father f whose
   * uncle is not red: a father on the grandfather's left and x on the
   * father's right is first rotated left at the father; then the father,
   * black, is rotated above the grandfather, red (the mirror on the right).
   */
  function Restructure(f: Frame<Color>, g: Frame<Color>, x: RTree): (r: RTree)
    requires x.Node?
    ensures Inorder(r) == Inorder(Attach(g, Attach(f, x)))
  {
    var fo, u := f.other, g.other;
    var a, k, b := Inorder(x.left), [x.key], Inorder(x.right);
    if g.wentLeft && f.wentLeft then
      Regroup5(Inorder(x), [f.key], Inorder(fo), [g.key], Inorder(u));
      Node(x, f.key, Black, Node(fo, g.key, Red, u))
    else if g.wentLeft then
      RegroupInner(Inorder(fo), [f.key], a, k, b, [g.key], Inorder(u));
      Node(Node(fo, f.key, Red, x.left), x.key, Black, Node(x.right, g.key, Red, u))
    else if !f.wentLeft then
      Regroup5(Inorder(u), [g.key], Inorder(fo), [f.key], Inorder(x));
      Node(Node(u, g.key, Red, fo), f.key, Black, x)
    else
      RegroupOuter(Inorder(u), [g.key], a, k, b, [f.key], Inorder(fo));
      Node(Node(u, g.key, Red, x.left), x.key, Black, Node(x.right, f.key, Red, fo))
  }

  /** The regrouping of a single rotation. */
  lemma Regroup5(p: seq<int>, q: seq<int>, r: seq<int>, s: seq<int>, t: seq<int>)
    ensures (p + q + r) + s + t == p + q + (r + s + t)
  {
    Assoc(p + q, r, s);
    Assoc(p + q, r + s, t);
    Assoc(r, s, t);
  }

  /** The regrouping of a double rotation whose middle node went right of its father. */
  lemma RegroupInner(p: seq<int>, q: seq<int>, a: seq<int>, k: seq<int>, b: seq<int>, s: seq<int>, t: seq<int>)
    ensures (p + q + (a + k + b)) + s + t == (p + q + a) + k + (b + s + t)
  {
    assert (p + q + (a + k + b)) + s + t == p + q + a + k + b + s + t;
    assert (p + q + a) + k + (b + s + t) == p + q + a + k + b + s + t;
  }

  /** The regrouping of a double rotation whose middle node went left of its father. */
  lemma RegroupOuter(p: seq<int>, q: seq<int>, a: seq<int>, k: seq<int>, b: seq<int>, s: seq<int>, t: seq<int>)
    ensures p + q + ((a + k + b) + s + t) == (p + q + a) + k + (b + s + t)
  {
    assert p + q + ((a + k + b) + s + t) == p + q + a + k + b + s + t;
    assert (p + q + a) + k + (b + s + t) == p + q + a + k + b + s + t;
  }

  /**
   * `insert_fix(t, x)`: while x's father is red, a red uncle is recoloured
   * black with the father while the grandfather turns red and becomes x;
   * otherwise the rotations end the repair.  The root is painted black.  A
   * red father always has a father of its own, the root being black.
   */
  function InsertFix(path: seq<Frame<Color>>, x: RTree): (r: RTree)
    requires x.Node?
    decreases |path|
    ensures Inorder(r) == Inorder(Plug(path, x))
  {
    if |path| < 2 || path[0].tag != Red then PaintRootBlack(Plug(path, x))
    else
      var f, g := path[0], path[1];
      var u := g.other;
      assert Plug(path, x) == Plug(path[2..], Attach(g, Attach(f, x))) by {
        assert path[1..][1..] == path[2..];
      }
      if IsRed(u) then
        var p := Attach(Frame(f.wentLeft, f.key, Black, f.other), x);
        var x' := Attach(Frame(g.wentLeft, g.key, Red, Paint(u, Black)), p);
        PlugSame(path[2..], x', Attach(g, Attach(f, x)));
        InsertFix(path[2..], x')
      else
        PlugSame(path[2..], Restructure(f, g, x), Attach(g, Attach(f, x)));
        PaintRootBlack(Plug(path[2..], Restructure(f, g, x)))
  }

  /**
   * `insert(x)`: the descent stops on an equal key; otherwise a red leaf is
   * hung in the empty slot, n grows and `insert_fix` repairs the colours.
   */
  function Insert(s: RbSet, x: int): (r: (RbSet, bool))
    requires Ordered(s)
    ensures Ordered(r.0) && Keys(r.0.root) == Keys(s.root) + {x}
    ensures r.1 <==> x !in Keys(s.root)
    ensures r.1 ==> r.0.n == s.n + 1
    ensures !r.1 ==> r.0 == s
    ensures RedBlack(s.root) ==> RedBlack(r.0.root)
  {
    FindMember(s.root, x);
    var l := Find(Loc([], s.root), x);
    if l.focus.Node? then (s, false)
    else
      var leaf := Node(Nil, x, Red, Nil);
      var t := InsertFix(l.path, leaf);
      PlugNil(l.path);
      PlugLeaf(l.path, leaf);
      InsertAscending(Before(l.path), x, After(l.path));
      ElemsInsert(Before(l.path), x, After(l.path));
      InsertRedBlack(l.path, leaf);
      (RbSet(t, s.n + 1), true)
  }

  /** The frames above a position fit a well-formed subtree of black height h, red or not. */
  ghost predicate PathOk(path: seq<Frame<Color>>, h: nat, red: bool)
    decreases |path|
  {
    |path| == 0 ||
    (var f := path[0];
      Wf(f.other) && BlackHeight(f.other) == h && f.tag != DoublyBlack &&
      (f.tag == Red ==> !red && !IsRed(f.other)) &&
      PathOk(path[1..], h + (if f.tag == Black then 1 else 0), f.tag == Red))
  }

  /** A tree is well formed exactly when the subtree at a position is and the frames above fit it. */
  lemma {:induction false} WfPlug(path: seq<Frame<Color>>, t: RTree)
    decreases |path|
    ensures Wf(Plug(path, t)) <==> Wf(t) && PathOk(path, BlackHeight(t), IsRed(t))
  {
    if |path| > 0 {
      var f := path[0];
      var a := Attach(f, t);
      WfPlug(path[1..], a);
      assert BlackHeight(a) == BlackHeight(if f.wentLeft then t else f.other) + (if f.tag == Black then 1 else 0);
    }
  }

  /** The root of a tree with a position below it is the top frame's node. */
  lemma {:induction false} PlugTop(path: seq<Frame<Color>>, t: RTree)
    requires |path| > 0
    decreases |path|
    ensures Plug(path, t).Node? && Plug(path, t).tag == path[|path| - 1].tag
  {
    if |path| > 1 {
      PlugTop(path[1..], Attach(path[0], t));
      assert path[1..][|path[1..]| - 1] == path[|path| - 1];
    }
  }

  /** Painting the root black keeps a tree well formed. */
  lemma PaintRootBlackWf(t: RTree)
    requires Wf(t) || (t.Node? && Wf(t.left) && Wf(t.right) && BlackHeight(t.left) == BlackHeight(t.right))
    ensures RedBlack(PaintRootBlack(t))
  {
  }

  /** The rotations leave a well-formed black subtree one black level above x. */
  lemma RestructureWf(f: Frame<Color>, g: Frame<Color>, x: RTree, h: nat)
    requires x.Node? && Wf(x) && IsRed(x) && BlackHeight(x) == h
    requires Wf(f.other) && BlackHeight(f.other) == h && !IsRed(f.other)
    requires Wf(g.other) && BlackHeight(g.other) == h && !IsRed(g.other)
    ensures Wf(Restructure(f, g, x)) && BlackHeight(Restructure(f, g, x)) == h + 1 && !IsRed(Restructure(f, g, x))
  {
  }

  /**
   * `insert_fix` gives a red-black tree: x red and well formed, the frames
   * fitting it except that the father may be red too, and the root black
   * unless x is the root.
   */
  lemma {:induction false} InsertFixRb(path: seq<Frame<Color>>, x: RTree)
    requires x.Node? && Wf(x) && IsRed(x) && PathOk(path, BlackHeight(x), false)
    requires |path| > 0 ==> path[|path| - 1].tag == Black
    decreases |path|
    ensures RedBlack(InsertFix(path, x))
  {
    var h := BlackHeight(x);
    if |path| == 0 {
      PaintRootBlackWf(x);
    } else if path[0].tag != Red {
      assert PathOk(path, h, true);
      WfPlug(path, x);
      PaintRootBlackWf(Plug(path, x));
    } else if |path| == 1 {
      assert false;
    } else {
      var f, g := path[0], path[1];
      var u := g.other;
      assert path[1..][1..] == path[2..];
      assert PathOk(path[1..], h, true);
      assert g.tag == Black;
      assert PathOk(path[2..], h + 1, false);
      if |path[2..]| > 0 {
        assert path[2..][|path[2..]| - 1] == path[|path| - 1];
      }
      assert Wf(f.other) && BlackHeight(f.other) == h && !IsRed(f.other);
      assert Wf(u) && BlackHeight(u) == h;
      if IsRed(u) {
        var p := Attach(Frame(f.wentLeft, f.key, Black, f.other), x);
        var x' := Attach(Frame(g.wentLeft, g.key, Red, Paint(u, Black)), p);
        assert BlackHeight(p) == h + 1 && Wf(p);
        assert Wf(Paint(u, Black)) && BlackHeight(Paint(u, Black)) == h + 1;
        assert BlackHeight(x') == h + 1 && Wf(x');
        InsertFixRb(path[2..], x');
      } else {
        var r := Restructure(f, g, x);
        RestructureWf(f, g, x, h);
        WfPlug(path[2..], r);
        PaintRootBlackWf(Plug(path[2..], r));
      }
    }
  }

  /** Hanging a red leaf in an empty slot of a red-black tree and repairing gives a red-black tree. */
  lemma InsertRedBlack(path: seq<Frame<Color>>, leaf: RTree)
    requires leaf.Node? && leaf.left.Nil? && leaf.right.Nil? && leaf.tag == Red
    ensures RedBlack(Plug(path, Nil)) ==> RedBlack(InsertFix(path, leaf))
  {
    if RedBlack(Plug(path, Nil)) {
      WfPlug(path, Nil);
      if |path| > 0 {
        PlugTop(path, Nil);
      }
      InsertFixRb(path, leaf);
    }
  }

  /** A well-formed tree of black height b holds at least 2^b - 1 keys, and its height is at most 2b, plus one for a red root. */
  lemma {:induction false} RedBlackHeight(t: RTree)
    requires Wf(t)
    ensures Pow2(BlackHeight(t)) <= |Inorder(t)| + 1
    ensures Height(t) <= 2 * BlackHeight(t) + (if IsRed(t) then 1 else 0)
  {
    if t.Node? {
      RedBlackHeight(t.left);
      RedBlackHeight(t.right);
      if t.tag == Black {
        assert Pow2(BlackHeight(t)) == 2 * Pow2(BlackHeight(t.left));
      } else {
        assert BlackHeight(t) == BlackHeight(t.left);
      }
    }
  }

  function Height(t: RTree): nat {
    if t.Nil? then 0 else 1 + (if Height(t.left) < Height(t.right) then Height(t.right) else Height(t.left))
  }

  // ---------------------------------------------------------------------
  // Deletion

  /** How many black levels a colour stands for: the doubly black mark counts twice. */
  function Blackness(c: Color): nat {
    match c
    case Red => 0
    case Black => 1
    case DoublyBlack => 2
  }

  /**
   * `blacken`: red becomes black, anything else doubly black, so a node
   * that was red or black stands for one black level more than before.
   */
  function Blacken(c: Color): (r: Color)
    ensures r != Red
    ensures c != DoublyBlack ==> Blackness(r) == Blackness(c) + 1
  {
    if c == Red then Black else DoublyBlack
  }

  /**
   * The end of one pass of `delete_fix` that moves the mark up to the
   * father p: the loop goes on while p is doubly black and not the root.
   */
  function Climb(path: seq<Frame<Color>>, p: RTree, fuel: nat): (r: RTree)
    requires p.Node?
    decreases fuel, 1
    ensures Inorder(r) == Inorder(Plug(path, p))
    ensures !IsRed(r)
  {
    if p.tag == DoublyBlack then DeleteFix(path, p, fuel) else PaintRootBlack(Plug(path, p))
  }

  /**
   * `delete_fix(t, db, is_dbe)`: db is doubly black, a node coloured so or
   * an empty slot standing for the placeholder node `make_black` hangs
   * there and `delete_fix` unhooks at the end.  Until db is the root or no
   * longer doubly black: an absent sibling pushes the mark to the father; a
   * red sibling is rotated above the father, swapping their colours; a
   * black sibling with a red child nearer db (checked first on either
   * side) or farther from it absorbs the mark by one or two rotations; a
   * black sibling with black children turns red and pushes the mark up.
   * The root is painted black at the end.  The source's loop has no bound
   * and spins on a doubly black sibling; `fuel` stands for that.
   */
  function DeleteFix(path: seq<Frame<Color>>, db: RTree, fuel: nat): (r: RTree)
    decreases fuel, 0
    ensures Inorder(r) == Inorder(Plug(path, db))
    ensures !IsRed(r)
  {
    if |path| == 0 || fuel == 0 then
      PlugSame(path, Paint(db, Black), db);
      PaintRootBlack(Plug(path, Paint(db, Black)))
    else
      var f := path[0];
      var s, c := f.other, f.tag;
      var d := Paint(db, Black);
      PlugSame(path[1..], Attach(f, d), Attach(f, db));
      if s.Nil? then
        var p := Attach(Frame(f.wentLeft, f.key, Blacken(c), s), d);
        PlugSame(path[1..], p, Attach(f, d));
        Climb(path[1..], p, fuel - 1)
      else if s.tag == Red then
        var top := if f.wentLeft then [Frame(true, f.key, Red, s.left), Frame(true, s.key, Black, s.right)]
          else [Frame(false, f.key, Red, s.right), Frame(false, s.key, Black, s.left)];
        RotateAway(f, db, top, path[1..]);
        DeleteFix(top + path[1..], db, fuel - 1)
      else if s.tag == Black && (IsRed(s.left) || IsRed(s.right)) then
        var r := Absorb(f, d);
        PlugSame(path[1..], r, Attach(f, d));
        PaintRootBlack(Plug(path[1..], r))
      else if s.tag == Black then
        var p := Attach(Frame(f.wentLeft, f.key, Blacken(c), Paint(s, Red)), d);
        PlugSame(path[1..], p, Attach(f, d));
        Climb(path[1..], p, fuel - 1)
      else
        DeleteFix(path, db, fuel - 1)
  }

  /**
   * The rotations of `delete_fix` for a black sibling with a red child,
   * the one nearer db's side (the left child) looked at first: the node
   * that ends on top takes the father's colour, db and the father turn
   * black, and so does the red child that does not end on top.
   */
  function Absorb(f: Frame<Color>, d: RTree): (r: RTree)
    requires f.other.Node? && (IsRed(f.other.left) || IsRed(f.other.right))
    ensures Inorder(r) == Inorder(Attach(f, d))
  {
    var s, c := f.other, f.tag;
    var a, b := Inorder(s.left), Inorder(s.right);
    if IsRed(s.left) then
      var sl := s.left;
      var x, y := Inorder(sl.left), Inorder(sl.right);
      if f.wentLeft then
        RegroupOuter(Inorder(d), [f.key], x, [sl.key], y, [s.key], b);
        Node(Node(d, f.key, Black, sl.left), sl.key, c, Node(sl.right, s.key, Black, s.right))
      else
        Regroup5(a, [s.key], b, [f.key], Inorder(d));
        Node(Paint(sl, Black), s.key, c, Node(s.right, f.key, Black, d))
    else
      var sr := s.right;
      var x, y := Inorder(sr.left), Inorder(sr.right);
      if f.wentLeft then
        Regroup5(Inorder(d), [f.key], a, [s.key], b);
        Node(Node(d, f.key, Black, s.left), s.key, c, Paint(sr, Black))
      else
        RegroupInner(a, [s.key], x, [sr.key], y, [f.key], Inorder(d));
        Node(Node(s.left, s.key, Black, sr.left), sr.key, c, Node(sr.right, f.key, Black, d))
  }

  /** The red-sibling rotation moves db one level down without changing the keys' order. */
  lemma RotateAway(f: Frame<Color>, db: RTree, top: seq<Frame<Color>>, rest: seq<Frame<Color>>)
    requires f.other.Node?
    requires top == (if f.wentLeft then [Frame(true, f.key, Red, f.other.left), Frame(true, f.other.key, Black, f.other.right)]
      else [Frame(false, f.key, Red, f.other.right), Frame(false, f.other.key, Black, f.other.left)])
    ensures Inorder(Plug(top + rest, db)) == Inorder(Plug(rest, Attach(f, db)))
  {
    PlugAppend(top, rest, db);
    PlugTwo(top, db);
    var s := f.other;
    var a, b, x := Inorder(s.left), Inorder(s.right), Inorder(db);
    if f.wentLeft {
      Regroup5(x, [f.key], a, [s.key], b);
    } else {
      Regroup5(a, [s.key], b, [f.key], x);
    }
    PlugSame(rest, Plug(top, db), Attach(f, db));
  }

  /** Climbing a path of two frames. */
  lemma PlugTwo<A>(path: seq<Frame<A>>, t: Tree<A>)
    requires |path| == 2
    ensures Plug(path, t) == Attach(path[1], Attach(path[0], t))
  {
    var u := Attach(path[0], t);
    assert path[1..][0] == path[1] && path[1..][1..] == [];
    assert Plug(path[1..], u) == Plug(path[1..][1..], Attach(path[1], u));
  }

  /** The slot, the subtree moving into it and the colour of the node unhooked by `del`. */
  datatype Unhooked = Unhooked(path: seq<Frame<Color>>, db: RTree, color: Color)

  /**
   * The first half of `del(t, x)`: a node missing a child is replaced by
   * the other one; a node with two takes its successor's key and the
   * successor, the leftmost node of its right subtree, is replaced by its
   * right child.
   */
  function Unhook(l: Loc<Color>): (r: Unhooked)
    requires l.focus.Node?
    ensures Inorder(Plug(r.path, r.db)) == Before(l.path) + Inorder(l.focus.left) + Inorder(l.focus.right) + After(l.path)
    ensures |r.path| == 0 ==> |l.path| == 0 && (l.focus.left.Nil? || l.focus.right.Nil?)
  {
    var u := l.focus;
    PlugInorder(l.path, u.right);
    PlugInorder(l.path, u.left);
    if u.left.Nil? then
      assert Before(l.path) + Inorder(u.left) == Before(l.path);
      Unhooked(l.path, u.right, u.tag)
    else if u.right.Nil? then
      assert Inorder(u.left) + Inorder(u.right) == Inorder(u.left);
      Unhooked(l.path, u.left, u.tag)
    else
      var m := MinLoc(Loc([], u.right));
      var path := m.path + [Frame(false, m.focus.key, u.tag, u.left)] + l.path;
      SuccessorKeys(l, m, path);
      Unhooked(path, m.focus.right, m.focus.tag)
  }

  /**
   * The second half of `del`: a red node needs nothing more; for a black
   * one `make_black` paints a red replacement black, marks any other
   * replacement doubly black, or marks the empty slot with a placeholder,
   * and `delete_fix` runs; an emptied tree is empty.
   */
  function Repair(h: Unhooked, fuel: nat): (r: RTree)
    ensures Inorder(r) == Inorder(Plug(h.path, h.db))
  {
    if h.color != Black then Plug(h.path, h.db)
    else if |h.path| == 0 && h.db.Nil? then Nil
    else if IsRed(h.db) then
      PlugSame(h.path, Paint(h.db, Black), h.db);
      PaintRootBlack(Plug(h.path, Paint(h.db, Black)))
    else
      PlugSame(h.path, Paint(h.db, DoublyBlack), h.db);
      DeleteFix(h.path, Paint(h.db, DoublyBlack), fuel)
  }

  /** What `del` hands back as the new root. */
  datatype RootAfter = Root(tree: RTree) | Freed

  /**
   * `del(t, x)` as written: the root it returns is the `t` it was given,
   * moved only by rotations at the root.  When x itself is the root and has
   * at most one child, its replacement becomes the root but `t` still
   * names x, which `remove(x)` then destroys; only an emptied tree escapes,
   * through `make_black` returning null.
   */
  function DelAsWritten(l: Loc<Color>, fuel: nat): (r: RootAfter)
    requires l.focus.Node?
    ensures r.Freed? <==> (|l.path| == 0 && (l.focus.left.Nil? || l.focus.right.Nil?) &&
      !(l.focus.tag == Black && l.focus.left.Nil? && l.focus.right.Nil?))
    ensures r.Root? ==> r.tree == Del(l, fuel)
  {
    var h := Unhook(l);
    if |h.path| == 0 && !(h.color == Black && h.db.Nil?) then Freed else Root(Repair(h, fuel))
  }

  /** `del(t, x)` returning the actual root, the replacement when x was the root. */
  function Del(l: Loc<Color>, fuel: nat): (r: RTree)
    requires l.focus.Node?
    ensures Inorder(r) == Before(l.path) + Inorder(l.focus.left) + Inorder(l.focus.right) + After(l.path)
  {
    Repair(Unhook(l), fuel)
  }

  /**
   * `erase(x)`: when the search finds x, n shrinks and its node is deleted.
   * The loop bound given to `delete_fix` is twice the element count.
   */
  function Erase(s: RbSet, x: int): (r: (RbSet, bool))
    requires Ordered(s)
    ensures Ordered(r.0) && Keys(r.0.root) == Keys(s.root) - {x}
    ensures r.1 <==> x in Keys(s.root)
    ensures r.1 ==> r.0.n + 1 == s.n
    ensures !r.1 ==> r.0 == s
    ensures RedBlack(s.root) ==> RedBlack(r.0.root)
  {
    FindMember(s.root, x);
    var l := Find(Loc([], s.root), x);
    if l.focus.Nil? then (s, false)
    else
      var t := Del(l, 2 * s.n);
      DelKeys(s, l, x, t);
      DelRedBlack(l, 2 * s.n);
      (RbSet(t, s.n - 1), true)
  }

  /** A tree holding the keys around the found node, in order, is ordered and holds every key but x. */
  lemma DelKeys(s: RbSet, l: Loc<Color>, x: int, t: RTree)
    requires Ordered(s) && l.focus.Node? && l.focus.key == x && Whole(l) == s.root
    requires Inorder(t) == Before(l.path) + Inorder(l.focus.left) + Inorder(l.focus.right) + After(l.path)
    ensures Ascending(Inorder(t)) && |Inorder(t)| + 1 == s.n && Keys(t) == Keys(s.root) - {x}
  {
    var b, a := Before(l.path) + Inorder(l.focus.left), Inorder(l.focus.right) + After(l.path);
    PlugNode(l.path, l.focus);
    Assoc(b, Inorder(l.focus.right), After(l.path));
    RemoveAscending(b, x, a);
    ElemsRemove(b, x, a);
  }

  // ---------------------------------------------------------------------
  // Deletion keeps a red-black tree red-black

  /**
   * The passes `delete_fix` needs from a position: one under a red father,
   * otherwise one per level above and one more for the red-sibling
   * rotation, after which the father is red.
   */
  function Need(path: seq<Frame<Color>>): nat {
    if |path| == 0 then 0 else if path[0].tag == Red then 1 else |path| + 1
  }

  /** Frames that fit a subtree even below a red father fit one that is not red. */
  lemma PathOkRelax(path: seq<Frame<Color>>, h: nat)
    requires PathOk(path, h, true)
    ensures PathOk(path, h, false)
  {
  }

  /**
   * The red-sibling rotation keeps the invariant of the loop: the two new
   * frames, the red father with the sibling's near child and the black
   * sibling with its far child, fit db one black level short, and the
   * father db now has is red.
   */
  lemma RotateAwayOk(f: Frame<Color>, top: seq<Frame<Color>>, rest: seq<Frame<Color>>, h: nat)
    requires f.other.Node? && f.other.tag == Red && Wf(f.other) && BlackHeight(f.other) == h + 1
    requires f.tag == Black && PathOk(rest, h + 2, false)
    requires top == (if f.wentLeft then [Frame(true, f.key, Red, f.other.left), Frame(true, f.other.key, Black, f.other.right)]
      else [Frame(false, f.key, Red, f.other.right), Frame(false, f.other.key, Black, f.other.left)])
    ensures PathOk(top + rest, h + 1, false) && Need(top + rest) == 1
  {
    var path := top + rest;
    assert path[0] == top[0] && path[1..][0] == top[1] && path[1..][1..] == rest;
    assert PathOk(path[1..], h + 1, true);
  }

  /** The rotations for a black sibling with a red child end with a well-formed subtree of the father's colour, as high as before. */
  lemma AbsorbWf(f: Frame<Color>, d: RTree, h: nat)
    requires Wf(d) && BlackHeight(d) == h
    requires f.other.Node? && f.other.tag == Black && Wf(f.other) && BlackHeight(f.other) == h + 1
    requires IsRed(f.other.left) || IsRed(f.other.right)
    requires f.tag != DoublyBlack
    ensures var r := Absorb(f, d);
      Wf(r) && BlackHeight(r) == h + 1 + Blackness(f.tag) && IsRed(r) == (f.tag == Red)
  {
    var s, c := f.other, f.tag;
    assert BlackHeight(s.left) == h == BlackHeight(s.right);
    if IsRed(s.left) {
      var sl := s.left;
      assert Wf(sl.left) && Wf(sl.right) && BlackHeight(sl.left) == h == BlackHeight(sl.right);
      if f.wentLeft {
        assert Wf(Node(d, f.key, Black, sl.left)) && Wf(Node(sl.right, s.key, Black, s.right));
      } else {
        assert Wf(Paint(sl, Black)) && Wf(Node(s.right, f.key, Black, d));
      }
    } else {
      var sr := s.right;
      assert Wf(sr.left) && Wf(sr.right) && BlackHeight(sr.left) == h == BlackHeight(sr.right);
      if f.wentLeft {
        assert Wf(Node(d, f.key, Black, s.left)) && Wf(Paint(sr, Black));
      } else {
        assert Wf(Node(s.left, s.key, Black, sr.left)) && Wf(Node(sr.right, f.key, Black, d));
      }
    }
  }

  /**
   * `delete_fix` leaves a red-black tree when db, painted black, is well
   * formed one black level short of its sibling and the frames above fit
   * that, and the loop is given the passes it needs.
   */
  lemma {:induction false} DeleteFixRb(path: seq<Frame<Color>>, db: RTree, fuel: nat)
    requires Wf(Paint(db, Black)) && PathOk(path, BlackHeight(Paint(db, Black)) + 1, false)
    requires fuel >= Need(path)
    decreases fuel, 1
    ensures RedBlack(DeleteFix(path, db, fuel))
  {
    if |path| == 0 {
      PaintRootBlackWf(Paint(db, Black));
    } else if IsRed(path[0].other) {
      RotateRb(path, db, fuel);
    } else {
      BlackSiblingRb(path, db, fuel);
    }
  }

  /** A pass of `delete_fix` that rotates a red sibling up keeps the invariant, so the loop still ends in a red-black tree. */
  lemma {:induction false} RotateRb(path: seq<Frame<Color>>, db: RTree, fuel: nat)
    requires Wf(Paint(db, Black)) && PathOk(path, BlackHeight(Paint(db, Black)) + 1, false)
    requires fuel >= Need(path) && |path| > 0 && IsRed(path[0].other)
    decreases fuel, 0
    ensures RedBlack(DeleteFix(path, db, fuel))
  {
    var h := BlackHeight(Paint(db, Black));
    var f := path[0];
    var s := f.other;
    assert Wf(s) && BlackHeight(s) == h + 1 && f.tag == Black;
    assert PathOk(path[1..], h + 2, false);
    var top := if f.wentLeft then [Frame(true, f.key, Red, s.left), Frame(true, s.key, Black, s.right)]
      else [Frame(false, f.key, Red, s.right), Frame(false, s.key, Black, s.left)];
    RotateAwayOk(f, top, path[1..], h);
    DeleteFixRb(top + path[1..], db, fuel - 1);
  }

  /**
   * A pass of `delete_fix` at a black sibling: a red nephew ends the loop
   * by rotations; otherwise the sibling turns red and the mark moves to
   * the father, which ends the loop when the father was red.
   */
  lemma {:induction false} BlackSiblingRb(path: seq<Frame<Color>>, db: RTree, fuel: nat)
    requires Wf(Paint(db, Black)) && PathOk(path, BlackHeight(Paint(db, Black)) + 1, false)
    requires fuel >= Need(path) && |path| > 0 && !IsRed(path[0].other)
    decreases fuel, 0
    ensures RedBlack(DeleteFix(path, db, fuel))
  {
    var d := Paint(db, Black);
    var h := BlackHeight(d);
    var f := path[0];
    var s, c := f.other, f.tag;
    var up := h + 1 + Blackness(c);
    assert Wf(s) && BlackHeight(s) == h + 1 && c != DoublyBlack;
    assert PathOk(path[1..], up, c == Red);
    if c == Red {
      PathOkRelax(path[1..], up);
    }
    if IsRed(s.left) || IsRed(s.right) {
      var r := Absorb(f, d);
      AbsorbWf(f, d, h);
      WfPlug(path[1..], r);
      PaintRootBlackWf(Plug(path[1..], r));
    } else {
      var p := Attach(Frame(f.wentLeft, f.key, Blacken(c), Paint(s, Red)), d);
      assert Wf(Paint(s, Red)) && BlackHeight(Paint(s, Red)) == h;
      if c == Red {
        WfPlug(path[1..], p);
        PaintRootBlackWf(Plug(path[1..], p));
      } else {
        DeleteFixRb(path[1..], p, fuel - 1);
      }
    }
  }

  /**
   * The node `del` unhooked fitted its place in a red-black tree: with db
   * as its only child it was well formed, the frames above fit it, and the
   * root was not red.
   */
  ghost predicate Fits(h: Unhooked) {
    Wf(h.db) && BlackHeight(h.db) == 0 && h.color != DoublyBlack &&
    (h.color == Red ==> !IsRed(h.db)) &&
    PathOk(h.path, Blackness(h.color), h.color == Red) &&
    (if |h.path| == 0 then h.color != Red else h.path[|h.path| - 1].tag != Red)
  }

  /** The node `del` unhooks from a red-black tree fits its place. */
  lemma UnhookFits(l: Loc<Color>)
    requires l.focus.Node? && RedBlack(Whole(l))
    ensures Fits(Unhook(l))
  {
    if l.focus.left.Node? && l.focus.right.Node? {
      UnhookSuccessorFits(l);
    } else {
      var u := l.focus;
      WfPlug(l.path, u);
      if |l.path| > 0 {
        PlugTop(l.path, u);
      }
    }
  }

  /** With two children, the successor `del` unhooks instead fits its place too. */
  lemma UnhookSuccessorFits(l: Loc<Color>)
    requires l.focus.Node? && RedBlack(Whole(l))
    requires l.focus.left.Node? && l.focus.right.Node?
    ensures Fits(Unhook(l))
  {
    var u := l.focus;
    WfPlug(l.path, u);
    if |l.path| > 0 {
      PlugTop(l.path, u);
    }
    var m := MinLoc(Loc([], u.right));
    var f := Frame(false, m.focus.key, u.tag, u.left);
    var path := m.path + [f] + l.path;
    assert Unhook(l) == Unhooked(path, m.focus.right, m.focus.tag);
    MinEdge(u.right, m);
    WfPlug(m.path, m.focus);
    var u' := Node(u.left, m.focus.key, u.tag, u.right);
    PlugThrough(m.path, f, l.path, m.focus);
    WfPlug(l.path, u');
    WfPlug(path, m.focus);
    assert path[|path| - 1] == if |l.path| == 0 then f else l.path[|l.path| - 1];
  }

  /** The second half of `del` leaves a red-black tree when the unhooked node fitted and the loop has the passes it needs. */
  lemma RepairRb(h: Unhooked, fuel: nat)
    requires Fits(h) && fuel >= Need(h.path)
    ensures RedBlack(Repair(h, fuel))
  {
    if h.color != Black {
      PathOkRelax(h.path, 0);
      WfPlug(h.path, h.db);
      if |h.path| > 0 {
        PlugTop(h.path, h.db);
      }
    } else if |h.path| == 0 && h.db.Nil? {
    } else if IsRed(h.db) {
      WfPlug(h.path, Paint(h.db, Black));
      PaintRootBlackWf(Plug(h.path, Paint(h.db, Black)));
    } else {
      DeleteFixRb(h.path, Paint(h.db, DoublyBlack), fuel);
    }
  }

  /** Every frame of a path holds a key of the tree, so a path is shorter than the tree it climbs. */
  lemma {:induction false} PathShorter<A>(path: seq<Frame<A>>, t: Tree<A>)
    decreases |path|
    ensures |path| + |Inorder(t)| <= |Inorder(Plug(path, t))|
  {
    if |path| > 0 {
      PathShorter(path[1..], Attach(path[0], t));
    }
  }

  /** `del` on a red-black tree, given at least as many passes as the tree has keys, leaves a red-black tree. */
  lemma DelRedBlack(l: Loc<Color>, fuel: nat)
    requires l.focus.Node? && fuel >= |Inorder(Whole(l))|
    ensures RedBlack(Whole(l)) ==> RedBlack(Del(l, fuel))
  {
    if RedBlack(Whole(l)) {
      var h := Unhook(l);
      UnhookFits(l);
      PathShorter(h.path, h.db);
      PlugNode(l.path, l.focus);
      RepairRb(h, fuel);
    }
  }

  /** `erase(x)` as written: the root is left naming a destroyed node when x is a root with one child. */
  function EraseAsWritten(s: RbSet, x: int): (r: (RootAfter, bool))
    requires Ordered(s)
    ensures r.1 <==> x in Keys(s.root)
    ensures r.0.Root? ==> r.0.tree == Erase(s, x).0.root
    ensures r.0.Freed? ==> r.1 && s.root.key == x
  {
    FindMember(s.root, x);
    var l := Find(Loc([], s.root), x);
    if l.focus.Nil? then (Root(s.root), false)
    else
      var e: seq<Frame<Color>> := [];
      assert |l.path| == 0 ==> Plug(l.path, l.focus) == Plug(e, l.focus);
      (DelAsWritten(l, 2 * s.n), true)
  }

  /** A black root with one red child: 1 with 2 on its right, as inserting 1 and then 2 leaves it. */
  function RootWithChild(): (s: RbSet)
    ensures Ordered(s) && RedBlack(s.root) && Inorder(s.root) == [1, 2]
  {
    RbSet(Node(Nil, 1, Black, Node(Nil, 2, Red, Nil)), 2)
  }

  /** Erasing 1 from that tree: as written the root names the destroyed node, corrected it is the black 2. */
  lemma EraseRootDangles()
    ensures EraseAsWritten(RootWithChild(), 1) == (Freed, true)
    ensures Erase(RootWithChild(), 1) == (RbSet(Node(Nil, 2, Black, Nil), 1), true)
  {
    var s := RootWithChild();
    assert Find(Loc([], s.root), 1) == Loc([], s.root);
  }
}

=== FILE: rootish_stack.dfy ===
/**
 * RootishStack (src/array_like/rootish_stack.hpp): a sequence stored in
 * blocks of growing size, block b holding b + 1 slots, so that r blocks hold
 * Tri(r) = r(r + 1) / 2 slots.
 *
 * The blocks are laid end to end in `slots`: block b is
 * `slots[Tri(b)..Tri(b + 1)]`, and the first `n` slots hold the elements.
 */
module RootishStack {

  /** Content given to freshly allocated, unconstructed slots; never read before written. */
  const Raw: int := 0

  /** Number of slots in the first k blocks. */
  function Tri(k: nat): nat {
    if k == 0 then 0 else Tri(k - 1) + k
  }

  /** Block k adds k + 1 slots. */
  lemma TriStep(k: nat)
    ensures Tri(k + 1) == Tri(k) + k + 1
  {
  }

  /** `Tri` is the closed form `(k * (k + 1)) >> 1` the source computes. */
  lemma {:induction false} TriFormula(k: nat)
    ensures Tri(k) == k * (k + 1) / 2
  {
    if k > 0 {
      TriFormula(k - 1);
      assert k * (k + 1) == (k - 1) * k + 2 * k;
    }
  }

  lemma {:induction false} TriMonotone(a: nat, b: nat)
    requires a <= b
    ensures Tri(a) <= Tri(b)
    ensures a < b ==> Tri(a) + a < Tri(b)
    decreases b - a
  {
    if a < b {
      TriMonotone(a, b - 1);
      TriStep(b - 1);
    }
  }

  datatype Stack = Stack(r: nat, slots: seq<int>, n: nat)
  {
    /** `r` blocks of sizes 1, 2, ..., r laid end to end, and the size fits in them. */
    ghost predicate Valid() {
      |slots| == Tri(r) && n <= |slots|
    }

    /** Block b of the container: the b + 1 slots it owns. */
    function Block(b: nat): (blk: seq<int>)
      requires Valid() && b < r
      ensures |blk| == b + 1
    {
      TriMonotone(b + 1, r);
      slots[Tri(b)..Tri(b + 1)]
    }

    /** The elements in order. */
    function Elements(): seq<int>
      requires Valid()
    {
      slots[..n]
    }
  }

  /**
   * The integer meaning of `i2b(i) = ceil((-3 + sqrt(9 + 8i)) / 2)`: the block
   * b with Tri(b) <= i < Tri(b + 1), found by counting blocks up from `b`.
   */
  function BlockFrom(i: nat, b: nat): (r: nat)
    requires Tri(b) <= i
    decreases i - Tri(b)
    ensures Tri(r) <= i < Tri(r + 1)
  {
    TriStep(b);
    if i < Tri(b + 1) then b else BlockFrom(i, b + 1)
  }

  function I2B(i: nat): (b: nat)
    ensures Tri(b) <= i < Tri(b + 1)
  {
    BlockFrom(i, 0)
  }

  /** At most one block contains a given flat index. */
  lemma BlockUnique(i: nat, b: nat, c: nat)
    requires Tri(b) <= i < Tri(b + 1) && Tri(c) <= i < Tri(c + 1)
    ensures b == c
  {
    if b < c { TriMonotone(b + 1, c); }
    if c < b { TriMonotone(c + 1, b); }
  }

  /** A position (block, offset) inside the container, as `locate` and the iterator use it. */
  datatype Position = Position(block: nat, pos: nat)

  /** The flat slot index of a position: slots of earlier blocks plus the offset. */
  function Flat(p: Position): nat {
    Tri(p.block) + p.pos
  }

  /** `locate(index)`: block `i2b(index)` at offset `index - b(b + 1) / 2` . */
  function Locate(index: nat): (p: Position)
    ensures p.pos <= p.block
    ensures Flat(p) == index
  {
    var b := I2B(index);
    Position(b, index - Tri(b))
  }

  /** Every in-block position is what `locate` returns for its flat index. */
  lemma LocateFlat(p: Position)
    requires p.pos <= p.block
    ensures Locate(Flat(p)) == p
  {
    var q := Locate(Flat(p));
    BlockUnique(Flat(p), p.block, q.block);
  }

  /** The empty stack: no blocks. */
  function Empty(): (s: Stack)
    ensures s.Valid() && s.Elements() == [] && s.r == 0
  {
    Stack(0, [], 0)
  }

  /** `grow`: appends a block one slot larger than the last. */
  function Grow(s: Stack): (t: Stack)
    requires s.Valid()
    ensures t.Valid() && t.r == s.r + 1 && t.Block(s.r) == seq(s.r + 1, _ => Raw)
    ensures t.Elements() == s.Elements()
    ensures forall b :: 0 <= b < s.r ==> t.Block(b) == s.Block(b)
  {
    var t := Stack(s.r + 1, s.slots + seq(s.r + 1, _ => Raw), s.n);
    assert forall b :: 0 <= b < s.r ==> t.Block(b) == s.Block(b) by {
      forall b | 0 <= b < s.r
        ensures t.Block(b) == s.Block(b)
      {
        TriMonotone(b + 1, s.r);
      }
    }
    t
  }

  /**
   * The quantity `shrink` and `erase` compare with n: `((r - 2) * (r - 1)) >> 1`
   * in `size_t`.  For r >= 2 it is the slot count of the first r - 2 blocks;
   * for r = 1 the wrapped `r - 2` is multiplied by 0.
   */
  function SpareBound(r: nat): nat
    requires r > 0
  {
    if r == 1 then 0 else Tri(r - 2)
  }

  /** `shrink`: drops trailing blocks while the first r - 2 of them already hold all n elements. */
  function Shrink(s: Stack): (t: Stack)
    requires s.Valid()
    decreases s.r
    ensures t.Valid() && t.r <= s.r && t.n == s.n
    ensures |t.slots| <= |s.slots| && t.slots == s.slots[..|t.slots|]
    ensures t.Elements() == s.Elements()
    ensures t.r == 0 || SpareBound(t.r) < t.n
  {
    if s.r > 0 && SpareBound(s.r) >= s.n then
      TriMonotone(s.r - 1, s.r);
      Shrink(Stack(s.r - 1, s.slots[..Tri(s.r - 1)], s.n))
    else s
  }

  /**
   * The first step of `push_back`: a block is added when the r(r + 1) / 2
   * slots are full, so that there is a free slot past the elements.
   */
  function MakeRoom(s: Stack): (t: Stack)
    requires s.Valid()
    ensures t.Valid() && t.n == s.n && t.Elements() == s.Elements() && s.n < |t.slots|
    ensures t.r == if Tri(s.r) == s.n then s.r + 1 else s.r
  {
    if Tri(s.r) < s.n + 1 then
      TriStep(s.r);
      Grow(s)
    else s
  }

  /** `push_back`: makes room, then constructs the value at `locate(n)`. */
  function PushBack(s: Stack, x: int): (t: Stack)
    requires s.Valid()
    ensures t.Valid() && t.Elements() == s.Elements() + [x]
    ensures t.n == s.n + 1
    ensures t.r == if Tri(s.r) == s.n then s.r + 1 else s.r
  {
    var s1 := MakeRoom(s);
    // The value is constructed at `locate(n)`, whose flat index is n.
    var slots := s1.slots[s1.n := x];
    assert Flat(Locate(s1.n)) == s1.n;
    assert slots[..s.n + 1] == s1.slots[..s.n] + [x];
    Stack(s1.r, slots, s1.n + 1)
  }

  /** `operator[]`: the slot `locate(index)` names. */
  function At(s: Stack, index: nat): (x: int)
    requires s.Valid() && index < s.n
    ensures x == s.Elements()[index]
  {
    var p := Locate(index);
    s.slots[Flat(p)]
  }

  /**
   * `erase(index)`: every slot after `index`, up to the end of the last
   * block, moves one slot left; the size drops by one and spare blocks are
   * released.  The source does not check `index` against the size.
   */
  function Erase(s: Stack, index: nat): (t: Stack)
    requires s.Valid() && index < s.n
    ensures t.Valid() && t.n == s.n - 1
    ensures t.Elements() == s.Elements()[..index] + s.Elements()[index + 1..]
  {
    var moved := s.slots[..index] + s.slots[index + 1..] + [s.slots[|s.slots| - 1]];
    assert moved[..s.n - 1] == s.Elements()[..index] + s.Elements()[index + 1..];
    var s1 := Stack(s.r, moved, s.n - 1);
    if SpareBound(s.r) >= s1.n then Shrink(s1) else s1
  }

  /** `clear`: releases every block. */
  function Clear(s: Stack): (t: Stack)
    ensures t.Valid() && t.Elements() == [] && t.r == 0
  {
    Empty()
  }

  /** Iterator `++`: next offset within the block, or the start of the next block. */
  function Next(p: Position): (q: Position)
    requires p.pos <= p.block
    ensures q.pos <= q.block
    ensures Flat(q) == Flat(p) + 1
  {
    TriStep(p.block);
    if p.pos < p.block then Position(p.block, p.pos + 1) else Position(p.block + 1, 0)
  }

  lemma SliceCons(xs: seq<int>, i: nat, j: nat)
    requires i < j <= |xs|
    ensures xs[i..j] == [xs[i]] + xs[i + 1..j]
  {
  }

  lemma TakeDrop(xs: seq<int>, k: nat)
    requires k <= |xs|
    ensures xs[..k] + xs[k..] == xs
  {
  }

  /** The values an iterator visits in `k` steps of `++` from `p`. */
  function Walk(s: Stack, p: Position, k: nat): (vs: seq<int>)
    requires p.pos <= p.block && Flat(p) + k <= |s.slots|
    decreases k
    ensures |vs| == k
  {
    if k == 0 then [] else [s.slots[Flat(p)]] + Walk(s, Next(p), k - 1)
  }

  /** `k` steps of `++` from `p` visit the next `k` slots, in order. */
  lemma {:induction false} WalkVisitsSlots(s: Stack, p: Position, k: nat)
    requires p.pos <= p.block && Flat(p) + k <= |s.slots|
    decreases k
    ensures Walk(s, p, k) == s.slots[Flat(p)..Flat(p) + k]
  {
    if k > 0 {
      var f, q := Flat(p), Next(p);
      assert Flat(q) == f + 1;
      WalkVisitsSlots(s, q, k - 1);
      assert Walk(s, p, k) == [s.slots[f]] + Walk(s, q, k - 1);
      SliceCons(s.slots, f, f + k);
    }
  }

  /** `end()` as written: the first position past the last block. */
  function EndAsWritten(s: Stack): (p: Position)
    requires s.Valid()
    ensures Flat(p) == |s.slots|
  {
    Position(s.r, 0)
  }

  /** `end()` as evidently intended: the position of the first slot past the elements. */
  function End(s: Stack): (p: Position)
    requires s.Valid()
    ensures Flat(p) == s.n && p.pos <= p.block
  {
    Locate(s.n)
  }

  /**
   * Iterating from `begin()` (the only in-block position at flat index 0) to
   * the intended end, n steps of `++`, visits exactly the elements, in order.
   */
  lemma IterationYieldsElements(s: Stack, p: Position)
    requires s.Valid() && p.pos <= p.block && Flat(p) == 0
    ensures Walk(s, p, Flat(End(s))) == s.Elements()
  {
    WalkVisitsSlots(s, p, s.n);
  }

  /**
   * So iteration from `begin()` (the only in-block position at flat index 0)
   * to `end()` as written, at flat index `|slots|`, runs over every slot of
   * every block: after the elements it reads the slots at flat index n and
   * beyond, which hold no element whenever the last block has a free slot.
   */
  lemma EndAsWrittenOvershoots(s: Stack, p: Position)
    requires s.Valid() && p.pos <= p.block && Flat(p) == 0
    ensures Walk(s, p, |s.slots|) == s.Elements() + s.slots[s.n..]
    ensures s.n < |s.slots| ==> |Walk(s, p, |s.slots|)| > |s.Elements()|
  {
    WalkAllSlots(s, p);
    TakeDrop(s.slots, s.n);
  }

  /** Steps of `++` from flat index 0 over the whole storage read every slot. */
  lemma WalkAllSlots(s: Stack, p: Position)
    requires p.pos <= p.block && Flat(p) == 0
    ensures Walk(s, p, |s.slots|) == s.slots
  {
    WalkVisitsSlots(s, p, |s.slots|);
    assert s.slots[0..|s.slots|] == s.slots;
  }

  /**
   * Two pushes leave two blocks, three slots and two elements: iterating
   * to `end()` as written reads the spare third slot after 1 and 2.
   */
  lemma TwoPushesOvershoot(p: Position)
    requires p.pos <= p.block && Flat(p) == 0
    ensures var s := PushBack(PushBack(Empty(), 1), 2);
      s.r == 2 && s.slots == [1, 2, Raw] && s.Elements() == [1, 2] &&
      Walk(s, p, Flat(EndAsWritten(s))) == s.Elements() + [Raw]
  {
    TwoPushes();
    var s := PushBack(PushBack(Empty(), 1), 2);
    SpareSlotRead(s, p);
  }

  /** Two pushes onto an empty stack: blocks [1] and [2, spare]. */
  lemma TwoPushes()
    ensures PushBack(PushBack(Empty(), 1), 2) == Stack(2, [1, 2, Raw], 2)
    ensures PushBack(PushBack(Empty(), 1), 2).Elements() == [1, 2]
  {
    assert Tri(0) == 0 && Tri(1) == 1 && Tri(2) == 3;
    assert seq(1, _ => Raw) == [Raw] && seq(2, _ => Raw) == [Raw, Raw];
    assert MakeRoom(Empty()) == Stack(1, [Raw], 0);
    var s1 := PushBack(Empty(), 1);
    assert s1 == Stack(1, [1], 1);
    assert MakeRoom(s1) == Stack(2, [1, Raw, Raw], 1);
  }

  /** With two blocks and two elements, the as-written walk reads the elements, then slot 2. */
  lemma SpareSlotRead(s: Stack, p: Position)
    requires s.r == 2 && |s.slots| == 3 && s.n == 2
    requires p.pos <= p.block && Flat(p) == 0
    ensures s.Valid() && |s.Elements()| == 2
    ensures Walk(s, p, Flat(EndAsWritten(s))) == s.Elements() + [s.slots[2]]
  {
    assert Tri(2) == 3;
    EndAsWrittenOvershoots(s, p);
    assert s.slots[s.n..] == [s.slots[2]];
  }
}

=== FILE: scapegoat.dfy ===
/**
 * ScapeGoat (src/binary_tree/scapegoat.hpp): a search tree kept shallow by
 * rebuilding whole subtrees.  Nodes carry their subtree's weight; `q` is an
 * upper bound on the element count that is only reset when the whole tree
 * is rebuilt or emptied.
 */
module ScapeGoat {
  import opened Sequences
  import opened Bits
  import opened Trees
  import opened BinaryTreeBase

  datatype ScapeGoatTree = ScapeGoatTree(root: WTree, n: nat, q: nat)

  /** Keys strictly ascending, weights correct, `n` the element count and `q` at least `n`. */
  ghost predicate Valid(s: ScapeGoatTree) {
    Ascending(Inorder(s.root)) && Weighted(s.root) && s.n == |Inorder(s.root)| && s.n <= s.q
  }

  function Pow3(k: nat): (p: nat)
    ensures p >= 1
  {
    if k == 0 then 1 else 3 * Pow3(k - 1)
  }

  /** Powers of 3/2 outgrow their exponent: j 2^j < 3^j. */
  lemma {:induction false} PowGap(j: nat)
    requires j >= 1
    ensures j * Pow2(j) < Pow3(j)
  {
    if j > 2 {
      PowGap(j - 1);
      var a, b := Pow2(j - 1), Pow3(j - 1);
      assert (j - 1) * a == j * a - a;
      assert j * a >= 3 * a by {
        MulMonotone(3, j, a);
      }
      assert j * Pow2(j) == 2 * (j * a);
    } else if j == 2 {
      assert Pow2(2) == 4 && Pow3(2) == 9;
    } else {
      assert Pow2(1) == 2 && Pow3(1) == 3;
    }
  }

  lemma MulMonotone(x: nat, y: nat, c: nat)
    requires x <= y
    ensures x * c <= y * c
  {
  }

  /** The largest f at least k with (3/2)^f <= q, found by counting up from k. */
  function Log32(q: nat, k: nat): (f: nat)
    requires q >= 1 && k <= q && Pow3(k) <= q * Pow2(k)
    decreases q - k
    ensures k <= f <= q
    ensures Pow3(f) <= q * Pow2(f) && q * Pow2(f + 1) < Pow3(f + 1)
  {
    if Pow3(k + 1) <= q * Pow2(k + 1) then
      PowGap(k + 1);
      assert (k + 1) * Pow2(k + 1) < q * Pow2(k + 1);
      Log32(q, k + 1)
    else k
  }

  /**
   * `factor(q)`: (int)(2.4663034623764317 * log q).  The constant is
   * 1 / ln 1.5, so the value is the floor of the logarithm of q to base
   * 3/2: (3/2)^f <= q < (3/2)^(f+1).  From two elements on it is at least 1.
   */
  function Factor(q: nat): (f: nat)
    requires q >= 1
    ensures Pow3(f) <= q * Pow2(f) && q * Pow2(f + 1) < Pow3(f + 1)
    ensures q >= 2 ==> f >= 1
  {
    assert Pow2(1) == 2 && Pow3(1) == 3;
    Log32(q, 0)
  }

  /** No node's subtrees differ in weight by more than one. */
  ghost predicate Balanced(t: WTree) {
    t.Nil? || (Balanced(t.left) && Balanced(t.right) &&
      -1 <= Weight(t.left) - Weight(t.right) <= 1)
  }

  function Height(t: WTree): nat {
    if t.Nil? then 0 else 1 + (if Height(t.left) < Height(t.right) then Height(t.right) else Height(t.left))
  }

  /** `pack(u, array, i)`: the subtree's nodes appended to the array in symmetric order. */
  function Pack(t: WTree, acc: seq<int>): (r: seq<int>)
    ensures r == acc + Inorder(t)
  {
    if t.Nil? then acc
    else
      var l := Pack(t.left, acc) + [t.key];
      assert l == acc + (Inorder(t.left) + [t.key]);
      Pack(t.right, l)
  }

  /**
   * `rebuild(a, i, ns)`: the middle element `a[i + ns/2]` as root over the
   * two halves rebuilt the same way, weights recomputed.
   */
  function Build(a: seq<int>): (r: WTree)
    decreases |a|
    ensures Inorder(r) == a && Weighted(r) && Balanced(r)
  {
    if |a| == 0 then Nil
    else
      var m := |a| / 2;
      var l, w := Build(a[..m]), Build(a[m + 1..]);
      assert a == a[..m] + [a[m]] + a[m + 1..];
      UpdateCounts(l, a[m], w);
      WeightIsSize(l);
      WeightIsSize(w);
      Update(l, a[m], w)
  }

  /** `rebuild(u)` on one subtree: its nodes packed in order and built up again. */
  function Rebuilt(u: WTree): (b: WTree)
    ensures Inorder(b) == Inorder(u) && Weighted(b) && Balanced(b)
  {
    var a := Pack(u, []);
    assert a == Inorder(u);
    Build(a)
  }

  /** A balanced tree of weight w has height at most log2 w + 1: 2^height <= 2w. */
  lemma {:induction false} BalancedHeight(t: WTree)
    requires Weighted(t) && Balanced(t) && t.Node?
    ensures Pow2(Height(t)) <= 2 * Weight(t)
  {
    var l, r := t.left, t.right;
    if l.Node? {
      BalancedHeight(l);
    }
    if r.Node? {
      BalancedHeight(r);
    }
    assert Pow2(Height(t)) == 2 * Pow2(Height(t) - 1);
    if l.Nil? && r.Node? {
      assert Weight(r) <= 1 && r.left.Nil? && r.right.Nil?;
    } else if r.Nil? && l.Node? {
      assert Weight(l) <= 1 && l.left.Nil? && l.right.Nil?;
    }
  }

  /** The subtree `k` levels up from `t` after `bottom_up_update` along `path`. */
  function Level(path: seq<Frame<nat>>, t: WTree, k: nat): WTree
    requires k <= |path|
  {
    if k == 0 then t else Fix(path[k - 1], Level(path, t, k - 1))
  }

  /** Updating the first k levels and then the rest is updating the whole way up. */
  lemma {:induction false} RebuildLevel(path: seq<Frame<nat>>, t: WTree, k: nat)
    requires k <= |path|
    decreases k, 1
    ensures Rebuild(path, t) == Rebuild(path[k..], Level(path, t, k))
  {
    if k > 0 {
      RebuildLevelUp(path, t, k);
    } else {
      LevelZero(path, t);
    }
  }

  /** The inductive step of RebuildLevel: levels up to k - 1, then level k. */
  lemma {:induction false} RebuildLevelUp(path: seq<Frame<nat>>, t: WTree, k: nat)
    requires 0 < k <= |path|
    decreases k, 0
    ensures Rebuild(path, t) == Rebuild(path[k..], Level(path, t, k))
  {
    RebuildLevel(path, t, k - 1);
    LevelStep(path, t, k);
  }

  /** Level zero is the subtree itself, rebuilt from its own position. */
  lemma LevelZero(path: seq<Frame<nat>>, t: WTree)
    ensures Rebuild(path, t) == Rebuild(path[0..], Level(path, t, 0))
  {
    assert path[0..] == path;
  }

  /** Rebuilding from level k - 1 is fixing level k and rebuilding from there. */
  lemma LevelStep(path: seq<Frame<nat>>, t: WTree, k: nat)
    requires 0 < k <= |path|
    ensures Rebuild(path[k - 1..], Level(path, t, k - 1)) == Rebuild(path[k..], Level(path, t, k))
  {
    var u, p := Level(path, t, k - 1), path[k - 1..];
    assert p[0] == path[k - 1] && p[1..] == path[k..];
    RebuildStep(p, u);
  }

  /**
   * The loop of `insert` that looks for the scapegoat: w starts at the new
   * node's father (frame 0) and climbs while it has a grandfather and
   * 3 * weight(w) <= 2 * weight(father); the answer is w's level.
   */
  function Climb(path: seq<Frame<nat>>, t: WTree, i: nat): (j: nat)
    requires i + 2 <= |path|
    decreases |path| - i
    ensures i <= j && j + 2 <= |path|
    ensures j + 2 < |path| ==> 3 * Weight(Level(path, t, j + 1)) > 2 * Weight(Level(path, t, j + 2))
  {
    if i + 2 < |path| && 3 * Weight(Level(path, t, i + 1)) <= 2 * Weight(Level(path, t, i + 2))
    then Climb(path, t, i + 1)
    else i
  }

  /** `rebuild(w->parent)`: the subtree at level k replaced by its rebuilt copy. */
  function RebuildAt(path: seq<Frame<nat>>, t: WTree, k: nat): (r: WTree)
    requires k <= |path|
    ensures Inorder(r) == Inorder(Rebuild(path, t))
    ensures PathWeighted(path) ==> Weighted(r)
  {
    RebuildLevel(path, t, k);
    var u := Level(path, t, k);
    var b := Rebuilt(u);
    SameKeysUp(path[k..], b, u);
    SuffixWeighted(path, k);
    Rebuild(path[k..], b)
  }

  /** Subtrees with the same keys put back at the same position give the same keys. */
  lemma SameKeysUp(path: seq<Frame<nat>>, u: WTree, v: WTree)
    requires Inorder(u) == Inorder(v)
    ensures Inorder(Rebuild(path, u)) == Inorder(Rebuild(path, v))
  {
  }

  lemma SuffixWeighted(path: seq<Frame<nat>>, k: nat)
    requires k <= |path|
    ensures PathWeighted(path) ==> PathWeighted(path[k..])
  {
    if PathWeighted(path) {
      forall i | 0 <= i < |path[k..]| ensures Weighted(path[k..][i].other) {
        assert path[k..][i] == path[k + i];
      }
    }
  }

  /**
   * `insert(x)`: `find_position` descends to the empty slot for x, counting
   * the depth d, and gives up on an equal key; otherwise n and q grow, the
   * new node is hung there with weights updated up to the root, and when
   * d > factor(q) the scapegoat the climb finds is rebuilt.  With q >= 2
   * factor(q) >= 1, so a rebuild only happens at depth 2 or more and the
   * scapegoat always exists.
   */
  function Insert(s: ScapeGoatTree, x: int): (r: (ScapeGoatTree, bool))
    requires Valid(s)
    ensures Valid(r.0) && Keys(r.0.root) == Keys(s.root) + {x}
    ensures r.1 <==> x !in Keys(s.root)
    ensures r.1 ==> r.0.n == s.n + 1 && r.0.q == s.q + 1
    ensures !r.1 ==> r.0 == s
  {
    FindMember(s.root, x);
    var l := Find(Loc([], s.root), x);
    if l.focus.Node? then (s, false)
    else (InsertAt(s, l, x), true)
  }

  /** The insertion once the search has ended in an empty slot: x joins the keys, n and q grow by one. */
  function InsertAt(s: ScapeGoatTree, l: Loc<nat>, x: int): (r: ScapeGoatTree)
    requires Valid(s) && Whole(l) == s.root && l.focus.Nil?
    requires AllBelow(Before(l.path), x) && AllAbove(After(l.path), x)
    ensures Valid(r) && Keys(r.root) == Keys(s.root) + {x}
    ensures r.n == s.n + 1 && r.q == s.q + 1
  {
    var leaf := Node(Nil, x, 1, Nil);
    InsertLeaf(s, l, leaf);
    var t := Hang(s, l, leaf);
    ElemsInsert(Before(l.path), x, After(l.path));
    ScapeGoatTree(t, s.n + 1, s.q + 1)
  }

  /**
   * The new leaf hung in the slot the search ended in, weights updated up to
   * the root, and the scapegoat the climb finds rebuilt when the slot lies
   * deeper than factor(q + 1).
   */
  function Hang(s: ScapeGoatTree, l: Loc<nat>, leaf: WTree): (t: WTree)
    requires Valid(s) && Whole(l) == s.root && l.focus.Nil? && leaf.Node?
    requires PathWeighted(l.path) && Weighted(leaf)
    ensures Inorder(t) == Before(l.path) + Inorder(leaf) + After(l.path)
    ensures Weighted(t)
  {
    if |l.path| > Factor(s.q + 1) then
      NonEmptyDepth(s, l);
      RebuildAt(l.path, leaf, Climb(l.path, leaf, 0) + 2)
    else Rebuild(l.path, leaf)
  }

  /** A slot below the root of a non-empty tree lies deeper than the factor of q = n + 1 >= 2 when it lies deeper than 1. */
  lemma NonEmptyDepth(s: ScapeGoatTree, l: Loc<nat>)
    requires Valid(s) && Whole(l) == s.root && l.focus.Nil? && |l.path| > Factor(s.q + 1)
    ensures |l.path| >= 2
  {
    if |l.path| > 0 {
      PlugNil(l.path);
      assert |Before(l.path)| + |After(l.path)| >= 1;
    }
  }

  /** Hanging the new leaf in the slot the search ended in. */
  lemma InsertLeaf(s: ScapeGoatTree, l: Loc<nat>, leaf: WTree)
    requires Valid(s) && Whole(l) == s.root && l.focus.Nil? && leaf.Node?
    requires leaf == Node(Nil, leaf.key, 1, Nil)
    requires AllBelow(Before(l.path), leaf.key) && AllAbove(After(l.path), leaf.key)
    ensures Inorder(s.root) == Before(l.path) + After(l.path)
    ensures Inorder(Rebuild(l.path, leaf)) == Before(l.path) + [leaf.key] + After(l.path)
    ensures Ascending(Before(l.path) + [leaf.key] + After(l.path))
    ensures PathWeighted(l.path) && Weighted(Rebuild(l.path, leaf))
  {
    PlugNil(l.path);
    LeafWeighted(l.path, leaf);
    InsertAscending(Before(l.path), leaf.key, After(l.path));
  }

  /** A fresh leaf of weight one hung in an empty slot of a weighted tree leaves every weight right. */
  lemma LeafWeighted(path: seq<Frame<nat>>, leaf: WTree)
    requires Weighted(Plug(path, Nil)) && leaf.Node? && leaf == Node(Nil, leaf.key, 1, Nil)
    ensures PathWeighted(path) && Weighted(Rebuild(path, leaf))
  {
    WeightedAt(path, Nil);
  }

  /**
   * `erase(x)`: the base class's erase, which lowers n; then an empty tree
   * resets q, and a tree with fewer than half of q elements is rebuilt
   * whole with q reset to n.
   */
  function Erase(s: ScapeGoatTree, x: int): (r: (ScapeGoatTree, bool))
    requires Valid(s)
    ensures Valid(r.0) && Keys(r.0.root) == Keys(s.root) - {x}
    ensures r.1 <==> x in Keys(s.root)
    ensures r.1 ==> r.0.n + 1 == s.n
    ensures !r.1 ==> r.0 == s
    ensures r.1 && r.0.n == 0 ==> r.0.q == 0
    ensures r.1 && r.0.n > 0 && 2 * r.0.n < s.q ==> r.0.q == r.0.n && Balanced(r.0.root)
    ensures r.1 && r.0.n > 0 && 2 * r.0.n >= s.q ==> r.0.q == s.q
  {
    if !Contains(s.root, x) then (s, false)
    else
      var t := BinaryTreeBase.Erase(s.root, x);
      EraseKeys(s.root, t, x);
      (Shrink(s, t), true)
  }

  /**
   * What `erase` does once the base class has taken the node out: an empty
   * tree resets q, and fewer than half of q elements rebuild the tree whole.
   */
  function Shrink(s: ScapeGoatTree, t: WTree): (r: ScapeGoatTree)
    requires Weighted(t) && Ascending(Inorder(t)) && |Inorder(t)| + 1 == s.n <= s.q
    requires t.Nil? <==> |Inorder(t)| == 0
    ensures Valid(r) && Keys(r.root) == Keys(t) && r.n + 1 == s.n
    ensures r.n == 0 ==> r.q == 0
    ensures r.n > 0 && 2 * r.n < s.q ==> r.q == r.n && Balanced(r.root)
    ensures r.n > 0 && 2 * r.n >= s.q ==> r.q == s.q
  {
    if t.Nil? then ScapeGoatTree(t, s.n - 1, 0)
    else if 2 * (s.n - 1) < s.q then ScapeGoatTree(Rebuilt(t), s.n - 1, s.n - 1)
    else ScapeGoatTree(t, s.n - 1, s.q)
  }

  /** What the base erase leaves of a tree with strictly ascending keys. */
  lemma EraseKeys(t: WTree, r: WTree, x: int)
    requires Ascending(Inorder(t)) && x in Inorder(t)
    requires NonDecreasing(Inorder(r)) && multiset(Inorder(r)) == multiset(Inorder(t)) - multiset{x}
    ensures Ascending(Inorder(r)) && Keys(r) == Keys(t) - {x} && |Inorder(r)| + 1 == |Inorder(t)|
    ensures r.Nil? <==> |Inorder(r)| == 0
  {
    SubAscending(Inorder(r), Inorder(t));
    ElemsMinus(Inorder(r), Inorder(t), x);
  }
}

=== FILE: sequences.dfy ===
/** Facts about sequences shared by the list, set and heap models. */
module Sequences {

  /** No value occurs twice. */
  ghost predicate Distinct<T>(s: seq<T>) {
    forall i, j :: 0 <= i < j < |s| ==> s[i] != s[j]
  }

  /** Strictly ascending. */
  ghost predicate Ascending(s: seq<int>) {
    forall i, j :: 0 <= i < j < |s| ==> s[i] < s[j]
  }

  /** Ascending, equal values allowed. */
  ghost predicate NonDecreasing(s: seq<int>) {
    forall i, j :: 0 <= i < j < |s| ==> s[i] <= s[j]
  }

  function Reverse<T>(s: seq<T>): (r: seq<T>)
    ensures |r| == |s|
    ensures forall i :: 0 <= i < |s| ==> r[i] == s[|s| - 1 - i]
  {
    if s == [] then [] else Reverse(s[1..]) + [s[0]]
  }

  /** The values of a sequence as a set. */
  ghost function Elems(s: seq<int>): set<int> {
    set y | y in s
  }

  lemma ElemsConcat(a: seq<int>, b: seq<int>)
    ensures Elems(a + b) == Elems(a) + Elems(b)
  {
  }

  lemma ElemsConcat3(a: seq<int>, m: seq<int>, b: seq<int>)
    ensures Elems(a + m + b) == Elems(a) + Elems(m) + Elems(b)
  {
    ElemsConcat(a + m, b);
    ElemsConcat(a, m);
  }

  lemma ElemsSingle(x: int)
    ensures Elems([x]) == {x}
  {
  }

  /** Concatenation is associative. */
  lemma Assoc<T>(a: seq<T>, b: seq<T>, c: seq<T>)
    ensures a + (b + c) == (a + b) + c
  {
  }

  /** A sequence is what comes before position k, the element there, and what follows. */
  lemma SplitAt<T>(s: seq<T>, k: nat)
    requires k < |s|
    ensures s == s[..k] + ([s[k]] + s[k + 1..])
  {
    assert s[k..] == [s[k]] + s[k + 1..];
    assert s == s[..k] + s[k..];
  }

  /** Updating position k replaces just the element between what comes before and what follows. */
  lemma SplitUpdate<T>(s: seq<T>, k: nat, v: T)
    requires k < |s|
    ensures s[k := v] == s[..k] + ([v] + s[k + 1..])
  {
    assert s[k := v][..k] == s[..k] && s[k := v][k + 1..] == s[k + 1..];
    SplitAt(s[k := v], k);
  }

  /** Regrouping a sequence spliced between two others around the first of its three parts. */
  lemma SpliceRegroup<T>(b: seq<T>, l: seq<T>, m: seq<T>, r: seq<T>, a: seq<T>)
    ensures b + (l + m + r) + a == (b + l) + ((m + r) + a)
  {
    assert b + (l + m + r) + a == b + l + m + r + a;
    assert (b + l) + ((m + r) + a) == b + l + m + r + a;
  }

  /** A strictly ascending sequence has as many distinct values as elements. */
  lemma {:induction false} AscendingCard(s: seq<int>)
    requires Ascending(s)
    ensures |Elems(s)| == |s|
  {
    if s != [] {
      var t := s[1..];
      assert Ascending(t) by {
        forall i, j | 0 <= i < j < |t| ensures t[i] < t[j] {
          assert t[i] == s[i + 1] && t[j] == s[j + 1];
        }
      }
      AscendingCard(t);
      assert Elems(s) == Elems(t) + {s[0]} by {
        forall v ensures v in Elems(s) <==> v in Elems(t) + {s[0]} {
          if v in Elems(s) && v != s[0] {
            var i :| 0 <= i < |s| && s[i] == v;
            assert t[i - 1] == v;
          }
        }
      }
      assert s[0] !in Elems(t) by {
        forall i | 0 <= i < |t| ensures t[i] != s[0] {
          assert t[i] == s[i + 1];
        }
      }
    }
  }

  /** The values of a sequence with one value put in. */
  lemma ElemsInsert(b: seq<int>, x: int, a: seq<int>)
    ensures Elems(b + [x] + a) == Elems(b + a) + {x} && |b + [x] + a| == |b + a| + 1
  {
    ElemsConcat3(b, [x], a);
    ElemsConcat(b, a);
  }

  /** The values of a sequence with its only copy of x taken out. */
  lemma ElemsRemove(b: seq<int>, x: int, a: seq<int>)
    requires x !in b + a
    ensures Elems(b + a) == Elems(b + [x] + a) - {x}
  {
    ElemsConcat3(b, [x], a);
    ElemsConcat(b, a);
  }

  /** In a strictly ascending sequence no value occurs twice. */
  lemma {:induction false} AscendingCount(s: seq<int>, v: int)
    requires Ascending(s)
    ensures multiset(s)[v] <= 1
  {
    if s != [] {
      var t := s[1..];
      assert s == [s[0]] + t;
      assert Ascending(t) by {
        forall i, j | 0 <= i < j < |t| ensures t[i] < t[j] {
          assert t[i] == s[i + 1] && t[j] == s[j + 1];
        }
      }
      AscendingCount(t, v);
      if s[0] == v {
        assert v !in t by {
          forall i | 0 <= i < |t| ensures t[i] != v {
            assert t[i] == s[i + 1];
          }
        }
      }
    }
  }

  /** A non-decreasing sequence whose values all come from a strictly ascending one, no more often, is strictly ascending. */
  lemma SubAscending(s: seq<int>, t: seq<int>)
    requires NonDecreasing(s) && Ascending(t) && multiset(s) <= multiset(t)
    ensures Ascending(s)
  {
    forall i, j | 0 <= i < j < |s| ensures s[i] < s[j] {
      if s[i] == s[j] {
        var v := s[i];
        assert s == s[..j] + s[j..];
        assert s[..j][i] == v && s[j..][0] == v;
        assert multiset(s) == multiset(s[..j]) + multiset(s[j..]);
        assert multiset(s)[v] >= 2;
        AscendingCount(t, v);
        assert false;
      }
    }
  }

  /** Taking one copy of x out of a strictly ascending sequence's values takes x out of its set. */
  lemma ElemsMinus(s: seq<int>, t: seq<int>, x: int)
    requires Ascending(t) && multiset(s) == multiset(t) - multiset{x}
    ensures Elems(s) == Elems(t) - {x} && (x in t ==> |s| + 1 == |t|) && (x !in t ==> |s| == |t|)
  {
    AscendingCount(t, x);
    forall k ensures k in Elems(s) <==> k in Elems(t) - {x} {
      assert k in s <==> k in multiset(s);
      assert k in t <==> k in multiset(t);
    }
    assert |multiset(s)| == |s| && |multiset(t)| == |t|;
  }

  /** A value no larger than any of a sorted sequence's keeps it sorted at the front. */
  lemma SortedCons(x: int, s: seq<int>)
    requires NonDecreasing(s) && forall y :: y in multiset(s) ==> x <= y
    ensures NonDecreasing([x] + s)
  {
    forall i | 0 <= i < |s| ensures x <= s[i] {
      assert s[i] in multiset(s);
    }
  }

  /**
   * A left-to-right scan for the least element that moves only on a
   * strictly smaller one, resumed at index i with best the first index of
   * the least of s[..i]: the first index of the least element of s.
   */
  function FirstMinFrom(s: seq<int>, i: nat, best: nat): (k: nat)
    requires best < i <= |s|
    requires forall j :: 0 <= j < i ==> s[best] <= s[j]
    requires forall j :: 0 <= j < best ==> s[best] < s[j]
    decreases |s| - i
    ensures k < |s| && forall j :: 0 <= j < |s| ==> s[k] <= s[j]
    ensures forall j :: 0 <= j < k ==> s[k] < s[j]
  {
    if i == |s| then best
    else FirstMinFrom(s, i + 1, if s[i] < s[best] then i else best)
  }

  /** The first index of the least element. */
  function FirstMin(s: seq<int>): (k: nat)
    requires |s| > 0
    ensures k < |s| && forall j :: 0 <= j < |s| ==> s[k] <= s[j]
    ensures forall j :: 0 <= j < k ==> s[k] < s[j]
  {
    FirstMinFrom(s, 1, 0)
  }
}

=== FILE: single_list.dfy ===
/**
 * SingleList (src/list_based/single_linked_list.hpp): a singly linked list
 * with head and tail pointers and a size counter.
 *
 * Nodes live in a heap of integer addresses, so that the pointer defects of
 * the source (assignments written as comparisons) can be stated: `Null` is
 * the null pointer, and an address absent from `heap` has been freed.
 */
module SingleList {
  import opened Wrappers
  import opened Sequences

  type Addr = int

  const Null: Addr := 0

  datatype Node = Node(value: int, next: Addr)

  /**
   * The `k` addresses met by following `next` from `a`, or None when a null
   * or freed address is met before `k` nodes were visited.
   */
  function Spine(heap: map<Addr, Node>, a: Addr, k: nat): (r: Option<seq<Addr>>)
    decreases k
    ensures r.Some? ==> |r.value| == k && forall i :: 0 <= i < k ==> r.value[i] in heap
  {
    if k == 0 then Some([])
    else if a == Null || a !in heap then None
    else match Spine(heap, heap[a].next, k - 1)
      case None => None
      case Some(rest) => Some([a] + rest)
  }

  /** `sp` is a chain of live nodes starting at `a`, each linked to the next. */
  ghost predicate IsChain(heap: map<Addr, Node>, a: Addr, sp: seq<Addr>) {
    (|sp| > 0 ==> sp[0] == a) &&
    forall i :: 0 <= i < |sp| ==>
      sp[i] != Null && sp[i] in heap && (i + 1 < |sp| ==> heap[sp[i]].next == sp[i + 1])
  }

  /** What following the links finds is a chain... */
  lemma {:induction false} SpineIsChain(heap: map<Addr, Node>, a: Addr, k: nat)
    requires Spine(heap, a, k).Some?
    ensures |Spine(heap, a, k).value| == k
    ensures IsChain(heap, a, Spine(heap, a, k).value)
    decreases k
  {
    if k > 0 {
      SpineIsChain(heap, heap[a].next, k - 1);
    }
  }

  /** ...and every chain is what following the links finds. */
  lemma {:induction false} ChainIsSpine(heap: map<Addr, Node>, a: Addr, sp: seq<Addr>)
    requires IsChain(heap, a, sp)
    ensures Spine(heap, a, |sp|) == Some(sp)
    decreases |sp|
  {
    if |sp| > 0 {
      if |sp| > 1 {
        assert IsChain(heap, heap[a].next, sp[1..]);
      }
      ChainIsSpine(heap, heap[a].next, sp[1..]);
      assert [a] + sp[1..] == sp;
    }
  }

  /** A chain whose last node links to null cannot be followed one node further. */
  lemma {:induction false} ChainStopsAtNull(heap: map<Addr, Node>, a: Addr, sp: seq<Addr>)
    requires IsChain(heap, a, sp) && |sp| > 0 && heap[sp[|sp| - 1]].next == Null
    ensures Spine(heap, a, |sp| + 1) == None
    decreases |sp|
  {
    if |sp| > 1 {
      assert IsChain(heap, heap[a].next, sp[1..]);
      ChainStopsAtNull(heap, heap[a].next, sp[1..]);
    }
  }

  /** The values stored at the addresses `sp`. */
  function Values(heap: map<Addr, Node>, sp: seq<Addr>): (vs: seq<int>)
    requires forall i :: 0 <= i < |sp| ==> sp[i] in heap
    ensures |vs| == |sp|
  {
    seq(|sp|, i requires 0 <= i < |sp| => heap[sp[i]].value)
  }

  datatype List = List(heap: map<Addr, Node>, head: Addr, tail: Addr, size: nat)
  {
    /**
     * `size` nodes are reachable from `head`, all distinct; the last of them
     * is `tail` and links to null; an empty list has a null head.
     */
    ghost predicate Valid() {
      Spine(heap, head, size).Some? &&
      Distinct(Spine(heap, head, size).value) &&
      (size == 0 ==> head == Null) &&
      (size > 0 ==> |Spine(heap, head, size).value| == size &&
                    tail == Spine(heap, head, size).value[size - 1] &&
                    tail in heap && heap[tail].next == Null)
    }

    /** The addresses of the nodes, from head to tail. */
    ghost function Nodes(): (sp: seq<Addr>)
      requires Valid()
      ensures |sp| == size && IsChain(heap, head, sp) && Distinct(sp)
    {
      SpineIsChain(heap, head, size);
      Spine(heap, head, size).value
    }

    /** The values of the list, from head to tail. */
    ghost function Elements(): seq<int>
      requires Valid()
    {
      Values(heap, Nodes())
    }
  }

  /** A default-constructed list. */
  function Empty(): (l: List)
    ensures l.Valid() && l.Elements() == []
  {
    List(map[], Null, Null, 0)
  }

  /** A distinct chain of `size` nodes from `head` ending at `tail`, which links to null, makes a valid list. */
  lemma ChainMakesValid(t: List, sp: seq<Addr>)
    requires IsChain(t.heap, t.head, sp) && |sp| == t.size && Distinct(sp)
    requires t.size == 0 ==> t.head == Null
    requires t.size > 0 ==> t.tail == sp[t.size - 1] && t.heap[t.tail].next == Null
    ensures t.Valid() && t.Nodes() == sp
  {
    ChainIsSpine(t.heap, t.head, sp);
  }

  /**
   * `push_back`: a fresh node holding x becomes the tail; when the list is
   * non-empty the old tail is linked to it.  `newNode` is the address the
   * allocator returns.
   */
  function PushBack(l: List, x: int, newNode: Addr): (t: List)
    requires newNode != Null && newNode !in l.heap
    requires l.head != Null ==> l.tail in l.heap
    ensures t.size == l.size + 1 && t.tail == newNode
    ensures newNode in t.heap && t.heap[newNode] == Node(x, Null)
    ensures t.heap.Keys == l.heap.Keys + {newNode}
  {
    var heap := l.heap[newNode := Node(x, Null)];
    if l.head == Null then List(heap, newNode, newNode, l.size + 1)
    else List(heap[l.tail := l.heap[l.tail].(next := newNode)], l.head, newNode, l.size + 1)
  }

  lemma PushBackAppends(l: List, x: int, newNode: Addr)
    requires l.Valid() && newNode != Null && newNode !in l.heap
    ensures PushBack(l, x, newNode).Valid()
    ensures PushBack(l, x, newNode).Elements() == l.Elements() + [x]
  {
    var t := PushBack(l, x, newNode);
    var sp := l.Nodes();
    var sp' := sp + [newNode];
    assert IsChain(t.heap, t.head, sp');
    ChainMakesValid(t, sp');
  }

  /**
   * The loop of `pop_back`: from `a`, follow `next` until a node linking to
   * `target` is found.  `target` is one of the nodes after the first.
   */
  function FindBefore(heap: map<Addr, Node>, a: Addr, target: Addr, k: nat): (r: Addr)
    requires k > 0 && Spine(heap, a, k).Some? && target in Spine(heap, a, k).value[1..]
    ensures r in Spine(heap, a, k).value && r in heap && heap[r].next == target
    decreases k
  {
    if heap[a].next == target then a
    else FindBefore(heap, heap[a].next, target, k - 1)
  }

  /**
   * `pop_back` as written: the tail node is freed; with two or more nodes its
   * predecessor becomes the tail, but with one node the statements meant to
   * null `head` and `tail` are comparisons, so both keep the freed address.
   */
  function PopBackAsWritten(l: List): (t: List)
    requires l.Valid()
    ensures l.head == Null ==> t == l
    ensures l.head != Null ==> t.size == l.size - 1 && t.heap.Keys == l.heap.Keys - {l.tail}
  {
    if l.head == Null then l
    else
      var heap := l.heap - {l.tail};
      if l.head != l.tail then
        var find := FindBefore(l.heap, l.head, l.tail, l.size);
        assert l.Nodes()[l.size - 1] != Null;
        List(heap[find := l.heap[find].(next := Null)], l.head, find, l.size - 1)
      else List(heap, l.head, l.tail, l.size - 1)
  }

  /** `pop_back` as evidently intended: emptying the list also nulls `head` and `tail`. */
  function PopBack(l: List): (t: List)
    requires l.Valid()
    ensures l.head == Null ==> t == l
    ensures l.head != Null ==> t.size == l.size - 1 && t.heap.Keys == l.heap.Keys - {l.tail}
  {
    var t := PopBackAsWritten(l);
    if l.head != Null && l.head == l.tail then t.(head := Null, tail := Null) else t
  }

  /** The node `pop_back` finds is the one before the tail. */
  lemma FindBeforeTail(l: List)
    requires l.Valid() && l.size >= 2
    ensures FindBefore(l.heap, l.head, l.tail, l.size) == l.Nodes()[l.size - 2]
  {
    var sp := l.Nodes();
    var find := FindBefore(l.heap, l.head, l.tail, l.size);
    var i :| 0 <= i < l.size && sp[i] == find;
    assert sp[l.size - 1] != Null;
    assert i + 1 < l.size;
    assert sp[i + 1] == sp[l.size - 1];
  }

  lemma PopBackDropsLast(l: List)
    requires l.Valid()
    ensures PopBack(l).Valid()
    ensures PopBack(l).Elements() == if l.size == 0 then [] else l.Elements()[..l.size - 1]
  {
    var t := PopBack(l);
    if l.size == 1 {
      assert t.size == 0 && t.head == Null;
    } else if l.size >= 2 {
      var sp := l.Nodes();
      assert sp[0] != sp[l.size - 1];
      FindBeforeTail(l);
      var sp' := sp[..l.size - 1];
      assert IsChain(t.heap, t.head, sp');
      ChainMakesValid(t, sp');
    }
  }

  /**
   * As written, popping the only element leaves `head` naming the freed
   * node while the size is 0: the next `push_back` writes through it.
   */
  lemma PopLastLeavesDanglingHead(l: List)
    requires l.Valid() && l.size == 1
    ensures PopBackAsWritten(l).size == 0
    ensures PopBackAsWritten(l).head != Null && PopBackAsWritten(l).head !in PopBackAsWritten(l).heap
    ensures !PopBackAsWritten(l).Valid()
  {
  }

  /** Iterator `++` applied `j` times from `a`: the address of node j. */
  function Advance(heap: map<Addr, Node>, a: Addr, j: nat): (r: Addr)
    requires Spine(heap, a, j + 1).Some?
    ensures r == Spine(heap, a, j + 1).value[j]
    decreases j
  {
    if j == 0 then a else Advance(heap, heap[a].next, j - 1)
  }

  lemma {:induction false} SpinePrefix(heap: map<Addr, Node>, a: Addr, k: nat, j: nat)
    requires Spine(heap, a, k).Some? && j <= k
    ensures Spine(heap, a, j) == Some(Spine(heap, a, k).value[..j])
  {
    SpineIsChain(heap, a, k);
    var sp := Spine(heap, a, k).value;
    assert IsChain(heap, a, sp[..j]);
    ChainIsSpine(heap, a, sp[..j]);
  }

  /**
   * `erase(n)` as written.  Erasing node 0 advances `head`; erasing node
   * n > 0 walks n - 1 steps to node n - 1 and links it past node n.  The
   * statements meant to move `tail` are comparisons; no node is freed.
   */
  function EraseAsWritten(l: List, n: nat): (t: List)
    requires l.Valid()
    ensures n >= l.size ==> t == l
    ensures n < l.size ==> t.size == l.size - 1 && t.tail == l.tail && t.heap.Keys == l.heap.Keys
  {
    if n >= l.size then l
    else if n == 0 then List(l.heap, l.heap[l.head].next, l.tail, l.size - 1)
    else
      SpinePrefix(l.heap, l.head, l.size, n);
      var now := Advance(l.heap, l.head, n - 1);
      SpineIsChain(l.heap, l.head, l.size);
      assert now == Spine(l.heap, l.head, l.size).value[n - 1];
      assert l.heap[now].next == Spine(l.heap, l.head, l.size).value[n];
      var after := l.heap[l.heap[now].next].next;
      List(l.heap[now := l.heap[now].(next := after)], l.head, l.tail, l.size - 1)
  }

  /**
   * `erase(n)` as evidently intended: erasing the last node makes node
   * n - 1 the tail (or nulls it when the list empties).
   */
  function Erase(l: List, n: nat): (t: List)
    requires l.Valid()
    ensures n >= l.size ==> t == l
    ensures n < l.size ==> t.size == l.size - 1 && t.heap.Keys == l.heap.Keys
  {
    var t := EraseAsWritten(l, n);
    if n + 1 != l.size then t
    else if n == 0 then t.(tail := Null)
    else
      SpinePrefix(l.heap, l.head, l.size, n);
      t.(tail := Advance(l.heap, l.head, n - 1))
  }

  /** Linking node n - 1 past node n leaves the chain without node n. */
  lemma UnlinkKeepsChain(l: List, n: nat)
    requires l.Valid() && 0 < n < l.size
    ensures var sp := l.Nodes();
            var after := if n + 1 < l.size then sp[n + 1] else Null;
            IsChain(l.heap[sp[n - 1] := l.heap[sp[n - 1]].(next := after)], l.head, sp[..n] + sp[n + 1..])
  {
    var sp := l.Nodes();
    var after := if n + 1 < l.size then sp[n + 1] else Null;
    var heap := l.heap[sp[n - 1] := l.heap[sp[n - 1]].(next := after)];
    var sp' := sp[..n] + sp[n + 1..];
    forall i | 0 <= i < |sp'|
      ensures sp'[i] != Null && sp'[i] in heap && (i + 1 < |sp'| ==> heap[sp'[i]].next == sp'[i + 1])
    {
      if i < n - 1 {
        assert sp'[i] == sp[i] && sp'[i + 1] == sp[i + 1] && sp[i] != sp[n - 1];
      } else if i == n - 1 {
        assert sp'[i] == sp[n - 1];
      } else {
        assert sp'[i] == sp[i + 1] && sp[i + 1] != sp[n - 1];
        if i + 1 < |sp'| {
          assert sp'[i + 1] == sp[i + 2];
        }
      }
    }
  }

  lemma EraseRemoves(l: List, n: nat)
    requires l.Valid()
    ensures Erase(l, n).Valid()
    ensures Erase(l, n).Elements() ==
      if n >= l.size then l.Elements() else l.Elements()[..n] + l.Elements()[n + 1..]
  {
    if n == 0 < l.size {
      EraseHeadAsWrittenIsSound(l);
      var t := Erase(l, 0);
      if l.size == 1 {
        assert t.size == 0 && t.head == Null;
      } else {
        assert t == EraseAsWritten(l, 0);
      }
    } else if 0 < n < l.size {
      EraseInnerRemoves(l, n);
    }
  }

  lemma EraseInnerRemoves(l: List, n: nat)
    requires l.Valid() && 0 < n < l.size
    ensures Erase(l, n).Valid()
    ensures Erase(l, n).Elements() == l.Elements()[..n] + l.Elements()[n + 1..]
  {
    var t := Erase(l, n);
    var sp := l.Nodes();
    EraseInnerChain(l, n);
    assert forall i :: 0 <= i < l.size ==> t.heap[sp[i]].value == l.heap[sp[i]].value;
    assert Values(t.heap, sp[..n] + sp[n + 1..]) == Values(l.heap, sp)[..n] + Values(l.heap, sp)[n + 1..];
  }

  /** Erasing node n > 0 leaves exactly the other nodes linked, and changes no value. */
  lemma EraseInnerChain(l: List, n: nat)
    requires l.Valid() && 0 < n < l.size
    ensures Erase(l, n).Valid() && Erase(l, n).Nodes() == l.Nodes()[..n] + l.Nodes()[n + 1..]
    ensures Erase(l, n).heap.Keys == l.heap.Keys
    ensures forall a :: a in l.heap ==> Erase(l, n).heap[a].value == l.heap[a].value
  {
    var t := Erase(l, n);
    var sp := l.Nodes();
    SpinePrefix(l.heap, l.head, l.size, n);
    assert Advance(l.heap, l.head, n - 1) == sp[n - 1];
    assert l.heap[sp[n - 1]].next == sp[n];
    UnlinkKeepsChain(l, n);
    assert t.heap == l.heap[sp[n - 1] := l.heap[sp[n - 1]].(next := if n + 1 < l.size then sp[n + 1] else Null)];
    ChainMakesValid(t, sp[..n] + sp[n + 1..]);
  }

  /**
   * As written, erasing the last of two or more nodes leaves `tail` on the
   * unlinked node, so the next `push_back` links the new node after it:
   * fewer than `size` nodes are then reachable from `head`, and `contains`,
   * which walks `size` nodes, follows a null pointer.
   */
  lemma EraseLastLosesNextPush(l: List, x: int, newNode: Addr)
    requires l.Valid() && l.size >= 2 && newNode != Null && newNode !in l.heap
    ensures !EraseAsWritten(l, l.size - 1).Valid()
    ensures var t := PushBack(EraseAsWritten(l, l.size - 1), x, newNode);
            Spine(t.heap, t.head, t.size) == None
  {
    var sp := l.Nodes();
    var e := EraseAsWritten(l, l.size - 1);
    SpinePrefix(l.heap, l.head, l.size, l.size - 1);
    assert Advance(l.heap, l.head, l.size - 2) == sp[l.size - 2];
    var sp' := sp[..l.size - 1];
    assert IsChain(e.heap, e.head, sp');
    ChainIsSpine(e.heap, e.head, sp');
    assert e.tail != sp'[l.size - 2];
    var t := PushBack(e, x, newNode);
    assert IsChain(t.heap, t.head, sp');
    ChainStopsAtNull(t.heap, t.head, sp');
  }

  /** Erasing the head is correct as written: the missed `tail` reset is never read while the list is empty. */
  lemma EraseHeadAsWrittenIsSound(l: List)
    requires l.Valid() && l.size > 0
    ensures EraseAsWritten(l, 0).Valid()
    ensures EraseAsWritten(l, 0).Elements() == l.Elements()[1..]
  {
    var t := EraseAsWritten(l, 0);
    var sp := l.Nodes();
    assert IsChain(t.heap, t.head, sp[1..]);
    ChainMakesValid(t, sp[1..]);
  }

  /**
   * `contains`: an iterator walks `size` nodes from `head` (it stops when its
   * order reaches the end iterator's), comparing each value with `v`.
   */
  function ContainsFrom(heap: map<Addr, Node>, a: Addr, k: nat, v: int): (b: bool)
    requires Spine(heap, a, k).Some?
    ensures b <==> v in Values(heap, Spine(heap, a, k).value)
    decreases k
  {
    SpineIsChain(heap, a, k);
    if k == 0 then false
    else
      var rest := Spine(heap, heap[a].next, k - 1).value;
      SpineIsChain(heap, heap[a].next, k - 1);
      assert Values(heap, Spine(heap, a, k).value) == [heap[a].value] + Values(heap, rest);
      heap[a].value == v || ContainsFrom(heap, heap[a].next, k - 1, v)
  }

  function Contains(l: List, v: int): (b: bool)
    requires l.Valid()
    ensures b <==> v in l.Elements()
  {
    ContainsFrom(l.heap, l.head, l.size, v)
  }

  /** A list iterator: the previous and current node and the position `order`. */
  datatype Iterator = Iterator(prev: Addr, now: Addr, order: int)

  function Begin(l: List): (it: Iterator)
    ensures it.now == l.head && it.order == 0
  {
    Iterator(Null, l.head, 0)
  }

  /** `end()`: one past the tail, at order `size`. */
  function End(l: List): (it: Iterator)
    ensures it.now == Null && it.order == l.size
  {
    Iterator(l.tail, Null, l.size)
  }

  /** Iterator `++` applied k times. */
  function Step(heap: map<Addr, Node>, it: Iterator, k: nat): (r: Iterator)
    requires Spine(heap, it.now, k).Some?
    ensures r.order == it.order + k
    decreases k
  {
    if k == 0 then it
    else Step(heap, Iterator(it.now, heap[it.now].next, it.order + 1), k - 1)
  }

  lemma {:induction false} StepFollowsChain(heap: map<Addr, Node>, it: Iterator, k: nat)
    requires Spine(heap, it.now, k).Some? && k > 0
    ensures var last := Spine(heap, it.now, k).value[k - 1];
            Step(heap, it, k).prev == last && Step(heap, it, k).now == heap[last].next
    decreases k
  {
    SpineIsChain(heap, it.now, k);
    if k > 1 {
      var next := Iterator(it.now, heap[it.now].next, it.order + 1);
      StepFollowsChain(heap, next, k - 1);
      SpineIsChain(heap, next.now, k - 1);
    }
  }

  /** `size` steps from `begin()` reach `end()`: same node, same order, and the tail behind it. */
  lemma IterationReachesEnd(l: List)
    requires l.Valid()
    ensures Step(l.heap, Begin(l), l.size).now == End(l).now
    ensures Step(l.heap, Begin(l), l.size).order == End(l).order
    ensures l.size > 0 ==> Step(l.heap, Begin(l), l.size).prev == End(l).prev
  {
    if l.size > 0 {
      StepFollowsChain(l.heap, Begin(l), l.size);
    }
  }
}

=== FILE: skip_list.dfy ===
/**
 * SkipList (src/list_based/skip_list.hpp): an ordered multiset kept as a
 * tower of linked lists over the same nodes.
 *
 * The nodes are modelled in level-0 order as a sequence of towers; a node of
 * height h is linked into levels 0 .. h - 1, so the level-l list is the
 * subsequence of towers taller than l.  A node is named by its index, and
 * the sentinel by `Sentinel` (-1), which sits before every node on every
 * level.  The random heights are a parameter of `Insert`.
 */
module SkipList {
  import opened Wrappers
  import opened Sequences
  import opened Compare

  /** A node: its value and the number of levels it is linked into. */
  datatype Tower = Tower(value: int, height: nat)

  /** The sentinel node that heads every level. */
  const Sentinel: int := -1

  /** The values of the nodes in level-0 order. */
  function Values(ts: seq<Tower>): (vs: seq<int>)
    ensures |vs| == |ts|
  {
    seq(|ts|, i requires 0 <= i < |ts| => ts[i].value)
  }

  /** Level-0 order is ascending (equal values allowed). */
  ghost predicate Ordered(ts: seq<Tower>) {
    forall i, j :: 0 <= i < j < |ts| ==> ts[i].value <= ts[j].value
  }

  /** `_size` nodes, and `height`, the number of levels the sentinel holds. */
  datatype List = List(towers: seq<Tower>, height: nat, size: nat)
  {
    /** Nodes in ascending order, each linked into at least one and at most `height` levels. */
    ghost predicate Valid() {
      size == |towers| && Ordered(towers) &&
      forall i :: 0 <= i < |towers| ==> 1 <= towers[i].height <= height
    }

    /** The multiset the list represents. */
    ghost function Elements(): multiset<int> {
      multiset(Values(towers))
    }
  }

  /** A value is an element exactly when some node holds it. */
  lemma InElements(ts: seq<Tower>, v: int)
    ensures v in multiset(Values(ts)) <==> exists k :: 0 <= k < |ts| && ts[k].value == v
  {
    if v in multiset(Values(ts)) {
      assert v in Values(ts);
      var k :| 0 <= k < |ts| && Values(ts)[k] == v;
    }
    if k :| 0 <= k < |ts| && ts[k].value == v {
      assert Values(ts)[k] == v;
    }
  }

  /** A default-constructed list: no nodes, a sentinel with no levels. */
  function Empty(): (l: List)
    ensures l.Valid() && l.Elements() == multiset{}
  {
    List([], 0, 0)
  }

  /** `node->next[l]`: the first node after `i` linked into level l, or None for a null link. */
  function NextAt(ts: seq<Tower>, i: int, l: nat): (r: Option<nat>)
    requires Sentinel <= i < |ts|
    decreases |ts| - i
    ensures r.Some? ==> i < r.value < |ts| && ts[r.value].height > l
    ensures r.Some? ==> forall k :: i < k < r.value ==> ts[k].height <= l
    ensures r.None? ==> forall k :: i < k < |ts| ==> ts[k].height <= l
  {
    if i + 1 == |ts| then None
    else if ts[i + 1].height > l then Some(i + 1)
    else NextAt(ts, i + 1, l)
  }

  /**
   * Whether a search for `x` moves on to a node holding `v`: the strict
   * searches (`find_prev(x, h)`, `pred`) move on `Less`, the others on
   * anything but `Greater`.
   */
  predicate Moves(v: int, x: int, strict: bool) {
    if strict then DefaultCompare(v, x) == Less else DefaultCompare(v, x) != Greater
  }

  /** The first index from `i` on whose node a search for `x` does not move onto. */
  function RankFrom(ts: seq<Tower>, x: int, strict: bool, i: nat): (r: nat)
    requires i <= |ts|
    decreases |ts| - i
    ensures i <= r <= |ts|
    ensures forall j :: i <= j < r ==> Moves(ts[j].value, x, strict)
    ensures r < |ts| ==> !Moves(ts[r].value, x, strict)
  {
    if i == |ts| || !Moves(ts[i].value, x, strict) then i else RankFrom(ts, x, strict, i + 1)
  }

  /** The number of nodes a search for `x` may move onto. */
  function Rank(ts: seq<Tower>, x: int, strict: bool): (r: nat)
    ensures r <= |ts|
  {
    RankFrom(ts, x, strict, 0)
  }

  /** In an ascending list the nodes a search moves onto are exactly the first `Rank` ones. */
  lemma RankSplits(ts: seq<Tower>, x: int, strict: bool)
    requires Ordered(ts)
    ensures forall j :: 0 <= j < |ts| ==> (Moves(ts[j].value, x, strict) <==> j < Rank(ts, x, strict))
  {
    var r := Rank(ts, x, strict);
    forall j | r <= j < |ts|
      ensures !Moves(ts[j].value, x, strict)
    {
      assert ts[r].value <= ts[j].value;
    }
  }

  /** The last node before index p linked into level l, or the sentinel. */
  function LastBelow(ts: seq<Tower>, p: nat, l: nat): (r: int)
    requires p <= |ts|
    ensures Sentinel <= r < p
    ensures r >= 0 ==> ts[r].height > l
    ensures forall j :: r < j < p ==> ts[j].height <= l
  {
    if p == 0 then Sentinel
    else if ts[p - 1].height > l then p - 1
    else LastBelow(ts, p - 1, l)
  }

  /** The three `ensures` of `LastBelow` determine it. */
  lemma LastBelowUnique(ts: seq<Tower>, p: nat, l: nat, r: int)
    requires p <= |ts| && Sentinel <= r < p
    requires r >= 0 ==> ts[r].height > l
    requires forall j :: r < j < p ==> ts[j].height <= l
    ensures r == LastBelow(ts, p, l)
  {
  }

  /** A null-or-index link moved by `d` positions. */
  function Offset(o: Option<nat>, d: int): Option<nat>
    requires o.Some? ==> o.value + d >= 0
  {
    match o
    case None => None
    case Some(j) => Some(j + d)
  }

  lemma OffsetTwice(o: Option<nat>, d: nat, e: int)
    requires d + e >= 0
    ensures Offset(Offset(o, d), e) == Offset(o, d + e)
  {
  }

  /** Links over nodes of level at most l lead where the last of them leads. */
  lemma {:induction false} NextAtSkips(ts: seq<Tower>, a: int, b: int, l: nat)
    requires Sentinel <= a <= b < |ts|
    requires forall k :: a < k <= b ==> ts[k].height <= l
    ensures NextAt(ts, a, l) == NextAt(ts, b, l)
    decreases b - a
  {
    if a < b {
      NextAtSkips(ts, a + 1, b, l);
    }
  }

  /** Links among the nodes after a prefix are those of the suffix alone, moved by its length. */
  lemma {:induction false} NextAtSuffix(pre: seq<Tower>, ts: seq<Tower>, i: int, l: nat)
    requires Sentinel <= i < |ts|
    ensures NextAt(pre + ts, |pre| + i, l) == Offset(NextAt(ts, i, l), |pre|)
    decreases |ts| - i
  {
    if i + 1 < |ts| {
      assert (pre + ts)[|pre| + i + 1] == ts[i + 1];
      if ts[i + 1].height <= l {
        NextAtSuffix(pre, ts, i + 1, l);
      }
    }
  }

  /**
   * The descent shared by `find_prev(x, h)`, `succ` and `pred`: from `node`
   * at level `current`, move right while the next node's value lets the
   * search move, else go down a level.  Entry l of the result is the node
   * the search stood on when it left level l (the `arrays[l]` that
   * `find_prev(x, h)` records).
   */
  function Trail(ts: seq<Tower>, x: int, strict: bool, node: int, current: nat): (ps: seq<int>)
    requires Sentinel <= node < |ts|
    decreases current, |ts| - node
    ensures |ps| == current
    ensures forall l :: 0 <= l < current ==> Sentinel <= ps[l] < |ts|
  {
    if current == 0 then []
    else match NextAt(ts, node, current - 1)
      case Some(j) =>
        if Moves(ts[j].value, x, strict) then Trail(ts, x, strict, j, current)
        else Trail(ts, x, strict, node, current - 1) + [node]
      case None => Trail(ts, x, strict, node, current - 1) + [node]
  }

  /**
   * The descent records, on each level, the last node of that level the
   * search may move onto: all nodes it passes over are below its goal, and
   * a node is never taller than the level the search is on when it could
   * still be reached.
   */
  lemma {:induction false} TrailFindsLast(ts: seq<Tower>, x: int, strict: bool, p: nat, node: int, current: nat)
    requires p <= |ts| && forall j :: 0 <= j < |ts| ==> (Moves(ts[j].value, x, strict) <==> j < p)
    requires Sentinel <= node < p
    requires node >= 0 ==> ts[node].height >= current
    requires forall j :: node < j < p ==> ts[j].height <= current
    ensures forall l :: 0 <= l < current ==> Trail(ts, x, strict, node, current)[l] == LastBelow(ts, p, l)
    decreases current, |ts| - node
  {
    if current > 0 {
      var nx := NextAt(ts, node, current - 1);
      if nx.Some? && Moves(ts[nx.value].value, x, strict) {
        TrailFindsLast(ts, x, strict, p, nx.value, current);
      } else {
        assert forall j :: node < j < p ==> ts[j].height <= current - 1;
        TrailFindsLast(ts, x, strict, p, node, current - 1);
        LastBelowUnique(ts, p, current - 1, node);
        assert Trail(ts, x, strict, node, current) == Trail(ts, x, strict, node, current - 1) + [node];
      }
    }
  }

  /**
   * `find_prev(x, h)`: for every level below h the last node with a value
   * below `x`, or the sentinel; every entry is the sentinel while the list
   * is empty.
   */
  function FindPrevs(l: List, x: int, h: nat): (ps: seq<int>)
    ensures |ps| == h
    ensures forall i :: 0 <= i < h ==> Sentinel <= ps[i] < |l.towers|
  {
    var trail := Trail(l.towers, x, true, Sentinel, l.height);
    seq(h, i requires 0 <= i < h => if l.size > 0 && i < l.height then trail[i] else Sentinel)
  }

  /** Each entry of `find_prev(x, h)` is the node after which `x` belongs on that level. */
  lemma FindPrevsAreLast(l: List, x: int, h: nat)
    requires l.Valid()
    ensures forall i :: 0 <= i < h ==> FindPrevs(l, x, h)[i] == LastBelow(l.towers, Rank(l.towers, x, true), i)
  {
    var ts := l.towers;
    RankSplits(ts, x, true);
    TrailFindsLast(ts, x, true, Rank(ts, x, true), Sentinel, l.height);
    forall i | 0 <= i < h && (l.size == 0 || i >= l.height)
      ensures LastBelow(ts, Rank(ts, x, true), i) == Sentinel
    {
      LastBelowUnique(ts, Rank(ts, x, true), i, Sentinel);
    }
  }

  /**
   * `insert(x)` with `rand() == r`: a node of height r + 1 is spliced, on
   * each of its levels, after the node `find_prev(x, r + 1)` gives; on level
   * 0 that puts it before every equal value.  The sentinel grows to the new
   * height if it is taller.
   */
  function Insert(l: List, x: int, r: nat): (t: List)
    ensures t.size == l.size + 1 && t.height == if r + 1 > l.height then r + 1 else l.height
  {
    var h := r + 1;
    var at := FindPrevs(l, x, h)[0] + 1;
    List(l.towers[..at] + [Tower(x, h)] + l.towers[at..], if h > l.height then h else l.height, l.size + 1)
  }

  /** The new node lands just before the first node not below `x`. */
  lemma InsertPlaces(l: List, x: int, r: nat)
    requires l.Valid()
    ensures var p := Rank(l.towers, x, true);
            Insert(l, x, r).towers == l.towers[..p] + [Tower(x, r + 1)] + l.towers[p..]
  {
    var p := Rank(l.towers, x, true);
    FindPrevsAreLast(l, x, r + 1);
    LastBelowUnique(l.towers, p, 0, p as int - 1);
  }

  /** A node placed between the values below it and those not below it keeps the order. */
  lemma OrderedAround(ts: seq<Tower>, p: nat, t: Tower, h: nat)
    requires Ordered(ts) && p <= |ts|
    requires forall j :: 0 <= j < p ==> ts[j].value <= t.value
    requires forall j :: p <= j < |ts| ==> t.value <= ts[j].value
    requires 1 <= t.height <= h && forall j :: 0 <= j < |ts| ==> 1 <= ts[j].height <= h
    ensures Ordered(ts[..p] + [t] + ts[p..])
    ensures forall j :: 0 <= j < |ts| + 1 ==> 1 <= (ts[..p] + [t] + ts[p..])[j].height <= h
  {
    var ts' := ts[..p] + [t] + ts[p..];
    assert forall j :: 0 <= j < |ts'| ==> ts'[j] == if j < p then ts[j] else if j == p then t else ts[j - 1];
    forall i, j | 0 <= i < j < |ts'|
      ensures ts'[i].value <= ts'[j].value
    {
      if j < p || i > p {
        assert ts'[i] == ts[if i < p then i else i - 1];
        assert ts'[j] == ts[if j < p then j else j - 1];
      }
    }
  }

  /** The values around an inserted node. */
  lemma ValuesAround(ts: seq<Tower>, p: nat, t: Tower)
    requires p <= |ts|
    ensures multiset(Values(ts[..p] + [t] + ts[p..])) == multiset(Values(ts)) + multiset{t.value}
  {
    assert ts == ts[..p] + ts[p..];
    assert Values(ts) == Values(ts[..p]) + Values(ts[p..]);
    assert Values(ts[..p] + [t] + ts[p..]) == Values(ts[..p]) + [t.value] + Values(ts[p..]);
  }

  /** Inserting adds one copy of `x`, even a duplicate, and keeps the list valid. */
  lemma InsertAdds(l: List, x: int, r: nat)
    requires l.Valid()
    ensures Insert(l, x, r).Valid()
    ensures Insert(l, x, r).Elements() == l.Elements() + multiset{x}
    ensures Insert(l, x, r).towers[Rank(l.towers, x, true)] == Tower(x, r + 1)
  {
    var ts, p := l.towers, Rank(l.towers, x, true);
    InsertPlaces(l, x, r);
    RankSplits(ts, x, true);
    OrderedAround(ts, p, Tower(x, r + 1), Insert(l, x, r).height);
    ValuesAround(ts, p, Tower(x, r + 1));
  }

  /** A node placed at p is followed, on each level, by what followed node p - 1 before. */
  lemma PlacedNext(ts: seq<Tower>, p: nat, t: Tower, l: nat)
    requires p <= |ts|
    ensures NextAt(ts[..p] + [t] + ts[p..], p, l) == Offset(NextAt(ts, p - 1, l), 1)
  {
    var pre, suf := ts[..p] + [t], ts[p..];
    var o := NextAt(suf, Sentinel, l);
    NextAtSuffix(pre, suf, Sentinel, l);
    assert ts == ts[..p] + suf;
    NextAtSuffix(ts[..p], suf, Sentinel, l);
    OffsetTwice(o, p, 1);
  }

  /** Placing a node taller than l at p, after a node a with only lower nodes between, links it in after a. */
  lemma SpliceIn(ts: seq<Tower>, p: nat, t: Tower, a: int, l: nat)
    requires p <= |ts| && t.height > l && Sentinel <= a < p
    requires forall k :: a < k < p ==> ts[k].height <= l
    ensures var ts' := ts[..p] + [t] + ts[p..];
            NextAt(ts', a, l) == Some(p) && NextAt(ts', p, l) == Offset(NextAt(ts, a, l), 1)
  {
    var ts' := ts[..p] + [t] + ts[p..];
    assert forall k :: a < k < p ==> ts'[k] == ts[k];
    NextAtSkips(ts', a, p - 1, l);
    NextAtSkips(ts, a, p - 1, l);
    PlacedNext(ts, p, t, l);
  }

  /** With node r dropped, the nodes from r on are followed by what followed them before, moved back. */
  lemma DroppedNext(ts: seq<Tower>, r: nat, l: nat)
    requires r < |ts|
    ensures NextAt(ts[..r] + ts[r + 1..], r - 1, l) == Offset(NextAt(ts, r, l), -1)
  {
    var suf := ts[r + 1..];
    var o := NextAt(suf, Sentinel, l);
    NextAtSuffix(ts[..r], suf, Sentinel, l);
    assert ts == ts[..r + 1] + suf;
    NextAtSuffix(ts[..r + 1], suf, Sentinel, l);
    OffsetTwice(o, r + 1, -1);
  }

  /** Dropping node r, taller than l, links the last node before it on level l to its successor there. */
  lemma SpliceOut(ts: seq<Tower>, r: nat, l: nat)
    requires r < |ts| && ts[r].height > l
    ensures var ts' := ts[..r] + ts[r + 1..];
            NextAt(ts', LastBelow(ts, r, l), l) == Offset(NextAt(ts, r, l), -1)
  {
    var ts' := ts[..r] + ts[r + 1..];
    var a := LastBelow(ts, r, l);
    assert forall k :: a < k < r ==> ts'[k] == ts[k];
    NextAtSkips(ts', a, r - 1, l);
    DroppedNext(ts, r, l);
  }

  /**
   * On every level of the new node, the node `find_prev` gave now links to
   * the new node, and the new node links to that node's old successor.
   */
  lemma InsertSplices(l: List, x: int, r: nat, lv: nat)
    requires l.Valid() && lv <= r
    ensures var ps, p, ts' := FindPrevs(l, x, r + 1), Rank(l.towers, x, true), Insert(l, x, r).towers;
            NextAt(ts', ps[lv], lv) == Some(p) && NextAt(ts', p, lv) == Offset(NextAt(l.towers, ps[lv], lv), 1)
  {
    var p := Rank(l.towers, x, true);
    FindPrevsAreLast(l, x, r + 1);
    InsertPlaces(l, x, r);
    SpliceIn(l.towers, p, Tower(x, r + 1), FindPrevs(l, x, r + 1)[lv], lv);
  }

  /**
   * The descent of `find_prev(x)`: like the others it moves right on
   * anything but `Greater`, but it stops as soon as it stands on a node
   * equal to `x`.
   */
  function Find(ts: seq<Tower>, x: int, node: int, current: nat): (r: int)
    requires Sentinel <= node < |ts|
    decreases current, |ts| - node
    ensures Sentinel <= r < |ts|
  {
    if current == 0 then node
    else if node != Sentinel && DefaultCompare(ts[node].value, x) == Eq then node
    else match NextAt(ts, node, current - 1)
      case Some(j) =>
        if DefaultCompare(ts[j].value, x) != Greater then Find(ts, x, j, current)
        else Find(ts, x, node, current - 1)
      case None => Find(ts, x, node, current - 1)
  }

  /** The descent stops on a copy of `x` or on the last node not above `x`. */
  lemma {:induction false} FindLands(ts: seq<Tower>, x: int, p: nat, node: int, current: nat)
    requires forall i :: 0 <= i < |ts| ==> ts[i].height >= 1
    requires p <= |ts| && forall j :: 0 <= j < |ts| ==> (ts[j].value <= x <==> j < p)
    requires Sentinel <= node < p
    requires forall j :: node < j < p ==> ts[j].height <= current
    ensures var r := Find(ts, x, node, current);
            r + 1 == p || (r >= 0 && ts[r].value == x)
    decreases current, |ts| - node
  {
    if current > 0 && !(node != Sentinel && ts[node].value == x) {
      var nx := NextAt(ts, node, current - 1);
      if nx.Some? && ts[nx.value].value <= x {
        FindLands(ts, x, p, nx.value, current);
      } else {
        assert forall j :: node < j < p ==> ts[j].height <= current - 1;
        FindLands(ts, x, p, node, current - 1);
      }
    } else if current == 0 && node + 1 < |ts| {
      var following := ts[node + 1];
      assert following.height >= 1;
    }
  }

  /** `find_prev(x)`: the sentinel while the list is empty, else the descent from the top level. */
  function FindPrev(l: List, x: int): (r: int)
    ensures Sentinel <= r < |l.towers|
  {
    if l.size > 0 then Find(l.towers, x, Sentinel, l.height) else Sentinel
  }

  /** `find_prev(x)` finds a copy of `x` exactly when there is one. */
  lemma FindPrevFinds(l: List, x: int)
    requires l.Valid()
    ensures var r := FindPrev(l, x);
            (r != Sentinel && l.towers[r].value == x) <==> x in l.Elements()
    ensures var r := FindPrev(l, x);
            r != Sentinel ==> l.towers[r].value <= x
  {
    var ts := l.towers;
    var p := Rank(ts, x, false);
    RankSplits(ts, x, false);
    var r := FindPrev(l, x);
    if l.size > 0 {
      FindLands(ts, x, p, Sentinel, l.height);
    }
    InElements(ts, x);
    if x in l.Elements() {
      var k :| 0 <= k < |ts| && ts[k].value == x;
      assert k < p;
      if r + 1 == p && k < r {
        assert ts[k].value <= ts[r].value;
      }
    }
  }

  /** `contains(x)`: `find_prev(x)` stopped on a node equal to `x`. */
  function Contains(l: List, x: int): (b: bool)
    requires l.Valid()
    ensures b <==> x in l.Elements()
  {
    FindPrevFinds(l, x);
    var r := FindPrev(l, x);
    r != Sentinel && DefaultCompare(l.towers[r].value, x) == Eq
  }

  /**
   * `erase(x)`: when `find_prev(x)` stops on a copy of `x`, that node is
   * unlinked from each of its levels and freed; otherwise nothing changes.
   * The sentinel keeps its height.
   */
  function Erase(l: List, x: int): (t: List)
    requires l.Valid()
    ensures x !in l.Elements() ==> t == l
    ensures x in l.Elements() ==> t.size == l.size - 1 && t.height == l.height
  {
    FindPrevFinds(l, x);
    var r := FindPrev(l, x);
    if r == Sentinel || DefaultCompare(l.towers[r].value, x) != Eq then l
    else List(l.towers[..r] + l.towers[r + 1..], l.height, l.size - 1)
  }

  /** Erasing removes one copy of `x`, if there is one, and keeps the list valid. */
  lemma EraseRemovesOne(l: List, x: int)
    requires l.Valid()
    ensures Erase(l, x).Valid()
    ensures Erase(l, x).Elements() == l.Elements() - multiset{x}
  {
    FindPrevFinds(l, x);
    if x in l.Elements() {
      var r := FindPrev(l, x);
      DropNode(l.towers, r);
      DropHeights(l.towers, r, l.height);
      assert Erase(l, x) == List(l.towers[..r] + l.towers[r + 1..], l.height, l.size - 1);
    }
  }

  /** Dropping a node keeps every other node's height within the sentinel's. */
  lemma DropHeights(ts: seq<Tower>, r: nat, h: nat)
    requires r < |ts| && forall i :: 0 <= i < |ts| ==> 1 <= ts[i].height <= h
    ensures var ts' := ts[..r] + ts[r + 1..];
      |ts'| + 1 == |ts| && forall i :: 0 <= i < |ts'| ==> 1 <= ts'[i].height <= h
  {
    var ts' := ts[..r] + ts[r + 1..];
    forall i | 0 <= i < |ts'|
      ensures 1 <= ts'[i].height <= h
    {
      assert ts'[i] == ts[if i < r then i else i + 1];
    }
  }

  /** Dropping a node keeps the order and drops its value from the elements. */
  lemma DropNode(ts: seq<Tower>, r: nat)
    requires Ordered(ts) && r < |ts|
    ensures Ordered(ts[..r] + ts[r + 1..])
    ensures multiset(Values(ts[..r] + ts[r + 1..])) == multiset(Values(ts)) - multiset{ts[r].value}
  {
    var ts' := ts[..r] + ts[r + 1..];
    forall i, j | 0 <= i < j < |ts'|
      ensures ts'[i].value <= ts'[j].value
    {
      assert ts'[i] == ts[if i < r then i else i + 1];
      assert ts'[j] == ts[if j < r then j else j + 1];
    }
    assert ts == ts[..r] + [ts[r]] + ts[r + 1..];
    assert Values(ts) == Values(ts[..r]) + [ts[r].value] + Values(ts[r + 1..]);
    assert Values(ts') == Values(ts[..r]) + Values(ts[r + 1..]);
  }

  /** On each level of the erased node, its predecessor there now links to its old successor there. */
  lemma EraseUnlinks(l: List, x: int, lv: nat)
    requires l.Valid() && FindPrev(l, x) != Sentinel && l.towers[FindPrev(l, x)].value == x
    requires lv < l.towers[FindPrev(l, x)].height
    ensures var r, ts' := FindPrev(l, x), Erase(l, x).towers;
            NextAt(ts', LastBelow(l.towers, r, lv), lv) == Offset(NextAt(l.towers, r, lv), -1)
  {
    FindPrevFinds(l, x);
    SpliceOut(l.towers, FindPrev(l, x), lv);
  }

  /**
   * `succ(x)` as evidently intended: the node after the one where the
   * non-strict descent ends on level 0, None after the last node.  That is
   * the smallest element above `x`, or None when there is none.
   */
  function Succ(l: List, x: int): (r: Option<int>)
    requires l.Valid()
    ensures r.None? <==> forall v :: v in l.Elements() ==> v <= x
    ensures r.Some? ==> r.value in l.Elements() && x < r.value && forall v :: v in l.Elements() && x < v ==> r.value <= v
  {
    var ts, p := l.towers, Rank(l.towers, x, false);
    var node := if l.height == 0 then Sentinel else Trail(ts, x, false, Sentinel, l.height)[0];
    DescentEnd(l, x, false);
    SuccAt(ts, x);
    assert NextAt(ts, p - 1, 0) == if p < |ts| then Some(p) else None;
    assert p < |ts| ==> ts[p].value in l.Elements();
    match NextAt(ts, node, 0)
    case Some(j) => Some(ts[j].value)
    case None => None
  }

  /**
   * `succ(x)` as written: the sentinel is built with height 0 and no `next`
   * array, and `height` never shrinks, so on a list nothing was ever inserted
   * into `node->next[0]` reads through null.  Otherwise it answers `Succ`.
   */
  function SuccAsWritten(l: List, x: int): (o: Outcome<Option<int>>)
    requires l.Valid()
    ensures o.NullDeref? <==> l.height == 0
    ensures o.Returned? ==> o.value == Succ(l, x)
  {
    if l.height == 0 then NullDeref else Returned(Succ(l, x))
  }

  /** A valid list of height 0 is empty, and there `succ` as written dereferences null where `Succ` answers None. */
  lemma SuccAsWrittenOnEmpty(l: List, x: int)
    requires l.Valid() && l.height == 0
    ensures l.size == 0 && SuccAsWritten(l, x).NullDeref? && Succ(l, x).None?
  {
    SomeLevel(l.towers, l.height);
  }

  /** Nodes linked into at least one of at most h levels need h >= 1. */
  lemma SomeLevel(ts: seq<Tower>, h: nat)
    requires forall i :: 0 <= i < |ts| ==> 1 <= ts[i].height <= h
    ensures |ts| > 0 ==> h >= 1
  {
    if |ts| > 0 {
      assert 1 <= ts[0].height <= h;
    }
  }

  /**
   * `pred(x)`: the node where the strict descent ends, unless that is the
   * sentinel.  That is the largest element below `x`, or None when there
   * is none.
   */
  function Pred(l: List, x: int): (r: Option<int>)
    requires l.Valid()
    ensures r.None? <==> forall v :: v in l.Elements() ==> x <= v
    ensures r.Some? ==> r.value in l.Elements() && r.value < x && forall v :: v in l.Elements() && v < x ==> v <= r.value
  {
    var ts, p := l.towers, Rank(l.towers, x, true);
    var node := if l.height == 0 then Sentinel else Trail(ts, x, true, Sentinel, l.height)[0];
    DescentEnd(l, x, true);
    PredAt(ts, x);
    assert p > 0 ==> ts[p - 1].value in l.Elements();
    if node != Sentinel then Some(ts[node].value) else None
  }

  /** Where the descent ends on level 0: just before the first node it may not move onto. */
  lemma DescentEnd(l: List, x: int, strict: bool)
    requires l.Valid()
    ensures var node := if l.height == 0 then Sentinel else Trail(l.towers, x, strict, Sentinel, l.height)[0];
            node == Rank(l.towers, x, strict) - 1
  {
    var ts, p := l.towers, Rank(l.towers, x, strict);
    LastBelowUnique(ts, p, 0, p as int - 1);
    RankSplits(ts, x, strict);
    if l.height > 0 {
      TrailFindsLast(ts, x, strict, p, Sentinel, l.height);
    } else if |ts| > 0 {
      assert ts[0].height >= 1;
    }
  }

  /** In an ascending list the first node a search for x does not move onto holds the smallest value above x. */
  lemma SuccAt(ts: seq<Tower>, x: int)
    requires Ordered(ts)
    ensures var p := Rank(ts, x, false);
      && (forall v :: v in multiset(Values(ts)) && x < v ==> p < |ts| && ts[p].value <= v)
      && (p < |ts| ==> x < ts[p].value && ts[p].value in multiset(Values(ts)))
  {
    var p := Rank(ts, x, false);
    RankSplits(ts, x, false);
    forall v | v in multiset(Values(ts)) && x < v
      ensures p < |ts| && ts[p].value <= v
    {
      InElements(ts, v);
      var k :| 0 <= k < |ts| && ts[k].value == v;
      assert !Moves(v, x, false);
    }
    if p < |ts| {
      InElements(ts, ts[p].value);
    }
  }

  /** In an ascending list the last node a strict search for x moves onto holds the largest value below x. */
  lemma PredAt(ts: seq<Tower>, x: int)
    requires Ordered(ts)
    ensures var p := Rank(ts, x, true);
      && (forall v :: v in multiset(Values(ts)) && v < x ==> 0 < p && v <= ts[p - 1].value)
      && (0 < p ==> ts[p - 1].value < x && ts[p - 1].value in multiset(Values(ts)))
  {
    var p := Rank(ts, x, true);
    RankSplits(ts, x, true);
    forall v | v in multiset(Values(ts)) && v < x
      ensures 0 < p && v <= ts[p - 1].value
    {
      InElements(ts, v);
      var k :| 0 <= k < |ts| && ts[k].value == v;
      assert Moves(v, x, true);
    }
    if p > 0 {
      InElements(ts, ts[p - 1].value);
    }
  }

  /**
   * `begin()`: the sentinel's level-0 successor, or the null `end()` while
   * the list is empty.  It is the first node, which holds the least element.
   */
  function Begin(l: List): (it: Option<nat>)
    requires l.Valid()
    ensures it.None? <==> l.Elements() == multiset{}
    ensures it.Some? ==> it.value == 0 < |l.towers| && l.towers[0].value in l.Elements()
    ensures it.Some? ==> forall v :: v in l.Elements() ==> l.towers[0].value <= v
  {
    var ts := l.towers;
    assert |Values(ts)| == |ts|;
    assert ts != [] ==> Values(ts)[0] == ts[0].value && ts[0].value in l.Elements();
    assert forall v :: v in l.Elements() ==> ts[0].value <= v by {
      forall v | v in l.Elements()
        ensures ts[0].value <= v
      {
        InElements(ts, v);
      }
    }
    if l.size > 0 then NextAt(ts, Sentinel, 0) else None
  }

  /**
   * The values iterator `++` (`next[0]`) visits from `it` until the null
   * `end()`: with every node linked on level 0, the values from that node on.
   */
  function Iterate(ts: seq<Tower>, it: Option<nat>): (vs: seq<int>)
    requires it.Some? ==> it.value < |ts|
    decreases if it.Some? then |ts| - it.value else 0
    ensures it.Some? && (forall k :: 0 <= k < |ts| ==> ts[k].height >= 1) ==> vs == Values(ts)[it.value..]
  {
    match it
    case None => []
    case Some(i) =>
      assert (forall k :: 0 <= k < |ts| ==> ts[k].height >= 1) ==>
        NextAt(ts, i, 0) == if i + 1 < |ts| then Some(i + 1) else None;
      [ts[i].value] + Iterate(ts, NextAt(ts, i, 0))
  }

  /** Iteration from `begin()` to `end()` yields every element, in ascending order. */
  lemma IterationIsSorted(l: List)
    requires l.Valid()
    ensures Iterate(l.towers, Begin(l)) == Values(l.towers)
    ensures NonDecreasing(Iterate(l.towers, Begin(l)))
    ensures multiset(Iterate(l.towers, Begin(l))) == l.Elements()
  {
    if l.size > 0 {
      assert l.towers[0].height >= 1;
    }
  }
}

=== FILE: splay.dfy ===
/**
 * Splay (src/binary_tree/splay.hpp): a search tree that rotates the node it
 * reaches up to the root.  Nodes carry no field of their own, so tags are
 * `()`.  The element count `n` is raised by the base class's `adopt` and
 * lowered by its `splice`, and `erase` lowers it itself when it joins two
 * subtrees.
 */
module Splay {
  import opened Wrappers
  import opened Sequences
  import opened Trees

  type STree = Tree<()>

  /** The tree and the element count the class keeps. */
  datatype SplayTree = SplayTree(root: STree, n: nat)

  ghost predicate Valid(s: SplayTree) {
    Ascending(Inorder(s.root)) && s.n == |Inorder(s.root)|
  }

  /**
   * One pass of the loop of `splay(u, target)` where u has a grandfather
   * below the target: with f its father and g its grandfather, zig-zig
   * rotates g and then f the same way, zig-zag rotates f and then g the
   * opposite ways.  u ends where g was.
   */
  function Step<A>(f: Frame<A>, g: Frame<A>, u: Tree<A>): (x: Tree<A>)
    requires u.Node?
    ensures x.Node? && x.key == u.key
    ensures Inorder(x) == Inorder(Attach(g, Attach(f, u)))
    ensures |Inorder(x.left)| == |Before([f, g])| + |Inorder(u.left)|
  {
    var e: seq<Frame<A>> := [];
    assert Before([g]) == Before(e) + (if g.wentLeft then [] else Inorder(g.other) + [g.key]);
    assert [f, g][1..] == [g];
    if f.wentLeft && g.wentLeft then
      RotateRight(RotateRight(Attach(g, Attach(f, u))))
    else if !f.wentLeft && !g.wentLeft then
      RotateLeft(RotateLeft(Attach(g, Attach(f, u))))
    else if !f.wentLeft then
      RotateRight(Attach(g, RotateLeft(Attach(f, u))))
    else
      RotateLeft(Attach(g, RotateRight(Attach(f, u))))
  }

  /**
   * `splay(u, target)`: u rotated up until it fills the target slot, the
   * top of `path`; a single rotation of the father when the father is the
   * target, a double step otherwise.  u ends at the top with every key
   * before it on its left.
   */
  function Splay<A>(path: seq<Frame<A>>, u: Tree<A>): (r: Tree<A>)
    requires u.Node?
    decreases |path|
    ensures r.Node? && r.key == u.key
    ensures Inorder(r) == Inorder(Plug(path, u))
    ensures |Inorder(r.left)| == |Before(path)| + |Inorder(u.left)|
  {
    if |path| == 0 then u
    else if |path| == 1 then
      var f := path[0];
      assert Plug(path, u) == Attach(f, u);
      var e: seq<Frame<A>> := [];
      assert Before(path) == Before(e) + (if f.wentLeft then [] else Inorder(f.other) + [f.key]);
      if f.wentLeft then RotateRight(Attach(f, u)) else RotateLeft(Attach(f, u))
    else
      var x := Step(path[0], path[1], u);
      SplayStepAround(path, u, x);
      Splay(path[2..], x)
  }

  /** A double step changes nothing above the grandfather. */
  lemma SplayStepAround<A>(path: seq<Frame<A>>, u: Tree<A>, x: Tree<A>)
    requires |path| >= 2 && u.Node? && Inorder(x) == Inorder(Attach(path[1], Attach(path[0], u)))
    ensures Inorder(Plug(path[2..], x)) == Inorder(Plug(path, u))
    ensures |Before(path)| == |Before(path[2..])| + |Before([path[0], path[1]])|
  {
    var f, g := path[0], path[1];
    assert path[1..][1..] == path[2..];
    assert Plug(path, u) == Plug(path[2..], Attach(g, Attach(f, u)));
    PlugSame(path[2..], x, Attach(g, Attach(f, u)));
    var e: seq<Frame<A>> := [];
    assert [f, g][1..] == [g];
    assert Before([g]) == Before(e) + (if g.wentLeft then [] else Inorder(g.other) + [g.key]);
  }

  /**
   * `BSTree::find_last(x)`: the node the search for x stops at, the one
   * holding x when there is one and otherwise the last node visited; none
   * in an empty tree.
   */
  function FindLast(t: STree, x: int): (r: Option<Loc<()>>)
    ensures r.None? <==> t.Nil?
    ensures r.Some? ==> Whole(r.value) == t && r.value.focus.Node?
    ensures r.Some? && Ascending(Inorder(t)) ==> (r.value.focus.key == x <==> x in Inorder(t))
  {
    var l := Find(Loc([], t), x);
    FindLastFacts(t, x, l);
    if l.focus.Node? then Some(l)
    else if |l.path| == 0 then None
    else Some(Loc(l.path[1..], Attach(l.path[0], Nil)))
  }

  /** The search stops on x exactly when x is stored; a stop in an empty slot below a node never leaves x there. */
  lemma FindLastFacts(t: STree, x: int, l: Loc<()>)
    requires l == Find(Loc([], t), x)
    ensures l.focus.Nil? && |l.path| == 0 ==> t.Nil?
    ensures Ascending(Inorder(t)) ==> (l.focus.Node? <==> x in Inorder(t))
    ensures l.focus.Nil? && |l.path| > 0 ==> Attach(l.path[0], Nil).key != x
  {
    if Ascending(Inorder(t)) {
      FindMember(t, x);
    }
    if l.focus.Nil? && |l.path| > 0 {
      FindParent(Loc([], t), x);
    }
  }

  /** The father of the empty slot a search ends in does not hold the key searched for. */
  lemma FindParent(l: Loc<()>, x: int)
    decreases l.focus
    ensures var r := Find(l, x);
      r == l || (|r.path| > |l.path| && (r.focus.Nil? ==> r.path[0].key != x))
  {
    if l.focus.Node? && l.focus.key != x {
      var next := if x < l.focus.key then DownLeft(l) else DownRight(l);
      FindParent(next, x);
    }
  }

  /** `Splay::find_last(x)`: the node `BSTree::find_last` stops at, splayed to the root. */
  function Access(t: STree, x: int): (r: STree)
    ensures Inorder(r) == Inorder(t) && (r.Nil? <==> t.Nil?)
    ensures Ascending(Inorder(t)) && x in Inorder(t) ==> r.Node? && r.key == x
  {
    match FindLast(t, x)
    case None => t
    case Some(l) => Splay(l.path, l.focus)
  }

  /** `contains` through the splaying search: x is stored exactly when it ends at the root. */
  function Contains(s: SplayTree, x: int): (r: (SplayTree, bool))
    requires Valid(s)
    ensures Valid(r.0) && Inorder(r.0.root) == Inorder(s.root)
    ensures r.1 <==> x in Inorder(s.root)
  {
    var t := Access(s.root, x);
    (SplayTree(t, s.n), t.Node? && t.key == x)
  }

  /**
   * `insert(x)`: when `BSTree::find_last` does not stop on x, a new node is
   * hung below the node it stopped at and splayed to the root; answers
   * whether x was new.
   */
  function Insert(s: SplayTree, x: int): (r: (SplayTree, bool))
    requires Valid(s)
    ensures Valid(r.0) && Keys(r.0.root) == Keys(s.root) + {x}
    ensures r.1 <==> x !in Inorder(s.root)
    ensures r.1 ==> r.0.root.Node? && r.0.root.key == x && r.0.n == s.n + 1
    ensures !r.1 ==> r.0 == s
  {
    FindMember(s.root, x);
    var l := Find(Loc([], s.root), x);
    if l.focus.Node? then (s, false)
    else
      var u := Node(Nil, x, (), Nil);
      InsertAt(l, u);
      (SplayTree(Splay(l.path, u), s.n + 1), true)
  }

  /** The new node hung in the slot keeps the keys ascending, with x added. */
  lemma InsertAt(l: Loc<()>, u: STree)
    requires Ascending(Inorder(Whole(l))) && l.focus.Nil? && u.Node?
    requires AllBelow(Before(l.path), u.key) && AllAbove(After(l.path), u.key)
    requires u == Node(Nil, u.key, (), Nil)
    ensures Inorder(Plug(l.path, u)) == Before(l.path) + [u.key] + After(l.path)
    ensures Ascending(Inorder(Plug(l.path, u))) && |Inorder(Plug(l.path, u))| == |Inorder(Whole(l))| + 1
    ensures Keys(Plug(l.path, u)) == Keys(Whole(l)) + {u.key}
  {
    var b, a := Before(l.path), After(l.path);
    PlugNil(l.path);
    PlugLeaf(l.path, u);
    assert Inorder(Whole(l)) == b + a;
    InsertAscending(b, u.key, a);
    ElemsInsert(b, u.key, a);
  }

  /**
   * The two subtrees of the erased root joined: the one present when only
   * one is, otherwise the left subtree's maximum splayed to its top with
   * the right subtree hung on its right.
   */
  function Join(l: STree, w: STree, x: int): (r: STree)
    requires Ascending(Inorder(l) + [x] + Inorder(w))
    ensures Inorder(r) == Inorder(l) + Inorder(w)
  {
    if l.Nil? then
      assert Inorder(l) + Inorder(w) == Inorder(w);
      w
    else if w.Nil? then
      assert Inorder(l) + Inorder(w) == Inorder(l);
      l
    else
      var m := MaxLoc(Loc([], l));
      var top := Splay(m.path, m.focus);
      JoinTop(l, m, top);
      Node(top.left, top.key, (), w)
  }

  /** The maximum splayed to the top of its subtree has nothing on its right. */
  lemma JoinTop(l: STree, m: Loc<()>, top: STree)
    requires l.Node? && m == MaxLoc(Loc([], l)) && top == Splay(m.path, m.focus)
    ensures top.right.Nil? && Inorder(top) == Inorder(l) && Inorder(top) == Inorder(top.left) + [top.key]
  {
    var e: seq<Frame<()>> := [];
    assert Before(e) == [];
    assert Plug(m.path, m.focus) == l;
    assert |Inorder(top)| == |Inorder(top.left)| + 1 + |Inorder(top.right)|;
  }

  /**
   * `erase(x)`: the splaying search brings x, or the last node visited, to
   * the root; when the root holds x it is taken out and its subtrees are
   * joined, n shrinking.  A miss still leaves the tree splayed.
   */
  function Erase(s: SplayTree, x: int): (r: (SplayTree, bool))
    requires Valid(s)
    ensures Valid(r.0) && Keys(r.0.root) == Keys(s.root) - {x}
    ensures r.1 <==> x in Inorder(s.root)
    ensures r.1 ==> r.0.n + 1 == s.n
    ensures !r.1 ==> Inorder(r.0.root) == Inorder(s.root) && r.0.n == s.n
  {
    var t := Access(s.root, x);
    if t.Nil? || t.key != x then
      assert Elems(Inorder(s.root)) - {x} == Elems(Inorder(s.root));
      (SplayTree(t, s.n), false)
    else
      var b, a := Inorder(t.left), Inorder(t.right);
      assert Inorder(t) == b + [x] + a;
      RemoveAscending(b, x, a);
      ElemsRemove(b, x, a);
      (SplayTree(Join(t.left, t.right, x), s.n - 1), true)
  }
}

=== FILE: treap.dfy ===
/**
 * Treap (src/binary_tree/treap.hpp): a search tree on the keys that is a
 * min-heap on random priorities.  Its `bubble_up` and `trickle_down` are
 * the algorithms of the y-fast trie's treap, rotation for rotation, so the
 * tree operations are the YTreap ones; this class adds the element count
 * `n`, which the base class's `adopt` raises and `splice` lowers.
 * Priorities come from a generator over `size_t` and are arguments here.
 */
module Treap {
  import opened Sequences
  import opened Trees
  import YTreap

  /** The tree and the element count the class keeps. */
  datatype TreapSet = TreapSet(root: YTreap.Treap, n: nat)

  ghost predicate Valid(s: TreapSet) {
    YTreap.Valid(s.root) && s.n == |Inorder(s.root)|
  }

  /** The empty treap. */
  function Empty(): (s: TreapSet)
    ensures Valid(s) && Keys(s.root) == {}
  {
    TreapSet(Nil, 0)
  }

  /** `contains`: the search of `find_last` ends on the key. */
  function Contains(s: TreapSet, x: int): (b: bool)
    requires Valid(s)
    ensures b <==> x in Keys(s.root)
  {
    YTreap.Contains(s.root, x)
  }

  /**
   * `insert(x)`: when `find_last` does not end on x, a node with priority p
   * is hung below the node it ended on and bubbled up; answers whether x
   * was new.
   */
  function Insert(s: TreapSet, x: int, p: nat): (r: (TreapSet, bool))
    requires Valid(s)
    ensures Valid(r.0) && Keys(r.0.root) == Keys(s.root) + {x}
    ensures r.1 <==> x !in Keys(s.root)
    ensures r.0.n == if r.1 then s.n + 1 else s.n
    ensures !r.1 ==> r.0 == s
  {
    var (t, added) := YTreap.Insert(s.root, x, p);
    SizeFollowsKeys(s.root, t);
    (TreapSet(t, if added then s.n + 1 else s.n), added)
  }

  /** `erase(x)`: a node holding x is trickled down to a leaf and spliced out; answers whether x was there. */
  function Erase(s: TreapSet, x: int): (r: (TreapSet, bool))
    requires Valid(s)
    ensures Valid(r.0) && Keys(r.0.root) == Keys(s.root) - {x}
    ensures r.1 <==> x in Keys(s.root)
    ensures r.0.n == if r.1 then s.n - 1 else s.n
    ensures !r.1 ==> r.0 == s
  {
    var (t, removed) := YTreap.Erase(s.root, x);
    SizeFollowsKeys(s.root, t);
    (TreapSet(t, if removed then s.n - 1 else s.n), removed)
  }

  /** In trees with ascending keys the number of nodes is the number of keys. */
  lemma SizeFollowsKeys(t: YTreap.Treap, u: YTreap.Treap)
    requires Ascending(Inorder(t)) && Ascending(Inorder(u))
    ensures |Inorder(t)| == |Keys(t)| && |Inorder(u)| == |Keys(u)|
  {
    AscendingCard(Inorder(t));
    AscendingCard(Inorder(u));
  }

  /** After inserting x the treap contains x; after erasing it, it does not; other keys are unaffected by either. */
  lemma InsertEraseContains(s: TreapSet, x: int, p: nat, y: int)
    requires Valid(s)
    ensures Contains(Insert(s, x, p).0, x) && !Contains(Erase(s, x).0, x)
    ensures y != x ==> Contains(Insert(s, x, p).0, y) == Contains(s, y) == Contains(Erase(s, x).0, y)
  {
  }
}

=== FILE: trees.dfy ===
/**
 * Binary search trees as values.  A node carries its key and a tag, the
 * per-node field each tree adds (a treap's priority, an AVL balance factor,
 * a red-black colour, a subtree weight).  Father pointers become a zipper:
 * a position in a tree is the subtree there plus the way back up, father
 * first, so that the pointer walks of the sources (climbing to the first
 * ancestor reached from the right, descending the leftmost spine) become
 * recursive functions over positions.
 */
module Trees {
  import opened Wrappers
  import opened Sequences

  datatype Tree<A> = Nil | Node(left: Tree<A>, key: int, tag: A, right: Tree<A>)

  /** The keys in symmetric order. */
  function Inorder<A>(t: Tree<A>): (s: seq<int>)
    ensures t.Nil? <==> |s| == 0
  {
    match t
    case Nil => []
    case Node(l, k, _, r) => Inorder(l) + [k] + Inorder(r)
  }

  /** The keys as a set. */
  ghost function Keys<A>(t: Tree<A>): set<int> {
    Elems(Inorder(t))
  }

  /** A tree has no keys exactly when it is empty. */
  lemma KeysEmpty<A>(t: Tree<A>)
    ensures Keys(t) == {} <==> t.Nil?
  {
    if t.Node? {
      assert Inorder(t)[|Inorder(t.left)|] == t.key;
      assert t.key in Keys(t);
    }
  }

  /** One step of the way back up: which side of the father the position is on, and the father's other subtree. */
  datatype Frame<A> = Frame(wentLeft: bool, key: int, tag: A, other: Tree<A>)

  /** A position: the subtree there and the frames from its father up to the root. */
  datatype Loc<A> = Loc(path: seq<Frame<A>>, focus: Tree<A>)

  function Attach<A>(f: Frame<A>, t: Tree<A>): Tree<A> {
    if f.wentLeft then Node(t, f.key, f.tag, f.other) else Node(f.other, f.key, f.tag, t)
  }

  /** The whole tree, rebuilt from a subtree and the way up. */
  function Plug<A>(path: seq<Frame<A>>, t: Tree<A>): Tree<A>
    decreases |path|
  {
    if |path| == 0 then t else Plug(path[1..], Attach(path[0], t))
  }

  function Whole<A>(l: Loc<A>): Tree<A> {
    Plug(l.path, l.focus)
  }

  /** The keys that come before the position in symmetric order. */
  function Before<A>(path: seq<Frame<A>>): seq<int>
    decreases |path|
  {
    if |path| == 0 then []
    else Before(path[1..]) + (if path[0].wentLeft then [] else Inorder(path[0].other) + [path[0].key])
  }

  /** The keys that come after the position in symmetric order. */
  function After<A>(path: seq<Frame<A>>): seq<int>
    decreases |path|
  {
    if |path| == 0 then []
    else (if path[0].wentLeft then [path[0].key] + Inorder(path[0].other) else []) + After(path[1..])
  }

  /** Rebuilding a tree puts the subtree's keys between those before and after the position. */
  lemma {:induction false} PlugInorder<A>(path: seq<Frame<A>>, t: Tree<A>)
    decreases |path|
    ensures Inorder(Plug(path, t)) == Before(path) + Inorder(t) + After(path)
  {
    if |path| > 0 {
      PlugInorder(path[1..], Attach(path[0], t));
    }
  }

  /** The keys of a tree split around a node: those before it and in its left subtree, its own, the rest. */
  lemma PlugNode<A>(path: seq<Frame<A>>, t: Tree<A>)
    requires t.Node?
    ensures Inorder(Plug(path, t)) == (Before(path) + Inorder(t.left)) + [t.key] + (Inorder(t.right) + After(path))
  {
    PlugInorder(path, t);
    var b, l, k, r, a := Before(path), Inorder(t.left), [t.key], Inorder(t.right), After(path);
    assert Inorder(t) == l + k + r;
    Assoc(b, l + k, r);
    Assoc(b, l, k);
    Assoc(b + l + k, r, a);
  }

  /** The keys of a tree around an empty slot. */
  lemma PlugNil<A>(path: seq<Frame<A>>)
    ensures Inorder(Plug(path, Nil)) == Before(path) + After(path)
  {
    PlugInorder(path, Nil);
    assert Before(path) + [] == Before(path);
  }

  /** The keys of a tree with a leaf hung in an empty slot. */
  lemma PlugLeaf<A>(path: seq<Frame<A>>, t: Tree<A>)
    requires t.Node? && t.left.Nil? && t.right.Nil?
    ensures Inorder(Plug(path, t)) == Before(path) + [t.key] + After(path)
  {
    PlugInorder(path, t);
    assert Inorder(t) == [t.key];
  }

  /** Putting in a node's place a subtree holding its children's keys drops just the node's key. */
  lemma PlugJoin<A>(path: seq<Frame<A>>, t: Tree<A>, d: Tree<A>)
    requires t.Node? && Inorder(d) == Inorder(t.left) + Inorder(t.right)
    ensures Inorder(Plug(path, d)) == (Before(path) + Inorder(t.left)) + (Inorder(t.right) + After(path))
  {
    PlugInorder(path, d);
    var b, l, r, a := Before(path), Inorder(t.left), Inorder(t.right), After(path);
    Assoc(b, l, r);
    Assoc(b + l, r, a);
  }

  /** Replacing the subtree at a position by one with the same keys in the same order keeps the whole tree's keys. */
  lemma PlugSame<A>(path: seq<Frame<A>>, t: Tree<A>, t': Tree<A>)
    requires Inorder(t) == Inorder(t')
    ensures Inorder(Plug(path, t)) == Inorder(Plug(path, t'))
  {
    PlugInorder(path, t);
    PlugInorder(path, t');
  }

  /** Climbing a path and then the next one is climbing the two joined. */
  lemma {:induction false} PlugAppend<A>(p: seq<Frame<A>>, q: seq<Frame<A>>, t: Tree<A>)
    decreases |p|
    ensures Plug(p + q, t) == Plug(q, Plug(p, t))
  {
    if |p| > 0 {
      assert (p + q)[0] == p[0] && (p + q)[1..] == p[1..] + q;
      PlugAppend(p[1..], q, Attach(p[0], t));
    } else {
      assert p + q == q;
    }
  }

  /** Replacing the successor by its right child and the node's key by the successor's loses just the node's key. */
  lemma SuccessorKeys<A>(l: Loc<A>, m: Loc<A>, path: seq<Frame<A>>)
    requires l.focus.Node? && l.focus.right.Node? && m == MinLoc(Loc([], l.focus.right))
    requires path == m.path + [Frame(false, m.focus.key, l.focus.tag, l.focus.left)] + l.path
    ensures Inorder(Plug(path, m.focus.right)) == Before(l.path) + Inorder(l.focus.left) + Inorder(l.focus.right) + After(l.path)
  {
    var u, y := l.focus, m.focus;
    var rest := Plug(m.path, y.right);
    MinSplit(u.right, m);
    var top := Node(u.left, y.key, u.tag, rest);
    PlugThrough(m.path, Frame(false, y.key, u.tag, u.left), l.path, y.right);
    PlugInorder(l.path, top);
    Assoc(Inorder(u.left), [y.key], Inorder(rest));
    Assoc(Before(l.path), Inorder(u.left), Inorder(u.right));
  }

  /** The leftmost node's key followed by the keys left once it is replaced by its right child. */
  lemma {:induction false} MinSplit<A>(t: Tree<A>, m: Loc<A>)
    requires t.Node? && m == MinLoc(Loc([], t))
    ensures Inorder(t) == [m.focus.key] + Inorder(Plug(m.path, m.focus.right))
  {
    MinEdge(t, m);
    SplitAtLeftmost(m.path, m.focus, t);
  }

  /** The leftmost node has nothing before it: no key on its path and no left child. */
  lemma MinEdge<A>(t: Tree<A>, m: Loc<A>)
    requires t.Node? && m == MinLoc(Loc([], t))
    ensures Before(m.path) == [] && m.focus.Node? && m.focus.left.Nil? && Whole(m) == t
  {
    var e: seq<Frame<A>> := [];
    assert Before(e) == [];
    assert |Before(m.path)| + |Inorder(m.focus.left)| == 0;
  }

  /** A node with nothing before it, rebuilt along its path, starts the order with its key. */
  lemma {:induction false} SplitAtLeftmost<A>(path: seq<Frame<A>>, f: Tree<A>, t: Tree<A>)
    requires Before(path) == [] && f.Node? && f.left.Nil? && Plug(path, f) == t
    ensures Inorder(t) == [f.key] + Inorder(Plug(path, f.right))
  {
    var k, R, W := f.key, Inorder(f.right), After(path);
    PlugInorder(path, f);
    assert Inorder(f) == [k] + R;
    assert Inorder(t) == [k] + R + W;
    PlugInorder(path, f.right);
    assert Inorder(Plug(path, f.right)) == R + W;
    Assoc([k], R, W);
  }

  /** Climbing a lower path, one frame, then the upper path. */
  lemma PlugThrough<A>(low: seq<Frame<A>>, f: Frame<A>, high: seq<Frame<A>>, t: Tree<A>)
    ensures Plug(low + [f] + high, t) == Plug(high, Attach(f, Plug(low, t)))
  {
    assert low + [f] + high == low + ([f] + high);
    PlugAppend(low, [f] + high, t);
    PlugAppend([f], high, Plug(low, t));
    assert Plug([f], Plug(low, t)) == Attach(f, Plug(low, t));
  }

  /** The position of a node in the symmetric order of the whole tree. */
  function Index<A>(l: Loc<A>): nat
    requires l.focus.Node?
  {
    |Before(l.path)| + |Inorder(l.focus.left)|
  }

  /** The node at a position holds the key at its index. */
  lemma KeyAt<A>(l: Loc<A>)
    requires l.focus.Node?
    ensures Index(l) < |Inorder(Whole(l))| && Inorder(Whole(l))[Index(l)] == l.focus.key
  {
    PlugInorder(l.path, l.focus);
  }

  /** Going down to the left child. */
  function DownLeft<A>(l: Loc<A>): (r: Loc<A>)
    requires l.focus.Node?
    ensures Whole(r) == Whole(l) && Before(r.path) == Before(l.path)
    ensures After(r.path) == [l.focus.key] + Inorder(l.focus.right) + After(l.path)
  {
    var t := l.focus;
    var r := Loc([Frame(true, t.key, t.tag, t.right)] + l.path, t.left);
    assert r.path[1..] == l.path;
    r
  }

  /** Going down to the right child. */
  function DownRight<A>(l: Loc<A>): (r: Loc<A>)
    requires l.focus.Node?
    ensures Whole(r) == Whole(l) && Before(r.path) == Before(l.path) + Inorder(l.focus.left) + [l.focus.key]
    ensures After(r.path) == After(l.path)
  {
    var t := l.focus;
    var r := Loc([Frame(false, t.key, t.tag, t.left)] + l.path, t.right);
    assert r.path[1..] == l.path;
    r
  }

  /** `max_node`: the rightmost node below a position. */
  function MaxLoc<A>(l: Loc<A>): (r: Loc<A>)
    requires l.focus.Node?
    decreases l.focus
    ensures Whole(r) == Whole(l) && r.focus.Node? && r.focus.right.Nil?
    ensures Index(r) + 1 == |Before(l.path)| + |Inorder(l.focus)|
  {
    if l.focus.right.Nil? then l else MaxLoc(DownRight(l))
  }

  /** `min_node`: the leftmost node below a position. */
  function MinLoc<A>(l: Loc<A>): (r: Loc<A>)
    requires l.focus.Node?
    decreases l.focus
    ensures Whole(r) == Whole(l) && r.focus.Node? && r.focus.left.Nil?
    ensures Index(r) == |Before(l.path)|
  {
    if l.focus.left.Nil? then l else MinLoc(DownLeft(l))
  }

  /**
   * `while (n->father && n != n->father->right) n = n->father; return
   * n->father`: climb while coming from the left; the father reached from
   * the right, or none at the root.
   */
  function UpFromRight<A>(path: seq<Frame<A>>, t: Tree<A>): (r: Option<Loc<A>>)
    decreases |path|
    ensures r.None? <==> |Before(path)| == 0
    ensures r.Some? ==> Whole(r.value) == Plug(path, t) && r.value.focus.Node? && Index(r.value) + 1 == |Before(path)|
  {
    if |path| == 0 then None
    else if path[0].wentLeft then UpFromRight(path[1..], Attach(path[0], t))
    else Some(Loc(path[1..], Attach(path[0], t)))
  }

  /** The mirror climb: the father reached from the left. */
  function UpFromLeft<A>(path: seq<Frame<A>>, t: Tree<A>): (r: Option<Loc<A>>)
    decreases |path|
    ensures r.None? <==> |After(path)| == 0
    ensures r.Some? ==> Whole(r.value) == Plug(path, t) && r.value.focus.Node?
    ensures r.Some? ==> |Before(r.value.path)| + |Inorder(r.value.focus.left)| == |Before(path)| + |Inorder(t)|
  {
    if |path| == 0 then None
    else if !path[0].wentLeft then UpFromLeft(path[1..], Attach(path[0], t))
    else Some(Loc(path[1..], Attach(path[0], t)))
  }

  /** The in-order predecessor: the maximum of the left subtree, else the first ancestor reached from the right. */
  function PredLoc<A>(l: Loc<A>): (r: Option<Loc<A>>)
    requires l.focus.Node?
    ensures r.None? <==> Index(l) == 0
    ensures r.Some? ==> Whole(r.value) == Whole(l) && r.value.focus.Node? && Index(r.value) + 1 == Index(l)
  {
    if l.focus.left.Node? then Some(MaxLoc(DownLeft(l))) else UpFromRight(l.path, l.focus)
  }

  /** The in-order successor: the minimum of the right subtree, else the first ancestor reached from the left. */
  function SuccLoc<A>(l: Loc<A>): (r: Option<Loc<A>>)
    requires l.focus.Node?
    ensures r.None? <==> Index(l) + 1 == |Inorder(Whole(l))|
    ensures r.Some? ==> Whole(r.value) == Whole(l) && r.value.focus.Node? && Index(r.value) == Index(l) + 1
  {
    PlugInorder(l.path, l.focus);
    if l.focus.right.Node? then Some(MinLoc(DownRight(l)))
    else UpFromLeft(l.path, l.focus)
  }

  /** `rotate(u, right)`: u's left child takes u's place, u becoming its right child. */
  function RotateRight<A>(t: Tree<A>): (r: Tree<A>)
    requires t.Node? && t.left.Node?
    ensures Inorder(r) == Inorder(t)
  {
    Node(t.left.left, t.left.key, t.left.tag, Node(t.left.right, t.key, t.tag, t.right))
  }

  /** `rotate(u, left)`: u's right child takes u's place, u becoming its left child. */
  function RotateLeft<A>(t: Tree<A>): (r: Tree<A>)
    requires t.Node? && t.right.Node?
    ensures Inorder(r) == Inorder(t)
  {
    Node(Node(t.left, t.key, t.tag, t.right.left), t.right.key, t.right.tag, t.right.right)
  }

  /** Every key of s is below x. */
  ghost predicate AllBelow(s: seq<int>, x: int) {
    forall v :: v in s ==> v < x
  }

  /** Every key of s is above x. */
  ghost predicate AllAbove(s: seq<int>, x: int) {
    forall v :: v in s ==> x < v
  }

  /**
   * The search of `find_node` and `locate`: stop at a node holding x, go
   * left when x is smaller, right otherwise.  In a search tree a missing x
   * ends at the empty slot between the keys below x and those above.
   */
  function Find<A>(l: Loc<A>, x: int): (r: Loc<A>)
    decreases l.focus
    ensures Whole(r) == Whole(l)
    ensures r.focus.Node? ==> r.focus.key == x
    ensures NonDecreasing(Inorder(Whole(l))) && AllBelow(Before(l.path), x) && AllAbove(After(l.path), x) ==>
      AllBelow(Before(r.path), x) && AllAbove(After(r.path), x)
  {
    if l.focus.Nil? || l.focus.key == x then l
    else
      var next := if x < l.focus.key then DownLeft(l) else DownRight(l);
      FindStep(l, x);
      Find(next, x)
  }

  /** One step of the search keeps the keys before the position below x and those after it above x. */
  lemma FindStep<A>(l: Loc<A>, x: int)
    requires l.focus.Node? && l.focus.key != x
    ensures NonDecreasing(Inorder(Whole(l))) && AllBelow(Before(l.path), x) && AllAbove(After(l.path), x) ==>
      && (x < l.focus.key ==> AllAbove(After(DownLeft(l).path), x))
      && (l.focus.key < x ==> AllBelow(Before(DownRight(l).path), x))
  {
    if NonDecreasing(Inorder(Whole(l))) {
      SortedLoc(l);
    }
  }

  /** A search tree's keys split around an empty slot: x is stored exactly when the search ends on a node. */
  lemma FindMember<A>(t: Tree<A>, x: int)
    requires NonDecreasing(Inorder(t))
    ensures var r := Find(Loc([], t), x);
      && (r.focus.Node? <==> x in Inorder(t))
      && (r.focus.Nil? ==> AllBelow(Before(r.path), x) && AllAbove(After(r.path), x))
  {
    var r := Find(Loc([], t), x);
    PlugInorder(r.path, r.focus);
    if r.focus.Node? {
      KeyAt(r);
    }
  }

  /** Every key of s is at most x. */
  ghost predicate AllAtMost(s: seq<int>, x: int) {
    forall v :: v in s ==> v <= x
  }

  /** Every key of s is at least x. */
  ghost predicate AllAtLeast(s: seq<int>, x: int) {
    forall v :: v in s ==> x <= v
  }

  lemma AllAtMostConcat(a: seq<int>, b: seq<int>, x: int)
    requires AllAtMost(a, x) && AllAtMost(b, x)
    ensures AllAtMost(a + b, x)
  {
  }

  lemma AllAtLeastConcat(a: seq<int>, b: seq<int>, x: int)
    requires AllAtLeast(a, x) && AllAtLeast(b, x)
    ensures AllAtLeast(a + b, x)
  {
  }

  /** Every key before a node in a sorted tree is at most its key, every key after it at least. */
  lemma SortedLoc<A>(l: Loc<A>)
    requires l.focus.Node? && NonDecreasing(Inorder(Whole(l)))
    ensures AllAtMost(Before(l.path), l.focus.key) && AllAtMost(Inorder(l.focus.left), l.focus.key)
    ensures AllAtLeast(Inorder(l.focus.right), l.focus.key) && AllAtLeast(After(l.path), l.focus.key)
  {
    PlugInorder(l.path, l.focus);
    SortedAround(Before(l.path), Inorder(l.focus), After(l.path), Inorder(l.focus.left), l.focus.key, Inorder(l.focus.right));
  }

  /** In a non-decreasing b + m + a with m = left + [k] + right, everything left of k is at most k and everything right of it at least k. */
  lemma SortedAround(b: seq<int>, m: seq<int>, a: seq<int>, left: seq<int>, k: int, right: seq<int>)
    requires NonDecreasing(b + m + a) && m == left + [k] + right
    ensures AllAtMost(b, k) && AllAtMost(left, k) && AllAtLeast(right, k) && AllAtLeast(a, k)
  {
    var s := b + m + a;
    var p := |b| + |left|;
    assert s[p] == m[|left|] == k;
    forall i | 0 <= i < |b| ensures b[i] <= k {
      assert b[i] == s[i];
    }
    forall i | 0 <= i < |left| ensures left[i] <= k {
      assert left[i] == m[i] == s[|b| + i];
    }
    forall i | 0 <= i < |right| ensures k <= right[i] {
      assert right[i] == m[|left| + 1 + i] == s[p + 1 + i];
    }
    forall i | 0 <= i < |a| ensures k <= a[i] {
      assert a[i] == s[|b| + |m| + i];
    }
  }

  /** A strictly ascending sequence stays so with x put between the keys below it and those above it. */
  lemma InsertAscending(b: seq<int>, x: int, a: seq<int>)
    requires Ascending(b + a) && AllBelow(b, x) && AllAbove(a, x)
    ensures Ascending(b + [x] + a)
  {
    var s := b + [x] + a;
    forall i, j | 0 <= i < j < |s| ensures s[i] < s[j] {
      if j < |b| {
        assert s[i] == (b + a)[i] && s[j] == (b + a)[j];
      } else if |b| < i {
        assert s[i] == (b + a)[i - 1] && s[j] == (b + a)[j - 1];
      } else {
        assert i < |b| ==> s[i] == b[i] && b[i] in b;
        assert |b| < j ==> s[j] == a[j - |b| - 1] && a[j - |b| - 1] in a;
      }
    }
  }

  /** Dropping one key from a strictly ascending sequence keeps it ascending, and that key is gone. */
  lemma RemoveAscending(b: seq<int>, x: int, a: seq<int>)
    requires Ascending(b + [x] + a)
    ensures Ascending(b + a) && x !in b + a
    ensures forall k :: k in b + a <==> k in b + [x] + a && k != x
  {
    var s := b + [x] + a;
    forall i, j | 0 <= i < j < |b + a| ensures (b + a)[i] < (b + a)[j] {
      var i', j' := if i < |b| then i else i + 1, if j < |b| then j else j + 1;
      assert (b + a)[i] == s[i'] && (b + a)[j] == s[j'];
    }
    forall k | k in b + a ensures k != x {
      var i :| 0 <= i < |b + a| && (b + a)[i] == k;
      if i < |b| {
        assert s[i] == k && s[|b|] == x;
      } else {
        assert s[i + 1] == k && s[|b|] == x;
      }
    }
  }

  /** Two strictly ascending sequences separated by x join into one. */
  lemma AscendingJoin(a: seq<int>, b: seq<int>, x: int)
    requires Ascending(a) && Ascending(b) && AllAtMost(a, x) && AllAbove(b, x)
    ensures Ascending(a + b)
  {
    var s := a + b;
    forall i, j | 0 <= i < j < |s| ensures s[i] < s[j] {
      if j < |a| {
        assert s[i] == a[i] && s[j] == a[j];
      } else if |a| <= i {
        assert s[i] == b[i - |a|] && s[j] == b[j - |a|];
      } else {
        assert s[i] == a[i] && a[i] in a && s[j] == b[j - |a|] && b[j - |a|] in b;
      }
    }
  }

  /** Cutting a strictly ascending sequence right after x leaves two ascending parts, x and what is below it, and what is above it. */
  lemma CutAscending(b: seq<int>, a: seq<int>, x: int)
    requires Ascending(b + a) && |b| > 0 && b[|b| - 1] == x
    ensures Ascending(b) && Ascending(a) && AllAtMost(b, x) && AllAbove(a, x)
  {
    var s := b + a;
    forall i, j | 0 <= i < j < |b| ensures b[i] < b[j] {
      assert b[i] == s[i] && b[j] == s[j];
    }
    forall i, j | 0 <= i < j < |a| ensures a[i] < a[j] {
      assert a[i] == s[|b| + i] && a[j] == s[|b| + j];
    }
    forall i | 0 <= i < |b| ensures b[i] <= x {
      assert b[i] == s[i] && x == s[|b| - 1];
    }
    forall i | 0 <= i < |a| ensures x < a[i] {
      assert a[i] == s[|b| + i] && x == s[|b| - 1];
    }
  }

  /** `o` is the smallest key of s above x, or none when there is none. */
  ghost predicate SuccOf(s: seq<int>, x: int, o: Option<int>) {
    if o.Some? then o.value in s && x < o.value && forall v :: v in s && x < v ==> o.value <= v
    else forall v :: v in s ==> v <= x
  }

  /** `o` is the largest key of s below x, or none when there is none. */
  ghost predicate PredOf(s: seq<int>, x: int, o: Option<int>) {
    if o.Some? then o.value in s && o.value < x && forall v :: v in s && v < x ==> v <= o.value
    else forall v :: v in s ==> x <= v
  }

  /** v is the least key of s. */
  ghost predicate Least(s: seq<int>, v: int) {
    v in s && forall w :: w in s ==> v <= w
  }

  /** v is the greatest key of s. */
  ghost predicate Greatest(s: seq<int>, v: int) {
    v in s && forall w :: w in s ==> w <= v
  }

  /** `min()`: the leftmost key, none in an empty tree. */
  function MinKey<A>(t: Tree<A>): (r: Option<int>)
    ensures r.None? <==> t.Nil?
    ensures NonDecreasing(Inorder(t)) && r.Some? ==> Least(Inorder(t), r.value)
  {
    if t.Nil? then None
    else
      var m := MinLoc(Loc([], t));
      KeyAt(m);
      Some(m.focus.key)
  }

  /** `max()`: the rightmost key, none in an empty tree. */
  function MaxKey<A>(t: Tree<A>): (r: Option<int>)
    ensures r.None? <==> t.Nil?
    ensures NonDecreasing(Inorder(t)) && r.Some? ==> Greatest(Inorder(t), r.value)
  {
    if t.Nil? then None
    else
      var m := MaxLoc(Loc([], t));
      KeyAt(m);
      Some(m.focus.key)
  }
}

=== FILE: van_emde_boas.dfy ===
/**
 * VanEmdeBoas (src/integer/van_emde_boas.hpp): a van Emde Boas tree over the
 * non-negative integers below 2^d.
 *
 * A node of degree d keeps its smallest value `min` to itself. Every other
 * value x is split into `High(d, x)`, the top d - d/2 bits, and `Low(d, x)`,
 * the bottom d/2 bits. Low(d, x) is stored in the cluster of degree d/2 that
 * the node keeps for High(d, x). A summary node of degree d - d/2 records
 * which clusters are non-empty. `max` is also kept at the node, and is stored
 * in its cluster as well unless it equals `min`. A node of degree 1 keeps
 * only `min` and `max`.
 *
 * In the source, clusters are created on first use and are found through one
 * table of the whole tree, keyed by (node, index). The model gives each node
 * a map from index to cluster. A missing entry is the null pointer the table
 * hands out for an index that was never used.
 *
 * The tree's public operations are those of its root node, whose degree is
 * bit - 1 for an integer type of `bit` bits.
 */
module VanEmdeBoas {
  import opened Wrappers
  import opened Bits

  datatype VNode = VNode(min: Option<nat>, max: Option<nat>, summary: Option<VNode>, clusters: map<nat, VNode>)

  /** A freshly allocated node: no values, no summary, no clusters. */
  function Empty(): (n: VNode)
    ensures n.min.None? && n.max.None? && n.clusters == map[]
  {
    VNode(None, None, None, map[])
  }

  /** The degree of a node's clusters: the number of low bits. */
  function ClusterDegree(d: nat): nat {
    d / 2
  }

  /** The degree of a node's summary: the number of high bits. */
  function SummaryDegree(d: nat): (s: nat)
    ensures d > 1 ==> 1 <= s < d
    ensures s + ClusterDegree(d) == d
  {
    d - d / 2
  }

  /** `high`: x shifted right by d/2 bits.  It fits the summary exactly when x fits d bits. */
  function High(d: nat, x: nat): (h: nat)
    ensures x < Pow2(d) <==> h < Pow2(SummaryDegree(d))
  {
    ShiftBound(d, x);
    x / Pow2(ClusterDegree(d))
  }

  /** x has d bits exactly when x >> d/2 has the remaining d - d/2. */
  lemma ShiftBound(d: nat, x: nat)
    ensures x / Pow2(ClusterDegree(d)) >= 0
    ensures x < Pow2(d) <==> x / Pow2(ClusterDegree(d)) < Pow2(SummaryDegree(d))
  {
    DivNonNegative(x, Pow2(ClusterDegree(d)));
    Pow2Add(SummaryDegree(d), ClusterDegree(d));
    DivBound(x, Pow2(ClusterDegree(d)), Pow2(SummaryDegree(d)));
  }

  /**
   * `low` as the source writes it: it masks d/2 + 1 bits instead of d/2.
   * When the masked value a is at least b = 2^(d/2), bit d/2 of a is
   * already set, so `a | b` is a again; either way `low` returns a, which
   * is the intended low part, or that plus 2^(d/2) when bit d/2 of x is set.
   */
  function LowAsWritten(d: nat, x: nat): (a: nat)
    ensures a < Pow2(ClusterDegree(d) + 1)
    ensures a == Low(d, x) || a == Low(d, x) + Pow2(ClusterDegree(d))
  {
    assert Pow2(ClusterDegree(d) + 1) == 2 * Pow2(ClusterDegree(d));
    ModDouble(x, Pow2(ClusterDegree(d)));
    x % Pow2(ClusterDegree(d) + 1)
  }

  /** Keeping one bit more than p leaves x mod p, or that plus p. */
  lemma ModDouble(x: nat, p: nat)
    requires p > 0
    ensures x % (2 * p) == x % p || x % (2 * p) == x % p + p
  {
    var q, a := x / (2 * p), x % (2 * p);
    DivNonNegative(x, 2 * p);
    if a < p {
      DivModUnique(x, 2 * q, a, p);
    } else {
      DivModUnique(x, 2 * q + 1, a - p, p);
    }
  }

  /** `low` as intended: the bottom d/2 bits, which fit a cluster. */
  function Low(d: nat, x: nat): (y: nat)
    ensures y < Pow2(ClusterDegree(d))
  {
    x % Pow2(ClusterDegree(d))
  }

  /** `index`: the value whose high part is i and whose low part is y, when y fits a cluster. */
  function Index(d: nat, i: nat, y: nat): (v: nat)
    ensures y < Pow2(ClusterDegree(d)) ==> High(d, v) == i && Low(d, v) == y
  {
    var v := i * Pow2(ClusterDegree(d)) + y;
    if y < Pow2(ClusterDegree(d)) then DivModUnique(v, i, y, Pow2(ClusterDegree(d))); v else v
  }

  /** Division by p takes v = i * p + y, for y < p, apart into i and y. */
  lemma DivModUnique(v: nat, i: nat, y: nat, p: nat)
    requires y < p && v == i * p + y
    ensures v / p == i && v % p == y
  {
    var q, r := v / p, v % p;
    assert q * p + r == i * p + y;
    if q < i {
      MulStep(q, i, p);
    } else if q > i {
      MulStep(i, q, p);
    }
  }

  /** Dividing a natural number by a positive one gives a natural number. */
  lemma DivNonNegative(x: nat, p: nat)
    requires p > 0
    ensures x / p >= 0
  {
  }

  lemma {:induction false} MulStep(a: nat, b: nat, p: nat)
    requires a < b
    ensures a * p + p <= b * p
    decreases b
  {
    assert (b - 1) * p + p == b * p;
    if a < b - 1 {
      MulStep(a, b - 1, p);
    }
  }

  /** Splitting a value and joining the parts again gives the value back. */
  lemma Split(d: nat, x: nat)
    ensures Index(d, High(d, x), Low(d, x)) == x
    ensures Low(d, x) < Pow2(ClusterDegree(d))
  {
    var p := Pow2(ClusterDegree(d));
    assert x == (x / p) * p + x % p;
  }

  /** Values compare as their (high, low) pairs compare, lexicographically. */
  lemma {:induction false} Order(d: nat, y: nat, z: nat)
    ensures y < z <==> High(d, y) < High(d, z) || (High(d, y) == High(d, z) && Low(d, y) < Low(d, z))
  {
    var p := Pow2(ClusterDegree(d));
    Split(d, y);
    Split(d, z);
    if High(d, y) < High(d, z) {
      MulStep(High(d, y), High(d, z), p);
    } else if High(d, z) < High(d, y) {
      MulStep(High(d, z), High(d, y), p);
    }
  }

  /** A value whose (high, low) pair is at most (i, z) is at most Index(d, i, z). */
  lemma AtMost(d: nat, y: nat, i: nat, z: nat)
    requires z < Pow2(ClusterDegree(d))
    requires High(d, y) < i || (High(d, y) == i && Low(d, y) <= z)
    ensures y <= Index(d, i, z)
  {
    Order(d, Index(d, i, z), y);
  }

  /** Division by p > 0 keeps the bound q * p as the bound q. */
  lemma DivBound(x: nat, p: nat, q: nat)
    requires p > 0
    ensures x < q * p <==> x / p < q
  {
    var h := x / p;
    assert x == h * p + x % p;
    if h < q {
      MulStep(h, q, p);
    } else if q < h {
      MulStep(q, h, p);
    }
  }

  /** The counterexample to `low` as written: at degree 2, the value 2 does not come back. */
  lemma LowBreaksIndex()
    ensures High(2, 2) == 1 && LowAsWritten(2, 2) == 2
    ensures Index(2, High(2, 2), LowAsWritten(2, 2)) == 4
  {
    assert Pow2(1) == 2;
    assert Pow2(2) == 4;
  }

  /** With the intended `low`, every value is rebuilt from its parts, and the low part fits a cluster. */
  lemma IndexRoundTrip(d: nat, x: nat)
    ensures Index(d, High(d, x), Low(d, x)) == x
    ensures Low(d, x) < Pow2(ClusterDegree(d))
    ensures x < Pow2(d) ==> High(d, x) < Pow2(SummaryDegree(d))
  {
    Split(d, x);
  }

  /**
   * `contains`: x is the node's min or max, or the node has degree above 1
   * and x's low part is in x's cluster. A missing cluster holds nothing.
   */
  function Contains(d: nat, n: VNode, x: nat): (b: bool)
    ensures (n.min == Some(x) || n.max == Some(x)) ==> b
    ensures d <= 1 ==> (b <==> n.min == Some(x) || n.max == Some(x))
    decreases d, 1
  {
    n.min == Some(x) || n.max == Some(x) || Below(d, n, x)
  }

  /** x is stored in the clusters of a node of degree d > 1. */
  predicate Below(d: nat, n: VNode, x: nat)
    decreases d, 0
  {
    d > 1 && High(d, x) in n.clusters && Contains(ClusterDegree(d), n.clusters[High(d, x)], Low(d, x))
  }

  /**
   * The layout invariant of a node of degree d:
   * - min and max are both set or both unset, and min <= max < 2^d;
   * - a node of degree above 1 has valid clusters with fitting indices;
   * - its summary holds exactly the indices of its non-empty clusters;
   * - every value in its clusters lies above min and at most max;
   * - max is in its cluster unless it equals min;
   * - an empty node has only empty clusters.
   */
  ghost predicate Valid(d: nat, n: VNode)
    decreases d, 1
  {
    && d >= 1
    && (n.min.None? <==> n.max.None?)
    && (n.min.Some? && n.max.Some? ==> n.min.value <= n.max.value < Pow2(d))
    && (d > 1 ==> ClustersOk(d, n) && SummaryOk(d, n) && Spread(d, n))
  }

  ghost predicate ClustersOk(d: nat, n: VNode)
    requires d > 1
    decreases d, 0
  {
    forall i :: i in n.clusters ==> i < Pow2(SummaryDegree(d)) && Valid(ClusterDegree(d), n.clusters[i])
  }

  ghost predicate SummaryOk(d: nat, n: VNode)
    requires d > 1
    decreases d, 0
  {
    && (n.summary.Some? ==> Valid(SummaryDegree(d), n.summary.value))
    && forall i :: (i in n.clusters && n.clusters[i].min.Some?) <==> (n.summary.Some? && Contains(SummaryDegree(d), n.summary.value, i))
  }

  ghost predicate Spread(d: nat, n: VNode)
  {
    && (n.min.None? ==> forall i :: i in n.clusters ==> n.clusters[i].min.None?)
    && (n.min.Some? && n.max.Some? ==>
          && (forall y: nat :: Below(d, n, y) ==> n.min.value < y <= n.max.value)
          && (n.min != n.max ==> Below(d, n, n.max.value)))
  }

  /** A valid node with no min holds nothing. */
  lemma {:induction false} EmptyHoldsNothing(d: nat, n: VNode, y: nat)
    requires Valid(d, n) && n.min.None?
    ensures !Contains(d, n, y)
    decreases d
  {
    if d > 1 && High(d, y) in n.clusters {
      EmptyHoldsNothing(ClusterDegree(d), n.clusters[High(d, y)], Low(d, y));
    }
  }

  /** Every value a valid node holds lies between its min and max, and has d bits. */
  lemma {:induction false} Bounds(d: nat, n: VNode, y: nat)
    requires Valid(d, n) && Contains(d, n, y)
    ensures n.min.Some? && n.max.Some? && n.min.value <= y <= n.max.value < Pow2(d)
  {
    if n.min.None? {
      EmptyHoldsNothing(d, n, y);
    }
  }

  /** A value of a node of degree above 1 other than its min is in the clusters. */
  lemma MemberBelow(d: nat, n: VNode, y: nat)
    requires Valid(d, n) && d > 1 && Contains(d, n, y) && n.min != Some(y)
    ensures Below(d, n, y)
  {
  }

  /** A value stored in a cluster makes that cluster non-empty, hence listed in the summary. */
  lemma BelowListed(d: nat, n: VNode, y: nat)
    requires d > 1 && ClustersOk(d, n) && SummaryOk(d, n) && Below(d, n, y)
    ensures n.clusters[High(d, y)].min.Some?
    ensures n.summary.Some? && Contains(SummaryDegree(d), n.summary.value, High(d, y))
  {
    Bounds(ClusterDegree(d), n.clusters[High(d, y)], Low(d, y));
  }

  /** A node of degree above 1 holding one value has only empty clusters. */
  lemma SingleEmptyBelow(d: nat, n: VNode)
    requires Valid(d, n) && d > 1 && n.min == n.max
    ensures forall i :: i in n.clusters ==> n.clusters[i].min.None?
  {
    forall i | i in n.clusters
      ensures n.clusters[i].min.None?
    {
      var c := n.clusters[i];
      if c.min.Some? {
        assert Contains(ClusterDegree(d), c, c.min.value);
        Bounds(ClusterDegree(d), c, c.min.value);
        assert Below(d, n, Index(d, i, c.min.value));
      }
    }
  }

  /** A fresh node is valid at every degree and holds nothing. */
  lemma EmptyValid(d: nat)
    requires d >= 1
    ensures Valid(d, Empty())
  {
  }

  /** `empty_insert`: the node's only value becomes x. */
  function EmptyInsert(n: VNode, x: nat): (r: VNode)
    ensures r.min == Some(x) && r.max == Some(x)
    ensures r.summary == n.summary && r.clusters == n.clusters
  {
    VNode(Some(x), Some(x), n.summary, n.clusters)
  }

  /**
   * `insert`. With `repaired` false this is the source: when x equals the
   * node's min it is pushed into a cluster a second time. With `repaired`
   * true a node whose min is x is left alone.
   */
  function InsertWith(d: nat, n: VNode, x: nat, repaired: bool): (r: VNode)
    requires d >= 1
    ensures n.min.None? ==> r.min == Some(x) && r.max == Some(x)
    ensures n.min.Some? ==> r.min == Some(if x < n.min.value then x else n.min.value)
    ensures n.min.Some? && n.max.Some? && n.min.value <= n.max.value ==>
              r.max == Some(if n.max.value < x then x else n.max.value)
    decreases d, 1
  {
    if n.min.None? then EmptyInsert(n, x)
    else if repaired && x == n.min.value then n
    else
      var least := if x < n.min.value then x else n.min.value;
      var up := if x < n.min.value then n.min.value else x;
      var m := if d > 1 then InsertBelow(d, n, up, repaired) else n;
      VNode(Some(least), if n.max.Some? && up <= n.max.value then n.max else Some(up), m.summary, m.clusters)
  }

  /**
   * The part of `insert` below a node of degree d > 1: the cluster for x is
   * created if missing, and so is the summary. An empty cluster takes x's low
   * part as its only value, and its index goes into the summary. A non-empty
   * cluster gets x's low part inserted.
   */
  function InsertBelow(d: nat, n: VNode, x: nat, repaired: bool): (r: VNode)
    requires d > 1
    ensures r.min == n.min && r.max == n.max && r.summary.Some?
    decreases d, 0
  {
    var hi := High(d, x);
    var c := if hi in n.clusters then n.clusters[hi] else Empty();
    var s := if n.summary.Some? then n.summary.value else Empty();
    if c.min.None? then
      VNode(n.min, n.max, Some(InsertWith(SummaryDegree(d), s, hi, repaired)), n.clusters[hi := EmptyInsert(c, Low(d, x))])
    else
      VNode(n.min, n.max, Some(s), n.clusters[hi := InsertWith(ClusterDegree(d), c, Low(d, x), repaired)])
  }

  /** The source's `insert`. */
  function InsertAsWritten(d: nat, n: VNode, x: nat): (r: VNode)
    requires d >= 1
    ensures n.min.None? ==> r.min == Some(x) && r.max == Some(x)
    ensures n.min.Some? ==> r.min == Some(if x < n.min.value then x else n.min.value)
  {
    InsertWith(d, n, x, false)
  }

  /** An empty valid node given one value holds exactly that value. */
  lemma EmptyInsertValid(d: nat, n: VNode, x: nat)
    requires Valid(d, n) && n.min.None? && x < Pow2(d)
    ensures Valid(d, EmptyInsert(n, x))
    ensures forall y :: Contains(d, EmptyInsert(n, x), y) <==> y == x
  {
    var r := EmptyInsert(n, x);
    forall y: nat
      ensures !Below(d, r, y)
    {
      if d > 1 && High(d, y) in n.clusters {
        EmptyHoldsNothing(ClusterDegree(d), n.clusters[High(d, y)], Low(d, y));
      }
    }
  }

  /**
   * `insert` with the repair keeps a node valid and adds exactly x to the
   * values it holds.
   */
  lemma {:induction false} InsertCorrect(d: nat, n: VNode, x: nat)
    requires Valid(d, n) && x < Pow2(d)
    ensures Valid(d, InsertWith(d, n, x, true))
    ensures forall y :: Contains(d, InsertWith(d, n, x, true), y) <==> Contains(d, n, y) || y == x
    decreases d, 2
  {
    var r := InsertWith(d, n, x, true);
    if n.min.None? {
      EmptyInsertValid(d, n, x);
    } else if x != n.min.value {
      var up := if x < n.min.value then n.min.value else x;
      if d == 1 {
        assert Pow2(1) == 2;
      } else {
        InsertBelowCorrect(d, n, up);
        var m := InsertBelow(d, n, up, true);
        assert r.clusters == m.clusters && r.summary == m.summary;
        assert forall y :: Below(d, r, y) <==> Below(d, m, y);
        assert ClustersOk(d, r);
        assert SummaryOk(d, r);
        assert Spread(d, r);
      }
    }
  }

  /** The part of `insert` below a node keeps its clusters and summary valid and adds x below it. */
  lemma InsertBelowCorrect(d: nat, n: VNode, x: nat)
    requires d > 1 && ClustersOk(d, n) && SummaryOk(d, n) && x < Pow2(d)
    ensures ClustersOk(d, InsertBelow(d, n, x, true)) && SummaryOk(d, InsertBelow(d, n, x, true))
    ensures forall y :: Below(d, InsertBelow(d, n, x, true), y) <==> Below(d, n, y) || y == x
    decreases d, 1
  {
    var hi := High(d, x);
    if hi in n.clusters && n.clusters[hi].min.Some? {
      InsertBelowInto(d, n, x);
    } else {
      InsertBelowFresh(d, n, x);
    }
  }

  /** x's cluster empty or missing: it takes x alone and the summary gains its index. */
  lemma {:induction false} InsertBelowFresh(d: nat, n: VNode, x: nat)
    requires d > 1 && ClustersOk(d, n) && SummaryOk(d, n) && x < Pow2(d)
    requires High(d, x) in n.clusters ==> n.clusters[High(d, x)].min.None?
    ensures ClustersOk(d, InsertBelow(d, n, x, true)) && SummaryOk(d, InsertBelow(d, n, x, true))
    ensures forall y :: Below(d, InsertBelow(d, n, x, true), y) <==> Below(d, n, y) || y == x
    decreases d, 0
  {
    var m := InsertBelow(d, n, x, true);
    var hi, lo := High(d, x), Low(d, x);
    IndexRoundTrip(d, x);
    var c := if hi in n.clusters then n.clusters[hi] else Empty();
    var s := if n.summary.Some? then n.summary.value else Empty();
    EmptyValid(ClusterDegree(d));
    EmptyValid(SummaryDegree(d));
    assert m.clusters == n.clusters[hi := EmptyInsert(c, lo)];
    EmptyInsertValid(ClusterDegree(d), c, lo);
    InsertCorrect(SummaryDegree(d), s, hi);
    FreshBelow(d, n, x);
  }

  /** x's cluster empty or missing: after `insert`, below the node lie the old values and x. */
  lemma FreshBelow(d: nat, n: VNode, x: nat)
    requires d > 1 && ClustersOk(d, n) && x < Pow2(d)
    requires High(d, x) in n.clusters ==> n.clusters[High(d, x)].min.None?
    ensures forall y :: Below(d, InsertBelow(d, n, x, true), y) <==> Below(d, n, y) || y == x
  {
    var m := InsertBelow(d, n, x, true);
    var hi, lo := High(d, x), Low(d, x);
    IndexRoundTrip(d, x);
    var c := if hi in n.clusters then n.clusters[hi] else Empty();
    EmptyValid(ClusterDegree(d));
    assert m.clusters == n.clusters[hi := EmptyInsert(c, lo)];
    EmptyInsertValid(ClusterDegree(d), c, lo);
    forall y: nat
      ensures Below(d, m, y) <==> Below(d, n, y) || y == x
    {
      IndexRoundTrip(d, y);
      if High(d, y) == hi && hi in n.clusters {
        EmptyHoldsNothing(ClusterDegree(d), c, Low(d, y));
      }
    }
  }

  /** x's cluster already holds values: x goes into it and the summary stays. */
  lemma {:induction false} InsertBelowInto(d: nat, n: VNode, x: nat)
    requires d > 1 && ClustersOk(d, n) && SummaryOk(d, n) && x < Pow2(d)
    requires High(d, x) in n.clusters && n.clusters[High(d, x)].min.Some?
    ensures ClustersOk(d, InsertBelow(d, n, x, true)) && SummaryOk(d, InsertBelow(d, n, x, true))
    ensures forall y :: Below(d, InsertBelow(d, n, x, true), y) <==> Below(d, n, y) || y == x
    decreases d, 0
  {
    var m := InsertBelow(d, n, x, true);
    var hi, lo := High(d, x), Low(d, x);
    IndexRoundTrip(d, x);
    var c := n.clusters[hi];
    var c' := InsertWith(ClusterDegree(d), c, lo, true);
    assert m.clusters == n.clusters[hi := c'] && m.summary == n.summary;
    InsertCorrect(ClusterDegree(d), c, lo);
    Bounds(ClusterDegree(d), c', lo);
    forall y: nat
      ensures Below(d, m, y) <==> Below(d, n, y) || y == x
    {
      IndexRoundTrip(d, y);
    }
  }

  /**
   * `succ`: the least value above x, or None.
   *
   * With `repaired` false this is the source. It reads the max of x's
   * cluster through the pointer the table holds, and that pointer is null
   * when x's cluster was never created. With `repaired` true a missing
   * cluster is read as an empty one. In both, `value()` of an empty optional
   * ends the call like a null dereference.
   */
  function SuccWith(d: nat, n: VNode, x: nat, repaired: bool): (o: Outcome<Option<nat>>)
    requires d >= 1
    ensures n.max.None? || n.max.value <= x ==> o == Returned(None)
    ensures d > 1 && n.max.Some? && x < n.max.value && n.min.Some? && x < n.min.value ==> o == Returned(n.min)
    decreases d
  {
    if n.max.None? || n.max.value <= x then Returned(None)
    else if d == 1 then Returned(if x == 0 && n.max.value == 1 then Some(1) else None)
    else if n.min.Some? && x < n.min.value then Returned(n.min)
    else
      var hi, lo := High(d, x), Low(d, x);
      if hi !in n.clusters && !repaired then NullDeref
      else
        var maxLow := if hi in n.clusters then n.clusters[hi].max else None;
        if maxLow.Some? && lo < maxLow.value then
          match SuccWith(ClusterDegree(d), n.clusters[hi], lo, repaired)
          case NullDeref => NullDeref
          case Returned(offset) => if offset.None? then NullDeref else Returned(Some(Index(d, hi, offset.value)))
        else if n.summary.None? then NullDeref
        else
          match SuccWith(SummaryDegree(d), n.summary.value, hi, repaired)
          case NullDeref => NullDeref
          case Returned(next) =>
            if next.None? then Returned(None)
            else if next.value !in n.clusters || n.clusters[next.value].min.None? then NullDeref
            else Returned(Some(Index(d, next.value, n.clusters[next.value].min.value)))
  }

  /** o is the least value of n above x, or None when n holds nothing above x. */
  ghost predicate IsSucc(d: nat, n: VNode, x: nat, o: Option<nat>) {
    && (o.Some? ==> Contains(d, n, o.value) && x < o.value)
    && (forall y: nat :: Contains(d, n, y) && x < y ==> o.Some? && o.value <= y)
  }

  /** o is the greatest value of n below x, or None when n holds nothing below x. */
  ghost predicate IsPred(d: nat, n: VNode, x: nat, o: Option<nat>) {
    && (o.Some? ==> Contains(d, n, o.value) && o.value < x)
    && (forall y: nat :: Contains(d, n, y) && y < x ==> o.Some? && y <= o.value)
  }

  /** The repaired `succ` of a valid node returns the least value above x. */
  lemma {:induction false} SuccCorrect(d: nat, n: VNode, x: nat)
    requires Valid(d, n)
    ensures SuccWith(d, n, x, true).Returned?
    ensures IsSucc(d, n, x, SuccWith(d, n, x, true).value)
    decreases d
  {
    var o := SuccWith(d, n, x, true);
    if n.max.None? || n.max.value <= x {
      forall y: nat | Contains(d, n, y) ensures y <= x {
        Bounds(d, n, y);
      }
    } else if d == 1 {
      assert Pow2(1) == 2;
    } else if n.min.Some? && x < n.min.value {
      forall y: nat | Contains(d, n, y) ensures n.min.value <= y {
        Bounds(d, n, y);
      }
    } else {
      var hi, lo := High(d, x), Low(d, x);
      var maxLow := if hi in n.clusters then n.clusters[hi].max else None;
      if maxLow.Some? && lo < maxLow.value {
        SuccInCluster(d, n, x);
      } else {
        SuccInSummary(d, n, x);
      }
    }
  }

  /** `succ` when x's cluster holds a value above x's low part: the answer is in that cluster. */
  lemma {:induction false} SuccInCluster(d: nat, n: VNode, x: nat)
    requires Valid(d, n) && d > 1 && n.min.Some? && n.max.Some? && n.min.value <= x < n.max.value
    requires High(d, x) in n.clusters && n.clusters[High(d, x)].max.Some?
    requires Low(d, x) < n.clusters[High(d, x)].max.value
    ensures SuccWith(d, n, x, true).Returned?
    ensures IsSucc(d, n, x, SuccWith(d, n, x, true).value)
    decreases d, 0
  {
    var hi, lo := High(d, x), Low(d, x);
    var c := n.clusters[hi];
    SuccCorrect(ClusterDegree(d), c, lo);
    assert Contains(ClusterDegree(d), c, c.max.value);
    var s := SuccWith(ClusterDegree(d), c, lo, true).value.value;
    Bounds(ClusterDegree(d), c, s);
    var r := Index(d, hi, s);
    assert SuccWith(d, n, x, true) == Returned(Some(r));
    assert Below(d, n, r);
    Order(d, x, r);
    forall y: nat | Contains(d, n, y) && x < y
      ensures r <= y
    {
      MemberBelow(d, n, y);
      Order(d, x, y);
      Order(d, y, r);
    }
  }

  /** `succ` when x's cluster holds nothing above x's low part: the answer is the least value of the next cluster. */
  lemma {:induction false} SuccInSummary(d: nat, n: VNode, x: nat)
    requires Valid(d, n) && d > 1 && n.min.Some? && n.max.Some? && n.min.value <= x < n.max.value
    requires !(High(d, x) in n.clusters && n.clusters[High(d, x)].max.Some? && Low(d, x) < n.clusters[High(d, x)].max.value)
    ensures SuccWith(d, n, x, true).Returned?
    ensures IsSucc(d, n, x, SuccWith(d, n, x, true).value)
    decreases d, 0
  {
    var hi, lo := High(d, x), Low(d, x);
    var top := n.max.value;
    BelowListed(d, n, top);
    var sum := n.summary.value;
    // Nothing in x's own cluster lies above x.
    forall y | Below(d, n, y) && High(d, y) == hi
      ensures Low(d, y) <= lo
    {
      Bounds(ClusterDegree(d), n.clusters[hi], Low(d, y));
    }
    Order(d, x, top);
    SuccCorrect(SummaryDegree(d), sum, hi);
    var next := SuccWith(SummaryDegree(d), sum, hi, true).value;
    var j := next.value;
    var cj := n.clusters[j];
    var m := cj.min.value;
    Bounds(ClusterDegree(d), cj, m);
    var r := Index(d, j, m);
    assert SuccWith(d, n, x, true) == Returned(Some(r));
    assert Below(d, n, r);
    Order(d, x, r);
    forall y: nat | Contains(d, n, y) && x < y
      ensures r <= y
    {
      MemberBelow(d, n, y);
      BelowListed(d, n, y);
      Order(d, x, y);
      Order(d, y, r);
      if High(d, y) == j {
        Bounds(ClusterDegree(d), cj, Low(d, y));
      }
    }
  }

  /**
   * `pred`: the greatest value below x, or None. The source reads the min of
   * x's cluster through a possibly null pointer, as `succ` reads its max;
   * `repaired` reads a missing cluster as an empty one. When no earlier
   * cluster is listed, the node's own min is the answer if it lies below x.
   */
  function PredWith(d: nat, n: VNode, x: nat, repaired: bool): (o: Outcome<Option<nat>>)
    requires d >= 1
    ensures n.min.None? || x <= n.min.value ==> o == Returned(None)
    ensures d > 1 && n.min.Some? && n.min.value < x && n.max.Some? && n.max.value < x ==> o == Returned(n.max)
    decreases d
  {
    if n.min.None? || x <= n.min.value then Returned(None)
    else if d == 1 then Returned(if x == 1 && n.min.value == 0 then Some(0) else None)
    else if n.max.Some? && n.max.value < x then Returned(n.max)
    else
      var hi, lo := High(d, x), Low(d, x);
      if hi !in n.clusters && !repaired then NullDeref
      else
        var minLow := if hi in n.clusters then n.clusters[hi].min else None;
        if minLow.Some? && minLow.value < lo then
          match PredWith(ClusterDegree(d), n.clusters[hi], lo, repaired)
          case NullDeref => NullDeref
          case Returned(offset) => if offset.None? then NullDeref else Returned(Some(Index(d, hi, offset.value)))
        else if n.summary.None? then NullDeref
        else
          match PredWith(SummaryDegree(d), n.summary.value, hi, repaired)
          case NullDeref => NullDeref
          case Returned(prev) =>
            if prev.None? then Returned(if n.min.value < x then n.min else None)
            else if prev.value !in n.clusters || n.clusters[prev.value].max.None? then NullDeref
            else Returned(Some(Index(d, prev.value, n.clusters[prev.value].max.value)))
  }

  /**
   * The repaired `pred` of a valid node returns the greatest value below x.
   * A node of degree 1 answers only for x below 2; below the root it is
   * never asked about larger values.
   */
  lemma {:induction false} PredCorrect(d: nat, n: VNode, x: nat)
    requires Valid(d, n) && (d > 1 || x < Pow2(d))
    ensures PredWith(d, n, x, true).Returned?
    ensures IsPred(d, n, x, PredWith(d, n, x, true).value)
    decreases d
  {
    if n.min.None? || x <= n.min.value {
      forall y: nat | Contains(d, n, y) ensures x <= y {
        Bounds(d, n, y);
      }
    } else if d == 1 {
      assert Pow2(1) == 2;
    } else if n.max.Some? && n.max.value < x {
      forall y: nat | Contains(d, n, y) ensures y <= n.max.value {
        Bounds(d, n, y);
      }
    } else {
      var hi, lo := High(d, x), Low(d, x);
      var minLow := if hi in n.clusters then n.clusters[hi].min else None;
      if minLow.Some? && minLow.value < lo {
        PredInCluster(d, n, x);
      } else {
        PredInSummary(d, n, x);
      }
    }
  }

  /** `pred` when x's cluster holds a value below x's low part: the answer is in that cluster. */
  lemma {:induction false} PredInCluster(d: nat, n: VNode, x: nat)
    requires Valid(d, n) && d > 1 && n.min.Some? && n.max.Some? && n.min.value < x <= n.max.value
    requires High(d, x) in n.clusters && n.clusters[High(d, x)].min.Some?
    requires n.clusters[High(d, x)].min.value < Low(d, x)
    ensures PredWith(d, n, x, true).Returned?
    ensures IsPred(d, n, x, PredWith(d, n, x, true).value)
    decreases d, 0
  {
    var hi, lo := High(d, x), Low(d, x);
    var c := n.clusters[hi];
    IndexRoundTrip(d, x);
    PredCorrect(ClusterDegree(d), c, lo);
    assert Contains(ClusterDegree(d), c, c.min.value);
    var p := PredWith(ClusterDegree(d), c, lo, true).value.value;
    Bounds(ClusterDegree(d), c, p);
    var r := Index(d, hi, p);
    assert PredWith(d, n, x, true) == Returned(Some(r));
    assert Below(d, n, r);
    Order(d, r, x);
    forall y: nat | Contains(d, n, y) && y < x
      ensures y <= r
    {
      if y != n.min.value {
        MemberBelow(d, n, y);
        Order(d, y, x);
        Order(d, r, y);
      }
    }
  }

  /** `pred` when x's cluster holds nothing below x's low part: the answer is the greatest value of an earlier cluster, or min. */
  lemma {:induction false} PredInSummary(d: nat, n: VNode, x: nat)
    requires Valid(d, n) && d > 1 && n.min.Some? && n.max.Some? && n.min.value < x <= n.max.value
    requires !(High(d, x) in n.clusters && n.clusters[High(d, x)].min.Some? && n.clusters[High(d, x)].min.value < Low(d, x))
    ensures PredWith(d, n, x, true).Returned?
    ensures IsPred(d, n, x, PredWith(d, n, x, true).value)
    decreases d, 0
  {
    var hi, lo := High(d, x), Low(d, x);
    var top := n.max.value;
    BelowListed(d, n, top);
    var sum := n.summary.value;
    // Nothing in x's own cluster lies below x.
    forall y | Below(d, n, y) && High(d, y) == hi
      ensures lo <= Low(d, y)
    {
      Bounds(ClusterDegree(d), n.clusters[hi], Low(d, y));
    }
    PredCorrect(SummaryDegree(d), sum, hi);
    var prev := PredWith(SummaryDegree(d), sum, hi, true).value;
    if prev.None? {
      assert PredWith(d, n, x, true) == Returned(n.min);
      forall y: nat | Contains(d, n, y) && y < x
        ensures y <= n.min.value
      {
        if y != n.min.value {
          MemberBelow(d, n, y);
          BelowListed(d, n, y);
          Order(d, y, x);
        }
      }
    } else {
      var j := prev.value;
      assert Contains(SummaryDegree(d), sum, j);
      assert j in n.clusters && n.clusters[j].min.Some?;
      var cj := n.clusters[j];
      assert Valid(ClusterDegree(d), cj);
      var m := cj.max.value;
      assert Contains(ClusterDegree(d), cj, m);
      Bounds(ClusterDegree(d), cj, m);
      var r := Index(d, j, m);
      assert PredWith(d, n, x, true) == Returned(Some(r));
      assert Below(d, n, r);
      Order(d, r, x);
      forall y: nat | Contains(d, n, y) && y < x
        ensures y <= r
      {
        if y != n.min.value {
          MemberBelow(d, n, y);
          BelowListed(d, n, y);
          Order(d, y, x);
          Order(d, r, y);
          if High(d, y) == j {
            Bounds(ClusterDegree(d), cj, Low(d, y));
          }
        }
      }
    }
  }

  /**
   * `erase`, as the source writes it: it does not check that x is held.
   * - A node whose min equals max is emptied, whatever x is.
   * - A node of degree 1 keeps the one of 0 and 1 that x is not.
   * - Otherwise, when x is the min, the least value of the first listed
   *   cluster becomes the new min, and that value is erased below instead.
   */
  function EraseNode(d: nat, n: VNode, x: nat): (o: Outcome<VNode>)
    requires d >= 1
    ensures n.min == n.max ==> o == Returned(VNode(None, None, n.summary, n.clusters))
    decreases d, 2
  {
    if n.min == n.max then Returned(VNode(None, None, n.summary, n.clusters))
    else if d == 1 then
      var m := if x == 0 then 1 else 0;
      Returned(VNode(Some(m), Some(m), n.summary, n.clusters))
    else if n.min != Some(x) then EraseAt(d, n, n.min, x)
    else if n.summary.None? then NullDeref
    else
      var first := n.summary.value.min;
      if first.None? || first.value !in n.clusters || n.clusters[first.value].min.None? then NullDeref
      else
        var v := Index(d, first.value, n.clusters[first.value].min.value);
        EraseAt(d, n, Some(v), v)
  }

  /**
   * The rest of `erase` at a node of degree d > 1 whose min is now `least`:
   * v is erased from its cluster. A cluster left empty is erased from the
   * summary. When v was the max, the new max is the greatest value of the
   * last listed cluster, or the min when no cluster is listed.
   */
  function EraseAt(d: nat, n: VNode, least: Option<nat>, v: nat): (o: Outcome<VNode>)
    requires d > 1
    ensures o.Returned? ==> o.value.min == least
    decreases d, 1
  {
    var hi := High(d, v);
    if hi !in n.clusters then NullDeref
    else match EraseNode(ClusterDegree(d), n.clusters[hi], Low(d, v))
      case NullDeref => NullDeref
      case Returned(c) =>
        var cs := n.clusters[hi := c];
        if c.min.Some? then
          if n.max != Some(v) then Returned(VNode(least, n.max, n.summary, cs))
          else if c.max.None? then NullDeref
          else Returned(VNode(least, Some(Index(d, hi, c.max.value)), n.summary, cs))
        else if n.summary.None? then NullDeref
        else match EraseNode(SummaryDegree(d), n.summary.value, hi)
          case NullDeref => NullDeref
          case Returned(s) =>
            if n.max != Some(v) then Returned(VNode(least, n.max, Some(s), cs))
            else if s.max.None? then Returned(VNode(least, least, Some(s), cs))
            else if s.max.value !in cs || cs[s.max.value].max.None? then NullDeref
            else Returned(VNode(least, Some(Index(d, s.max.value, cs[s.max.value].max.value)), Some(s), cs))
  }

  /**
   * Erasing a value a valid node holds succeeds, keeps the node valid and
   * removes exactly that value; the node ends empty exactly when x was its
   * only value.
   */
  lemma {:induction false} EraseCorrect(d: nat, n: VNode, x: nat)
    requires Valid(d, n) && Contains(d, n, x)
    ensures EraseNode(d, n, x).Returned?
    ensures Valid(d, EraseNode(d, n, x).value)
    ensures forall y: nat :: Contains(d, EraseNode(d, n, x).value, y) <==> Contains(d, n, y) && y != x
    ensures EraseNode(d, n, x).value.min.None? <==> n.min == n.max
    decreases d, 2
  {
    Bounds(d, n, x);
    if n.min == n.max {
      var r := EraseNode(d, n, x).value;
      if d > 1 {
        SingleEmptyBelow(d, n);
        assert Spread(d, r);
      }
      forall y: nat | Contains(d, n, y) ensures y == x {
        Bounds(d, n, y);
      }
      forall y: nat ensures !Contains(d, r, y) {
        if d > 1 {
          assert !Below(d, n, y);
        }
      }
    } else if d == 1 {
      assert Pow2(1) == 2;
    } else {
      var least, v := FirstValue(d, n, x);
      EraseAtCorrect(d, n, least, v);
      var r := EraseNode(d, n, x).value;
      assert r == EraseAt(d, n, Some(least), v).value;
      assert Spread(d, r);
      forall y: nat
        ensures Contains(d, r, y) <==> Contains(d, n, y) && y != x
      {
        if y != n.min.value && Contains(d, n, y) {
          MemberBelow(d, n, y);
        }
      }
    }
  }

  /**
   * Where `erase` goes below a node of degree d > 1 holding two or more
   * values: the min it keeps, and the value v it erases from the clusters.
   * Every other value below lies above that min.
   */
  lemma FirstValue(d: nat, n: VNode, x: nat) returns (least: nat, v: nat)
    requires Valid(d, n) && Contains(d, n, x) && d > 1 && n.min != n.max
    ensures Below(d, n, v) && n.min.Some?
    ensures n.min != Some(x) ==> least == n.min.value && v == x && EraseNode(d, n, x) == EraseAt(d, n, n.min, x)
    ensures n.min == Some(x) ==> least == v && EraseNode(d, n, x) == EraseAt(d, n, Some(v), v)
    ensures x != v ==> x == n.min.value
    ensures forall y: nat :: Below(d, n, y) && y != v ==> least < y
    ensures least <= v
  {
    Bounds(d, n, x);
    if n.min != Some(x) {
      least, v := n.min.value, x;
      MemberBelow(d, n, x);
    } else {
      BelowListed(d, n, n.max.value);
      var sum := n.summary.value;
      assert Contains(SummaryDegree(d), sum, High(d, n.max.value));
      Bounds(SummaryDegree(d), sum, High(d, n.max.value));
      var j := sum.min.value;
      assert Contains(SummaryDegree(d), sum, j);
      var cj := n.clusters[j];
      assert Contains(ClusterDegree(d), cj, cj.min.value);
      Bounds(ClusterDegree(d), cj, cj.min.value);
      v := Index(d, j, cj.min.value);
      least := v;
      assert Below(d, n, v);
      forall y: nat | Below(d, n, y) && y != v
        ensures v < y
      {
        BelowListed(d, n, y);
        Bounds(SummaryDegree(d), sum, High(d, y));
        Bounds(ClusterDegree(d), n.clusters[High(d, y)], Low(d, y));
        Order(d, v, y);
        IndexRoundTrip(d, y);
      }
    }
  }

  /** The facts about a node after `EraseAt`, from which `EraseCorrect` rebuilds the invariant. */
  ghost predicate ErasedBelow(d: nat, n: VNode, least: nat, v: nat, r: VNode)
    requires d > 1
  {
    && ClustersOk(d, r) && SummaryOk(d, r)
    && r.min == Some(least)
    && (forall y: nat :: Below(d, r, y) <==> Below(d, n, y) && y != v)
    && r.max.Some?
    && (r.max == Some(least) || Below(d, r, r.max.value))
    && (forall y: nat :: Below(d, r, y) ==> y <= r.max.value)
    && (n.max != Some(v) ==> r.max == n.max)
  }

  /** Erasing v from its cluster succeeds and leaves the clusters, summary and max consistent. */
  lemma {:induction false} EraseAtCorrect(d: nat, n: VNode, least: nat, v: nat)
    requires Valid(d, n) && d > 1 && n.min != n.max && Below(d, n, v)
    ensures EraseAt(d, n, Some(least), v).Returned?
    ensures ErasedBelow(d, n, least, v, EraseAt(d, n, Some(least), v).value)
    decreases d, 1
  {
    var hi, lo := High(d, v), Low(d, v);
    var c := n.clusters[hi];
    EraseCorrect(ClusterDegree(d), c, lo);
    var c' := EraseNode(ClusterDegree(d), c, lo).value;
    var cs := n.clusters[hi := c'];
    Bounds(d, n, v);
    BelowListed(d, n, v);
    forall y: nat
      ensures Below(d, VNode(None, None, None, cs), y) <==> Below(d, n, y) && y != v
    {
      IndexRoundTrip(d, y);
      IndexRoundTrip(d, v);
    }
    assert ClusterErased(d, n, v, c');
    if c'.min.Some? {
      EraseKeepsCluster(d, n, least, v, c');
    } else {
      EraseEmptiesCluster(d, n, least, v, c');
    }
  }

  /** The shape of the cluster erase `EraseAt` starts with: v's cluster, with v's low part erased, is c. */
  ghost predicate ClusterErased(d: nat, n: VNode, v: nat, c: VNode)
    requires d > 1
  {
    && High(d, v) in n.clusters
    && EraseNode(ClusterDegree(d), n.clusters[High(d, v)], Low(d, v)) == Returned(c)
    && Valid(ClusterDegree(d), c)
    && (forall y: nat :: Below(d, VNode(None, None, None, n.clusters[High(d, v) := c]), y) <==> Below(d, n, y) && y != v)
  }

  /** `EraseAt` when v's cluster keeps a value: the summary stays, and a max that was v becomes that cluster's max. */
  lemma EraseKeepsCluster(d: nat, n: VNode, least: nat, v: nat, c: VNode)
    requires Valid(d, n) && d > 1 && n.min != n.max && Below(d, n, v)
    requires ClusterErased(d, n, v, c) && c.min.Some?
    ensures EraseAt(d, n, Some(least), v).Returned?
    ensures ErasedBelow(d, n, least, v, EraseAt(d, n, Some(least), v).value)
  {
    var hi := High(d, v);
    var cs := n.clusters[hi := c];
    assert Contains(ClusterDegree(d), c, c.max.value);
    Bounds(ClusterDegree(d), c, c.max.value);
    var top := if n.max == Some(v) then Index(d, hi, c.max.value) else n.max.value;
    var r := VNode(Some(least), Some(top), n.summary, cs);
    assert EraseAt(d, n, Some(least), v) == Returned(r);
    assert forall y: nat :: Below(d, r, y) <==> Below(d, VNode(None, None, None, cs), y);
    BelowListed(d, n, v);
    assert SummaryOk(d, r);
    if n.max == Some(v) {
      assert Below(d, r, top);
      forall y: nat | Below(d, r, y)
        ensures y <= top
      {
        assert Below(d, n, y) && y != v;
        Order(d, y, v);
        if High(d, y) == hi {
          Bounds(ClusterDegree(d), c, Low(d, y));
        }
        AtMost(d, y, hi, c.max.value);
      }
    }
  }

  /**
   * `EraseAt` when v's cluster is left empty: its index leaves the summary,
   * and a max that was v becomes the greatest value of the last listed
   * cluster, or the min.
   */
  lemma {:induction false} EraseEmptiesCluster(d: nat, n: VNode, least: nat, v: nat, c: VNode)
    requires Valid(d, n) && d > 1 && n.min != n.max && Below(d, n, v)
    requires ClusterErased(d, n, v, c) && c.min.None?
    ensures EraseAt(d, n, Some(least), v).Returned?
    ensures ErasedBelow(d, n, least, v, EraseAt(d, n, Some(least), v).value)
    decreases d, 0
  {
    var hi := High(d, v);
    var cs := n.clusters[hi := c];
    BelowListed(d, n, v);
    var sum := n.summary.value;
    EraseCorrect(SummaryDegree(d), sum, hi);
    var s := EraseNode(SummaryDegree(d), sum, hi).value;
    var m := VNode(Some(least), n.max, Some(s), cs);
    assert forall y: nat :: Below(d, m, y) <==> Below(d, VNode(None, None, None, cs), y);
    assert ClustersOk(d, m);
    assert SummaryOk(d, m);
    if n.max != Some(v) {
      assert EraseAt(d, n, Some(least), v) == Returned(m);
    } else if s.max.None? {
      var r := VNode(Some(least), Some(least), Some(s), cs);
      assert EraseAt(d, n, Some(least), v) == Returned(r);
      forall y: nat | Below(d, m, y)
        ensures false
      {
        BelowListed(d, m, y);
        Bounds(SummaryDegree(d), s, High(d, y));
      }
      assert forall y: nat :: Below(d, r, y) <==> Below(d, m, y);
    } else {
      var k := s.max.value;
      assert Contains(SummaryDegree(d), s, k);
      var ck := cs[k];
      assert Contains(ClusterDegree(d), ck, ck.max.value);
      Bounds(ClusterDegree(d), ck, ck.max.value);
      var top := Index(d, k, ck.max.value);
      var r := VNode(Some(least), Some(top), Some(s), cs);
      assert EraseAt(d, n, Some(least), v) == Returned(r);
      assert forall y: nat :: Below(d, r, y) <==> Below(d, m, y);
      assert Below(d, r, top);
      forall y: nat | Below(d, m, y)
        ensures y <= top
      {
        BelowListed(d, m, y);
        Bounds(SummaryDegree(d), s, High(d, y));
        if High(d, y) == k {
          Bounds(ClusterDegree(d), ck, Low(d, y));
        }
        AtMost(d, y, k, ck.max.value);
      }
    }
  }

  /** The tree's `insert` with the repair: x joins the values and the node stays valid. */
  function Insert(d: nat, n: VNode, x: nat): (r: VNode)
    requires Valid(d, n) && x < Pow2(d)
    ensures Valid(d, r)
    ensures forall y: nat :: Contains(d, r, y) <==> Contains(d, n, y) || y == x
  {
    InsertCorrect(d, n, x);
    InsertWith(d, n, x, true)
  }

  /** The tree's `succ` with the repair: the least value above x. */
  function Succ(d: nat, n: VNode, x: nat): (r: Option<nat>)
    requires Valid(d, n)
    ensures IsSucc(d, n, x, r)
  {
    SuccCorrect(d, n, x);
    SuccWith(d, n, x, true).value
  }

  /** The tree's `pred` with the repair: the greatest value below x. */
  function Pred(d: nat, n: VNode, x: nat): (r: Option<nat>)
    requires Valid(d, n) && (d > 1 || x < Pow2(d))
    ensures IsPred(d, n, x, r)
  {
    PredCorrect(d, n, x);
    PredWith(d, n, x, true).value
  }

  /** The tree's `erase` with the repair: a value the tree does not hold is left alone. */
  function Erase(d: nat, n: VNode, x: nat): (r: VNode)
    requires Valid(d, n)
    ensures Valid(d, r)
    ensures forall y: nat :: Contains(d, r, y) <==> Contains(d, n, y) && y != x
  {
    if Contains(d, n, x) then
      EraseCorrect(d, n, x);
      EraseNode(d, n, x).value
    else n
  }

  /** The values an iterator visits from value t: t, then `succ` of each, until there is none. */
  function Walk(d: nat, n: VNode, t: nat): (s: seq<nat>)
    requires Valid(d, n) && Contains(d, n, t)
    ensures |s| >= 1 && s[0] == t
    ensures forall y: nat :: y in s <==> Contains(d, n, y) && t <= y
    ensures forall i, j :: 0 <= i < j < |s| ==> s[i] < s[j]
    decreases Pow2(d) - t
  {
    Bounds(d, n, t);
    var next := Succ(d, n, t);
    if next.None? then [t]
    else
      Bounds(d, n, next.value);
      [t] + Walk(d, n, next.value)
  }

  /**
   * Iterating the tree from `begin()`, the min, to `end()`, the empty
   * optional, visits every value it holds once, in increasing order.
   */
  function Iterate(d: nat, n: VNode): (s: seq<nat>)
    requires Valid(d, n)
    ensures forall y: nat :: y in s <==> Contains(d, n, y)
    ensures forall i, j :: 0 <= i < j < |s| ==> s[i] < s[j]
  {
    if n.min.None? then
      EmptyOrder(d, n);
      []
    else
      MinFirst(d, n);
      Walk(d, n, n.min.value)
  }

  lemma EmptyOrder(d: nat, n: VNode)
    requires Valid(d, n) && n.min.None?
    ensures forall y: nat :: !Contains(d, n, y)
  {
    forall y: nat ensures !Contains(d, n, y) {
      EmptyHoldsNothing(d, n, y);
    }
  }

  lemma MinFirst(d: nat, n: VNode)
    requires Valid(d, n) && n.min.Some?
    ensures Contains(d, n, n.min.value)
    ensures forall y: nat :: Contains(d, n, y) ==> n.min.value <= y
  {
    forall y: nat | Contains(d, n, y) ensures n.min.value <= y {
      Bounds(d, n, y);
    }
  }

  /** The values of s inserted one after another into n. */
  function InsertAll(d: nat, n: VNode, s: seq<nat>): (r: VNode)
    requires Valid(d, n) && forall i :: 0 <= i < |s| ==> s[i] < Pow2(d)
    ensures Valid(d, r)
    ensures forall y: nat :: Contains(d, r, y) <==> Contains(d, n, y) || y in s
    decreases |s|
  {
    if |s| == 0 then n
    else
      assert forall y :: y in s <==> y == s[0] || y in s[1..];
      InsertAll(d, Insert(d, n, s[0]), s[1..])
  }

  /** Every value iteration yields has d bits. */
  lemma IterateBelow(d: nat, n: VNode)
    requires Valid(d, n)
    ensures forall i :: 0 <= i < |Iterate(d, n)| ==> Iterate(d, n)[i] < Pow2(d)
  {
    var s := Iterate(d, n);
    forall i | 0 <= i < |s| ensures s[i] < Pow2(d) {
      Bounds(d, n, s[i]);
    }
  }

  /**
   * The copy constructor: a fresh empty tree into which every value that
   * iteration over `that` yields is inserted.  The copy holds exactly the
   * values of `that`.
   */
  function Copy(d: nat, that: VNode): (r: VNode)
    requires Valid(d, that)
    ensures Valid(d, r)
    ensures forall y: nat :: Contains(d, r, y) <==> Contains(d, that, y)
  {
    EmptyValid(d);
    IterateBelow(d, that);
    EmptyOrder(d, Empty());
    InsertAll(d, Empty(), Iterate(d, that))
  }

  /** The tree {0, 3} at degree 2: min 0, max 3, and only cluster 1, which holds 3's low part 1. */
  function ZeroThree(): (t: VNode)
    ensures Valid(2, t)
    ensures t == VNode(Some(0), Some(3), Some(VNode(Some(1), Some(1), None, map[])), map[1 := VNode(Some(1), Some(1), None, map[])])
  {
    EmptyValid(2);
    Pow2Twice();
    var one := Insert(2, Empty(), 0);
    assert one == VNode(Some(0), Some(0), None, map[]);
    var two := Insert(2, one, 3);
    assert High(2, 3) == 1 && Low(2, 3) == 1;
    assert InsertWith(1, Empty(), 1, true) == VNode(Some(1), Some(1), None, map[]);
    assert two == VNode(Some(0), Some(3), Some(VNode(Some(1), Some(1), None, map[])), map[1 := VNode(Some(1), Some(1), None, map[])]);
    two
  }

  lemma Pow2Twice()
    ensures Pow2(1) == 2 && Pow2(2) == 4
  {
  }

  /**
   * In {0, 3} at degree 2, cluster 0 was never created: `succ(1)` and
   * `pred(1)` read through its null pointer, where the answers are 3 and 0.
   * So does `succ(0)`, the first `++` from `begin()`, where the answer is 3.
   */
  lemma MissingClusterDeref()
    ensures SuccWith(2, ZeroThree(), 1, false) == NullDeref
    ensures PredWith(2, ZeroThree(), 1, false) == NullDeref
    ensures Succ(2, ZeroThree(), 1) == Some(3)
    ensures Pred(2, ZeroThree(), 1) == Some(0)
    ensures SuccWith(2, ZeroThree(), 0, false) == NullDeref
    ensures Succ(2, ZeroThree(), 0) == Some(3)
  {
    var t := ZeroThree();
    Pow2Twice();
    assert High(2, 0) == 0 && High(2, 1) == 0 && High(2, 2) == 1 && Low(2, 2) == 0;
    assert Contains(2, t, 0) && Contains(2, t, 3) && !Contains(2, t, 1) && !Contains(2, t, 2);
  }

  /** The tree {0, 1} at degree 2: min 0, max 1, and cluster 0 holding 1's low part 1. */
  function ZeroOne(): (t: VNode)
    ensures Valid(2, t)
    ensures t == VNode(Some(0), Some(1), Some(VNode(Some(0), Some(0), None, map[])), map[0 := VNode(Some(1), Some(1), None, map[])])
  {
    EmptyValid(2);
    Pow2Twice();
    var one := Insert(2, Empty(), 0);
    assert one == VNode(Some(0), Some(0), None, map[]);
    assert High(2, 1) == 0 && Low(2, 1) == 1;
    assert InsertWith(1, Empty(), 0, true) == VNode(Some(0), Some(0), None, map[]);
    Insert(2, one, 1)
  }

  /**
   * Inserting 0 again into {0, 1} at degree 2, as the source does, also
   * stores 0 in cluster 0 below the min 0, which breaks the layout. Erasing
   * 0 afterwards then leaves 0 in the tree. With the repair, the second
   * insert changes nothing and the erase removes 0.
   */
  lemma DuplicateSurvivesErase()
    ensures !Valid(2, InsertAsWritten(2, ZeroOne(), 0))
    ensures EraseNode(2, InsertAsWritten(2, ZeroOne(), 0), 0).Returned?
    ensures Contains(2, EraseNode(2, InsertAsWritten(2, ZeroOne(), 0), 0).value, 0)
    ensures !Contains(2, Erase(2, Insert(2, ZeroOne(), 0), 0), 0)
  {
    var u := InsertAsWritten(2, ZeroOne(), 0);
    DuplicateInsert();
    assert u == Doubled();
    DoubledBroken();
    DoubledErase(u, 2, 0);
    assert Contains(2, EraseNode(2, u, 0).value, 0);
  }

  /** {0, 1} at degree 2 after the source inserts 0 a second time: cluster 0 holds 0 and 1. */
  function Doubled(): VNode {
    VNode(Some(0), Some(1), Some(VNode(Some(0), Some(0), None, map[])), map[0 := VNode(Some(0), Some(1), None, map[])])
  }

  lemma DuplicateInsert()
    ensures InsertAsWritten(2, ZeroOne(), 0) == Doubled()
  {
    Pow2Twice();
    assert High(2, 0) == 0 && Low(2, 0) == 0;
    assert InsertWith(1, VNode(Some(1), Some(1), None, map[]), 0, false) == VNode(Some(0), Some(1), None, map[]);
  }

  lemma DoubledBroken()
    ensures !Valid(2, Doubled())
  {
    Pow2Twice();
    assert High(2, 0) == 0 && Low(2, 0) == 0;
    assert Below(2, Doubled(), 0);
  }

  /** The shape of `Doubled()` that its erase of 0 depends on. */
  ghost predicate DoubledShape(u: VNode) {
    && u.min == Some(0) && u.max == Some(1)
    && u.summary.Some? && u.summary.value.min == Some(0)
    && 0 in u.clusters && u.clusters[0] == VNode(Some(0), Some(1), None, map[])
  }

  lemma DoubledErase(u: VNode, d: nat, x: nat)
    requires DoubledShape(u) && d == 2 && x == 0
    ensures EraseNode(d, u, x) == Returned(VNode(Some(0), Some(1), u.summary, u.clusters[0 := VNode(Some(1), Some(1), None, map[])]))
  {
    DoubledFirst(u, d, x);
    DoubledCluster(u, d, x);
  }

  lemma DoubledFirst(u: VNode, d: nat, x: nat)
    requires DoubledShape(u) && d == 2 && x == 0
    ensures EraseNode(d, u, x) == EraseAt(d, u, Some(x), x)
  {
    DoubledMin(u, d, x);
    assert Index(d, 0, 0) == 0;
  }

  lemma DoubledMin(u: VNode, d: nat, x: nat)
    requires DoubledShape(u) && d == 2 && x == 0
    ensures EraseNode(d, u, x) == EraseAt(d, u, Some(Index(d, 0, 0)), Index(d, 0, 0))
  {
    EraseMinStep(d, u, x);
  }

  lemma DoubledCluster(u: VNode, d: nat, x: nat)
    requires DoubledShape(u) && d == 2 && x == 0
    ensures EraseAt(d, u, Some(x), x) == Returned(VNode(Some(0), Some(1), u.summary, u.clusters[0 := VNode(Some(1), Some(1), None, map[])]))
  {
    Pow2Twice();
    assert High(d, x) == 0 && Low(d, x) == 0 && ClusterDegree(d) == 1;
    EraseBit(u.clusters[0], x);
    assert EraseNode(ClusterDegree(d), u.clusters[High(d, x)], Low(d, x)) == Returned(VNode(Some(1), Some(1), None, map[]));
    EraseKeepStep(d, u, Some(x), x, VNode(Some(1), Some(1), None, map[]));
  }

  /** `erase` at degree 1 on a node holding both 0 and 1. */
  lemma EraseBit(n: VNode, x: nat)
    requires n.min != n.max
    ensures x == 0 ==> EraseNode(1, n, x) == Returned(VNode(Some(1), Some(1), n.summary, n.clusters))
    ensures x != 0 ==> EraseNode(1, n, x) == Returned(VNode(Some(0), Some(0), n.summary, n.clusters))
  {
  }

  /** `erase` of the min of a node of degree above 1 goes on with the least value of the first listed cluster. */
  lemma EraseMinStep(d: nat, n: VNode, x: nat)
    requires d > 1 && n.min == Some(x) && n.max != n.min && n.summary.Some? && n.summary.value.min.Some?
    requires n.summary.value.min.value in n.clusters && n.clusters[n.summary.value.min.value].min.Some?
    ensures var j := n.summary.value.min.value;
            var v := Index(d, j, n.clusters[j].min.value);
            EraseNode(d, n, x) == EraseAt(d, n, Some(v), v)
  {
  }

  /** `EraseAt` when the cluster keeps a value and v was not the max. */
  lemma EraseKeepStep(d: nat, n: VNode, least: Option<nat>, v: nat, c: VNode)
    requires d > 1 && High(d, v) in n.clusters && c.min.Some? && n.max != Some(v)
    requires EraseNode(ClusterDegree(d), n.clusters[High(d, v)], Low(d, v)) == Returned(c)
    ensures EraseAt(d, n, least, v) == Returned(VNode(least, n.max, n.summary, n.clusters[High(d, v) := c]))
  {
  }

  /**
   * Erasing 1, a value the tree {3} at degree 2 does not hold, empties the
   * tree in the source, since a node whose min equals its max is cleared
   * whatever value is erased. With the repair, 3 stays.
   */
  lemma EraseAbsentEmpties()
    ensures EraseNode(2, VNode(Some(3), Some(3), None, map[]), 1) == Returned(Empty())
    ensures Valid(2, VNode(Some(3), Some(3), None, map[]))
    ensures Contains(2, Erase(2, VNode(Some(3), Some(3), None, map[]), 1), 3)
  {
    Pow2Twice();
    var t := VNode(Some(3), Some(3), None, map[]);
    assert Valid(2, t);
  }
}

=== FILE: wrappers.dfy ===
/** Failure-compatible helpers shared by every model in this project. */
module Wrappers {

  /** A possibly missing value: the models' stand-in for a null pointer or an empty `std::optional`. */
  datatype Option<+T> = None | Some(value: T)

  /** How a query ends: with the value it returns, or by dereferencing a null pointer. */
  datatype Outcome<+T> = Returned(value: T) | NullDeref

  /** A map read as a table of pointers: the entry for `k`, or None when there is none. */
  function Lookup<K, V>(m: map<K, V>, k: K): (r: Option<V>)
    ensures r.Some? <==> k in m
    ensures r.Some? ==> r.value == m[k]
  {
    if k in m then Some(m[k]) else None
  }

  /** Stores a possibly null pointer: sets the entry for `k`, or removes it for None. */
  function Assign<K(!new), V>(m: map<K, V>, k: K, o: Option<V>): (r: map<K, V>)
    ensures Lookup(r, k) == o
    ensures forall j :: j != k ==> Lookup(r, j) == Lookup(m, j)
  {
    if o.Some? then m[k := o.value] else m - {k}
  }
}

=== FILE: x_fast_trie.dfy ===
/**
 * XFastTrie (src/integer/x_fast_trie.hpp): the binary trie of BinaryTrie,
 * with the same nodes, jump pointers and leaf links, plus two additions.
 *
 * - One hash table per depth (`maps`) maps every prefix present in the trie
 *   to its node.  Queries find the node where the descent for t would stop
 *   by a binary search over the depths instead of walking down.
 * - The leaves form a circular list through a dummy leaf.  `dummy.links[1]`
 *   is the smallest leaf and `dummy.links[0]` the largest, and a leaf at
 *   either end links to the dummy instead of to null.
 *
 * In the model the dummy is `None`: `first` and `last` are the dummy's two
 * links, and a leaf with no `prev`/`next` entry links to the dummy.  The
 * tables are modelled by the set of nodes they hold.  `pristine` records
 * that nothing was ever inserted, so the root's jump is still the null
 * pointer the constructor leaves; once the trie has held a value and been
 * emptied again, the root's jump is the dummy.
 */
module XFastTrie {
  import opened Wrappers
  import opened Bits
  import opened BinaryTrie

  datatype XFast = XFast(trie: Trie, first: Option<nat>, last: Option<nat>, maps: set<Node>, pristine: bool)

  /** The tables hold exactly the nodes below the root: depth 1 to `bit`, one per present prefix. */
  ghost predicate MapsGood(x: XFast) {
    TablesHold(x.trie, x.maps)
  }

  ghost predicate TablesHold(tr: Trie, maps: set<Node>) {
    forall k: Node :: k in maps <==> 1 <= k.depth <= tr.bit && HasNode(tr, k.depth, k.prefix)
  }

  /** The dummy links to the smallest and the largest value, and to itself when the trie is empty. */
  ghost predicate EndsGood(x: XFast) {
    && (x.first.Some? ==> IsMin(x.trie.values, x.first.value))
    && (x.first.None? ==> x.trie.values == {})
    && (x.last.Some? ==> IsMax(x.trie.values, x.last.value))
    && (x.last.None? ==> x.trie.values == {})
  }

  /** The representation invariant: the binary trie's, the dummy's links, the tables, and a null root jump only before any insert. */
  ghost predicate XGood(x: XFast) {
    Good(x.trie) && EndsGood(x) && MapsGood(x) && (x.pristine ==> x.trie.values == {})
  }

  /** The constructor: a lone root, empty tables, the dummy linked to itself. */
  function Fresh(bit: nat): (x: XFast)
    requires bit >= 1
    ensures XGood(x) && x.trie.values == {} && x.trie.bit == bit
  {
    XFast(Empty(bit), None, None, {}, true)
  }

  /** The leaf after position u in the circular list; after the dummy comes the smallest leaf. */
  function Next(x: XFast, u: Option<nat>): Option<nat> {
    if u.None? then x.first else Lookup(x.trie.next, u.value)
  }

  /** The leaf before position u in the circular list; before the dummy comes the largest leaf. */
  function Prev(x: XFast, u: Option<nat>): Option<nat> {
    if u.None? then x.last else Lookup(x.trie.prev, u.value)
  }

  /** Both neighbours of a stored leaf or of the dummy are stored values or the dummy. */
  lemma Neighbours(x: XFast, u: Option<nat>)
    requires XGood(x) && (u.Some? ==> u.value in x.trie.values)
    ensures Next(x, u).Some? ==> Next(x, u).value in x.trie.values
    ensures Prev(x, u).Some? ==> Prev(x, u).value in x.trie.values
  {
    if u.Some? {
      assert LinkGood(x.trie, u.value);
    }
  }

  /** A node on t's path exists at every depth above one where it exists. */
  lemma PathShallower(tr: Trie, t: nat, d: nat, e: nat)
    requires d <= e <= tr.bit && t < Pow2(tr.bit) && HasNode(tr, e, Prefix(tr.bit, t, e))
    ensures HasNode(tr, d, Prefix(tr.bit, t, d))
  {
    if d == 0 {
      PrefixRoot(tr.bit, t);
    } else {
      var v :| v in tr.values && Prefix(tr.bit, v, e) == Prefix(tr.bit, t, e);
      PrefixShallower(tr.bit, v, t, d, e);
    }
  }

  /**
   * The binary search over the depths that every query starts with: with
   * t's prefix present at depth l and absent at depth h (or h past the
   * leaves), probe the table at the middle depth and keep the half that
   * straddles the boundary.  It ends at the deepest node on t's path.
   */
  function Bisect(x: XFast, t: nat, l: nat, h: nat): (i: nat)
    requires MapsGood(x) && l < h <= x.trie.bit + 1
    requires HasNode(x.trie, l, Prefix(x.trie.bit, t, l))
    requires h <= x.trie.bit ==> !HasNode(x.trie, h, Prefix(x.trie.bit, t, h))
    decreases h - l
    ensures l <= i < h && HasNode(x.trie, i, Prefix(x.trie.bit, t, i))
    ensures i < x.trie.bit ==> !HasNode(x.trie, i + 1, Prefix(x.trie.bit, t, i + 1))
  {
    if h - l <= 1 then l
    else
      var m := (l + h) / 2;
      if PathNode(x.trie.bit, t, m) !in x.maps then Bisect(x, t, l, m) else Bisect(x, t, m, h)
  }

  /** The search from the root (depth 0, always present) to past the leaves (depth `bit + 1`). */
  function Search(x: XFast, t: nat): (i: nat)
    requires MapsGood(x) && t < Pow2(x.trie.bit)
    ensures i <= x.trie.bit && HasNode(x.trie, i, Prefix(x.trie.bit, t, i))
    ensures i < x.trie.bit ==> !HasNode(x.trie, i + 1, Prefix(x.trie.bit, t, i + 1))
  {
    PrefixRoot(x.trie.bit, t);
    Bisect(x, t, 0, x.trie.bit + 1)
  }

  /** The binary search stops at the same node as the binary trie's descent, one level at a time. */
  lemma SearchIsDescent(x: XFast, t: nat)
    requires MapsGood(x) && InRange(x.trie) && t < Pow2(x.trie.bit)
    ensures Search(x, t) == Stop(x.trie, t)
  {
    var tr := x.trie;
    var i, s := Search(x, t), Stop(tr, t);
    StopFacts(tr, t);
    if s < i {
      PathShallower(tr, t, s + 1, i);
    }
  }

  /** With no value stored, the search stops at the root, which has no jump. */
  lemma SearchEmpty(x: XFast, t: nat)
    requires XGood(x) && t < Pow2(x.trie.bit) && x.trie.values == {}
    ensures Search(x, t) == 0 && PathNode(x.trie.bit, t, 0) !in x.trie.jump
  {
    var tr := x.trie;
    PrefixRoot(tr.bit, t);
    assert JumpGood(tr, 0, 0);
    assert !HasNode(tr, 1, 0) && !HasNode(tr, 1, 1);
  }

  /**
   * Where the search stops short of the leaves, t is not stored, and the
   * node's jump, when there is one, is a stored value; there is none only in
   * an empty trie.
   */
  lemma SearchJump(x: XFast, t: nat)
    requires XGood(x) && t < Pow2(x.trie.bit) && Search(x, t) < x.trie.bit
    ensures t !in x.trie.values
    ensures var j := Lookup(x.trie.jump, PathNode(x.trie.bit, t, Search(x, t)));
      && (j.Some? ==> j.value in x.trie.values)
      && (j.None? ==> x.trie.values == {})
      && (x.pristine ==> j.None?)
  {
    SearchIsDescent(x, t);
    StopFacts(x.trie, t);
    StopNeighbour(x.trie, t);
    if x.pristine {
      SearchEmpty(x, t);
    }
  }

  /** Reaching the leaf level means t's own leaf was found. */
  lemma SearchLeaf(x: XFast, t: nat)
    requires XGood(x) && t < Pow2(x.trie.bit)
    ensures Search(x, t) == x.trie.bit <==> t in x.trie.values
  {
    SearchIsDescent(x, t);
    StopFacts(x.trie, t);
  }

  /**
   * `contains(t)`: at the leaf level t's leaf was found; otherwise the leaf
   * before where t would go is the jump (t goes right) or the leaf before
   * the jump (t goes left), and t is stored if the leaf after it holds t.
   * As written the jump is dereferenced unchecked, and on a trie nothing was
   * ever inserted into the root's jump is null; `repaired` reads a null jump
   * as the dummy.
   */
  function ContainsWith(x: XFast, t: nat, repaired: bool): (o: Outcome<bool>)
    requires XGood(x) && t < Pow2(x.trie.bit)
    ensures o.Returned? ==> (o.value <==> t in x.trie.values)
    ensures o.NullDeref? <==> !repaired && x.pristine
  {
    var tr := x.trie;
    var l := Search(x, t);
    SearchLeaf(x, t);
    if l == tr.bit then Returned(true)
    else
      SearchJump(x, t);
      var j := Lookup(tr.jump, PathNode(tr.bit, t, l));
      if j.None? && x.pristine && !repaired then NullDeref
      else
        var pred := if Digit(tr.bit, t, l) == 1 then j else Prev(x, j);
        Neighbours(x, j);
        Neighbours(x, pred);
        var after := Next(x, pred);
        Returned(after.Some? && after.value == t)
  }

  function ContainsAsWritten(x: XFast, t: nat): (o: Outcome<bool>)
    requires XGood(x) && t < Pow2(x.trie.bit)
    ensures o.NullDeref? <==> x.pristine
    ensures o.Returned? ==> (o.value <==> t in x.trie.values)
  {
    ContainsWith(x, t, false)
  }

  /** `contains` as evidently intended: never dereferences null, and answers membership. */
  function Contains(x: XFast, t: nat): (b: bool)
    requires XGood(x) && t < Pow2(x.trie.bit)
    ensures b <==> t in x.trie.values
  {
    ContainsWith(x, t, true).value
  }

  /**
   * The first loop closing `pred`: `while (u->get_value() >= t &&
   * u->links[0] != &dummy) u = u->links[0]`, from a stored leaf w.
   */
  function WalkDown(x: XFast, w: nat, t: nat): (r: nat)
    requires XGood(x) && w in x.trie.values
    decreases w
    ensures w < t ==> r == w
    ensures t <= w && x.first.Some? && x.first.value < t ==> PredIn(x.trie.values, t, Some(r))
  {
    var p := Lookup(x.trie.prev, w);
    assert LinkGood(x.trie, w);
    if t <= w && p.Some? then WalkDown(x, p.value, t) else w
  }

  /**
   * The second loop closing `pred`: `while (u->links[1] != &dummy &&
   * u->links[1]->get_value() < t) u = u->links[1]`, from a stored leaf below
   * t or from the dummy.
   */
  function WalkUp(x: XFast, u: Option<nat>, t: nat): (r: Option<nat>)
    requires XGood(x) && (u.Some? ==> u.value in x.trie.values && u.value < t)
    decreases if u.Some? then t - u.value else t + 1
    ensures PredIn(x.trie.values, t, r)
  {
    Neighbours(x, u);
    var n := Next(x, u);
    assert u.Some? ==> LinkGood(x.trie, u.value);
    if n.Some? && n.value < t then WalkUp(x, n, t) else u
  }

  /**
   * What `pred` hands back: an answer, a dereference of the root's null
   * jump, or the `value` field of the dummy leaf, which no constructor sets.
   */
  datatype PredRead = Answer(value: Option<nat>) | NullJump | DummyValue

  /**
   * `pred(t)`: none when t is at or below the minimum; otherwise from t's
   * own leaf, or from the jump where the search stops, walk down to the
   * first leaf below t, or up to the last one.  An empty trie's minimum is
   * `nullopt`, which `t <= min()` does not catch.  So on a trie nothing was
   * ever inserted into, the null root jump is dereferenced; on a trie that
   * was emptied by `erase`, the root jumps to the dummy and `pred` returns
   * the dummy's never-initialised `value`.  `repaired` answers none there.
   */
  function PredWith(x: XFast, t: nat, repaired: bool): (o: PredRead)
    requires XGood(x) && t < Pow2(x.trie.bit)
    ensures o.Answer? ==> PredIn(x.trie.values, t, o.value)
    ensures o.NullJump? <==> !repaired && x.pristine
    ensures o.DummyValue? <==> !repaired && !x.pristine && x.trie.values == {}
  {
    var tr := x.trie;
    if x.first.Some? && t <= x.first.value then Answer(None)
    else
      var l := Search(x, t);
      SearchLeaf(x, t);
      if l < tr.bit then SearchJump(x, t); PredFrom(x, t, l, repaired)
      else PredFrom(x, t, l, repaired)
  }

  /** The walk of `pred(t)` from the leaf the search found at depth l, or from that node's jump. */
  function PredFrom(x: XFast, t: nat, l: nat, repaired: bool): (o: PredRead)
    requires XGood(x) && t < Pow2(x.trie.bit) && l <= x.trie.bit
    requires x.first.None? || x.first.value < t
    requires l == x.trie.bit ==> t in x.trie.values
    requires l < x.trie.bit ==> var j := Lookup(x.trie.jump, PathNode(x.trie.bit, t, l));
      && (j.Some? ==> j.value in x.trie.values)
      && (j.None? ==> x.trie.values == {})
      && (x.pristine ==> j.None?)
    ensures o.Answer? ==> PredIn(x.trie.values, t, o.value)
    ensures o.NullJump? <==> !repaired && x.pristine && l < x.trie.bit
    ensures o.DummyValue? <==> !repaired && !x.pristine && x.trie.values == {} && l < x.trie.bit
  {
    var tr := x.trie;
    var u := if l == tr.bit then Some(t) else Lookup(tr.jump, PathNode(tr.bit, t, l));
    if u.None? && x.pristine && !repaired then NullJump
    else if u.None? && !repaired then DummyValue
    else if u.Some? && u.value >= t then Answer(Some(WalkDown(x, u.value, t)))
    else Answer(WalkUp(x, u, t))
  }

  function PredAsWritten(x: XFast, t: nat): (o: PredRead)
    requires XGood(x) && t < Pow2(x.trie.bit)
    ensures o.NullJump? <==> x.pristine
    ensures o.DummyValue? <==> !x.pristine && x.trie.values == {}
    ensures o.Answer? ==> PredIn(x.trie.values, t, o.value)
  {
    PredWith(x, t, false)
  }

  /** `pred` as evidently intended: never dereferences null or reads the dummy, and answers the largest value below t. */
  function Pred(x: XFast, t: nat): (r: Option<nat>)
    requires XGood(x) && t < Pow2(x.trie.bit)
    ensures PredIn(x.trie.values, t, r)
  {
    PredWith(x, t, true).value
  }

  /**
   * The first loop closing `succ`: `while (u->get_value() <= t &&
   * u->links[1] != &dummy) u = u->links[1]`, from a stored leaf w.
   */
  function WalkRight(x: XFast, w: nat, t: nat): (r: nat)
    requires XGood(x) && w in x.trie.values
    decreases Pow2(x.trie.bit) - w
    ensures t < w ==> r == w
    ensures w <= t && x.last.Some? && t < x.last.value ==> SuccIn(x.trie.values, t, Some(r))
  {
    var n := Next(x, Some(w));
    assert LinkGood(x.trie, w);
    assert n.Some? ==> n.value < Pow2(x.trie.bit);
    if w <= t && n.Some? then WalkRight(x, n.value, t) else w
  }

  /**
   * The second loop closing `succ`: `while (u->links[0] != &dummy &&
   * u->links[0]->get_value() > t) u = u->links[0]`, from a stored leaf above t.
   */
  function WalkLeft(x: XFast, w: nat, t: nat): (r: nat)
    requires XGood(x) && w in x.trie.values && t < w
    decreases w
    ensures SuccIn(x.trie.values, t, Some(r))
  {
    var p := Lookup(x.trie.prev, w);
    assert LinkGood(x.trie, w);
    if p.Some? && p.value > t then WalkLeft(x, p.value, t) else w
  }

  /**
   * `succ(t)`: none when t is at or above the maximum (or the trie is empty,
   * `t >= nullopt` holding); otherwise from t's own leaf, or from the jump
   * where the search stops, walk right past t or left to the first leaf
   * above t.
   */
  function Succ(x: XFast, t: nat): (r: Option<nat>)
    requires XGood(x) && t < Pow2(x.trie.bit)
    ensures SuccIn(x.trie.values, t, r)
  {
    var tr := x.trie;
    if x.last.None? || t >= x.last.value then None
    else
      var l := Search(x, t);
      SearchLeaf(x, t);
      if l < tr.bit then SearchJump(x, t); SuccFrom(x, t, l)
      else SuccFrom(x, t, l)
  }

  /** The walk of `succ(t)` from the leaf the search found at depth l, or from that node's jump. */
  function SuccFrom(x: XFast, t: nat, l: nat): (r: Option<nat>)
    requires XGood(x) && t < Pow2(x.trie.bit) && l <= x.trie.bit
    requires x.last.Some? && t < x.last.value
    requires l == x.trie.bit ==> t in x.trie.values
    requires l < x.trie.bit ==> var j := Lookup(x.trie.jump, PathNode(x.trie.bit, t, l));
      j.Some? && j.value in x.trie.values
    ensures SuccIn(x.trie.values, t, r)
  {
    var tr := x.trie;
    var u := if l == tr.bit then Some(t) else Lookup(tr.jump, PathNode(tr.bit, t, l));
    if u.value <= t then Some(WalkRight(x, u.value, t)) else Some(WalkLeft(x, u.value, t))
  }

  /** `min()`: the dummy's next leaf, none when it links to itself. */
  function Min(x: XFast): (r: Option<nat>)
    requires XGood(x)
    ensures r.None? <==> x.trie.values == {}
    ensures r.Some? ==> IsMin(x.trie.values, r.value)
  {
    x.first
  }

  /** `max()`: the dummy's previous leaf, none when it links to itself. */
  function Max(x: XFast): (r: Option<nat>)
    requires XGood(x)
    ensures r.None? <==> x.trie.values == {}
    ensures r.Some? ==> IsMax(x.trie.values, r.value)
  {
    x.last
  }

  /** Iteration from `begin()` (the dummy's next leaf) by `++` (`links[1]`) to `end()` (the dummy). */
  function Iterate(x: XFast): (vs: seq<nat>)
    requires XGood(x)
    ensures forall j, k :: 0 <= j < k < |vs| ==> vs[j] < vs[k]
    ensures forall v :: v in vs <==> v in x.trie.values
  {
    IterateFrom(x.trie, x.first)
  }

  /** A value's predecessor (successor) among a set is unique. */
  lemma NeighbourUnique(s: set<nat>, t: nat, a: Option<nat>, b: Option<nat>)
    ensures PredIn(s, t, a) && PredIn(s, t, b) ==> a == b
    ensures SuccIn(s, t, a) && SuccIn(s, t, b) ==> a == b
  {
  }

  /**
   * `insert(t)`'s neighbours: the predecessor is the jump where the descent
   * stops (t goes right) or the leaf before it (t goes left), the dummy when
   * that is null; the successor is the predecessor's next leaf.
   */
  function Around(x: XFast, t: nat): (pair: (Option<nat>, Option<nat>))
    requires t < Pow2(x.trie.bit)
  {
    var tr := x.trie;
    var i := Stop(tr, t);
    var j := if i < tr.bit then Lookup(tr.jump, PathNode(tr.bit, t, i)) else None;
    var pred := if i < tr.bit && Digit(tr.bit, t, i) == 1 then j else if j.Some? then Lookup(tr.prev, j.value) else None;
    (pred, Next(x, pred))
  }

  /** Through the dummy, `insert` finds t's true neighbours, the ones the repaired binary trie insert finds. */
  lemma AroundFound(x: XFast, t: nat)
    requires XGood(x) && t < Pow2(x.trie.bit) && t !in x.trie.values
    ensures Stop(x.trie, t) < x.trie.bit
    ensures PredIn(x.trie.values, t, Around(x, t).0) && SuccIn(x.trie.values, t, Around(x, t).1)
    ensures Around(x, t) == BinaryTrie.Neighbours(x.trie, t, true)
  {
    var tr := x.trie;
    NeighboursFound(tr, t);
    var (pred, succ) := Around(x, t);
    var (p, s) := BinaryTrie.Neighbours(tr, t, true);
    assert pred == p;
    if pred.Some? {
      assert LinkGood(tr, pred.value);
      PredSucc(tr.values, t, pred.value, succ);
    }
    NeighbourUnique(tr.values, t, succ, s);
  }

  /** t's path below depth i: the nodes `insert` creates and `erase` deletes. */
  function PathBelow(bit: nat, t: nat, i: nat): set<Node> {
    set d: nat | i < d <= bit :: PathNode(bit, t, d)
  }

  lemma PathBelowHas(bit: nat, t: nat, i: nat, k: Node)
    ensures k in PathBelow(bit, t, i) <==> i < k.depth <= bit && k.prefix == Prefix(bit, t, k.depth)
  {
    if i < k.depth <= bit && k.prefix == Prefix(bit, t, k.depth) {
      assert k == PathNode(bit, t, k.depth);
    }
  }

  /**
   * `insert(t)`: nothing when t is stored; otherwise the path below the
   * descent's stop is created and entered in the tables, the leaf spliced in
   * through the dummy, the jumps raised, and `n++`.
   */
  function Insert(x: XFast, t: nat): (r: XFast)
    requires XGood(x) && t < Pow2(x.trie.bit)
    ensures XGood(r) && r.trie.bit == x.trie.bit && r.trie.values == x.trie.values + {t}
    ensures t in x.trie.values ==> r == x
    ensures r.trie == BinaryTrie.Insert(x.trie, t)
  {
    var tr := x.trie;
    StopFacts(tr, t);
    if t in tr.values then x
    else
      var i := Stop(tr, t);
      var (pred, succ) := Around(x, t);
      AroundFound(x, t);
      SpliceGood(tr, t, pred, succ);
      var r := XFast(SpliceIn(tr, t, pred, succ),
                     if pred.None? then Some(t) else x.first,
                     if succ.None? then Some(t) else x.last,
                     x.maps + PathBelow(tr.bit, t, i),
                     false);
      InsertEnds(x, t, pred, succ, r);
      InsertMaps(tr, x.maps, t, r.trie);
      r
  }

  /** Splicing t in through the dummy keeps the dummy at the smallest and the largest value. */
  lemma InsertEnds(x: XFast, t: nat, pred: Option<nat>, succ: Option<nat>, r: XFast)
    requires EndsGood(x) && PredIn(x.trie.values, t, pred) && SuccIn(x.trie.values, t, succ)
    requires r.trie.values == x.trie.values + {t}
    requires r.first == (if pred.None? then Some(t) else x.first)
    requires r.last == (if succ.None? then Some(t) else x.last)
    ensures EndsGood(r)
  {
  }

  /** The tables after `insert(t)` hold the old nodes and t's new path. */
  lemma InsertMaps(tr: Trie, maps: set<Node>, t: nat, rt: Trie)
    requires TablesHold(tr, maps) && InRange(tr) && t < Pow2(tr.bit)
    requires rt.bit == tr.bit && rt.values == tr.values + {t}
    ensures TablesHold(rt, maps + PathBelow(tr.bit, t, Stop(tr, t)))
  {
    var i := Stop(tr, t);
    StopFacts(tr, t);
    forall k: Node ensures k in maps + PathBelow(tr.bit, t, i) <==> 1 <= k.depth <= tr.bit && HasNode(rt, k.depth, k.prefix) {
      PathBelowHas(tr.bit, t, i, k);
      if k.depth <= tr.bit {
        GrowHasNode(tr, rt, t, k.depth, k.prefix);
      }
    }
  }

  /**
   * `erase(t)`: nothing when t is absent; otherwise t's leaf is unlinked
   * through the dummy, its path removed from the trie and the tables up to
   * the node where it branches off, and the jumps reset as the binary trie's
   * `erase` resets them.  As written that is with the binary trie's two
   * defects: the size is left alone when the climb reaches the root, and an
   * ancestor's jump at t moves to `m[!c]`, which may be the dummy (None)
   * in a trie that still holds values.
   */
  function EraseWith(x: XFast, t: nat, repaired: bool): (r: XFast)
    requires XGood(x) && t < Pow2(x.trie.bit)
    ensures r.trie == BinaryTrie.EraseWith(x.trie, t, repaired)
    ensures r.trie.values == x.trie.values - {t} && EndsGood(r) && MapsGood(r)
    ensures repaired ==> XGood(r)
    ensures t !in x.trie.values ==> r == x
  {
    var tr := x.trie;
    if t !in tr.values then x
    else
      var m0, m1 := Lookup(tr.prev, t), Lookup(tr.next, t);
      var b := Climb(tr, t, tr.bit - 1);
      var r := XFast(BinaryTrie.EraseWith(tr, t, repaired),
                     if m0.None? then m1 else x.first,
                     if m1.None? then m0 else x.last,
                     x.maps - PathBelow(tr.bit, t, b),
                     x.pristine);
      EraseEnds(x, t, r);
      EraseMaps(tr, x.maps, t, r.trie);
      if repaired then EraseGood(tr, t); r else r
  }

  /** `erase` as evidently intended: the repaired binary trie erase, with the dummy and the tables kept in step. */
  function Erase(x: XFast, t: nat): (r: XFast)
    requires XGood(x) && t < Pow2(x.trie.bit)
    ensures XGood(r) && r.trie.values == x.trie.values - {t}
    ensures t !in x.trie.values ==> r == x
    ensures r.trie == BinaryTrie.Erase(x.trie, t)
  {
    EraseWith(x, t, true)
  }

  /** Unlinking t through the dummy keeps the dummy at the smallest and the largest value. */
  lemma EraseEnds(x: XFast, t: nat, r: XFast)
    requires XGood(x) && t in x.trie.values && r.trie.values == x.trie.values - {t}
    requires var m0, m1 := Lookup(x.trie.prev, t), Lookup(x.trie.next, t);
      && r.first == (if m0.None? then m1 else x.first)
      && r.last == (if m1.None? then m0 else x.last)
    ensures EndsGood(r)
  {
    assert LinkGood(x.trie, t);
  }

  /** The tables after `erase(t)` lose exactly t's path below the climb's stop. */
  lemma EraseMaps(tr: Trie, maps: set<Node>, t: nat, rt: Trie)
    requires TablesHold(tr, maps) && InRange(tr) && t in tr.values
    requires rt.bit == tr.bit && rt.values == tr.values - {t}
    ensures TablesHold(rt, maps - PathBelow(tr.bit, t, Climb(tr, t, tr.bit - 1)))
  {
    var b := Climb(tr, t, tr.bit - 1);
    assert ClimbStop(tr, t, b);
    forall k: Node ensures k in maps - PathBelow(tr.bit, t, b) <==> 1 <= k.depth <= tr.bit && HasNode(rt, k.depth, k.prefix) {
      PathBelowHas(tr.bit, t, b, k);
      if 1 <= k.depth <= tr.bit {
        EraseNode(tr, rt, t, b, k);
      }
    }
  }

  /** Erasing t removes exactly the nodes of t's path below the climb's stop. */
  lemma EraseNode(tr: Trie, rt: Trie, t: nat, b: nat, k: Node)
    requires t in tr.values && ClimbStop(tr, t, b) && 1 <= k.depth <= tr.bit
    requires rt.bit == tr.bit && rt.values == tr.values - {t}
    ensures HasNode(rt, k.depth, k.prefix) <==>
      HasNode(tr, k.depth, k.prefix) && !(b < k.depth && k.prefix == Prefix(tr.bit, t, k.depth))
  {
    if k.prefix != Prefix(tr.bit, t, k.depth) {
      ShrinkHasNode(tr, rt, t, k.depth, k.prefix);
    } else if k.depth <= b {
      var w := OtherAt(tr, t, b, k.depth);
      assert w in rt.values;
    } else {
      forall v | v in rt.values ensures Prefix(tr.bit, v, k.depth) != k.prefix {
        Alone(tr, t, b, k.depth, v);
      }
    }
  }

  /** A value other than t sharing t's prefix at a depth d in 1..b. */
  lemma OtherAt(tr: Trie, t: nat, b: nat, d: nat) returns (w: nat)
    requires t in tr.values && ClimbStop(tr, t, b) && 1 <= d <= b
    ensures w in tr.values && w != t && Prefix(tr.bit, w, d) == Prefix(tr.bit, t, d)
  {
    if d < b {
      w := OtherBelow(tr, t, b, d);
    } else {
      w :| w in tr.values && Prefix(tr.bit, w, b + 1) == Sibling(tr.bit, t, b);
      PrefixStep(tr.bit, w, b);
      PrefixStep(tr.bit, t, b);
    }
  }

  /** The 2-bit x-fast trie holding 0 alone, as `insert(0)` leaves a fresh one. */
  function Zero(): (x: XFast)
    ensures XGood(x) && x.trie.bit == 2 && x.trie.values == {0}
  {
    assert Pow2(2) == 4;
    Insert(Fresh(2), 0)
  }

  /** The 2-bit x-fast trie holding 2 and 3, as `insert(2)` then `insert(3)` leave a fresh one. */
  function TwoThree(): (x: XFast)
    ensures XGood(x) && x.trie.bit == 2 && x.trie.values == {2, 3}
  {
    assert Pow2(2) == 4;
    Insert(Insert(Fresh(2), 2), 3)
  }

  /** Erasing the only value of a 2-bit trie holding 0: the climb reaches the root. */
  lemma EraseOnlyZero(x: XFast)
    requires XGood(x) && x.trie.bit == 2 && x.trie.values == {0}
    ensures EraseWith(x, 0, false).trie.values == {} && EraseWith(x, 0, false).trie.n == 1
    ensures Erase(x, 0).trie.n == 0
  {
    assert Pow2(2) == 4;
    Zero2NoSibling(x.trie);
    assert Climb(x.trie, 0, 1) == 0;
    EraseRootSize(x.trie, 0);
  }

  /**
   * Erasing the only value as written leaves the size at 1: the climb
   * reaches the root and `if (!i) return;` skips `n -= 1`.  The repaired
   * erase brings the size to 0.
   */
  lemma EraseAsWrittenKeepsSize()
    ensures XGood(Zero()) && Zero().trie.values == {0} && Zero().trie.n == 1
    ensures EraseWith(Zero(), 0, false).trie.values == {} && EraseWith(Zero(), 0, false).trie.n == 1
    ensures Erase(Zero(), 0).trie.n == 0
  {
    EraseOnlyZero(Zero());
  }

  /** In a 2-bit trie holding 2 and 3 the root has only its 1-child and jumps to 2, whose leaf links to 3 only. */
  lemma TwoThreePointers(x: XFast)
    requires XGood(x) && x.trie.bit == 2 && x.trie.values == {2, 3}
    ensures Lookup(x.trie.jump, Node(0, 0)) == Some(2)
    ensures Lookup(x.trie.prev, 2) == None && Lookup(x.trie.next, 2) == Some(3)
  {
    var tr := x.trie;
    TwoThreePrefixes(2);
    TwoThreePrefixes(3);
    assert HasNode(tr, 0, 0) && HasNode(tr, 1, 1) && !HasNode(tr, 1, 0);
    assert JumpGood(tr, 0, 0);
    assert Subtree(tr, 0, 0) == {2, 3};
    assert LinkGood(tr, 2);
  }

  /** Erasing 2 from a 2-bit trie holding 2 and 3: the root's jump as written and repaired. */
  lemma EraseTwo(x: XFast)
    requires XGood(x) && x.trie.bit == 2 && x.trie.values == {2, 3}
    ensures EraseWith(x, 2, false).trie.values == {3}
    ensures Lookup(EraseWith(x, 2, false).trie.jump, Node(0, 0)).None?
    ensures Stop(EraseWith(x, 2, false).trie, 1) == 0
    ensures Lookup(Erase(x, 2).trie.jump, Node(0, 0)) == Some(3)
  {
    TwoThreePointers(x);
    EraseTwoFromTwoThree(x.trie, false);
    EraseTwoFromTwoThree(x.trie, true);
    var r := EraseWith(x, 2, false);
    assert Prefix(2, 1, 1) == 0 by { assert Shr(1, 1) == 0; }
    assert !HasNode(r.trie, 1, Prefix(2, 1, 1)) by {
      forall v | v in r.trie.values ensures Prefix(2, v, 1) != 0 {
        TwoThreePrefixes(v);
      }
    }
  }

  /**
   * Erasing 2 from {2, 3} as written resets the root's jump, which named 2,
   * to 2's predecessor: the dummy.  The trie still holds 3, the root has no
   * 0-child, so the search for 1 stops at the root and every query for 1
   * starts from the dummy and reads its unset `value`.  The repaired erase
   * points the root's jump at 3.
   */
  lemma EraseAsWrittenJumpsToDummy()
    ensures XGood(TwoThree()) && TwoThree().trie.values == {2, 3}
    ensures EraseWith(TwoThree(), 2, false).trie.values == {3}
    ensures Lookup(EraseWith(TwoThree(), 2, false).trie.jump, Node(0, 0)).None?
    ensures Stop(EraseWith(TwoThree(), 2, false).trie, 1) == 0
    ensures Lookup(Erase(TwoThree(), 2).trie.jump, Node(0, 0)) == Some(3)
  {
    EraseTwo(TwoThree());
  }
}

=== FILE: xor_list.dfy ===
/**
 * XorList (src/list_based/xor_list.hpp): a doubly linked list in which each
 * node stores one link, the XOR of its neighbours' addresses.
 *
 * Addresses are 64-bit words so that `combine` is the bitwise XOR the source
 * computes on `ptrdiff_t`; `Null` is the null pointer, and an address absent
 * from `heap` has been freed.
 */
module XorList {
  import opened Wrappers
  import opened Sequences

  /** A pointer, as the unsigned word `combine` reinterprets it as. */
  type Addr = nat

  const Null: Addr := 0

  datatype Node = Node(value: int, link: Addr)

  /** `combine`: the bitwise XOR of two addresses, bit by bit from the least significant. */
  function Combine(a: Addr, b: Addr): Addr
    decreases a + b
  {
    if a == 0 then b
    else if b == 0 then a
    else 2 * Combine(a / 2, b / 2) + (a % 2 + b % 2) % 2
  }

  /** The lowest bit of a combination is the XOR of the lowest bits; the rest combine the rest. */
  lemma CombineBits(a: Addr, b: Addr)
    ensures Combine(a, b) / 2 == Combine(a / 2, b / 2)
    ensures Combine(a, b) % 2 == (a % 2 + b % 2) % 2
  {
  }

  lemma {:induction false} CombineCommutes(a: Addr, b: Addr)
    ensures Combine(a, b) == Combine(b, a)
    decreases a + b
  {
    if a != 0 && b != 0 {
      CombineCommutes(a / 2, b / 2);
    }
  }

  /** Combining with the same address twice gives back the original. */
  lemma {:induction false} CombineTwice(a: Addr, b: Addr)
    ensures Combine(Combine(a, b), b) == a
    decreases a + b
  {
    if a + b > 0 {
      var c := Combine(a, b);
      CombineBits(a, b);
      CombineBits(c, b);
      CombineTwice(a / 2, b / 2);
      var d := Combine(c, b);
      assert d / 2 == a / 2;
      assert d % 2 == a % 2;
    }
  }

  /** What the list needs of `combine`: it cancels, commutes, and null is neutral. */
  lemma CombineCancels(a: Addr, b: Addr)
    ensures Combine(Combine(a, b), b) == a && Combine(a, Combine(a, b)) == b
    ensures Combine(a, b) == Combine(b, a) && Combine(a, Null) == a
  {
    CombineTwice(a, b);
    CombineTwice(b, a);
    CombineCommutes(a, b);
    CombineCommutes(a, Combine(a, b));
  }

  /**
   * The `k` nodes met when walking forward from `now` having come from
   * `prev` (the next node is `prev ^ link`), or None when a null or freed
   * address is met first.
   */
  function Trace(heap: map<Addr, Node>, prev: Addr, now: Addr, k: nat): (r: Option<seq<Addr>>)
    decreases k
    ensures r.Some? ==> |r.value| == k && forall i :: 0 <= i < k ==> r.value[i] in heap
  {
    if k == 0 then Some([])
    else if now == Null || now !in heap then None
    else match Trace(heap, now, Combine(prev, heap[now].link), k - 1)
      case None => None
      case Some(rest) => Some([now] + rest)
  }

  /** The neighbour before position i of `sp`, which hangs after `prev`. */
  function Before(prev: Addr, sp: seq<Addr>, i: nat): Addr
    requires i < |sp|
  {
    if i == 0 then prev else sp[i - 1]
  }

  /** The neighbour after position i of `sp`, which hangs before `next`. */
  function After(sp: seq<Addr>, i: nat, next: Addr): Addr
    requires i < |sp|
  {
    if i + 1 < |sp| then sp[i + 1] else next
  }

  /** Node i of `sp` is live and links its two neighbours. */
  ghost predicate Linked(heap: map<Addr, Node>, prev: Addr, sp: seq<Addr>, next: Addr, i: nat)
    requires i < |sp|
  {
    sp[i] != Null && sp[i] in heap && heap[sp[i]].link == Combine(Before(prev, sp, i), After(sp, i, next))
  }

  /** `sp` are live nodes between `prev` and `next`, each linking its two neighbours. */
  ghost predicate IsXorChain(heap: map<Addr, Node>, prev: Addr, sp: seq<Addr>, next: Addr) {
    forall i :: 0 <= i < |sp| ==> Linked(heap, prev, sp, next, i)
  }

  /** Every node of a chain is live. */
  lemma ChainLive(heap: map<Addr, Node>, prev: Addr, sp: seq<Addr>, next: Addr)
    requires IsXorChain(heap, prev, sp, next)
    ensures forall i :: 0 <= i < |sp| ==> sp[i] != Null && sp[i] in heap
  {
    forall i | 0 <= i < |sp|
      ensures sp[i] != Null && sp[i] in heap
    {
      assert Linked(heap, prev, sp, next, i);
    }
  }

  /** Whether a node links its neighbours depends only on its link and on who its neighbours are. */
  lemma LinkedMoves(heap: map<Addr, Node>, prev: Addr, sp: seq<Addr>, next: Addr, i: nat,
                    heap': map<Addr, Node>, prev': Addr, sp': seq<Addr>, next': Addr, j: nat)
    requires i < |sp| && Linked(heap, prev, sp, next, i) && j < |sp'| && sp'[j] == sp[i]
    requires sp[i] in heap' && heap'[sp[i]].link == heap[sp[i]].link
    requires Before(prev', sp', j) == Before(prev, sp, i) && After(sp', j, next') == After(sp, i, next)
    ensures Linked(heap', prev', sp', next', j)
  {
  }

  /** The first node of a chain, or `next` for an empty one. */
  function First(sp: seq<Addr>, next: Addr): Addr {
    if |sp| > 0 then sp[0] else next
  }

  /** Walking forward from the first node of a chain finds the chain. */
  lemma {:induction false} ChainIsTrace(heap: map<Addr, Node>, prev: Addr, sp: seq<Addr>, next: Addr)
    requires IsXorChain(heap, prev, sp, next)
    ensures Trace(heap, prev, First(sp, next), |sp|) == Some(sp)
    decreases |sp|
  {
    if |sp| > 0 {
      var a := sp[0];
      ChainRest(heap, prev, sp, next);
      ChainIsTrace(heap, a, sp[1..], next);
      assert [a] + sp[1..] == sp;
    }
  }

  /** One step along a chain: the link leads on to the rest of the chain. */
  lemma ChainRest(heap: map<Addr, Node>, prev: Addr, sp: seq<Addr>, next: Addr)
    requires IsXorChain(heap, prev, sp, next) && |sp| > 0
    ensures sp[0] != Null && sp[0] in heap && Combine(prev, heap[sp[0]].link) == First(sp[1..], next)
    ensures IsXorChain(heap, sp[0], sp[1..], next)
  {
    assert Linked(heap, prev, sp, next, 0);
    CombineCancels(prev, After(sp, 0, next));
    forall i | 0 <= i < |sp| - 1
      ensures Linked(heap, sp[0], sp[1..], next, i)
    {
      LinkedMoves(heap, prev, sp, next, i + 1, heap, sp[0], sp[1..], next, i);
    }
  }

  /** A chain read backwards is a chain between the same neighbours, swapped. */
  lemma ChainReversed(heap: map<Addr, Node>, prev: Addr, sp: seq<Addr>, next: Addr)
    requires IsXorChain(heap, prev, sp, next)
    ensures IsXorChain(heap, next, Reverse(sp), prev)
  {
    var rs := Reverse(sp);
    forall i | 0 <= i < |rs|
      ensures Linked(heap, next, rs, prev, i)
    {
      var j := |sp| - 1 - i;
      assert Linked(heap, prev, sp, next, j);
      assert rs[i] == sp[j];
      assert Before(next, rs, i) == After(sp, j, next);
      assert After(rs, i, prev) == Before(prev, sp, j);
      CombineCommutes(Before(prev, sp, j), After(sp, j, next));
    }
  }

  /** The values stored at the addresses `sp`. */
  function Values(heap: map<Addr, Node>, sp: seq<Addr>): (vs: seq<int>)
    requires forall i :: 0 <= i < |sp| ==> sp[i] in heap
    ensures |vs| == |sp|
  {
    seq(|sp|, i requires 0 <= i < |sp| => heap[sp[i]].value)
  }

  datatype List = List(heap: map<Addr, Node>, head: Addr, tail: Addr, size: nat)
  {
    /**
     * Walking `size` nodes forward from `head` finds distinct nodes, each
     * linking its neighbours, with null before the first and after the last;
     * `head` and `tail` are the two ends (null when empty).
     */
    ghost predicate Valid() {
      Trace(heap, Null, head, size).Some? &&
      var sp := Trace(heap, Null, head, size).value;
      IsXorChain(heap, Null, sp, Null) && Distinct(sp) &&
      head == First(sp, Null) && tail == (if size == 0 then Null else sp[size - 1])
    }

    /** The addresses of the nodes, from head to tail. */
    ghost function Nodes(): (sp: seq<Addr>)
      requires Valid()
      ensures |sp| == size && IsXorChain(heap, Null, sp, Null) && Distinct(sp)
      ensures forall i :: 0 <= i < |sp| ==> sp[i] != Null && sp[i] in heap
      ensures head == First(sp, Null) && tail == (if size == 0 then Null else sp[size - 1])
    {
      var sp := Trace(heap, Null, head, size).value;
      ChainLive(heap, Null, sp, Null);
      sp
    }

    /** The values of the list, from head to tail. */
    ghost function Elements(): seq<int>
      requires Valid()
    {
      Values(heap, Nodes())
    }
  }

  /** A distinct chain of `size` nodes between nulls, from `head` to `tail`, makes a valid list. */
  lemma ChainMakesValid(t: List, sp: seq<Addr>)
    requires IsXorChain(t.heap, Null, sp, Null) && |sp| == t.size && Distinct(sp)
    requires t.head == First(sp, Null) && t.tail == (if t.size == 0 then Null else sp[t.size - 1])
    ensures t.Valid() && t.Nodes() == sp
  {
    ChainIsTrace(t.heap, Null, sp, Null);
  }

  /** A default-constructed list. */
  function Empty(): (l: List)
    ensures l.Valid() && l.Elements() == []
  {
    List(map[], Null, Null, 0)
  }

  /**
   * `push_back`: a new node becomes the tail.  When the list is non-empty it
   * links back to the old tail, and the old tail's link swaps null for it.
   * `newNode` is the address the allocator returns.
   */
  function PushBack(l: List, x: int, newNode: Addr): (t: List)
    requires newNode != Null && newNode !in l.heap
    requires l.head != Null ==> l.tail in l.heap
    ensures t.size == l.size + 1 && t.tail == newNode
    ensures newNode in t.heap && t.heap[newNode].value == x
    ensures t.heap.Keys == l.heap.Keys + {newNode}
  {
    if l.head == Null then List(l.heap[newNode := Node(x, Null)], newNode, newNode, l.size + 1)
    else
      var heap := l.heap[newNode := Node(x, Combine(l.tail, Null))];
      var oldTail := l.heap[l.tail];
      List(heap[l.tail := oldTail.(link := Combine(Combine(oldTail.link, Null), newNode))],
           l.head, newNode, l.size + 1)
  }

  lemma PushBackAppends(l: List, x: int, newNode: Addr)
    requires l.Valid() && newNode != Null && newNode !in l.heap
    ensures PushBack(l, x, newNode).Valid()
    ensures PushBack(l, x, newNode).Elements() == l.Elements() + [x]
  {
    var t := PushBack(l, x, newNode);
    var sp := l.Nodes();
    var sp' := sp + [newNode];
    forall i | 0 <= i < |sp'|
      ensures Linked(t.heap, Null, sp', Null, i)
    {
      if i + 1 < l.size {
        assert sp[i] != l.tail;
        LinkedMoves(l.heap, Null, sp, Null, i, t.heap, Null, sp', Null, i);
      } else if i + 1 == l.size {
        assert Linked(l.heap, Null, sp, Null, i);
      }
    }
    ChainMakesValid(t, sp');
    assert Values(t.heap, sp') == Values(l.heap, sp) + [x];
  }

  /**
   * `pop_back` as written: the tail is freed and its predecessor (its link
   * XOR null) becomes the tail, dropping the freed node from its own link.
   * `head` is never reset, so emptying the list leaves it naming the freed
   * node.
   */
  function PopBackAsWritten(l: List): (t: List)
    requires l.Valid()
    ensures l.head == Null ==> t == l
    ensures l.head != Null ==> t.size == l.size - 1 && t.head == l.head && t.heap.Keys == l.heap.Keys - {l.tail}
  {
    if l.head == Null then l
    else Unlink(l, l.heap - {l.tail})
  }

  /**
   * The common tail of `pop_back` and of `erase` of the last node: `heap` is
   * the heap after the tail node was (or was not) freed.  The chain loses
   * its last node, the predecessor becomes the tail, and the values of the
   * remaining nodes are the elements but the last.
   */
  function Unlink(l: List, heap: map<Addr, Node>): (t: List)
    requires l.Valid() && l.size > 0
    requires heap == l.heap || heap == l.heap - {l.tail}
    ensures t.size == l.size - 1 && t.head == l.head && t.heap.Keys == heap.Keys
    ensures var sp' := l.Nodes()[..l.size - 1];
            IsXorChain(t.heap, Null, sp', Null) && t.tail == (if t.size == 0 then Null else sp'[t.size - 1])
    ensures Values(t.heap, l.Nodes()[..l.size - 1]) == l.Elements()[..l.size - 1]
  {
    var sp := l.Nodes();
    var sp' := sp[..l.size - 1];
    var prev := Combine(l.heap[l.tail].link, Null);
    assert Linked(l.heap, Null, sp, Null, l.size - 1);
    assert prev == Before(Null, sp, l.size - 1);
    var t := if prev != Null then
        assert prev == sp[l.size - 2] != l.tail;
        var p := heap[prev];
        List(heap[prev := p.(link := Combine(Combine(p.link, l.tail), Null))], l.head, prev, l.size - 1)
      else List(heap, l.head, prev, l.size - 1);
    assert IsXorChain(t.heap, Null, sp', Null) by {
      forall i | 0 <= i < |sp'|
        ensures Linked(t.heap, Null, sp', Null, i)
      {
        assert sp[i] != l.tail;
        if i + 1 < |sp'| {
          assert sp[i] != sp[l.size - 2];
          LinkedMoves(l.heap, Null, sp, Null, i, t.heap, Null, sp', Null, i);
        } else {
          assert Linked(l.heap, Null, sp, Null, i);
          CombineCancels(Before(Null, sp, i), l.tail);
        }
      }
    }
    t
  }

  /** `pop_back` as evidently intended: emptying the list also nulls `head`. */
  function PopBack(l: List): (t: List)
    requires l.Valid()
    ensures l.head == Null ==> t == l
    ensures l.head != Null ==> t.size == l.size - 1 && t.heap.Keys == l.heap.Keys - {l.tail}
  {
    var t := PopBackAsWritten(l);
    if t.size == 0 then t.(head := Null) else t
  }

  lemma PopBackDropsLast(l: List)
    requires l.Valid()
    ensures PopBack(l).Valid()
    ensures PopBack(l).Elements() == if l.size == 0 then [] else l.Elements()[..l.size - 1]
  {
    if l.size > 0 {
      var sp := l.Nodes();
      ChainMakesValid(PopBack(l), sp[..l.size - 1]);
    }
  }

  /**
   * As written, popping the only element leaves `head` naming the freed
   * node and `tail` null: the list is no longer valid, and the next
   * `push_back`, seeing a non-null head, dereferences the null tail.
   */
  lemma PopLastLeavesHead(l: List)
    requires l.Valid() && l.size == 1
    ensures PopBackAsWritten(l).size == 0 && PopBackAsWritten(l).tail == Null
    ensures PopBackAsWritten(l).head != Null && PopBackAsWritten(l).head !in PopBackAsWritten(l).heap
    ensures !PopBackAsWritten(l).Valid()
  {
    assert Linked(l.heap, Null, l.Nodes(), Null, 0);
  }

  /** An iterator: the node behind it, the node it is at, and its position. */
  datatype Iterator = Iterator(prev: Addr, now: Addr, order: int)

  function Begin(l: List): (it: Iterator)
    ensures it.now == l.head && it.order == 0
  {
    Iterator(Null, l.head, 0)
  }

  /** `end()`: past the tail, at order `size`. */
  function End(l: List): (it: Iterator)
    ensures it.prev == l.tail && it.now == Null && it.order == l.size
  {
    Iterator(l.tail, Null, l.size)
  }

  /** Iterator `++` (and `+ k`) applied k times: the next node is `prev ^ now.link`. */
  function Step(heap: map<Addr, Node>, it: Iterator, k: nat): (r: Iterator)
    requires Trace(heap, it.prev, it.now, k).Some?
    ensures r.order == it.order + k
    decreases k
  {
    if k == 0 then it
    else Step(heap, Iterator(it.now, Combine(it.prev, heap[it.now].link), it.order + 1), k - 1)
  }

  /** Stepping along a chain ends between its last node and the node after it. */
  lemma {:induction false} StepAlongChain(heap: map<Addr, Node>, prev: Addr, sp: seq<Addr>, next: Addr, order: int)
    requires IsXorChain(heap, prev, sp, next) && |sp| > 0
    ensures Trace(heap, prev, sp[0], |sp|) == Some(sp)
    ensures Step(heap, Iterator(prev, sp[0], order), |sp|) == Iterator(sp[|sp| - 1], next, order + |sp|)
    decreases |sp|
  {
    ChainIsTrace(heap, prev, sp, next);
    var a := sp[0];
    ChainRest(heap, prev, sp, next);
    if |sp| > 1 {
      StepAlongChain(heap, a, sp[1..], next, order + 1);
    }
  }

  /** `size` steps from `begin()` arrive exactly at `end()`, and the iterator difference is `size`. */
  lemma IterationReachesEnd(l: List)
    requires l.Valid()
    ensures Step(l.heap, Begin(l), l.size) == End(l)
    ensures End(l).order - Begin(l).order == l.size
  {
    if l.size > 0 {
      StepAlongChain(l.heap, Null, l.Nodes(), Null, 0);
    }
  }

  /** The values `k` steps of `++` visit from an iterator. */
  function Visit(heap: map<Addr, Node>, it: Iterator, k: nat): (vs: seq<int>)
    requires Trace(heap, it.prev, it.now, k).Some?
    ensures |vs| == k
    decreases k
  {
    if k == 0 then []
    else [heap[it.now].value] + Visit(heap, Iterator(it.now, Combine(it.prev, heap[it.now].link), it.order + 1), k - 1)
  }

  /** What `Visit` sees is the values of what `Trace` finds. */
  lemma {:induction false} VisitIsTrace(heap: map<Addr, Node>, it: Iterator, k: nat)
    requires Trace(heap, it.prev, it.now, k).Some?
    ensures Visit(heap, it, k) == Values(heap, Trace(heap, it.prev, it.now, k).value)
    decreases k
  {
    if k > 0 {
      var it' := Iterator(it.now, Combine(it.prev, heap[it.now].link), it.order + 1);
      VisitIsTrace(heap, it', k - 1);
      var rest := Trace(heap, it'.prev, it'.now, k - 1).value;
      assert Values(heap, [it.now] + rest) == [heap[it.now].value] + Values(heap, rest);
    }
  }

  /** Forward iteration yields the elements in push order. */
  lemma ForwardIteration(l: List)
    requires l.Valid()
    ensures Visit(l.heap, Begin(l), l.size) == l.Elements()
  {
    VisitIsTrace(l.heap, Begin(l), l.size);
  }

  /** A chain cut before position j hangs between the same `prev` and node j. */
  lemma ChainPrefix(heap: map<Addr, Node>, prev: Addr, sp: seq<Addr>, next: Addr, j: nat)
    requires IsXorChain(heap, prev, sp, next) && j < |sp|
    ensures IsXorChain(heap, prev, sp[..j], sp[j])
  {
    forall i | 0 <= i < j
      ensures Linked(heap, prev, sp[..j], sp[j], i)
    {
      LinkedMoves(heap, prev, sp, next, i, heap, prev, sp[..j], sp[j], i);
    }
  }

  /** `begin() + j` is at node j, with node j - 1 (or null) behind it. */
  lemma StepToIndex(l: List, j: nat)
    requires l.Valid() && j < l.size
    ensures Trace(l.heap, Null, l.head, j).Some?
    ensures Step(l.heap, Begin(l), j) == Iterator(Before(Null, l.Nodes(), j), l.Nodes()[j], j)
  {
    var sp := l.Nodes();
    if j > 0 {
      ChainPrefix(l.heap, Null, sp, Null, j);
      StepAlongChain(l.heap, Null, sp[..j], sp[j], 0);
    }
  }

  /**
   * `erase(n)` as written.  Erasing the last node unlinks it as `pop_back`
   * does, without freeing it and, again, without resetting `head`.
   * Otherwise two iterators walk to nodes n and n + 1, node n's neighbours
   * are relinked around it, and `head` moves on when n is 0; no node is
   * freed.
   */
  function EraseAsWritten(l: List, n: nat): (t: List)
    requires l.Valid()
    ensures n >= l.size ==> t == l
    ensures n < l.size ==> t.size == l.size - 1 && t.heap.Keys == l.heap.Keys
  {
    if n >= l.size then l
    else if n == l.size - 1 then Unlink(l, l.heap)
    else
      StepToIndex(l, n);
      StepToIndex(l, n + 1);
      var now := Step(l.heap, Begin(l), n);
      var next := Step(l.heap, Begin(l), n + 1);
      var heap :=
        if now.now == l.head then l.heap
        else l.heap[now.prev := l.heap[now.prev].(link := Combine(next.now, Combine(now.now, l.heap[now.prev].link)))];
      var head := if now.now == l.head then next.now else l.head;
      List(heap[next.now := heap[next.now].(link := Combine(now.prev, Combine(now.now, heap[next.now].link)))],
           head, l.tail, l.size - 1)
  }

  /** `erase(n)` as evidently intended: emptying the list also nulls `head`. */
  function Erase(l: List, n: nat): (t: List)
    requires l.Valid()
    ensures n >= l.size ==> t == l
    ensures n < l.size ==> t.size == l.size - 1 && t.heap.Keys == l.heap.Keys
  {
    var t := EraseAsWritten(l, n);
    if n < l.size && t.size == 0 then t.(head := Null) else t
  }

  /** The heap after node n (not the last) is cut out: its two neighbours link to each other. */
  ghost function Relinked(heap: map<Addr, Node>, sp: seq<Addr>, n: nat): map<Addr, Node>
    requires IsXorChain(heap, Null, sp, Null) && n + 1 < |sp|
  {
    ChainLive(heap, Null, sp, Null);
    var pp, nn := Before(Null, sp, n), After(sp, n + 1, Null);
    var heap' := if n == 0 then heap
                 else heap[pp := heap[pp].(link := Combine(Before(Null, sp, n - 1), sp[n + 1]))];
    heap'[sp[n + 1] := heap[sp[n + 1]].(link := Combine(pp, nn))]
  }

  /** The relinked heap holds the chain without node n. */
  lemma RelinkedChain(heap: map<Addr, Node>, sp: seq<Addr>, n: nat)
    requires IsXorChain(heap, Null, sp, Null) && Distinct(sp) && n + 1 < |sp|
    ensures IsXorChain(Relinked(heap, sp, n), Null, sp[..n] + sp[n + 1..], Null)
  {
    var h := Relinked(heap, sp, n);
    var sp' := sp[..n] + sp[n + 1..];
    ChainLive(heap, Null, sp, Null);
    forall i | 0 <= i < |sp'|
      ensures Linked(h, Null, sp', Null, i)
    {
      if i < n - 1 {
        assert sp[i] != sp[n - 1] && sp[i] != sp[n + 1];
        LinkedMoves(heap, Null, sp, Null, i, h, Null, sp', Null, i);
      } else if i == n - 1 {
        assert sp'[i] == sp[n - 1] != sp[n + 1];
        assert sp'[i + 1] == sp[n + 1];
        if i > 0 {
          assert sp'[i - 1] == sp[i - 1];
        }
      } else if i == n {
        assert sp'[i] == sp[n + 1];
        if i + 1 < |sp'| {
          assert sp'[i + 1] == sp[n + 2];
        }
      } else {
        assert sp[i + 1] != sp[n + 1] && (n == 0 || sp[i + 1] != sp[n - 1]);
        LinkedMoves(heap, Null, sp, Null, i + 1, h, Null, sp', Null, i);
      }
    }
  }

  /** The XOR updates of `erase` compute exactly the relinked heap. */
  lemma EraseInnerHeap(l: List, n: nat)
    requires l.Valid() && n + 1 < l.size
    ensures Erase(l, n).heap == Relinked(l.heap, l.Nodes(), n)
    ensures Erase(l, n).head == First(l.Nodes()[..n] + l.Nodes()[n + 1..], Null)
  {
    var sp := l.Nodes();
    StepToIndex(l, n);
    StepToIndex(l, n + 1);
    assert Linked(l.heap, Null, sp, Null, n + 1);
    var nn := After(sp, n + 1, Null);
    CombineCancels(sp[n], nn);
    if n > 0 {
      var b := Before(Null, sp, n - 1);
      assert Linked(l.heap, Null, sp, Null, n - 1);
      assert sp[n - 1] != sp[n + 1];
      CombineCancels(sp[n], b);
      CombineCommutes(sp[n + 1], b);
    } else {
      assert sp[0] != sp[1];
    }
  }

  lemma EraseRemoves(l: List, n: nat)
    requires l.Valid()
    ensures Erase(l, n).Valid()
    ensures Erase(l, n).Elements() ==
      if n >= l.size then l.Elements() else l.Elements()[..n] + l.Elements()[n + 1..]
  {
    if n + 1 == l.size {
      EraseLastRemoves(l);
    } else if n + 1 < l.size {
      EraseInnerRemoves(l, n);
    }
  }

  /** Erasing the last node is popping it without freeing it. */
  lemma EraseLastRemoves(l: List)
    requires l.Valid() && l.size > 0
    ensures Erase(l, l.size - 1).Valid()
    ensures Erase(l, l.size - 1).Elements() == l.Elements()[..l.size - 1]
  {
    var sp := l.Nodes();
    ChainMakesValid(Erase(l, l.size - 1), sp[..l.size - 1]);
  }

  /** Erasing a node that is not the last relinks its neighbours around it. */
  lemma EraseInnerRemoves(l: List, n: nat)
    requires l.Valid() && n + 1 < l.size
    ensures Erase(l, n).Valid()
    ensures Erase(l, n).Elements() == l.Elements()[..n] + l.Elements()[n + 1..]
  {
    var sp := l.Nodes();
    var t := Erase(l, n);
    var sp' := sp[..n] + sp[n + 1..];
    EraseInnerHeap(l, n);
    RelinkedChain(l.heap, sp, n);
    ChainMakesValid(t, sp');
    ValuesWithout(l.heap, t.heap, sp, n);
  }

  /** Reading the nodes other than node n, through a heap that only relinked nodes. */
  lemma ValuesWithout(heap: map<Addr, Node>, heap': map<Addr, Node>, sp: seq<Addr>, n: nat)
    requires n < |sp| && forall i :: 0 <= i < |sp| ==> sp[i] in heap && sp[i] in heap'
    requires forall a :: a in heap && a in heap' ==> heap'[a].value == heap[a].value
    ensures Values(heap', sp[..n] + sp[n + 1..]) == Values(heap, sp)[..n] + Values(heap, sp)[n + 1..]
  {
  }

  /**
   * As written, erasing the only element (it is also the last) leaves
   * `head` on the unlinked node while `tail` is null.
   */
  lemma EraseOnlyLeavesHead(l: List)
    requires l.Valid() && l.size == 1
    ensures EraseAsWritten(l, 0).size == 0 && EraseAsWritten(l, 0).tail == Null
    ensures EraseAsWritten(l, 0).head != Null && !EraseAsWritten(l, 0).Valid()
  {
    assert Linked(l.heap, Null, l.Nodes(), Null, 0);
  }

  /** `contains`: an iterator walks `k` nodes comparing each value with `v`. */
  function ContainsFrom(heap: map<Addr, Node>, it: Iterator, k: nat, v: int): (b: bool)
    requires Trace(heap, it.prev, it.now, k).Some?
    ensures b <==> v in Visit(heap, it, k)
    decreases k
  {
    if k == 0 then false
    else
      heap[it.now].value == v ||
      ContainsFrom(heap, Iterator(it.now, Combine(it.prev, heap[it.now].link), it.order + 1), k - 1, v)
  }

  /** `contains`: walks from `begin()` while the order is below `end()`'s, i.e. `size` nodes. */
  function Contains(l: List, v: int): (b: bool)
    requires l.Valid()
    ensures b <==> v in l.Elements()
  {
    ForwardIteration(l);
    ContainsFrom(l.heap, Begin(l), l.size, v)
  }

  /**
   * A reverse iterator: the node it is at, the node it came from, and its
   * position.  `++` moves to `next ^ now.link`.
   */
  datatype ReverseIterator = ReverseIterator(now: Addr, next: Addr, order: int)

  function RBegin(l: List): (it: ReverseIterator)
    ensures it.now == l.tail && it.order == 0
  {
    ReverseIterator(l.tail, Null, 0)
  }

  /** `rend()`: before the head, at order `size`. */
  function REnd(l: List): (it: ReverseIterator)
    ensures it.now == Null && it.next == l.head && it.order == l.size
  {
    ReverseIterator(Null, l.head, l.size)
  }

  /** Reverse `++` as written: it moves the iterator but leaves `order` unchanged. */
  function ReverseStepAsWritten(heap: map<Addr, Node>, it: ReverseIterator, k: nat): (r: ReverseIterator)
    requires Trace(heap, it.next, it.now, k).Some?
    ensures r.order == it.order
    decreases k
  {
    if k == 0 then it
    else ReverseStepAsWritten(heap, ReverseIterator(Combine(it.next, heap[it.now].link), it.now, it.order), k - 1)
  }

  /** Reverse `++` as evidently intended: also counts the step, as reverse `+` does. */
  function ReverseStep(heap: map<Addr, Node>, it: ReverseIterator, k: nat): (r: ReverseIterator)
    requires Trace(heap, it.next, it.now, k).Some?
    ensures r.order == it.order + k
    decreases k
  {
    if k == 0 then it
    else ReverseStep(heap, ReverseIterator(Combine(it.next, heap[it.now].link), it.now, it.order + 1), k - 1)
  }

  /** Walking back from the tail finds the nodes in reverse order. */
  lemma ReverseTrace(l: List)
    requires l.Valid()
    ensures Trace(l.heap, Null, l.tail, l.size) == Some(Reverse(l.Nodes()))
    ensures Values(l.heap, Reverse(l.Nodes())) == Reverse(l.Elements())
  {
    var sp := l.Nodes();
    ChainReversed(l.heap, Null, sp, Null);
    ChainIsTrace(l.heap, Null, Reverse(sp), Null);
  }

  /** Reverse iteration yields the elements in reverse push order. */
  lemma ReverseIteration(l: List)
    requires l.Valid()
    ensures Trace(l.heap, Null, l.tail, l.size).Some?
    ensures Visit(l.heap, Iterator(Null, l.tail, 0), l.size) == Reverse(l.Elements())
  {
    ReverseTrace(l);
    VisitIsTrace(l.heap, Iterator(Null, l.tail, 0), l.size);
  }

  /**
   * `size` reverse steps from `rbegin()` reach `rend()`'s node; as written
   * the order stays 0, so `rend() - it` is `size` rather than 0, while the
   * corrected step arrives at `rend()` exactly.
   */
  lemma ReverseIterationReachesREnd(l: List)
    requires l.Valid() && l.size > 0
    ensures Trace(l.heap, Null, l.tail, l.size).Some?
    ensures ReverseStepAsWritten(l.heap, RBegin(l), l.size).now == REnd(l).now
    ensures REnd(l).order - ReverseStepAsWritten(l.heap, RBegin(l), l.size).order == l.size
    ensures ReverseStep(l.heap, RBegin(l), l.size) == REnd(l)
  {
    ReverseTrace(l);
    var rs := Reverse(l.Nodes());
    ChainReversed(l.heap, Null, l.Nodes(), Null);
    ReverseStepsAlongChain(l.heap, Null, rs, Null, 0);
  }

  /** Both reverse steps walk a chain exactly as forward steps do. */
  lemma {:induction false} ReverseStepsAlongChain(heap: map<Addr, Node>, prev: Addr, sp: seq<Addr>, next: Addr, order: int)
    requires IsXorChain(heap, prev, sp, next) && |sp| > 0
    ensures Trace(heap, prev, sp[0], |sp|) == Some(sp)
    ensures ReverseStep(heap, ReverseIterator(sp[0], prev, order), |sp|) == ReverseIterator(next, sp[|sp| - 1], order + |sp|)
    ensures ReverseStepAsWritten(heap, ReverseIterator(sp[0], prev, order), |sp|).now == next
    decreases |sp|
  {
    ChainIsTrace(heap, prev, sp, next);
    var a := sp[0];
    ChainRest(heap, prev, sp, next);
    if |sp| > 1 {
      ReverseStepsAlongChain(heap, a, sp[1..], next, order + 1);
      ReverseStepsAlongChain(heap, a, sp[1..], next, order);
    }
  }
}

=== FILE: y_fast_trie.dfy ===
/**
 * The y-fast trie of src/integer/y_fast_trie.hpp.  Values up to `top` are
 * spread over a doubly linked list of leaves, each owning a treap; a leaf's
 * value (its representative) is the largest value its treap may hold, and
 * every leaf but the last (whose representative is `top`) holds its own
 * representative.  The x-fast trie over the representatives, its hash
 * tables and jump pointers only serve to find the first representative at
 * or above a query; here they are abstracted to the ordered leaf list (the
 * same machinery is modelled in XFastTrie).
 *
 * Several operations follow null pointers in reachable states: each such
 * operation takes a `repaired` flag and returns an Outcome, NullDeref for
 * the code as written and the evident answer when repaired.
 */
module YFastTrie {
  import opened Wrappers
  import opened Sequences
  import opened Bits
  import opened Trees
  import YTreap

  /** A leaf of the x-fast layer: its representative and its treap. */
  datatype Leaf = Leaf(rep: nat, treap: Tree<int>)

  /** `bit` key bits, the leaves in list order and the counter `n`. */
  datatype YFast = YFast(bit: nat, leaves: seq<Leaf>, n: int)

  /** `top`: the largest key, 2^bit - 1 (the type's maximum when bit covers it). */
  function Top(bit: nat): nat {
    Pow2(bit) - 1
  }

  /** The values in leaf order. */
  function Values(L: seq<Leaf>): seq<int>
    decreases |L|
  {
    if |L| == 0 then [] else Inorder(L[0].treap) + Values(L[1..])
  }

  /** The representative before the leaves that follow L. */
  function LoOf(L: seq<Leaf>): Option<int> {
    if |L| == 0 then None else Some(L[|L| - 1].rep)
  }

  /** A leaf whose treap is valid and holds values above `lo` and up to its representative. */
  ghost predicate Fits(x: Leaf, lo: Option<int>) {
    && YTreap.Valid(x.treap)
    && AllAtMost(Inorder(x.treap), x.rep)
    && (lo.Some? ==> lo.value < x.rep && AllAbove(Inorder(x.treap), lo.value))
  }

  /** Leaves with ascending representatives, each fitting after the previous one, all but the last holding their representative. */
  ghost predicate Chain(L: seq<Leaf>, lo: Option<int>) {
    && (|L| > 0 ==> Fits(L[0], lo))
    && (forall j, k {:trigger L[j], L[k]} :: 0 <= j && j + 1 == k < |L| ==> Fits(L[k], Some(L[j].rep)))
    && (forall j :: 0 <= j < |L| - 1 ==> L[j].rep in Inorder(L[j].treap))
  }

  /** Every leaf holds a valid treap. */
  ghost predicate Valids(L: seq<Leaf>) {
    forall j :: 0 <= j < |L| ==> YTreap.Valid(L[j].treap)
  }

  /** A nonempty chain of valid leaves ending at representative `top`. */
  ghost predicate Fine(L: seq<Leaf>, top: int) {
    |L| > 0 && Chain(L, None) && Valids(L) && L[|L| - 1].rep == top
  }

  /** The invariant of a y-fast trie: the chain ends at `top`, and no leaves means nothing was counted. */
  ghost predicate Good(y: YFast) {
    && y.bit >= 1
    && Chain(y.leaves, None)
    && Valids(y.leaves)
    && (|y.leaves| > 0 ==> y.leaves[|y.leaves| - 1].rep == Top(y.bit))
    && (|y.leaves| == 0 ==> y.n == 0)
  }

  /** A trie whose leaves form a chain up to `top` is good whatever its count. */
  lemma GoodOf(bit: nat, L: seq<Leaf>, n: int)
    requires bit >= 1 && Fine(L, Top(bit))
    ensures Good(YFast(bit, L, n))
  {
  }

  /** The counter agrees with the number of stored values. */
  ghost predicate Counted(y: YFast) {
    y.n == |Elems(Values(y.leaves))|
  }

  /** The constructor: no leaves, n = 0. */
  function Fresh(bit: nat): (y: YFast)
    requires bit >= 1
    ensures Good(y) && Counted(y) && Values(y.leaves) == []
  {
    YFast(bit, [], 0)
  }

  lemma {:induction false} ValuesConcat(A: seq<Leaf>, B: seq<Leaf>)
    decreases |A|
    ensures Values(A + B) == Values(A) + Values(B)
  {
    if |A| == 0 {
      assert A + B == B;
    } else {
      assert (A + B)[1..] == A[1..] + B;
      ValuesConcat(A[1..], B);
      Assoc(Inorder(A[0].treap), Values(A[1..]), Values(B));
    }
  }

  /** Two chains, the first ending with a leaf that holds its representative, join into one. */
  lemma ChainJoin(A: seq<Leaf>, B: seq<Leaf>, lo: Option<int>)
    requires Chain(A, lo) && Chain(B, if |A| == 0 then lo else LoOf(A))
    requires |A| > 0 && |B| > 0 ==> A[|A| - 1].rep in Inorder(A[|A| - 1].treap)
    ensures Chain(A + B, lo)
  {
    var S := A + B;
    if |S| > 0 {
      assert S[0] == if |A| > 0 then A[0] else B[0];
    }
    forall j | 0 < j < |S| ensures Fits(S[j], Some(S[j - 1].rep)) {
      if j < |A| {
        assert S[j] == A[j] && S[j - 1] == A[j - 1];
      } else if j > |A| {
        assert S[j] == B[j - |A|] && S[j - 1] == B[j - |A| - 1];
      } else {
        assert S[j] == B[0] && S[j - 1] == A[|A| - 1];
      }
    }
    forall j | 0 <= j < |S| - 1 ensures S[j].rep in Inorder(S[j].treap) {
      if j < |A| {
        assert S[j] == A[j];
      } else {
        assert S[j] == B[j - |A|];
      }
    }
  }

  /** A prefix of a chain is a chain. */
  lemma ChainTake(L: seq<Leaf>, lo: Option<int>, k: nat)
    requires Chain(L, lo) && k <= |L|
    ensures Chain(L[..k], lo)
  {
    var P := L[..k];
    forall j | 0 < j < |P| ensures Fits(P[j], Some(P[j - 1].rep)) {
      assert P[j] == L[j] && P[j - 1] == L[j - 1];
    }
  }

  /** A suffix of a chain is a chain after the representative before it. */
  lemma ChainDrop(L: seq<Leaf>, lo: Option<int>, k: nat)
    requires Chain(L, lo) && 0 < k <= |L|
    ensures Chain(L[k..], Some(L[k - 1].rep))
  {
    var S := L[k..];
    if |S| > 0 {
      assert S[0] == L[k];
    }
    forall j | 0 < j < |S| ensures Fits(S[j], Some(S[j - 1].rep)) {
      assert S[j] == L[k + j] && S[j - 1] == L[k + j - 1];
    }
    forall j | 0 <= j < |S| - 1 ensures S[j].rep in Inorder(S[j].treap) {
      assert S[j] == L[k + j];
    }
  }

  /** Every value of a chain is at most its last representative, which bounds the first one. */
  lemma {:induction false} ChainBelow(L: seq<Leaf>, lo: Option<int>)
    requires Chain(L, lo) && |L| > 0
    decreases |L|
    ensures AllAtMost(Values(L), L[|L| - 1].rep) && L[0].rep <= L[|L| - 1].rep
  {
    assert Fits(L[0], lo);
    if |L| > 1 {
      ChainDrop(L, lo, 1);
      ChainBelow(L[1..], Some(L[0].rep));
      assert L[1..][0] == L[1] && L[1..][|L| - 2] == L[|L| - 1];
      assert Fits(L[1], Some(L[0].rep));
    }
  }

  /** Every value of a chain after `lo` is above lo. */
  lemma {:induction false} ChainAbove(L: seq<Leaf>, lo: int)
    requires Chain(L, Some(lo))
    decreases |L|
    ensures AllAbove(Values(L), lo)
  {
    if |L| > 0 {
      assert Fits(L[0], Some(lo));
      ChainDrop(L, Some(lo), 1);
      ChainAbove(L[1..], L[0].rep);
    }
  }

  /** The values of a chain ascend strictly. */
  lemma {:induction false} ChainAscending(L: seq<Leaf>, lo: Option<int>)
    requires Chain(L, lo)
    decreases |L|
    ensures Ascending(Values(L))
  {
    if |L| > 0 {
      assert Fits(L[0], lo);
      ChainDrop(L, lo, 1);
      ChainAscending(L[1..], Some(L[0].rep));
      ChainAbove(L[1..], L[0].rep);
      AscendingJoin(Inorder(L[0].treap), Values(L[1..]), L[0].rep);
    }
  }

  /** The values of a chain around leaf i: before it, in it and after it. */
  lemma Around(L: seq<Leaf>, i: nat)
    requires Chain(L, None) && i < |L|
    ensures Values(L) == Values(L[..i]) + Inorder(L[i].treap) + Values(L[i + 1..])
    ensures Fits(L[i], LoOf(L[..i]))
    ensures AllAbove(Values(L[i + 1..]), L[i].rep)
    ensures i + 1 < |L| ==> L[i].rep in Inorder(L[i].treap)
  {
    ValuesSplit(L, i);
    assert i > 0 ==> L[..i][i - 1] == L[i - 1];
    ChainDrop(L, None, i + 1);
    ChainAbove(L[i + 1..], L[i].rep);
  }

  /** The values of leaves L around leaf i: before it, in it and after it. */
  lemma ValuesSplit(L: seq<Leaf>, i: nat)
    requires i < |L|
    ensures Values(L) == Values(L[..i]) + Inorder(L[i].treap) + Values(L[i + 1..])
  {
    var A, C := L[..i], L[i..];
    ValuesConcat(A, C);
    assert A + C == L;
    assert C[0] == L[i] && C[1..] == L[i + 1..];
    Assoc(Values(A), Inorder(L[i].treap), Values(L[i + 1..]));
  }


  /** The leaves before leaf i > 0 end with leaf i - 1, which holds its representative and bounds them. */
  lemma AroundBefore(L: seq<Leaf>, i: nat)
    requires Chain(L, None) && 0 < i < |L|
    ensures AllAtMost(Values(L[..i]), L[i - 1].rep)
    ensures L[i - 1].rep in Inorder(L[i - 1].treap)
    ensures Values(L[..i]) == Values(L[..i - 1]) + Inorder(L[i - 1].treap)
    ensures Fits(L[i - 1], LoOf(L[..i - 1]))
  {
    var A, A0 := L[..i], L[..i - 1];
    assert i > 1 ==> A0[i - 2] == L[i - 2];
    assert AllAtMost(Values(A), L[i - 1].rep) by {
      ChainTake(L, None, i);
      ChainBelow(A, None);
    }
    assert Values(A) == Values(A0) + Inorder(L[i - 1].treap) by {
      assert A == A0 + [L[i - 1]];
      ValuesConcat(A0, [L[i - 1]]);
      ValuesOne(L[i - 1]);
    }
  }

  /** The leaves after leaf i, when there are any, start with leaf i + 1 and end at the last representative. */
  lemma AroundAfter(L: seq<Leaf>, i: nat)
    requires Chain(L, None) && i + 1 < |L|
    ensures L[i].rep < L[|L| - 1].rep
    ensures Values(L[i + 1..]) == Inorder(L[i + 1].treap) + Values(L[i + 2..])
    ensures Fits(L[i + 1], Some(L[i].rep))
  {
    var B := L[i + 1..];
    assert Fits(L[i + 1], Some(L[i].rep));
    ChainDrop(L, None, i + 1);
    ChainBelow(B, Some(L[i].rep));
    assert B[0] == L[i + 1] && B[1..] == L[i + 2..] && B[|B| - 1] == L[|L| - 1];
  }

  /** Every leaf of a chain holds a valid treap. */
  lemma ChainValid(L: seq<Leaf>, lo: Option<int>)
    requires Chain(L, lo)
    ensures Valids(L)
  {
    forall j | 0 <= j < |L| ensures YTreap.Valid(L[j].treap) {
      assert j == 0 || Fits(L[j], Some(L[j - 1].rep));
    }
  }

  /** Replacing the leaves L[i..j] by `mid`, covering the same range of values, keeps the chain. */
  lemma ReplaceChain(L: seq<Leaf>, i: nat, j: nat, mid: seq<Leaf>)
    requires Chain(L, None) && i < j <= |L| && |mid| > 0
    requires Chain(mid, LoOf(L[..i]))
    requires mid[|mid| - 1].rep == L[j - 1].rep
    requires j < |L| ==> mid[|mid| - 1].rep in Inorder(mid[|mid| - 1].treap)
    ensures Fine(L[..i] + mid + L[j..], L[|L| - 1].rep)
  {
    var A, B := L[..i], L[j..];
    var Am := A + mid;
    assert Chain(Am, None) by {
      ChainTake(L, None, i);
      if i > 0 {
        assert A[|A| - 1] == L[i - 1];
      }
      ChainJoin(A, mid, None);
    }
    assert Am[|Am| - 1] == mid[|mid| - 1];
    ChainDrop(L, None, j);
    ChainJoin(Am, B, None);
    ChainValid(Am + B, None);
    var L' := Am + B;
    assert L'[|L'| - 1] == if j < |L| then L[|L| - 1] else mid[|mid| - 1];
  }

  /** The values after replacing L[i..j] by `mid`. */
  lemma ReplaceValues(L: seq<Leaf>, i: nat, j: nat, mid: seq<Leaf>)
    requires i <= j <= |L|
    ensures Values(L[..i] + mid + L[j..]) == Values(L[..i]) + Values(mid) + Values(L[j..])
  {
    ValuesConcat3(L[..i], mid, L[j..]);
  }

  /** The values of leaves L around leaves i and i + 1. */
  lemma ValuesPair(L: seq<Leaf>, i: nat)
    requires i + 1 < |L|
    ensures Values(L) == Values(L[..i]) + (Inorder(L[i].treap) + Inorder(L[i + 1].treap)) + Values(L[i + 2..])
  {
    ValuesSplit(L, i);
    var B := L[i + 1..];
    assert B[0] == L[i + 1] && B[1..] == L[i + 2..];
    Assoc(Inorder(L[i].treap), Inorder(L[i + 1].treap), Values(L[i + 2..]));
    Assoc(Values(L[..i]), Inorder(L[i].treap), Inorder(L[i + 1].treap) + Values(L[i + 2..]));
    Assoc(Values(L[..i]), Inorder(L[i].treap) + Inorder(L[i + 1].treap), Values(L[i + 2..]));
  }

  lemma ValuesConcat3(A: seq<Leaf>, M: seq<Leaf>, B: seq<Leaf>)
    ensures Values(A + M + B) == Values(A) + Values(M) + Values(B)
  {
    ValuesConcat(A + M, B);
    ValuesConcat(A, M);
  }

  lemma ValuesOne(x: Leaf)
    ensures Values([x]) == Inorder(x.treap)
  {
    assert [x][1..] == [];
  }

  lemma ValuesTwo(x: Leaf, z: Leaf)
    ensures Values([x, z]) == Inorder(x.treap) + Inorder(z.treap)
  {
    assert [x, z][1..] == [z];
    ValuesOne(z);
  }

  /** Only the last leaf of a chain can hold no values. */
  lemma EmptyLeaf(L: seq<Leaf>, i: nat)
    requires Chain(L, None) && i < |L| && L[i].treap.Nil?
    ensures i == |L| - 1
  {
    Around(L, i);
  }

  /** Some leaf of a chain holds no values exactly when the last one holds none. */
  lemma OnlyLastEmpty(L: seq<Leaf>)
    requires Chain(L, None) && |L| > 0
    ensures (exists j :: 0 <= j < |L| && L[j].treap.Nil?) <==> L[|L| - 1].treap.Nil?
  {
    if j :| 0 <= j < |L| && L[j].treap.Nil? {
      EmptyLeaf(L, j);
    }
  }

  /** The first leaf whose representative is at or above t. */
  function FirstAtLeast(L: seq<Leaf>, t: int): (i: nat)
    requires |L| > 0 && L[|L| - 1].rep >= t
    decreases |L|
    ensures i < |L| && L[i].rep >= t
    ensures forall j :: 0 <= j < i ==> L[j].rep < t
  {
    if L[0].rep >= t then 0 else 1 + FirstAtLeast(L[1..], t)
  }

  /**
   * `locate(t)`: the leaf whose representative is the first at or above t.
   * On a trie that never held a value the x-fast root has no jump pointer
   * and the lookup follows it; repaired, the answer is no leaf.
   */
  function Locate(y: YFast, t: nat, repaired: bool): (r: Outcome<Option<nat>>)
    requires Good(y) && t <= Top(y.bit)
    ensures r.NullDeref? <==> !repaired && |y.leaves| == 0
    ensures r.Returned? ==> (r.value.None? <==> |y.leaves| == 0)
    ensures r.Returned? && r.value.Some? ==>
      var i := r.value.value;
      i < |y.leaves| && y.leaves[i].rep >= t && forall j :: 0 <= j < i ==> y.leaves[j].rep < t
  {
    if |y.leaves| == 0 then
      if repaired then Returned(None) else NullDeref
    else
      Returned(Some(FirstAtLeast(y.leaves, t)))
  }

  /** The located leaf's treap holds t exactly when the trie does. */
  lemma LocateValues(L: seq<Leaf>, i: nat, t: int)
    requires Chain(L, None) && i < |L| && L[i].rep >= t
    requires forall j :: 0 <= j < i ==> L[j].rep < t
    ensures AllBelow(Values(L[..i]), t) && AllAbove(Values(L[i + 1..]), t)
    ensures t in Values(L) <==> t in Inorder(L[i].treap)
  {
    Around(L, i);
    if i > 0 {
      AroundBefore(L, i);
    }
  }

  /** `contains(t)`: the located leaf's treap decides. */
  function Contains(y: YFast, t: nat, repaired: bool): (r: Outcome<bool>)
    requires Good(y) && t <= Top(y.bit)
    ensures r.NullDeref? <==> !repaired && |y.leaves| == 0
    ensures r.Returned? ==> (r.value <==> t in Values(y.leaves))
  {
    match Locate(y, t, repaired)
    case NullDeref => NullDeref
    case Returned(None) => Returned(false)
    case Returned(Some(i)) =>
      LocateValues(y.leaves, i, t);
      Returned(YTreap.Contains(y.leaves[i].treap, t))
  }

  /** The largest value below t of the middle part, when it has one, is the largest overall. */
  lemma PredMiddle(a: seq<int>, m: seq<int>, b: seq<int>, t: int, v: int)
    requires PredOf(m, t, Some(v)) && AllBelow(a, v) && AllAbove(b, t)
    ensures PredOf(a + m + b, t, Some(v))
  {
  }

  /** With nothing below t in the middle part, the greatest value of the left part is the answer. */
  lemma PredLeft(a: seq<int>, m: seq<int>, b: seq<int>, t: int, v: int)
    requires Greatest(a, v) && v < t && PredOf(m, t, None) && AllAbove(b, t)
    ensures PredOf(a + m + b, t, Some(v))
  {
  }

  /** Nothing below t anywhere when the left part is empty and the middle has nothing below t. */
  lemma PredNone(a: seq<int>, m: seq<int>, b: seq<int>, t: int)
    requires a == [] && PredOf(m, t, None) && AllAbove(b, t)
    ensures PredOf(a + m + b, t, None)
  {
  }

  /** The smallest value above t of the middle part, when it has one, is the smallest overall. */
  lemma SuccMiddle(a: seq<int>, m: seq<int>, b: seq<int>, t: int, v: int)
    requires SuccOf(m, t, Some(v)) && AllBelow(a, t) && AllAbove(b, v)
    ensures SuccOf(a + m + b, t, Some(v))
  {
  }

  /** With nothing above t in the left and middle parts, the right part decides. */
  lemma SuccRight(a: seq<int>, m: seq<int>, b: seq<int>, t: int, o: Option<int>)
    requires AllBelow(a, t) && SuccOf(m, t, None) && SuccOf(b, t, o)
    ensures SuccOf(a + m + b, t, o)
  {
  }

  /** The least value of the first part, when above t and below the rest, is the smallest value above t. */
  lemma SuccFirst(u: seq<int>, c: seq<int>, t: int, v: int)
    requires Least(u, v) && t < v && AllAbove(c, v)
    ensures SuccOf(u + c, t, Some(v))
  {
  }

  /** The largest value below t: the located treap's, else the previous leaf's maximum. */
  lemma PredAt(L: seq<Leaf>, i: nat, t: int)
    requires Chain(L, None) && Valids(L) && i < |L| && L[i].rep >= t
    requires forall j :: 0 <= j < i ==> L[j].rep < t
    ensures
      var q := YTreap.Pred(L[i].treap, t);
      PredOf(Values(L), t, if q.Some? || i == 0 then q else YTreap.Max(L[i - 1].treap))
  {
    var q := YTreap.Pred(L[i].treap, t);
    var VA, T, VB := Values(L[..i]), Inorder(L[i].treap), Values(L[i + 1..]);
    Around(L, i);
    LocateValues(L, i, t);
    if q.Some? {
      assert AllBelow(VA, q.value) by {
        if i > 0 {
          AroundBefore(L, i);
          assert L[..i][i - 1] == L[i - 1];
        }
      }
      PredMiddle(VA, T, VB, t, q.value);
    } else if i > 0 {
      AroundBefore(L, i);
      var m := YTreap.Max(L[i - 1].treap);
      assert m == Some(L[i - 1].rep);
      PredLeft(VA, T, VB, t, m.value);
    } else {
      assert VA == [];
      PredNone(VA, T, VB, t);
    }
  }

  /** `pred(t)`. */
  function Pred(y: YFast, t: nat, repaired: bool): (r: Outcome<Option<int>>)
    requires Good(y) && t <= Top(y.bit)
    ensures r.NullDeref? <==> !repaired && |y.leaves| == 0
    ensures r.Returned? ==> PredOf(Values(y.leaves), t, r.value)
  {
    match Locate(y, t, repaired)
    case NullDeref => NullDeref
    case Returned(None) => Returned(None)
    case Returned(Some(i)) =>
      PredAt(y.leaves, i, t);
      var q := YTreap.Pred(y.leaves[i].treap, t);
      if q.Some? then Returned(q)
      else if i > 0 then Returned(YTreap.Max(y.leaves[i - 1].treap))
      else Returned(None)
  }

  /** The smallest value above t: the located treap's, else the next leaf's minimum. */
  lemma SuccAt(L: seq<Leaf>, i: nat, t: int)
    requires Chain(L, None) && Valids(L) && i < |L| && L[i].rep >= t
    requires forall j :: 0 <= j < i ==> L[j].rep < t
    ensures
      var q := YTreap.Succ(L[i].treap, t);
      SuccOf(Values(L), t, if q.Some? || i + 1 == |L| then q else YTreap.Min(L[i + 1].treap))
  {
    var q := YTreap.Succ(L[i].treap, t);
    var VA, T, VB := Values(L[..i]), Inorder(L[i].treap), Values(L[i + 1..]);
    Around(L, i);
    LocateValues(L, i, t);
    if q.Some? {
      SuccMiddle(VA, T, VB, t, q.value);
    } else if i + 1 < |L| {
      AroundAfter(L, i);
      var U, VC := Inorder(L[i + 1].treap), Values(L[i + 2..]);
      var m := YTreap.Min(L[i + 1].treap);
      if m.Some? {
        Around(L, i + 1);
        SuccFirst(U, VC, t, m.value);
      } else {
        KeysEmpty(L[i + 1].treap);
        EmptyLeaf(L, i + 1);
        assert VC == [];
      }
      SuccRight(VA, T, VB, t, m);
    } else {
      assert VB == [];
      SuccRight(VA, T, VB, t, None);
    }
  }

  /** `succ(t)`. */
  function Succ(y: YFast, t: nat, repaired: bool): (r: Outcome<Option<int>>)
    requires Good(y) && t <= Top(y.bit)
    ensures r.NullDeref? <==> !repaired && |y.leaves| == 0
    ensures r.Returned? ==> SuccOf(Values(y.leaves), t, r.value)
  {
    match Locate(y, t, repaired)
    case NullDeref => NullDeref
    case Returned(None) => Returned(None)
    case Returned(Some(i)) =>
      SuccAt(y.leaves, i, t);
      var q := YTreap.Succ(y.leaves[i].treap, t);
      if q.Some? then Returned(q)
      else if i + 1 < |y.leaves| then Returned(YTreap.Min(y.leaves[i + 1].treap))
      else Returned(None)
  }

  /** The first leaf's least value is the least of all; an empty first leaf means no values. */
  lemma FirstLeaf(L: seq<Leaf>)
    requires Chain(L, None) && Valids(L) && |L| > 0
    ensures var m := YTreap.Min(L[0].treap);
      && (m.None? <==> Values(L) == [])
      && (m.Some? ==> Least(Values(L), m.value))
  {
    var m := YTreap.Min(L[0].treap);
    Around(L, 0);
    assert L[..0] == [];
    KeysEmpty(L[0].treap);
    if m.None? {
      EmptyLeaf(L, 0);
      assert L[1..] == [];
    } else {
      assert Values(L) != [] by {
        assert Inorder(L[0].treap) != [];
      }
    }
  }

  /** `min()`: the first leaf's minimum. */
  function Min(y: YFast): (r: Option<int>)
    requires Good(y)
    ensures r.None? <==> Values(y.leaves) == []
    ensures r.Some? ==> Least(Values(y.leaves), r.value)
  {
    if |y.leaves| == 0 then None
    else
      FirstLeaf(y.leaves);
      YTreap.Min(y.leaves[0].treap)
  }

  /** The last leaf's greatest value is the greatest of all; when it is empty, the one before holds it. */
  lemma LastLeaf(L: seq<Leaf>)
    requires Chain(L, None) && Valids(L) && |L| > 0
    ensures var k := |L| - 1;
      && (L[k].treap.Nil? <==> (k == 0 && Values(L) == []) || (k > 0 && Values(L) == Values(L[..k])))
      && (L[k].treap.Nil? && k > 0 ==> Greatest(Values(L), L[k - 1].rep) && YTreap.Max(L[k - 1].treap) == Some(L[k - 1].rep))
      && (L[k].treap.Node? ==> Greatest(Values(L), YTreap.Max(L[k].treap).value))
  {
    var k := |L| - 1;
    LastValues(L);
    KeysEmpty(L[k].treap);
    if k == 0 {
      assert L[..k] == [];
    } else if L[k].treap.Nil? {
      LastEmptyBefore(L);
    } else {
      LastFull(L);
    }
  }

  /** The values of a chain: those before the last leaf, then the last leaf's. */
  lemma LastValues(L: seq<Leaf>)
    requires |L| > 0
    ensures Values(L) == Values(L[..|L| - 1]) + Inorder(L[|L| - 1].treap)
  {
    ValuesSplit(L, |L| - 1);
    assert L[|L|..] == [];
  }

  /** With an empty last leaf, the leaf before it holds the greatest value, its representative. */
  lemma LastEmptyBefore(L: seq<Leaf>)
    requires Chain(L, None) && Valids(L) && |L| > 1 && L[|L| - 1].treap.Nil?
    ensures var k := |L| - 1;
      Greatest(Values(L), L[k - 1].rep) && YTreap.Max(L[k - 1].treap) == Some(L[k - 1].rep)
  {
    var k := |L| - 1;
    LastValues(L);
    AroundBefore(L, k);
  }

  /** A nonempty last leaf holds the greatest value. */
  lemma LastFull(L: seq<Leaf>)
    requires Chain(L, None) && Valids(L) && |L| > 0 && L[|L| - 1].treap.Node?
    ensures Greatest(Values(L), YTreap.Max(L[|L| - 1].treap).value)
  {
    var k := |L| - 1;
    var m := YTreap.Max(L[k].treap).value;
    LastValues(L);
    if k > 0 {
      assert AllBelow(Values(L[..k]), m) by {
        AroundBefore(L, k);
        assert Fits(L[k], Some(L[k - 1].rep));
      }
    } else {
      assert L[..k] == [];
    }
    GreatestJoin(Values(L[..k]), Inorder(L[k].treap), m);
  }

  /** The greatest value of the second part, above all of the first, is the greatest of both. */
  lemma GreatestJoin(a: seq<int>, b: seq<int>, m: int)
    requires Greatest(b, m) && AllBelow(a, m)
    ensures Greatest(a + b, m)
  {
  }




  /**
   * `max()`: the last leaf's maximum, or its predecessor's when the last
   * treap is empty.  With a single, empty leaf the predecessor is the list's
   * sentinel, whose treap pointer is null.
   */
  function Max(y: YFast, repaired: bool): (r: Outcome<Option<int>>)
    requires Good(y)
    ensures r.NullDeref? <==> !repaired && |y.leaves| > 0 && Values(y.leaves) == []
    ensures r.Returned? ==>
      && (r.value.None? <==> Values(y.leaves) == [])
      && (r.value.Some? ==> Greatest(Values(y.leaves), r.value.value))
  {
    var L := y.leaves;
    if |L| == 0 then Returned(None)
    else
      var k := |L| - 1;
      LastLeaf(L);
      if L[k].treap.Nil? then
        if k > 0 then Returned(YTreap.Max(L[k - 1].treap))
        else if repaired then Returned(None)
        else NullDeref
      else Returned(YTreap.Max(L[k].treap))
  }

  /** `x_insert(top, new YTreap)` on an empty count: adds the top leaf unless it is there. */
  function AddTop(y: YFast): (r: YFast)
    requires Good(y)
    ensures Good(r) && |r.leaves| > 0 && Values(r.leaves) == Values(y.leaves) && r.n == y.n
  {
    if y.n != 0 || |y.leaves| > 0 then y
    else
      ValuesOne(Leaf(Top(y.bit), Nil));
      y.(leaves := [Leaf(Top(y.bit), Nil)])
  }

  /** The representative before leaf i is below t when every representative before i is. */
  lemma LoBelow(L: seq<Leaf>, i: nat, t: int)
    requires i <= |L|
    requires forall j :: 0 <= j < i ==> L[j].rep < t
    ensures LoOf(L[..i]).Some? ==> LoOf(L[..i]).value < t
  {
    if i > 0 {
      assert L[..i][i - 1] == L[i - 1];
    }
  }

  /** A treap holding some of a leaf's values and perhaps t, between lo and the representative, fits in its place. */
  lemma FitsWith(x: Leaf, lo: Option<int>, tr: Tree<int>, t: int)
    requires Fits(x, lo) && YTreap.Valid(tr) && Keys(tr) <= Keys(x.treap) + {t}
    requires t <= x.rep && (lo.Some? ==> lo.value < t)
    ensures Fits(Leaf(x.rep, tr), lo)
  {
    forall v | v in Inorder(tr) ensures v <= x.rep && (lo.Some? ==> lo.value < v) {
      assert v in Keys(tr);
    }
  }

  /** A part of a treap holding a leaf's values and t lies between lo and the representative. */
  lemma PartBounds(x: Leaf, lo: Option<int>, tr: Tree<int>, part: Tree<int>, t: int)
    requires Fits(x, lo) && Keys(tr) == Keys(x.treap) + {t}
    requires t <= x.rep && (lo.Some? ==> lo.value < t)
    requires forall v :: v in Inorder(part) ==> v in Inorder(tr)
    ensures AllAtMost(Inorder(part), x.rep) && (lo.Some? ==> AllAbove(Inorder(part), lo.value))
  {
    forall v | v in Inorder(part) ensures v <= x.rep && (lo.Some? ==> lo.value < v) {
      assert v in Keys(tr);
    }
  }

  /** The rest of leaf a's treap followed by leaf b's fits in b's place after lo. */
  lemma FitsMerged(a: Leaf, b: Leaf, lo: Option<int>, tr: Tree<int>, merged: Tree<int>)
    requires Fits(a, lo) && Fits(b, Some(a.rep)) && Keys(tr) <= Keys(a.treap)
    requires YTreap.Valid(merged) && Inorder(merged) == Inorder(tr) + Inorder(b.treap)
    ensures Fits(Leaf(b.rep, merged), lo)
  {
    forall v | v in Inorder(merged) ensures v <= b.rep && (lo.Some? ==> lo.value < v) {
      if v in Inorder(tr) {
        assert v in Keys(tr);
      }
    }
  }

  /** Replacing leaf i by a leaf with its representative that fits in its place. */
  lemma ReplaceOne(L: seq<Leaf>, i: nat, x: Leaf)
    requires Chain(L, None) && i < |L| && x.rep == L[i].rep && Fits(x, LoOf(L[..i]))
    requires i + 1 < |L| ==> x.rep in Inorder(x.treap)
    ensures
      var L' := L[..i] + [x] + L[i + 1..];
      && Fine(L', L[|L| - 1].rep)
      && Elems(Values(L')) == Elems(Values(L[..i])) + Keys(x.treap) + Elems(Values(L[i + 1..]))
      && Elems(Values(L)) == Elems(Values(L[..i])) + Keys(L[i].treap) + Elems(Values(L[i + 1..]))
  {
    assert Chain([x], LoOf(L[..i])) by {
      assert [x][0] == x;
    }
    ReplaceChain(L, i, i + 1, [x]);
    ElemsOne(L, i, x);
  }

  lemma ElemsOne(L: seq<Leaf>, i: nat, x: Leaf)
    requires i < |L|
    ensures Elems(Values(L[..i] + [x] + L[i + 1..])) == Elems(Values(L[..i])) + Keys(x.treap) + Elems(Values(L[i + 1..]))
    ensures Elems(Values(L)) == Elems(Values(L[..i])) + Keys(L[i].treap) + Elems(Values(L[i + 1..]))
  {
    var VA, VB := Values(L[..i]), Values(L[i + 1..]);
    ReplaceValues(L, i, i + 1, [x]);
    ValuesOne(x);
    ValuesSplit(L, i);
    ElemsConcat3(VA, Inorder(x.treap), VB);
    ElemsConcat3(VA, Inorder(L[i].treap), VB);
  }




  /** Replacing leaf i by two leaves, the second with its representative, that fit in its place. */
  lemma ReplaceTwo(L: seq<Leaf>, i: nat, a: Leaf, b: Leaf)
    requires Chain(L, None) && i < |L| && b.rep == L[i].rep
    requires Fits(a, LoOf(L[..i])) && Fits(b, Some(a.rep)) && a.rep in Inorder(a.treap)
    requires i + 1 < |L| ==> b.rep in Inorder(b.treap)
    ensures
      var L' := L[..i] + [a, b] + L[i + 1..];
      && Fine(L', L[|L| - 1].rep)
      && Elems(Values(L')) == Elems(Values(L[..i])) + Keys(a.treap) + Keys(b.treap) + Elems(Values(L[i + 1..]))
      && Elems(Values(L)) == Elems(Values(L[..i])) + Keys(L[i].treap) + Elems(Values(L[i + 1..]))
  {
    assert Chain([a, b], LoOf(L[..i])) by {
      assert [a, b][0] == a && [a, b][1] == b;
    }
    ReplaceChain(L, i, i + 1, [a, b]);
    ElemsTwo(L, i, a, b);
  }

  lemma ElemsTwo(L: seq<Leaf>, i: nat, a: Leaf, b: Leaf)
    requires i < |L|
    ensures Elems(Values(L[..i] + [a, b] + L[i + 1..])) == Elems(Values(L[..i])) + Keys(a.treap) + Keys(b.treap) + Elems(Values(L[i + 1..]))
    ensures Elems(Values(L)) == Elems(Values(L[..i])) + Keys(L[i].treap) + Elems(Values(L[i + 1..]))
  {
    var VA, VB := Values(L[..i]), Values(L[i + 1..]);
    var X, Y := Inorder(a.treap), Inorder(b.treap);
    ReplaceValues(L, i, i + 1, [a, b]);
    ValuesTwo(a, b);
    ValuesSplit(L, i);
    ElemsConcat3(VA, X + Y, VB);
    ElemsConcat(X, Y);
    ElemsConcat3(VA, Inorder(L[i].treap), VB);
  }




  /** Replacing leaves i and i + 1 by one leaf with the representative of i + 1 that fits in their place. */
  lemma ReplaceMerge(L: seq<Leaf>, i: nat, x: Leaf)
    requires Chain(L, None) && i + 1 < |L| && x.rep == L[i + 1].rep && Fits(x, LoOf(L[..i]))
    requires i + 2 < |L| ==> x.rep in Inorder(x.treap)
    ensures
      var L' := L[..i] + [x] + L[i + 2..];
      && Fine(L', L[|L| - 1].rep)
      && Elems(Values(L')) == Elems(Values(L[..i])) + Keys(x.treap) + Elems(Values(L[i + 2..]))
      && Elems(Values(L)) == Elems(Values(L[..i])) + Keys(L[i].treap) + Keys(L[i + 1].treap) + Elems(Values(L[i + 2..]))
  {
    assert Chain([x], LoOf(L[..i])) by {
      assert [x][0] == x;
    }
    ReplaceChain(L, i, i + 2, [x]);
    ElemsMerge(L, i, x);
  }

  lemma ElemsMerge(L: seq<Leaf>, i: nat, x: Leaf)
    requires i + 1 < |L|
    ensures Elems(Values(L[..i] + [x] + L[i + 2..])) == Elems(Values(L[..i])) + Keys(x.treap) + Elems(Values(L[i + 2..]))
    ensures Elems(Values(L)) == Elems(Values(L[..i])) + Keys(L[i].treap) + Keys(L[i + 1].treap) + Elems(Values(L[i + 2..]))
  {
    var VA, VB := Values(L[..i]), Values(L[i + 2..]);
    var P, Q := Inorder(L[i].treap), Inorder(L[i + 1].treap);
    ReplaceValues(L, i, i + 2, [x]);
    ValuesOne(x);
    ValuesPair(L, i);
    ElemsConcat3(VA, Inorder(x.treap), VB);
    ElemsConcat3(VA, P + Q, VB);
    ElemsConcat(P, Q);
  }




  /** Inserting t into the located treap, keeping its leaf. */
  lemma InsertPlain(L: seq<Leaf>, i: nat, t: int, tr: Tree<int>)
    requires Chain(L, None) && i < |L| && L[i].rep >= t
    requires forall j :: 0 <= j < i ==> L[j].rep < t
    requires YTreap.Valid(tr) && Keys(tr) == Keys(L[i].treap) + {t}
    ensures
      var L' := L[..i] + [Leaf(L[i].rep, tr)] + L[i + 1..];
      && Fine(L', L[|L| - 1].rep)
      && Elems(Values(L')) == Elems(Values(L)) + {t}
  {
    var x := Leaf(L[i].rep, tr);
    assert Fits(x, LoOf(L[..i])) by {
      Around(L, i);
      LoBelow(L, i, t);
      FitsWith(L[i], LoOf(L[..i]), tr, t);
    }
    assert i + 1 < |L| ==> L[i].rep in Keys(tr) by {
      Around(L, i);
    }
    ReplaceOne(L, i, x);
  }


  /** Inserting t into the located treap and then splitting it at t into a new leaf t and the old leaf. */
  lemma InsertSplit(L: seq<Leaf>, i: nat, t: nat, tr: Tree<int>, keep: Tree<int>, low: Tree<int>)
    requires Chain(L, None) && i < |L| && L[i].rep >= t
    requires forall j :: 0 <= j < i ==> L[j].rep < t
    requires t !in Inorder(L[i].treap) && (i + 1 == |L| ==> L[i].rep != t)
    requires YTreap.Valid(tr) && Keys(tr) == Keys(L[i].treap) + {t}
    requires YTreap.Valid(keep) && YTreap.Valid(low)
    requires Inorder(low) + Inorder(keep) == Inorder(tr) && AllAtMost(Inorder(low), t) && AllAbove(Inorder(keep), t)
    ensures
      var L' := L[..i] + [Leaf(t, low), Leaf(L[i].rep, keep)] + L[i + 1..];
      && Fine(L', L[|L| - 1].rep)
      && Elems(Values(L')) == Elems(Values(L)) + {t}
  {
    var a, b := Leaf(t, low), Leaf(L[i].rep, keep);
    assert t in Keys(tr);
    assert t in Inorder(low) && t !in Inorder(keep);
    SplitFits(L, i, t, tr, keep, low);
    ReplaceTwo(L, i, a, b);
    assert Keys(low) + Keys(keep) == Keys(tr) by {
      ElemsConcat(Inorder(low), Inorder(keep));
    }
    GainOne(Elems(Values(L[..i])), Keys(low), Keys(keep), Keys(L[i].treap), Elems(Values(L[i + 1..])), t);
  }

  /** Replacing a middle part K by two parts that together hold K and t adds t to the whole. */
  lemma GainOne(p: set<int>, a: set<int>, b: set<int>, k: set<int>, q: set<int>, t: int)
    requires a + b == k + {t}
    ensures p + a + b + q == (p + k + q) + {t}
  {
  }

  /** The two halves of the located treap, split at t, fit as leaf t and leaf i. */
  lemma SplitFits(L: seq<Leaf>, i: nat, t: nat, tr: Tree<int>, keep: Tree<int>, low: Tree<int>)
    requires Chain(L, None) && i < |L| && L[i].rep >= t
    requires forall j :: 0 <= j < i ==> L[j].rep < t
    requires t !in Inorder(L[i].treap) && (i + 1 == |L| ==> L[i].rep != t)
    requires Keys(tr) == Keys(L[i].treap) + {t}
    requires YTreap.Valid(keep) && YTreap.Valid(low)
    requires Inorder(low) + Inorder(keep) == Inorder(tr) && AllAtMost(Inorder(low), t) && AllAbove(Inorder(keep), t)
    ensures Fits(Leaf(t, low), LoOf(L[..i])) && Fits(Leaf(L[i].rep, keep), Some(t))
    ensures i + 1 < |L| ==> L[i].rep in Inorder(keep)
  {
    var lo := LoOf(L[..i]);
    Around(L, i);
    LoBelow(L, i, t);
    PartBounds(L[i], lo, tr, low, t);
    PartBounds(L[i], lo, tr, keep, t);
    if i + 1 < |L| {
      assert L[i].rep in Keys(L[i].treap);
      assert L[i].rep in Keys(tr);
      assert L[i].rep !in Inorder(low);
    }
  }



  /**
   * The leaves after t goes into the treap of leaf i, with whether it was
   * new; when it was and `split` is set, the treap is split at t into a new
   * leaf for t before leaf i.
   */
  function InsertLeaves(L: seq<Leaf>, i: nat, t: nat, p: nat, split: bool): (r: (seq<Leaf>, bool))
    requires Chain(L, None) && Valids(L) && i < |L| && L[i].rep >= t
    requires forall j :: 0 <= j < i ==> L[j].rep < t
    requires split ==> i + 1 < |L| || L[i].rep != t
    ensures Fine(r.0, L[|L| - 1].rep)
    ensures Elems(Values(r.0)) == Elems(Values(L)) + {t}
    ensures r.1 <==> t !in Values(L)
  {
    LocateValues(L, i, t);
    var ins := YTreap.Insert(L[i].treap, t, p);
    if !ins.1 then
      assert Elems(Values(L)) + {t} == Elems(Values(L));
      (L, false)
    else if split then
      var parts := YTreap.Split(ins.0, t);
      InsertSplit(L, i, t, ins.0, parts.0, parts.1);
      (L[..i] + [Leaf(t, parts.1), Leaf(L[i].rep, parts.0)] + L[i + 1..], true)
    else
      InsertPlain(L, i, t, ins.0);
      (L[..i] + [Leaf(L[i].rep, ins.0)] + L[i + 1..], true)
  }

  /**
   * `insert(t)`: on an empty count the top leaf is made first; t goes into
   * the located treap, and when it was new the count grows and, unless t is
   * `top`, the coin (`generator() % bit == 0`) may split the treap at t
   * into a new leaf for t.
   */
  function Insert(y: YFast, t: nat, p: nat, coin: bool): (r: YFast)
    requires Good(y) && t <= Top(y.bit)
    ensures Good(r)
    ensures Elems(Values(r.leaves)) == Elems(Values(y.leaves)) + {t}
    ensures r.n == if t in Values(y.leaves) then y.n else y.n + 1
    ensures Counted(y) ==> Counted(r)
  {
    var y1 := AddTop(y);
    var i := FirstAtLeast(y1.leaves, t);
    var ins := InsertLeaves(y1.leaves, i, t, p, t != Top(y.bit) && coin);
    var n := if ins.1 then y.n + 1 else y.n;
    GoodOf(y.bit, ins.0, n);
    CardAdd(Elems(Values(y.leaves)), t);
    YFast(y.bit, ins.0, n)
  }

  /** Another representative shares t's highest bit, so x_erase stops below the root. */
  predicate SharesHighBit(L: seq<Leaf>, i: nat, bit: nat)
    requires i < |L| && bit >= 1
  {
    exists j :: 0 <= j < |L| && j != i && L[j].rep / Pow2(bit - 1) == L[i].rep / Pow2(bit - 1)
  }

  /** Erasing from the located treap, keeping its leaf. */
  lemma ErasePlain(L: seq<Leaf>, i: nat, t: int, tr: Tree<int>)
    requires Chain(L, None) && i < |L| && L[i].rep >= t
    requires forall j :: 0 <= j < i ==> L[j].rep < t
    requires L[i].rep == t ==> t == L[|L| - 1].rep
    requires YTreap.Valid(tr) && Keys(tr) == Keys(L[i].treap) - {t}
    ensures
      var L' := L[..i] + [Leaf(L[i].rep, tr)] + L[i + 1..];
      && Fine(L', L[|L| - 1].rep)
      && Elems(Values(L')) == Elems(Values(L)) - {t}
  {
    var x := Leaf(L[i].rep, tr);
    assert Fits(x, LoOf(L[..i])) by {
      Around(L, i);
      LoBelow(L, i, t);
      FitsWith(L[i], LoOf(L[..i]), tr, t);
    }
    assert i + 1 < |L| ==> L[i].rep in Keys(tr) by {
      if i + 1 < |L| {
        Around(L, i);
        AroundAfter(L, i);
        assert L[i].rep in Keys(L[i].treap);
      }
    }
    ReplaceOne(L, i, x);
    var A, B := Elems(Values(L[..i])), Elems(Values(L[i + 1..]));
    assert t !in A && t !in B by {
      LocateValues(L, i, t);
    }
    RemoveMiddle(A, Keys(L[i].treap), B, t);
  }


  /** Removing t from the middle of a union removes it from the union when the outer parts lack it. */
  lemma RemoveMiddle(a: set<int>, m: set<int>, b: set<int>, t: int)
    requires t !in a && t !in b
    ensures a + (m - {t}) + b == (a + m + b) - {t}
  {
  }

  /** The sets of EraseMerge: dropping t from the first of two merged middle parts. */
  lemma RemoveMerged(a: set<int>, p: set<int>, q: set<int>, b: set<int>, x: set<int>, t: int)
    requires x == (p - {t}) + q && t !in a && t !in q && t !in b
    ensures a + x + b == (a + p + q + b) - {t}
  {
  }

  /** The leaf ordering that lets the next leaf absorb the rest of leaf i. */
  lemma AbsorbOrder(L: seq<Leaf>, i: nat, tr: Tree<int>)
    requires Chain(L, None) && i + 1 < |L|
    requires YTreap.Valid(tr) && Keys(tr) <= Keys(L[i].treap)
    ensures Ascending(Inorder(tr) + Inorder(L[i + 1].treap))
  {
    Around(L, i);
    AroundAfter(L, i);
    forall v | v in Inorder(tr) ensures v <= L[i].rep {
      assert v in Keys(tr);
    }
    AscendingJoin(Inorder(tr), Inorder(L[i + 1].treap), L[i].rep);
  }

  /** Erasing the representative t of leaf i: the next leaf absorbs the rest and leaf i goes. */
  lemma EraseMerge(L: seq<Leaf>, i: nat, t: int, tr: Tree<int>, merged: Tree<int>)
    requires Chain(L, None) && i + 1 < |L| && L[i].rep == t
    requires forall j :: 0 <= j < i ==> L[j].rep < t
    requires YTreap.Valid(tr) && Keys(tr) == Keys(L[i].treap) - {t}
    requires YTreap.Valid(merged) && Inorder(merged) == Inorder(tr) + Inorder(L[i + 1].treap)
    ensures
      var L' := L[..i] + [Leaf(L[i + 1].rep, merged)] + L[i + 2..];
      && Fine(L', L[|L| - 1].rep)
      && Elems(Values(L')) == Elems(Values(L)) - {t}
  {
    var x := Leaf(L[i + 1].rep, merged);
    MergedFits(L, i, tr, merged);
    ReplaceMerge(L, i, x);
    var A, B := Elems(Values(L[..i])), Elems(Values(L[i + 2..]));
    MergedOutside(L, i, t);
    assert Keys(merged) == Keys(tr) + Keys(L[i + 1].treap) by {
      ElemsConcat(Inorder(tr), Inorder(L[i + 1].treap));
    }
    RemoveMerged(A, Keys(L[i].treap), Keys(L[i + 1].treap), B, Keys(merged), t);
  }

  /** The next leaf, having absorbed what leaf i kept, fits in the place of both. */
  lemma MergedFits(L: seq<Leaf>, i: nat, tr: Tree<int>, merged: Tree<int>)
    requires Chain(L, None) && i + 1 < |L|
    requires Keys(tr) <= Keys(L[i].treap)
    requires YTreap.Valid(merged) && Inorder(merged) == Inorder(tr) + Inorder(L[i + 1].treap)
    ensures Fits(Leaf(L[i + 1].rep, merged), LoOf(L[..i]))
    ensures i + 2 < |L| ==> L[i + 1].rep in Inorder(merged)
  {
    Around(L, i);
    AroundAfter(L, i);
    FitsMerged(L[i], L[i + 1], LoOf(L[..i]), tr, merged);
    if i + 2 < |L| {
      Around(L, i + 1);
    }
  }

  /** Nothing outside leaf i holds its representative t. */
  lemma MergedOutside(L: seq<Leaf>, i: nat, t: int)
    requires Chain(L, None) && i + 1 < |L| && L[i].rep == t
    requires forall j :: 0 <= j < i ==> L[j].rep < t
    ensures t !in Elems(Values(L[..i])) && t !in Keys(L[i + 1].treap) && t !in Elems(Values(L[i + 2..]))
  {
    LocateValues(L, i, t);
    AroundAfter(L, i);
    ElemsConcat(Inorder(L[i + 1].treap), Values(L[i + 2..]));
  }



  /**
   * The leaves after t leaves the treap of leaf i, with whether it was
   * there; when t is the leaf's representative and another leaf follows, that
   * leaf absorbs the rest of the treap and leaf i goes.
   */
  function EraseLeaves(L: seq<Leaf>, i: nat, t: nat, top: nat): (r: (seq<Leaf>, bool))
    requires Chain(L, None) && Valids(L) && i < |L| && L[i].rep >= t && L[|L| - 1].rep == top
    requires forall j :: 0 <= j < i ==> L[j].rep < t
    ensures Fine(r.0, top)
    ensures Elems(Values(r.0)) == Elems(Values(L)) - {t}
    ensures r.1 <==> t in Values(L)
  {
    LocateValues(L, i, t);
    var e := YTreap.Erase(L[i].treap, t);
    if L[i].rep == t && t != top then
      assert i + 1 < |L|;
      AbsorbOrder(L, i, e.0);
      // the fresh dummy root sinks to a leaf whatever its priority
      var merged := YTreap.AbsorbSmaller(L[i + 1].treap, e.0, 0).0;
      EraseMerge(L, i, t, e.0, merged);
      (L[..i] + [Leaf(L[i + 1].rep, merged)] + L[i + 2..], e.1)
    else
      ErasePlain(L, i, t, e.0);
      (L[..i] + [Leaf(L[i].rep, e.0)] + L[i + 1..], e.1)
  }

  /** Adding t to a set of values raises its size by one exactly when t was not there. */
  lemma CardAdd(S: set<int>, t: int)
    ensures |S + {t}| == if t in S then |S| else |S| + 1
  {
    if t in S {
      assert S + {t} == S;
    }
  }

  /** Dropping t from a set of values lowers its size by one exactly when t was there. */
  lemma CardRemove(S: set<int>, t: int)
    ensures |S - {t}| == if t in S then |S| - 1 else |S|
  {
    if t in S {
      assert S == (S - {t}) + {t};
    } else {
      assert S - {t} == S;
    }
  }

  /**
   * `erase(t)`: t leaves the located treap, the count drops when it was
   * there, and when t is the leaf's representative (and not `top`) the next
   * leaf absorbs the treap and x_erase drops the leaf.  As written, x_erase
   * decrements the count a second time when its walk up stops below the
   * root, that is when another representative shares t's highest bit.
   */
  function Erase(y: YFast, t: nat, repaired: bool): (r: Outcome<YFast>)
    requires Good(y) && t <= Top(y.bit)
    ensures r.NullDeref? <==> !repaired && |y.leaves| == 0
    ensures r.Returned? ==> Good(r.value) && Elems(Values(r.value.leaves)) == Elems(Values(y.leaves)) - {t}
    ensures repaired ==> r.Returned? && r.value.n == if t in Values(y.leaves) then y.n - 1 else y.n
    ensures repaired && Counted(y) ==> r.Returned? && Counted(r.value)
  {
    match Locate(y, t, repaired)
    case NullDeref => NullDeref
    case Returned(None) =>
      assert Elems(Values(y.leaves)) - {t} == Elems(Values(y.leaves));
      Returned(y)
    case Returned(Some(i)) => Returned(EraseFound(y, i, t, repaired))
  }

  /** `erase(t)` once leaf i, the first whose representative is at least t, is found. */
  function EraseFound(y: YFast, i: nat, t: nat, repaired: bool): (r: YFast)
    requires Good(y) && t <= Top(y.bit) && i < |y.leaves| && y.leaves[i].rep >= t
    requires forall j :: 0 <= j < i ==> y.leaves[j].rep < t
    ensures Good(r) && Elems(Values(r.leaves)) == Elems(Values(y.leaves)) - {t}
    ensures repaired ==> r.n == if t in Values(y.leaves) then y.n - 1 else y.n
    ensures repaired && Counted(y) ==> Counted(r)
  {
    var L := y.leaves;
    var e := EraseLeaves(L, i, t, Top(y.bit));
    var n1 := if e.1 then y.n - 1 else y.n;
    var n2 := if !repaired && L[i].rep == t && t != Top(y.bit) && SharesHighBit(L, i, y.bit) then n1 - 1 else n1;
    GoodOf(y.bit, e.0, n2);
    CardRemove(Elems(Values(L)), t);
    YFast(y.bit, e.0, n2)
  }

  /** The iterator's walk: each leaf's treap in symmetric order, a null node dereferenced at an empty treap. */
  function Walk(L: seq<Leaf>, repaired: bool): (r: Outcome<seq<int>>)
    decreases |L|
    ensures r.NullDeref? <==> !repaired && exists j :: 0 <= j < |L| && L[j].treap.Nil?
    ensures r.Returned? ==> r.value == Values(L)
  {
    if |L| == 0 then Returned([])
    else if L[0].treap.Nil? && !repaired then NullDeref
    else
      match Walk(L[1..], repaired)
      case NullDeref =>
        assert forall j :: 0 <= j < |L| - 1 ==> L[1..][j] == L[j + 1];
        NullDeref
      case Returned(rest) =>
        assert forall j :: 1 <= j < |L| ==> L[j] == L[1..][j - 1];
        Returned(Inorder(L[0].treap) + rest)
  }

  /**
   * Iterating from `begin()` to `end()`.  `begin()` reads the first leaf's
   * treap, which is the sentinel's null pointer when there are no leaves,
   * and a leaf with an empty treap yields an iterator that is not `end()`
   * but whose node is null.
   */
  function Iterate(y: YFast, repaired: bool): (r: Outcome<seq<int>>)
    requires Good(y)
    ensures r.NullDeref? <==> !repaired && (|y.leaves| == 0 || y.leaves[|y.leaves| - 1].treap.Nil?)
    ensures r.Returned? ==> r.value == Values(y.leaves) && Ascending(r.value)
  {
    ChainAscending(y.leaves, None);
    if |y.leaves| == 0 && !repaired then NullDeref
    else
      if |y.leaves| > 0 then
        OnlyLastEmpty(y.leaves);
        Walk(y.leaves, repaired)
      else Walk(y.leaves, repaired)
  }

  /** Leaves 5 and 7 holding themselves, before the empty top leaf 15 of 4-bit keys. */
  function TwoLeavesList(): (L: seq<Leaf>)
    ensures |L| == 3 && L[0].rep == 5 && L[1].rep == 7 && L[2].rep == 15
    ensures Values(L) == [5, 7] && Elems(Values(L)) == {5, 7}
  {
    var L := [Leaf(5, Node(Nil, 5, 0, Nil)), Leaf(7, Node(Nil, 7, 0, Nil)), Leaf(15, Nil)];
    assert Values(L) == [5, 7] by {
      assert L[1..][1..] == [Leaf(15, Nil)];
      ValuesOne(Leaf(15, Nil));
    }
    assert Elems([5, 7]) == {5, 7};
    L
  }

  lemma TwoLeavesChain()
    ensures Chain(TwoLeavesList(), None) && Valids(TwoLeavesList())
  {
    var L := TwoLeavesList();
    SingleFits(5, None);
    SingleFits(7, Some(5));
    assert Fits(L[2], Some(7));
    ThreeChain(L);
  }

  /** A leaf holding just its representative fits after any smaller one. */
  lemma SingleFits(x: nat, lo: Option<int>)
    requires lo.Some? ==> lo.value < x
    ensures var t := Node(Nil, x, 0, Nil); Inorder(t) == [x] && x in Inorder(t) && Fits(Leaf(x, t), lo)
  {
    var t := Node(Nil, x, 0, Nil);
    assert Inorder(t) == [x];
    assert YTreap.Heap(t) && YTreap.AtLeast(t, 0);
    assert forall v :: v in Inorder(t) ==> v == x;
  }

  /** Three leaves each fitting after the one before, the first two holding their representatives, form a chain. */
  lemma ThreeChain(L: seq<Leaf>)
    requires |L| == 3 && Fits(L[0], None) && Fits(L[1], Some(L[0].rep)) && Fits(L[2], Some(L[1].rep))
    requires L[0].rep in Inorder(L[0].treap) && L[1].rep in Inorder(L[1].treap)
    ensures Chain(L, None) && Valids(L)
  {
  }

  /** Over 4 bits, the values 5 and 7 each in a leaf of its own, before the empty top leaf 15. */
  function TwoLeaves(): (y: YFast)
    ensures Good(y) && Counted(y) && y.n == 2 && y.bit == 4
    ensures |y.leaves| == 3 && y.leaves[0].rep == 5 && y.leaves[1].rep == 7
    ensures Values(y.leaves) == [5, 7] && Elems(Values(y.leaves)) == {5, 7}
  {
    TwoLeavesChain();
    assert Pow2(1) == 2 && Pow2(2) == 4 && Pow2(3) == 8 && Pow2(4) == 16;
    YFast(4, TwoLeavesList(), 2)
  }

  /** The leaves of TwoLeaves after 5 is erased: the leaf of 7 holds all that is left. */
  function TwoLeavesLess5(): seq<Leaf> {
    EraseLeaves(TwoLeaves().leaves, 0, 5, Top(4)).0
  }

  /** Locating 5 in TwoLeaves finds leaf 0, whose representative shares its highest bit with leaf 1's. */
  lemma TwoLeavesLocate(repaired: bool)
    ensures Locate(TwoLeaves(), 5, repaired) == Returned(Some(0))
    ensures SharesHighBit(TwoLeaves().leaves, 0, 4)
    ensures EraseLeaves(TwoLeaves().leaves, 0, 5, Top(4)).1
  {
    var L := TwoLeaves().leaves;
    assert Pow2(1) == 2 && Pow2(2) == 4 && Pow2(3) == 8;
    assert 5 / 8 == 0 && 7 / 8 == 0;
    assert L[1].rep / Pow2(3) == L[0].rep / Pow2(3);
    assert 5 in Values(L);
  }

  /**
   * Erasing 5 from TwoLeaves as written: 5 is its leaf's representative, so
   * the leaf of 7 absorbs the rest and x_erase removes 5, whose walk up
   * stops at the node it shares with 7 (both below 8) and decrements the
   * count a second time, to 0.
   */
  lemma EraseCountsTwice()
    ensures Erase(TwoLeaves(), 5, false) == Returned(YFast(4, TwoLeavesLess5(), 0))
  {
    TwoLeavesLocate(false);
  }

  /** Repaired, erasing 5 from TwoLeaves leaves the count at 1. */
  lemma EraseCountsOnce()
    ensures Erase(TwoLeaves(), 5, true) == Returned(YFast(4, TwoLeavesLess5(), 1))
  {
    TwoLeavesLocate(true);
  }

  /** The count after erasing 5 as written no longer agrees with the values stored. */
  lemma EraseMiscounts()
    ensures var r := Erase(TwoLeaves(), 5, false); r.Returned? && !Counted(r.value)
    ensures var r := Erase(TwoLeaves(), 5, true); r.Returned? && Counted(r.value)
  {
    EraseCountsTwice();
    EraseCountsOnce();
    Less5Count();
  }

  /** After 5 leaves TwoLeaves, one value is stored. */
  lemma Less5Count()
    ensures |Elems(Values(TwoLeavesLess5()))| == 1
  {
    assert Elems(Values(TwoLeavesLess5())) == {5, 7} - {5};
    OnlySeven();
  }

  /** Taking 5 from {5, 7} leaves one value. */
  lemma OnlySeven()
    ensures |{5, 7} - {5}| == 1
  {
    assert {5, 7} - {5} == {7};
  }
}

=== FILE: yfast_treap.dfy ===
/**
 * YTreap (utils/yfast_treap.hpp): the treap each leaf of a y-fast trie owns.
 * A binary search tree on the values and a min-heap on the random
 * priorities, with father pointers.  Priorities come from a generator over
 * [0, INT_MAX]; here they are arguments (`p: nat`).  `split` and
 * `absorb_smaller` use a dummy node, of priority -1 and of priority drawn
 * from the generator respectively, which is why tags are `int`.
 */
module YTreap {
  import opened Wrappers
  import opened Sequences
  import opened Trees

  type Treap = Tree<int>

  /** Every priority in t is at least x. */
  ghost predicate AtLeast(t: Treap, x: int) {
    t.Nil? || (x <= t.tag && AtLeast(t.left, x) && AtLeast(t.right, x))
  }

  /** Heap order on priorities: no child has a smaller priority than its father. */
  ghost predicate Heap(t: Treap) {
    t.Nil? || (AtLeast(t.left, t.tag) && AtLeast(t.right, t.tag) && Heap(t.left) && Heap(t.right))
  }

  /** A treap as the class keeps it: values strictly ascending in symmetric order, heap-ordered generator priorities. */
  ghost predicate Valid(t: Treap) {
    Ascending(Inorder(t)) && Heap(t) && AtLeast(t, 0)
  }

  lemma {:induction false} AtLeastWeaken(t: Treap, x: int, y: int)
    requires AtLeast(t, x) && y <= x
    ensures AtLeast(t, y)
  {
    if t.Node? {
      AtLeastWeaken(t.left, x, y);
      AtLeastWeaken(t.right, x, y);
    }
  }

  /** The root of a heap has its smallest priority. */
  lemma HeapRoot(t: Treap)
    requires Heap(t) && t.Node?
    ensures AtLeast(t, t.tag)
  {
  }

  /** The rest of the tree around a position is heap-ordered, each frame no smaller than the one above it. */
  ghost predicate PathHeap(path: seq<Frame<int>>)
    decreases |path|
  {
    |path| == 0 ||
    (Heap(path[0].other) && AtLeast(path[0].other, path[0].tag)
     && (|path| > 1 ==> path[1].tag <= path[0].tag) && PathHeap(path[1..]))
  }

  /** Every priority on the way up, and in the subtrees beside it, is at least x. */
  ghost predicate PathAtLeast(path: seq<Frame<int>>, x: int)
    decreases |path|
  {
    |path| == 0 || (x <= path[0].tag && AtLeast(path[0].other, x) && PathAtLeast(path[1..], x))
  }

  /** The subtree at a position fits under its father. */
  ghost predicate FitsUnder(path: seq<Frame<int>>, t: Treap) {
    |path| > 0 ==> AtLeast(t, path[0].tag)
  }

  /** A tree is a heap exactly when the subtree at a position is, fits under its father, and the rest is heap-ordered. */
  lemma {:induction false} PlugHeap(path: seq<Frame<int>>, t: Treap)
    decreases |path|
    ensures Heap(Plug(path, t)) <==> PathHeap(path) && Heap(t) && FitsUnder(path, t)
  {
    if |path| > 0 {
      var f := path[0];
      var u := Attach(f, t);
      PlugHeap(path[1..], u);
      if PathHeap(path) && Heap(t) && FitsUnder(path, t) && |path| > 1 {
        AtLeastWeaken(t, f.tag, path[1].tag);
        AtLeastWeaken(f.other, f.tag, path[1].tag);
      }
      if Heap(Plug(path, t)) && |path| > 1 {
        assert AtLeast(u, path[1].tag);
      }
    }
  }

  /** Bounding every priority of a tree is bounding those of the subtree at a position and of the rest. */
  lemma {:induction false} PlugAtLeast(path: seq<Frame<int>>, t: Treap, x: int)
    decreases |path|
    ensures AtLeast(Plug(path, t), x) <==> PathAtLeast(path, x) && AtLeast(t, x)
  {
    if |path| > 0 {
      PlugAtLeast(path[1..], Attach(path[0], t), x);
    }
  }

  /**
   * `bubble_up(u)`: while the father's priority exceeds u's, rotate u above
   * it, to the right when u is a left child and to the left otherwise.
   * Returns the whole tree.
   */
  function BubbleUp(path: seq<Frame<int>>, u: Treap): (r: Treap)
    requires u.Node?
    decreases |path|
    ensures Inorder(r) == Inorder(Plug(path, u))
  {
    if |path| == 0 || path[0].tag <= u.tag then Plug(path, u)
    else
      var f := path[0];
      var up := if f.wentLeft then RotateRight(Attach(f, u)) else RotateLeft(Attach(f, u));
      PlugSame(path[1..], up, Attach(f, u));
      BubbleUp(path[1..], up)
  }

  /**
   * Bubbling a node up restores heap order when the only place it may fail
   * is between the node and its father: the node is a heap and its children
   * fit under the father.
   */
  lemma {:induction false} BubbleHeap(path: seq<Frame<int>>, u: Treap)
    requires u.Node? && Heap(u) && PathHeap(path)
    requires FitsUnder(path, u.left) && FitsUnder(path, u.right)
    decreases |path|
    ensures Heap(BubbleUp(path, u))
  {
    if |path| == 0 || path[0].tag <= u.tag {
      PlugHeap(path, u);
    } else {
      var f := path[0];
      if |path| > 1 {
        AtLeastWeaken(u.left, f.tag, path[1].tag);
        AtLeastWeaken(u.right, f.tag, path[1].tag);
        AtLeastWeaken(f.other, f.tag, path[1].tag);
      }
      AtLeastWeaken(u.left, f.tag, u.tag);
      AtLeastWeaken(u.right, f.tag, u.tag);
      AtLeastWeaken(f.other, f.tag, u.tag);
      BubbleHeap(path[1..], if f.wentLeft then RotateRight(Attach(f, u)) else RotateLeft(Attach(f, u)));
    }
  }

  /** Rotations move priorities around without changing them. */
  lemma {:induction false} BubbleAtLeast(path: seq<Frame<int>>, u: Treap, x: int)
    requires u.Node? && PathAtLeast(path, x) && AtLeast(u, x)
    decreases |path|
    ensures AtLeast(BubbleUp(path, u), x)
  {
    if |path| == 0 || path[0].tag <= u.tag {
      PlugAtLeast(path, u, x);
    } else {
      var f := path[0];
      BubbleAtLeast(path[1..], if f.wentLeft then RotateRight(Attach(f, u)) else RotateLeft(Attach(f, u)), x);
    }
  }

  /**
   * A node whose priority is below every priority on its way up rises to
   * the root, with everything before it on its left and everything after it
   * on its right.
   */
  lemma {:induction false} BubbleToRoot(path: seq<Frame<int>>, u: Treap)
    requires u.Node? && PathAtLeast(path, u.tag + 1)
    decreases |path|
    ensures var r := BubbleUp(path, u);
      && r.Node? && r.key == u.key && r.tag == u.tag
      && Inorder(r.left) == Before(path) + Inorder(u.left)
      && Inorder(r.right) == Inorder(u.right) + After(path)
  {
    if |path| > 0 {
      var f := path[0];
      if f.wentLeft {
        var up := RotateRight(Attach(f, u));
        assert BubbleUp(path, u) == BubbleUp(path[1..], up);
        BubbleToRoot(path[1..], up);
        assert Inorder(up.right) == Inorder(u.right) + [f.key] + Inorder(f.other);
        assert Before(path) == Before(path[1..]) + [];
        assert After(path) == ([f.key] + Inorder(f.other)) + After(path[1..]);
        Assoc(Inorder(u.right), [f.key], Inorder(f.other));
        Assoc(Inorder(u.right), [f.key] + Inorder(f.other), After(path[1..]));
      } else {
        var up := RotateLeft(Attach(f, u));
        assert BubbleUp(path, u) == BubbleUp(path[1..], up);
        BubbleToRoot(path[1..], up);
        assert Inorder(up.left) == Inorder(f.other) + [f.key] + Inorder(u.left);
        assert Before(path) == Before(path[1..]) + (Inorder(f.other) + [f.key]);
        assert After(path) == [] + After(path[1..]);
        Assoc(Before(path[1..]), Inorder(f.other) + [f.key], Inorder(u.left));
      }
    }
  }

  /** The same climb keeps every bound the priorities below the risen node had. */
  lemma {:induction false} BubbleToRootAtLeast(path: seq<Frame<int>>, u: Treap, x: int)
    requires u.Node? && PathAtLeast(path, u.tag + 1)
    requires PathAtLeast(path, x) && AtLeast(u.left, x) && AtLeast(u.right, x)
    decreases |path|
    ensures var r := BubbleUp(path, u);
      r.Node? && AtLeast(r.left, x) && AtLeast(r.right, x)
  {
    BubbleToRoot(path, u);
    if |path| > 0 {
      var f := path[0];
      if f.wentLeft {
        BubbleToRootAtLeast(path[1..], RotateRight(Attach(f, u)), x);
      } else {
        BubbleToRootAtLeast(path[1..], RotateLeft(Attach(f, u)), x);
      }
    }
  }

  /**
   * `trickle_down(u)` followed by unlinking u: u sinks by rotations, the
   * child of smaller priority rising (the right one on a tie or when the
   * left is missing), until it is a leaf, and is then dropped.  The result
   * is what takes u's place.
   */
  function Trickle(u: Treap): (r: Treap)
    requires u.Node?
    decreases |Inorder(u)|
    ensures Inorder(r) == Inorder(u.left) + Inorder(u.right)
  {
    var l, w := u.left, u.right;
    if l.Nil? && w.Nil? then Nil
    else if l.Nil? || (w.Node? && !(l.tag < w.tag)) then
      var down := Node(l, u.key, u.tag, w.left);
      assert |Inorder(w)| == |Inorder(w.left)| + 1 + |Inorder(w.right)|;
      Node(Trickle(down), w.key, w.tag, w.right)
    else
      var down := Node(l.right, u.key, u.tag, w);
      assert |Inorder(l)| == |Inorder(l.left)| + 1 + |Inorder(l.right)|;
      Node(l.left, l.key, l.tag, Trickle(down))
  }

  /** Sinking and dropping the root of a tree whose two subtrees are heaps leaves a heap. */
  lemma {:induction false} TrickleHeap(u: Treap)
    requires u.Node? && Heap(u.left) && Heap(u.right)
    decreases |Inorder(u)|
    ensures Heap(Trickle(u))
  {
    var l, w := u.left, u.right;
    if l.Nil? && w.Nil? {
    } else if l.Nil? || (w.Node? && !(l.tag < w.tag)) {
      assert |Inorder(w)| == |Inorder(w.left)| + 1 + |Inorder(w.right)|;
      var down := Node(l, u.key, u.tag, w.left);
      TrickleHeap(down);
      if l.Node? {
        AtLeastWeaken(l, l.tag, w.tag);
      }
      TrickleAtLeast(down, w.tag);
    } else {
      assert |Inorder(l)| == |Inorder(l.left)| + 1 + |Inorder(l.right)|;
      var down := Node(l.right, u.key, u.tag, w);
      TrickleHeap(down);
      if w.Node? {
        AtLeastWeaken(w, w.tag, l.tag);
      }
      TrickleAtLeast(down, l.tag);
    }
  }

  /** Sinking and dropping a root keeps every remaining priority. */
  lemma {:induction false} TrickleAtLeast(u: Treap, x: int)
    requires u.Node? && AtLeast(u.left, x) && AtLeast(u.right, x)
    decreases |Inorder(u)|
    ensures AtLeast(Trickle(u), x)
  {
    var l, w := u.left, u.right;
    if l.Nil? && w.Nil? {
    } else if l.Nil? || (w.Node? && !(l.tag < w.tag)) {
      assert |Inorder(w)| == |Inorder(w.left)| + 1 + |Inorder(w.right)|;
      TrickleAtLeast(Node(l, u.key, u.tag, w.left), x);
    } else {
      assert |Inorder(l)| == |Inorder(l.left)| + 1 + |Inorder(l.right)|;
      TrickleAtLeast(Node(l.right, u.key, u.tag, w), x);
    }
  }

  /** `locate(value)`: the node holding the value, or the empty slot where it would go. */
  function Locate(t: Treap, x: int): (l: Loc<int>)
    ensures Whole(l) == t && (l.focus.Node? ==> l.focus.key == x)
  {
    Find(Loc([], t), x)
  }

  /** A valid treap's parts around any position satisfy the heap and bound conditions. */
  lemma ValidAt(l: Loc<int>)
    requires Valid(Whole(l))
    ensures PathHeap(l.path) && Heap(l.focus) && FitsUnder(l.path, l.focus)
    ensures PathAtLeast(l.path, 0) && AtLeast(l.focus, 0)
  {
    PlugHeap(l.path, l.focus);
    PlugAtLeast(l.path, l.focus, 0);
  }

  /** `contains(value)`. */
  function Contains(t: Treap, x: int): (b: bool)
    requires Valid(t)
    ensures b <==> x in Keys(t)
  {
    FindMember(t, x);
    Locate(t, x).focus.Node?
  }

  /** `insert(value)` with the new node's priority p: a new leaf in the empty slot, bubbled up; false when present. */
  function Insert(t: Treap, x: int, p: nat): (r: (Treap, bool))
    requires Valid(t)
    ensures Valid(r.0) && Keys(r.0) == Keys(t) + {x}
    ensures r.1 <==> x !in Keys(t)
    ensures !r.1 ==> r.0 == t
  {
    FindMember(t, x);
    var l := Locate(t, x);
    if l.focus.Node? then (t, false)
    else
      var u := Node(Nil, x, p, Nil);
      InsertValid(l, u);
      (BubbleUp(l.path, u), true)
  }

  lemma InsertValid(l: Loc<int>, u: Treap)
    requires Valid(Whole(l)) && l.focus.Nil? && u.Node? && u.left.Nil? && u.right.Nil? && 0 <= u.tag
    requires AllBelow(Before(l.path), u.key) && AllAbove(After(l.path), u.key)
    ensures var r := BubbleUp(l.path, u);
      Valid(r) && Keys(r) == Keys(Whole(l)) + {u.key}
  {
    InsertOrder(l, u);
    ValidAt(l);
    BubbleHeap(l.path, u);
    BubbleAtLeast(l.path, u, 0);
  }

  lemma InsertOrder(l: Loc<int>, u: Treap)
    requires Ascending(Inorder(Whole(l))) && l.focus.Nil? && u.Node? && u.left.Nil? && u.right.Nil?
    requires AllBelow(Before(l.path), u.key) && AllAbove(After(l.path), u.key)
    ensures var r := BubbleUp(l.path, u);
      Ascending(Inorder(r)) && Keys(r) == Keys(Whole(l)) + {u.key}
  {
    PlugNil(l.path);
    PlugLeaf(l.path, u);
    var b, a := Before(l.path), After(l.path);
    InsertAscending(b, u.key, a);
    ElemsConcat(b + [u.key], a);
    ElemsConcat(b, [u.key]);
    ElemsConcat(b, a);
    ElemsSingle(u.key);
  }

  /** `erase(value)`: the node sinks to a leaf and is unlinked; false when absent. */
  function Erase(t: Treap, x: int): (r: (Treap, bool))
    requires Valid(t)
    ensures Valid(r.0) && Keys(r.0) == Keys(t) - {x}
    ensures r.1 <==> x in Keys(t)
    ensures !r.1 ==> r.0 == t
  {
    FindMember(t, x);
    var l := Locate(t, x);
    if l.focus.Nil? then (t, false)
    else
      EraseValid(l);
      (Plug(l.path, Trickle(l.focus)), true)
  }

  lemma EraseValid(l: Loc<int>)
    requires Valid(Whole(l)) && l.focus.Node?
    ensures var r := Plug(l.path, Trickle(l.focus));
      Valid(r) && Keys(r) == Keys(Whole(l)) - {l.focus.key}
  {
    EraseOrder(l);
    EraseHeap(l);
  }

  lemma EraseOrder(l: Loc<int>)
    requires Ascending(Inorder(Whole(l))) && l.focus.Node?
    ensures var r := Plug(l.path, Trickle(l.focus));
      Ascending(Inorder(r)) && Keys(r) == Keys(Whole(l)) - {l.focus.key}
  {
    var u := l.focus;
    PlugNode(l.path, u);
    PlugJoin(l.path, u, Trickle(u));
    RemoveAscending(Before(l.path) + Inorder(u.left), u.key, Inorder(u.right) + After(l.path));
  }

  lemma EraseHeap(l: Loc<int>)
    requires Valid(Whole(l)) && l.focus.Node?
    ensures var r := Plug(l.path, Trickle(l.focus));
      Heap(r) && AtLeast(r, 0)
  {
    var u := l.focus;
    var d := Trickle(u);
    ValidAt(l);
    TrickleHeap(u);
    if |l.path| > 0 {
      TrickleAtLeast(u, l.path[0].tag);
    }
    PlugHeap(l.path, d);
    TrickleAtLeast(u, 0);
    PlugAtLeast(l.path, d, 0);
  }

  /**
   * `absorb_smaller(that)`: a dummy root over `that` (left) and this treap
   * (right), sunk and dropped.  Every value of `that` is below every value
   * here; afterwards this treap holds both and `that` is empty.
   */
  function AbsorbSmaller(here: Treap, that: Treap, p: nat): (r: (Treap, Treap))
    requires Valid(here) && Valid(that) && Ascending(Inorder(that) + Inorder(here))
    ensures Valid(r.0) && r.1 == Nil
    ensures Inorder(r.0) == Inorder(that) + Inorder(here) && Keys(r.0) == Keys(that) + Keys(here)
  {
    var s := Node(that, 0, p, here);
    TrickleHeap(s);
    TrickleAtLeast(s, 0);
    (Trickle(s), Nil)
  }

  /**
   * `split(x)`: with x present, a dummy of priority -1 is hung in the slot
   * right after x in symmetric order and bubbled to the root; its right
   * subtree stays here and its left subtree is returned.  With x absent an
   * empty treap is returned and this one is unchanged.
   */
  function Split(t: Treap, x: int): (r: (Treap, Treap))
    requires Valid(t)
    ensures Valid(r.0) && Valid(r.1)
    ensures x !in Keys(t) ==> r == (t, Nil)
    ensures x in Keys(t) ==>
      Inorder(r.1) + Inorder(r.0) == Inorder(t) && AllAtMost(Inorder(r.1), x) && AllAbove(Inorder(r.0), x)
  {
    FindMember(t, x);
    var l := Locate(t, x);
    if l.focus.Nil? then (t, Nil)
    else
      var slot := SplitSlot(l);
      var s := BubbleUp(slot.path, Node(Nil, 0, -1, Nil));
      SplitValid(l, slot);
      (s.right, s.left)
  }

  /** Where `split` hangs its dummy: the right child of x, or the left child of the leftmost node of x's right subtree. */
  function SplitSlot(l: Loc<int>): (r: Loc<int>)
    requires l.focus.Node?
    ensures Whole(r) == Whole(l) && r.focus.Nil?
    ensures |Before(r.path)| == |Before(l.path)| + |Inorder(l.focus.left)| + 1
  {
    if l.focus.right.Nil? then DownRight(l)
    else DownLeft(MinLoc(DownRight(l)))
  }

  lemma SplitValid(l: Loc<int>, slot: Loc<int>)
    requires Valid(Whole(l)) && l.focus.Node? && slot == SplitSlot(l)
    ensures var s := BubbleUp(slot.path, Node(Nil, 0, -1, Nil));
      && s.Node? && Valid(s.left) && Valid(s.right)
      && Inorder(s.left) + Inorder(s.right) == Inorder(Whole(l))
      && AllAtMost(Inorder(s.left), l.focus.key) && AllAbove(Inorder(s.right), l.focus.key)
  {
    var u := Node(Nil, 0, -1, Nil);
    ValidAt(slot);
    BubbleToRoot(slot.path, u);
    BubbleToRootAtLeast(slot.path, u, 0);
    BubbleHeap(slot.path, u);
    SplitOrder(l, slot);
    var s := BubbleUp(slot.path, u);
    assert Inorder(s.left) == Before(slot.path);
    assert Inorder(s.right) == After(slot.path);
  }

  /** The keys before the split slot are those up to x, those after it the ones above x. */
  lemma SplitOrder(l: Loc<int>, slot: Loc<int>)
    requires Ascending(Inorder(Whole(l))) && l.focus.Node? && slot == SplitSlot(l)
    ensures Before(slot.path) + After(slot.path) == Inorder(Whole(l))
    ensures Ascending(Before(slot.path)) && Ascending(After(slot.path))
    ensures AllAtMost(Before(slot.path), l.focus.key) && AllAbove(After(slot.path), l.focus.key)
  {
    PlugNil(slot.path);
    KeyAt(l);
    var b, a := Before(slot.path), After(slot.path);
    assert Index(l) == |b| - 1;
    assert b[|b| - 1] == (b + a)[|b| - 1];
    CutAscending(b, a, l.focus.key);
  }

  /** `min()`: the leftmost value, none when empty. */
  function Min(t: Treap): (r: Option<int>)
    requires Valid(t)
    ensures r.None? <==> Keys(t) == {}
    ensures r.Some? ==> Least(Inorder(t), r.value)
  {
    KeysEmpty(t);
    MinKey(t)
  }

  /** `max()`: the rightmost value, none when empty. */
  function Max(t: Treap): (r: Option<int>)
    requires Valid(t)
    ensures r.None? <==> Keys(t) == {}
    ensures r.Some? ==> Greatest(Inorder(t), r.value)
  {
    KeysEmpty(t);
    MaxKey(t)
  }

  /**
   * `succ(t)`, first phase: go right past every value at most t; the keys
   * passed are all before the position and none is after it.
   */
  function SuccFrom(l: Loc<int>, x: int): (r: Option<int>)
    requires Ascending(Inorder(Whole(l))) && After(l.path) == [] && AllAtMost(Before(l.path), x)
    decreases l.focus
    ensures SuccOf(Inorder(Whole(l)), x, r)
  {
    PlugInorder(l.path, l.focus);
    if l.focus.Nil? then None
    else if l.focus.key <= x then
      SortedLoc(l);
      SuccFromStep(l, x);
      SuccFrom(DownRight(l), x)
    else WalkBack(l, x)
  }

  lemma SuccFromStep(l: Loc<int>, x: int)
    requires l.focus.Node? && l.focus.key <= x && AllAtMost(Before(l.path), x) && AllAtMost(Inorder(l.focus.left), l.focus.key)
    ensures AllAtMost(Before(DownRight(l).path), x)
  {
    AllAtMostConcat(Before(l.path), Inorder(l.focus.left), x);
    AllAtMostConcat(Before(l.path) + Inorder(l.focus.left), [l.focus.key], x);
  }

  /**
   * `succ(t)`, second phase: from a node above t, step to the in-order
   * predecessor while that is still above t.
   */
  function WalkBack(l: Loc<int>, x: int): (r: Option<int>)
    requires Ascending(Inorder(Whole(l))) && l.focus.Node? && x < l.focus.key
    decreases Index(l)
    ensures SuccOf(Inorder(Whole(l)), x, r)
  {
    KeyAt(l);
    var p := PredLoc(l);
    if p.Some? && p.value.focus.key > x then WalkBack(p.value, x)
    else
      if p.Some? then KeyAt(p.value); Some(l.focus.key)
      else Some(l.focus.key)
  }

  /** `succ(t)`: the smallest value above t, none when there is none. */
  function Succ(t: Treap, x: int): (r: Option<int>)
    requires Valid(t)
    ensures SuccOf(Inorder(t), x, r)
  {
    SuccFrom(Loc([], t), x)
  }

  /** `pred(t)`, first phase: go left past every value at least t. */
  function PredFrom(l: Loc<int>, x: int): (r: Option<int>)
    requires Ascending(Inorder(Whole(l))) && Before(l.path) == [] && AllAtLeast(After(l.path), x)
    decreases l.focus
    ensures PredOf(Inorder(Whole(l)), x, r)
  {
    PlugInorder(l.path, l.focus);
    if l.focus.Nil? then None
    else if l.focus.key >= x then
      SortedLoc(l);
      PredFromStep(l, x);
      PredFrom(DownLeft(l), x)
    else WalkOn(l, x)
  }

  lemma PredFromStep(l: Loc<int>, x: int)
    requires l.focus.Node? && x <= l.focus.key && AllAtLeast(After(l.path), x) && AllAtLeast(Inorder(l.focus.right), l.focus.key)
    ensures AllAtLeast(After(DownLeft(l).path), x)
  {
    AllAtLeastConcat([l.focus.key], Inorder(l.focus.right), x);
    AllAtLeastConcat([l.focus.key] + Inorder(l.focus.right), After(l.path), x);
  }

  /** `pred(t)`, second phase: from a node below t, step to the in-order successor while that is still below t. */
  function WalkOn(l: Loc<int>, x: int): (r: Option<int>)
    requires Ascending(Inorder(Whole(l))) && l.focus.Node? && l.focus.key < x
    decreases |Inorder(Whole(l))| - Index(l)
    ensures PredOf(Inorder(Whole(l)), x, r)
  {
    KeyAt(l);
    var p := SuccLoc(l);
    if p.Some? && p.value.focus.key < x then WalkOn(p.value, x)
    else
      if p.Some? then KeyAt(p.value); Some(l.focus.key)
      else Some(l.focus.key)
  }

  /** `pred(t)`: the largest value below t, none when there is none. */
  function Pred(t: Treap, x: int): (r: Option<int>)
    requires Valid(t)
    ensures PredOf(Inorder(t), x, r)
  {
    PredFrom(Loc([], t), x)
  }
}
